=== FILE: README.md ===
# scriptorium: the bibliographic scrapers, modelled in Dafny

This project models the core of the scriptorium scrapers. They are Python scripts that ask bibliographic services how much they
hold on a subject and save the answers to spreadsheets and text files:

- **Cursor-paginated Crossref harvesters**:
  - `crossref_scraper_v102.py` and `crossref_scraper.py` resume from a saved cursor. They save every page of 500 works as a chunk file, keep a combined export and report progress.
  - `crossref_scraper_v100.py` names its files after the keyword. It reloads or deletes earlier chunks, and writes one final export.
  - `get_doi.py` walks every page of one journal's works for two ISSNs and sorts the DOIs by creation time.
- **Crossref work normalisation**: the three ways the harvesters flatten one `/works` item into a row.
- **Per-year count collectors**:
  - two Google Scholar scripts;
  - three Semantic Scholar scripts: single keyword, `multi2` and `v3`;
  - OpenAlex;
  - three Crossref counters: single keyword, `multi`, and `search_crossref_terms`.

  Each collector asks one question per keyword and year, with its own retry rule. The Scholar, Semantic Scholar and OpenAlex collectors and the single-keyword Crossref counter write one sheet per keyword. The multi-keyword ones among them also write a keyword × year table.
  The Crossref `multi` and `search_crossref_terms` counters write only the year × keyword table, with no per-keyword sheet.
- **Shared helpers**:
  - keyword-list parsing;
  - slugs;
  - `str.strip`, `split` and `join`;
  - `sanitize_filename`;
  - the time-stamped output file names.

The network is a stub throughout: a finite sequence of replies, consumed one per request, with an exhausted stub behaving like a network that is down (`Retry.Nth`). A run is a pure function from the inputs the user typed, the clock readings, the files already on disk and the stub. Its result is the files it leaves and, for the harvesters, a log of effects (`HarvestLog.Effect`). The log is an ordered list of:

- pages fetched, with the waits of their failed attempts;
- chunk files written;
- combined exports written;
- checkpoints;
- progress lines;
- pauses.

An exception that escapes the Python code is modelled as a `Crashed` stop (or a `None` result): nothing after it is written.

Each harvester's loop is also set against a second, independent account of the same network. That account is a `Chain` read off the stub alone. It lists the pages the harvest goes on from, the page or failure it ends on, and the rows of every page whose chunk is written. The `…Read` lemmas show that the loop stops as this reading ends, and that it writes exactly the reading's rows, in order. They also show that it requests the start cursor followed by each page's `next-cursor`.

Modules:

- **Shared building blocks**:
  - `Wrappers`: Option.
  - `Text`: `str.strip` with Python's whitespace set, `split`/`join` on one character, the digits of an integer, and string order.
  - `Ordering`: least and greatest elements of a set.
  - `Retry`: the stubbed network and the generic bounded retry loop, with a per-script judge.
  - `KeywordPasses`: the keyword-by-year loop of the multi-keyword counters.
  - `Keywords`: comma-list parsing, slugs, and the first-seen order pandas gives columns.
  - `Names`: the output file names.
  - `Works`: the work item and its normalisations.
- **Harvesters**:
  - `HarvestLog`: what the Crossref harvesters share.
  - `HarvestV102`, `HarvestMain` and `HarvestV100`: the three harvesters.
  - `JournalDois`: `get_doi.py`.
- **Collectors**: `Scholar`, `Semantic` (the single-keyword script and `multi2`), `SemanticV3`, `OpenAlex` and `CrossrefCounts`.

The three Crossref counters share one module. The multi-keyword script and `search_crossref_terms.py` differ only in their file names (`Names.CrossrefMultiFile` and `Names.TermsFile`).

## Model

| member | source | states |
|---|---|---|
| Text.Strip | keywords_search/keyword_occurences_SS_semantic_scholar.py:32 | `str.strip()`: the result is the slice of the input left after the leading and the trailing whitespace run, and it neither starts nor ends with whitespace |
| Text.StripIdempotent | keywords_search/keyword_occurence_ss_multi_v3.py:82 | stripping a stripped string changes nothing |
| Text.Split | keyword_occurence_crossref_multi.py:33 | `str.split(",")`: one more piece than there are separators, no piece contains the separator, and joining the pieces back gives the input |
| Text.SplitJoin | keyword_occurence_crossref_multi.py:33 | splitting the join of separator-free pieces gives the pieces back (the round trip in the other direction) |
| Text.RemoveChar | get_doi.py:14-15 | `str.replace(c, "")`: the result has no `c` and is shorter by the number of `c`s |
| Text.RemoveCharKeepsOthers | get_doi.py:14-15 | removing `c` keeps every other character with its multiplicity |
| Text.ReplaceChars | crossref_scraper_v100.py:60 | `str.replace(a, "_")` on one character: same length, each target replaced, every other character kept |
| Text.ReplaceTwice | keywords_search/keyword_occurence_SS_multi2.py:76 | two chained single-character replacements equal one replacement of both characters |
| Text.NatToString | crossref_scraper_v100.py:149 | `str(n)` of a natural: non-empty, all digits, reading the digits back gives `n`, and no leading zero unless `n` is 0 |
| Text.IntToString | keywords_search/keyword_occurrences_crossref.py:43 | `str(year)`: a leading `-` exactly for negative numbers, then the digits of the absolute value with no leading zero (`Text.Spells`) |
| Text.IntToStringInjective | keywords_search/keyword_occurrences_crossref.py:43 | different years print differently |
| Text.LexLeTotal | crossref_scraper.py:62 | the string order `sorted` uses is total |
| Text.LexLeTransitive | crossref_scraper.py:62 | the string order `sorted` uses is transitive |
| Text.LexLeAntisymmetric | crossref_scraper.py:62 | the string order `sorted` uses is antisymmetric |
| Ordering.Max | crossref_scraper.py:80 | `max(numeros)` of a non-empty set is in the set and bounds it |
| Ordering.Ascending | keywords_search/keyword_occurence_SS_multi2.py:84 | `sorted` of a set of years: the same years, strictly increasing |
| Retry.Attempts | crossref_scraper_v102.py:78-92 | a bounded retry loop uses at most its budget of replies, consumes exactly the replies it reports as used, and backs off once per failed attempt |
| Retry.AttemptsVerdicts | crossref_scraper_v102.py:78-92 | every backed-off attempt was judged `Backoff` with that wait; the loop is exhausted exactly when every attempt backed off; otherwise the last reply read settles the outcome |
| Retry.SettledOnReply | crossref_scraper_v102.py:78-92 | when a failed request always means retry, a settled loop ended on a reply that really arrived from the stub |
| Retry.NeverCrashes | keywords_search/keyword_occurence_ss_multi_v3.py:18-33 | a judge that catches every exception never lets the loop crash |
| Retry.Sweep | keywords_search/keyword_occurrences_openalex.py:20-44 | one retry loop per year, run in sequence on one stub: at most one per year, only the last may have crashed, and a short sweep ended on a crash |
| Retry.SweepRounds | keywords_search/keyword_occurrences_openalex.py:20-44 | round `i` of a sweep is the retry loop run on the stub after the replies the earlier rounds used |
| Retry.SweepFull | keywords_search/keyword_occurence_ss_multi_v3.py:45-52 | with a judge that never crashes, a sweep covers every year |
| KeywordPasses.Passes | keywords_search/keyword_occurrences_openalex.py:70-71 | the keyword loop: at most one pass per keyword, in input order |
| KeywordPasses.PassesStop | keywords_search/keyword_occurence_SS_multi2.py:35-71 | only the last pass can have crashed, and the loop stops short of the keyword list only after a crash |
| KeywordPasses.PassRounds | keywords_search/keyword_occurence_SS_multi2.py:35-71 | keyword `i`'s years are a sweep on the stub after every reply the earlier keywords used |
| KeywordPasses.PassComplete | keywords_search/keyword_occurence_SS_multi2.py:40 | a pass that did not crash asked every year of the range |
| KeywordPasses.PassesNeverStop | keywords_search/keyword_occurence_ss_multi_v3.py:41-52 | with a judge that never crashes, every keyword gets a full pass of every year |
| KeywordPasses.BeforeIsProduct | keywords_search/keyword_occurence_ss_multi_v3.py:60 | the rows gathered before keyword `i` number `i` times the years per keyword |
| Keywords.StripAll | keyword_occurence_crossref_multi.py:33 | `[k.strip() for k in ...]`: one stripped piece per piece, in order |
| Keywords.ParseKeep | keyword_occurence_crossref_multi.py:32-33 | the keyword list of the count scripts: one stripped, comma-free keyword per comma-separated piece, blanks kept |
| Keywords.ParseDrop | keywords_search/keyword_occurrences_openalex.py:66 | the keyword list with blank pieces dropped: a keyword is in it exactly when it is a non-empty stripped piece, and none is blank |
| Keywords.NonBlankAppend | keywords_search/keyword_occurrences_openalex.py:66 | the `if k.strip()` filter works piece by piece, so the kept keywords stay in their order |
| Keywords.NonBlankCounts | keywords_search/keyword_occurrences_openalex.py:66 | the filter keeps every non-empty keyword as often as it occurs and no empty one |
| Keywords.ParseKeepAppend | keyword_occurence_crossref_multi.py:33 | parsing `s,t` gives the keywords of `s` followed by those of `t` |
| Keywords.ParseDropAppend | keywords_search/keyword_occurence_ss_multi_v3.py:82 | the same with blanks dropped: order is kept across the comma, and repeats are kept |
| Keywords.ParseDropCounts | keywords_search/keyword_occurrences_openalex.py:66 | every non-empty keyword typed is kept as often as it was typed; repeats are not merged |
| Keywords.EmptyInput | keywords_search/keyword_occurence_SS_multi2.py:25-26 | an empty answer is one blank keyword when blanks are kept and no keyword when they are dropped |
| Keywords.ParseKeepJoin | keyword_occurence_crossref_multi.py:33 | parsing the comma-join of clean keywords gives them back |
| Keywords.ParseDropJoin | keywords_search/keyword_occurence_ss_multi_v3.py:82 | parsing the comma-join of clean non-blank keywords gives them back |
| Keywords.SpaceSlug | crossref_scraper_v100.py:60 | `keyword.replace(" ", "_")`: same length, no space, every other character kept |
| Keywords.SpaceSlashSlug | keywords_search/keyword_occurence_SS_multi2.py:76 | `replace(" ", "_").replace("/", "_")`: neither space nor slash, everything else kept |
| Keywords.SpaceCommaSlug | keywords_search/keyword_occurrences_crossref.py:65 | `replace(" ", "_").replace(",", "_")`: neither space nor comma, everything else kept |
| Keywords.SlugsIdempotent | crossref_scraper_v100.py:60 | slugging a slug changes nothing |
| Keywords.SpaceSlugCollision | crossref_scraper_v100.py:60 | two keywords share a slug exactly when they differ only by spaces against underscores |
| Keywords.ChainedSlugs | keywords_search/keyword_occurence_SS_multi2.py:76 | the chained replacements equal one replacement of both characters |
| Keywords.FirstSeen | keyword_occurence_crossref_multi.py:59 | the keyword columns pandas builds from the dictionaries: every keyword once, no repeats |
| Keywords.FirstSeenOrder | keyword_occurence_crossref_multi.py:59 | the columns come in order of first appearance: every earlier column occurs in the input before any occurrence of a later one |
| Names.UnderscoredCarries | keywords_search/keyword_occurrences_openalex.py:77 | a `head_f1_..._fn.ext` name ends with its underscore-free fields, recoverable by splitting on `_` |
| Names.RangeStamped | keywords_search/keyword_occurrences_openalex.py:77 | a range-and-stamp name starts with its head and ends with the start year, end year, date and time |
| Names.TermsFile | search_crossref_terms.py:54 | the un-stamped table name carries the start and end year |
| Names.TermsFileSameRange | search_crossref_terms.py:54 | two runs of `search_crossref_terms.py` overwrite each other's table exactly when their year ranges are equal |
| Names.CrossrefCountFile | keywords_search/keyword_occurrences_crossref.py:64-66 | `crossref_<slug>_<start>_<end>_<stamp>.xlsx` with the space/comma slug |
| Names.CrossrefMultiFile | keyword_occurence_crossref_multi.py:64-67 | `crossref_multi_keywords_<start>_<end>_<stamp>.xlsx` |
| Names.ScholarFile | keyword_occurrences/keyword_occurrences_google_scholar2.py:131-134 | `gscholar_<safe>_<start>_<end>_<stamp>.xls` |
| Names.SemanticFile | keywords_search/keyword_occurences_SS_semantic_scholar.py:90-92 | `semantic_<slug>_<start>_<end>_<stamp>.xlsx` |
| Names.Multi2KeywordFile | keywords_search/keyword_occurence_SS_multi2.py:75-77 | `semantic_keyword_<slug>_...` with the space/slash slug |
| Names.Multi2GlobalFile | keywords_search/keyword_occurence_SS_multi2.py:87-88 | `semantic_tableau_global_<start>_<end>_<stamp>.xlsx` |
| Names.V3KeywordFile | keywords_search/keyword_occurence_ss_multi_v3.py:56 | `semantic_keyword_<slug>_...` with the space slug |
| Names.AsciiLower | keywords_search/keyword_occurrences_openalex.py:76 | `lower()` on ASCII letters, everything else kept |
| Names.OpenAlexKeywordFile | keywords_search/keyword_occurrences_openalex.py:75-77 | `openalex_keyword_<lowered slug>_<start>_<end>_<stamp>.xlsx` |
| Names.OpenAlexSummaryFile | keywords_search/keyword_occurrences_openalex.py:85-86 | `openalex_tableau_comparatif_<start>_<end>_<stamp>.xlsx` |
| Names.DoiFile | get_doi.py:96-110 | `<issn1>_<issn2>_<date>_<time>.txt` |
| Names.ResultsFolder | crossref_scraper_v102.py:31 | the output folder name starts with `resultats_` and holds no space, whatever the keyword |
| Names.CombinedFile | crossref_scraper_v102.py:33 | the combined export's name is the folder name followed by `.xlsx` |
| Names.ChunkIndexOfName | crossref_scraper_v102.py:64-67 | reading the number back off `chunk_<n>.xlsx` (split on `_`, then on `.`) gives `n` |
| Works.DisplayNames | crossref_scraper_v100.py:127-129 | one `"<given> <family>"` per author, missing parts empty |
| Works.StrippedNames | crossref_scraper_v102.py:102 | the same names, each stripped |
| Works.TitleOf | crossref_scraper_v102.py:101 | `item.get("title", [""])[0]`: empty for a missing title, an error for an empty list |
| Works.PartStrings | crossref_scraper.py:120 | `map(str, ...)` over the date parts, `None` printed as `None` |
| Works.NormaliseV102 | crossref_scraper_v102.py:99-115 | the v102 row fails exactly on an empty title list, an empty `date-parts` or an empty first date part; otherwise title, stripped `, `-joined authors only when the key is present, first date part, DOI, URL, abstract with `""` defaults |
| Works.NormaliseMain | crossref_scraper.py:115-125 | the `crossref_scraper.py` row fails exactly on an empty title list or empty `date-parts`; authors and subjects `; `-joined when non-empty, the date parts `-`-joined |
| Works.NormaliseV100 | crossref_scraper_v100.py:124-145 | the v100 row fails exactly on an empty title list or an empty first date part; an empty `date-parts` gives no year |
| Works.NormaliseAllV102 | crossref_scraper_v102.py:99-115 | a page normalises exactly when every item does, item by item, in order |
| Works.NormaliseAllMain | crossref_scraper.py:115-125 | a page normalises exactly when every item does, item by item, in order |
| Works.NormaliseAllV100 | crossref_scraper_v100.py:124-145 | a page normalises exactly when every item does, item by item, in order |
| Works.BareWorkDefaults | crossref_scraper_v102.py:101-107 | an item with no field at all gives the all-default row in each version |
| Works.MissingFieldsNeverFail | crossref_scraper_v100.py:126-134 | missing keys never fail a normalisation; only present-but-empty lists do |
| Works.V100AgreesWithV102 | crossref_scraper_v100.py:126-134 | v100 and v102 agree on title, year, DOI, URL and abstract whenever both succeed |
| Works.AuthorsAgree | crossref_scraper_v102.py:102 | the two author columns agree when no name needs stripping |
| HarvestLog.StartCursor | crossref_scraper_v102.py:36-43 | resume from the stripped checkpoint when asked to and it exists, else from `*` |
| HarvestLog.ProbeTotal | crossref_scraper_v102.py:45-56 | the total is known only from a decoded non-error probe reply, and is then its `total-results` |
| HarvestLog.FirstChunk | crossref_scraper.py:75-83 | a resumed run numbers its first chunk one past the highest on disk and counts the earlier chunks as 500 rows each; a fresh run starts at chunk 1 with 0 rows |
| HarvestLog.ReportFor | crossref_scraper_v102.py:137-141 | a percentage is reported exactly when the total is known and non-zero |
| HarvestLog.FetchPage | crossref_scraper_v102.py:78-92 | one page under 60 attempts with 5-second pauses: it fails after exactly 60, and a fetched page was accepted on the reply after the failed ones |
| HarvestLog.PacedAttempts | crossref_scraper.py:87-107 | the same facts about the generic retry loop under the harvesters' judges |
| HarvestLog.FirstKept | crossref_scraper_v102.py:78-92 | the first of the 60 attempts whose reply the script keeps, found by a plain search: an attempt it finds lies within the 60 and the script keeps its reply |
| HarvestLog.FirstKeptSkips | crossref_scraper_v102.py:78-92 | every attempt before the one the search finds is rejected, and when it finds none all 60 are |
| HarvestLog.KeptInStub | crossref_scraper_v102.py:78-92 | a kept attempt is a real reply, since a request to a down network raises |
| HarvestLog.AttemptsKeepFirst | crossref_scraper_v102.py:78-92 | the retry loop keeps exactly the first kept attempt, having waited for each earlier one, and gives up exactly when there is none |
| HarvestLog.FetchKeepsFirst | crossref_scraper_v102.py:78-92 | the same for one page fetch: its page is the first kept reply's body, and the network resumes after it |
| HarvestLog.StopOf | crossref_scraper_v102.py:90-97 | a run fails exactly when the last page was never fetched, and completes exactly when the last page is empty |
| HarvestLog.RequestedAppend | crossref_scraper_v102.py:71-81 | the cursors requested and checkpointed by two logs in a row are the first's followed by the second's |
| HarvestLog.RowsAppend | crossref_scraper_v102.py:117-119 | the rows a log writes to chunk files, when the log is one log followed by another, are the first one's followed by the second one's |
| HarvestLog.CheckpointAppend | crossref_scraper_v102.py:134-135 | the last checkpoint of a concatenated log is the later log's, starting from the earlier one's |
| HarvestLog.ChunksWrittenIndexed | crossref_scraper_v102.py:118 | every chunk index a log mentions is a chunk file it writes |
| HarvestV102.Judge | crossref_scraper_v102.py:79-88 | a reply is kept exactly when it has a non-error status and decodes; anything else waits 5 seconds |
| HarvestV102.Step | crossref_scraper_v102.py:70-144 | one page: an empty or failed fetch stops with only the fetch logged; a saved page logs chunk `n`, the combined export extended by it, the checkpoint, and a progress line counting the combined rows, in that order |
| HarvestV102.Pages | crossref_scraper_v102.py:70-144 | the page loop's log follows the protocol: fetches, then per page chunk, combined, checkpoint, progress, and a final fetch, or a crash after the combined export |
| HarvestV102.Harvest | crossref_scraper_v102.py:23-68 | the run starts at the resume cursor and chunk number, with the probed total |
| HarvestV102.Chain | crossref_scraper_v102.py:70-144 | the network read on its own: every page it goes on from has items that all read and a next cursor, and the page it ends on lacks one of these |
| HarvestV102.StepReads | crossref_scraper_v102.py:78-144 | one page against the network: it fails exactly when no attempt is kept; otherwise it waited for each earlier attempt, goes on exactly when the kept page continues, writes that page's rows, requests only its cursor and checkpoints the page's next cursor |
| HarvestV102.PagesRead | crossref_scraper_v102.py:70-144 | the loop against the network: it stops as the reading ends, its chunks hold the rows of the pages read in order, and it requests the start cursor then each page's next cursor, which are also its checkpoints |
| HarvestV102.HarvestRead | crossref_scraper_v102.py:23-144 | the same for a whole run from the resume cursor |
| HarvestV102.PagesStore | crossref_scraper_v102.py:117-135 | the folder after the run is the folder before plus exactly the chunks in the log, the combined export extended by all their rows, and the last checkpoint |
| HarvestV102.ChunksConsecutive | crossref_scraper_v102.py:118-132 | chunk numbers go up by one from the first |
| HarvestV102.CheckpointAfterExports | crossref_scraper_v102.py:117-135 | a checkpoint is only ever written right after its chunk and the combined export |
| HarvestV102.StopsAfterFetch | crossref_scraper_v102.py:90-97 | a run that completes or gives up ends on a fetch, and giving up used all 60 attempts |
| HarvestV102.ResumeContinues | crossref_scraper_v102.py:36-68 | resuming after a run restarts at its last checkpoint and numbers new chunks after every chunk on disk |
| HarvestV102.EmptyFirstPage | crossref_scraper_v102.py:94-97 | an empty first page ends the run with nothing written |
| HarvestMain.MergeNumeric | crossref_scraper.py:61-73 | the corrected rebuild of the combined export, concatenating in chunk-number order rather than the file-name order the source uses (see Findings): built from the readable chunk files, and existing exactly when one is readable |
| HarvestMain.MergeAppend | crossref_scraper.py:127-129 | writing a new highest chunk extends the combined export by exactly its rows |
| HarvestMain.UnreadableSkipped | crossref_scraper.py:64-69 | an unreadable chunk file is skipped, not fatal |
| HarvestMain.ByName | crossref_scraper.py:62 | the `sorted(glob(...))` listing: every chunk once, in file-name order |
| HarvestMain.MergeByName | crossref_scraper.py:61-73 | the combined export as written, concatenating in file-name order |
| HarvestMain.TenSortsBeforeTwo | crossref_scraper.py:62 | `chunk_10.xlsx` sorts before `chunk_2.xlsx` |
| HarvestMain.NameOrderMisplacesTen | crossref_scraper.py:62 | with chunks 2 and 10 on disk the listing puts 10 first |
| HarvestMain.NameOrderExample | crossref_scraper.py:61-73 | chunks 2 and 10 holding `a` and `b` merge to `[b, a]` as written and to `[a, b]` in chunk order |
| HarvestMain.PauseAfter | crossref_scraper.py:142 | the pause is 1, 6 or 11 seconds, and 1 exactly when the next chunk number is a multiple of 3 |
| HarvestMain.Judge | crossref_scraper.py:87-104 | a reply is kept exactly when its status is not an error, whether or not it decodes; anything else waits 5 seconds |
| HarvestMain.Fetch | crossref_scraper.py:87-107 | a fetched page came from a real non-error reply |
| HarvestMain.Step | crossref_scraper.py:85-142 | one page: follows the protocol and updates the folder exactly as the log says, with the combined export rebuilt in chunk-number order (the corrected merge) |
| HarvestMain.ScriptStep | crossref_scraper.py:85-142 | the script's page step consumes replies and keeps the protocol, merging in chunk-number order |
| HarvestMain.PagesProtocol | crossref_scraper.py:85-146 | the page loop's log follows the protocol: per page chunk, combined, progress, checkpoint, pause |
| HarvestMain.Harvest | crossref_scraper.py:22-83 | the run always resumes: from the checkpoint and after the highest chunk, counting earlier chunks as 500 rows; its merges use the corrected chunk-number order |
| HarvestMain.HarvestStore | crossref_scraper.py:54-140 | the folder after the run under the corrected merge: exactly the logged chunks added, the combined export holding the readable earlier chunks in number order followed by every new row, and the last checkpoint |
| HarvestMain.ChunksConsecutive | crossref_scraper.py:127-137 | chunk numbers go up by one |
| HarvestMain.LastReportCounts | crossref_scraper.py:128-135 | the last progress line counts the rows of every earlier chunk plus every row fetched |
| HarvestMain.StopsAfterFetch | crossref_scraper.py:105-113 | a run that completes or gives up ends on a fetch, and a crash comes after a fetch or a progress line |
| HarvestMain.ResumeContinues | crossref_scraper.py:29-83 | a later run continues from the last checkpoint and after every chunk on disk |
| HarvestMain.UndecodableCrashes | crossref_scraper.py:109 | a non-error reply that is not JSON ends the run at once, with nothing written |
| HarvestMain.Chain | crossref_scraper.py:85-142 | the network read on its own: every page it goes on from decodes, has items that all read and a next cursor; it ends on a page lacking one of these, or on a reply that does not decode |
| HarvestMain.StepOfPage | crossref_scraper.py:108-142 | one fetched page: it stops exactly when the page is missing, does not decode, is empty, has an unreadable item or no next cursor; otherwise it writes the page's rows and goes on from its next cursor; it requests only its cursor |
| HarvestMain.ScriptStepReads | crossref_scraper.py:87-142 | the same against the network, the page being the first kept reply |
| HarvestMain.TurnChain | crossref_scraper.py:85-142 | one turn is one step of the reading: a stop ends the reading as it ends the run, and a saved page heads the reading of what is left |
| HarvestMain.ScriptReads | crossref_scraper.py:85-142 | every turn of the script's step is one step of the reading |
| HarvestMain.PagesRead | crossref_scraper.py:85-146 | the loop against the network: it stops as the reading ends, its chunks hold the rows of the pages read in order, and it requests the checkpoint then each page's next cursor, which are also its checkpoints |
| HarvestMain.HarvestRead | crossref_scraper.py:22-146 | the same for a whole run from the saved checkpoint |
| HarvestV100.DigitRun | crossref_scraper_v100.py:37 | the `\d+` run at the front of a string: all digits, followed by a non-digit |
| HarvestV100.ChunkMatch | crossref_scraper_v100.py:37 | a name matches `chunk_(\d+)_(<slug>)\.xlsx` only if it starts with `chunk_` |
| HarvestV100.ChunkMatchOfFile | crossref_scraper_v100.py:37-41 | the chunk file the script writes is matched, with its own number |
| HarvestV100.FinalIsNoChunk | crossref_scraper_v100.py:37 | no final export is mistaken for a chunk |
| HarvestV100.ChunkNumbers | crossref_scraper_v100.py:41 | the numbers read off the folder are exactly those of the matching names |
| HarvestV100.DetectLast | crossref_scraper_v100.py:34-42 | 0 when no chunk matches, else the highest matching number |
| HarvestV100.LoadUpTo | crossref_scraper_v100.py:73-77 | reloading chunks 1..last fails exactly when one is missing, and otherwise returns them in order |
| HarvestV100.DeclineDeletesLonger | crossref_scraper_v100.py:79-82 | as written, declining to resume keyword `k` deletes the final export of keyword `k word` |
| HarvestV100.DeletesOtherExport | crossref_scraper_v100.py:81 | as written, the prefix test deletes any `crossref_all_<slug>...` export |
| HarvestV100.DeletesOwnFiles | crossref_scraper_v100.py:79-82 | the corrected deletion takes this keyword's chunks and its final export, and no other keyword's export |
| HarvestV100.Cleared | crossref_scraper_v100.py:79-83 | declining to resume removes exactly the names the corrected deletion takes (see Findings) and keeps every other file unchanged |
| HarvestV100.ClearedIsFresh | crossref_scraper_v100.py:83 | after the deletion no chunk of the keyword is left |
| HarvestV100.Prepare | crossref_scraper_v100.py:64-85 | no earlier chunk: start fresh; declined: start fresh in the folder cleared by the corrected deletion; accepted: reload chunks 1..last, failing if one is missing |
| HarvestV100.Judge | crossref_scraper_v100.py:98-109 | a reply is kept exactly when its status is 200 and it decodes; anything else waits 5 seconds |
| HarvestV100.Step | crossref_scraper_v100.py:89-156 | one page: chunk `n+1` written and held, then a one-second pause and the next cursor |
| HarvestV100.TotalReadOnlyFresh | crossref_scraper_v100.py:120-122 | `total-results` is read only before the first chunk |
| HarvestV100.Pages | crossref_scraper_v100.py:89-156 | the page loop's log follows the protocol |
| HarvestV100.Harvest | crossref_scraper_v100.py:54-165 | a blank keyword aborts; otherwise the run always starts from cursor `*`, after the corrected deletion when it declines to resume |
| HarvestV100.Chain | crossref_scraper_v100.py:89-156 | the network read on its own: every page it goes on from has items that all read and a next cursor, and carries the total when it is the opening page; the page it ends on lacks one of these |
| HarvestV100.StepReads | crossref_scraper_v100.py:89-156 | one page against the network: it fails exactly when no attempt is kept; otherwise it waited for each earlier attempt, goes on exactly when the kept page continues, writes that page's rows and requests only its cursor |
| HarvestV100.PagesRead | crossref_scraper_v100.py:89-156 | the loop against the network: it stops as the reading ends, its chunks hold the rows of the pages read in order, it requests the start cursor then each page's next cursor, and it writes no checkpoint |
| HarvestV100.HarvestRead | crossref_scraper_v100.py:54-156 | the same for a whole run from `*`, the first page being the opening one only when no chunk is resumed |
| HarvestV100.HarvestChunks | crossref_scraper_v100.py:85-153 | new chunks are numbered on from the last one kept, one by one, starting from cursor `*` even on resume |
| HarvestV100.HarvestFolder | crossref_scraper_v100.py:147-165 | the final export is every reloaded chunk followed by every new one, written unless the run crashed or nothing was gathered |
| HarvestV100.PagesState | crossref_scraper_v100.py:147-151 | the folder and held frames after the loop are exactly what the log writes |
| HarvestV100.ChunksConsecutive | crossref_scraper_v100.py:148 | chunk numbers go up by one |
| JournalDois.FormatIssn | get_doi.py:14-15 | `format_issn`: no `-` left, every other character kept |
| JournalDois.FormatHalves | get_doi.py:14-15 | `XXXX-XXXX` and `XXXXXXXX` format to the same thing |
| JournalDois.GetDois | get_doi.py:18-44 | request errors, error statuses, non-JSON and falsy bodies give the empty answer; otherwise the pairs, title, publisher and ISSNs come from the items and the first item; a missing key is an exception |
| JournalDois.Paginate | get_doi.py:79-89 | the walk starts from its cursor |
| JournalDois.WalkRequests | get_doi.py:80-89 | each request after the first uses the cursor of the page before, and the walk stops at an empty page or a missing cursor |
| JournalDois.WalkPairs | get_doi.py:84 | the gathered pairs are every page's pairs in order |
| JournalDois.WalkLatest | get_doi.py:85-86 | title and publisher are the last non-empty ones seen |
| JournalDois.WalkIssns | get_doi.py:87 | the ISSN set is exactly the ISSNs of every page |
| JournalDois.SortByCreated | get_doi.py:92 | sorted by creation time, a permutation of the input |
| JournalDois.SortStable | get_doi.py:92 | the sort is stable: equal times keep their order |
| JournalDois.DoisOf | get_doi.py:93 | the DOIs in the sorted order |
| JournalDois.Shown | get_doi.py:99 | the shown title is never empty, and a non-empty title is shown as it is (an empty one shows as `Titre inconnu`) |
| JournalDois.Collect | get_doi.py:78-120 | the first request is for the first ISSN from `*` |
| JournalDois.CollectWrites | get_doi.py:78-111 | the file is written exactly when neither walk raised, under the ISSNs-and-stamp name |
| JournalDois.CollectRequests | get_doi.py:79-82 | the first ISSN's requests, then the second's, each walk starting from `*` |
| JournalDois.CollectContents | get_doi.py:91-120 | the file holds the sorted DOIs of both walks, the last title and publisher seen and every ISSN seen |
| Scholar.AsciiOnly | keyword_occurrences/keyword_occurrences_google_scholar2.py:25 | `encode('ASCII', 'ignore')`: only ASCII left, ASCII input unchanged |
| Scholar.SubRuns | keyword_occurrences/keyword_occurrences_google_scholar2.py:26 | `re.sub(r'\W+', '_', ...)`: only word characters left |
| Scholar.StripUnderscores | keyword_occurrences/keyword_occurrences_google_scholar2.py:27 | `strip('_')`: a slice with only underscores cut off either end |
| Scholar.Sanitize | keyword_occurrences/keyword_occurrences_google_scholar2.py:23-27 | a safe name: only word characters, no leading or trailing `_` |
| Scholar.SanitizeKeepsAlnums | keyword_occurrences/keyword_occurrences_google_scholar2.py:23-27 | every ASCII letter and digit survives, in order |
| Scholar.SanitizeEmpty | keyword_occurrences/keyword_occurrences_google_scholar2.py:23-27 | the safe name is empty exactly when the term has no ASCII letter or digit |
| Scholar.SanitizeFixes | keyword_occurrences/keyword_occurrences_google_scholar2.py:23-27 | an already safe name is unchanged |
| Scholar.SanitizeIdempotent | keyword_occurrences/keyword_occurrences_google_scholar2.py:23-27 | sanitizing twice is sanitizing once |
| Scholar.GetNumResults | keyword_occurrences/keyword_occurrences_google_scholar2.py:29-69 | at most three attempts; a count of `None` is never a success |
| Scholar.NumResultsOutcome | keywords_search/keyword_occurrences_google_scholar.py:19-59 | only 429s are retried (5 s each); three of them fail; a page without the div gives `(0, False)`, with it the number found or 0; any other failure gives `(None, False)` |
| Scholar.CellOf | keywords_search/keyword_occurrences_google_scholar.py:81 | a `None` count is written as an empty cell |
| Scholar.YearsFrom | keywords_search/keyword_occurrences_google_scholar.py:71-83 | one line per year of the range, in order |
| Scholar.YearsRead | keywords_search/keyword_occurrences_google_scholar.py:71-83 | year `i`'s count is the lookup on the stub after the earlier years' requests |
| Scholar.Run | keyword_occurrences/keyword_occurrences_google_scholar2.py:117-136 | a start after the end is refused; otherwise the quoted stripped term is asked for every year of the range in order, and the sheet is saved under the sanitized term's name |
| Semantic.AskOutcome | keywords_search/keyword_occurences_SS_semantic_scholar.py:54-78 | 429s are retried with waits 5, 10, 15, ... up to five times; a 200 gives `total` (0 when absent); another status gives `None`; an exception or non-JSON 200 ends the run |
| Semantic.RowsFrom | keywords_search/keyword_occurences_SS_semantic_scholar.py:48-78 | rows in increasing year order within the range |
| Semantic.RowsComplete | keywords_search/keyword_occurences_SS_semantic_scholar.py:64-78 | every year that settled has its row |
| Semantic.RowsSound | keywords_search/keyword_occurences_SS_semantic_scholar.py:64-78 | every row is a settled year with its answer; a year that used up its retries has no row |
| Semantic.Single | keywords_search/keyword_occurences_SS_semantic_scholar.py:32-93 | the sheet is written exactly when no year raised, under the keyword's name |
| Semantic.SingleRows | keywords_search/keyword_occurences_SS_semantic_scholar.py:48-85 | the sheet's rows are those of the year loops run in sequence on the stub |
| Semantic.Tag | keywords_search/keyword_occurence_SS_multi2.py:57 | each row tagged with its keyword |
| Semantic.YearMapExact | keywords_search/keyword_occurence_SS_multi2.py:58 | a keyword's global entry has a year exactly when that year settled, with its answer |
| Semantic.Global | keywords_search/keyword_occurence_SS_multi2.py:38 | the global table has exactly the keywords asked |
| Semantic.GlobalLast | keywords_search/keyword_occurence_SS_multi2.py:38 | a repeated keyword's entry is the one from its last pass |
| Semantic.Columns | keywords_search/keyword_occurence_SS_multi2.py:82-84 | the table's years: sorted, within the range, exactly those some keyword has |
| Semantic.GlobalTable | keywords_search/keyword_occurence_SS_multi2.py:81-89 | one line per distinct keyword, in order of first appearance, and the sorted years present |
| Semantic.Sheets | keywords_search/keyword_occurence_SS_multi2.py:73-79 | one sheet per keyword until one raises |
| Semantic.Multi2 | keywords_search/keyword_occurence_SS_multi2.py:25-90 | at most one sheet per keyword; the table is stamped after every sheet |
| Semantic.Multi2Complete | keywords_search/keyword_occurence_SS_multi2.py:81-89 | the global table is written exactly when every keyword's sheet was |
| Semantic.Multi2Sheets | keywords_search/keyword_occurence_SS_multi2.py:35-79 | sheet `i` holds keyword `i`'s tagged rows from its own pass |
| Semantic.GlobalCells | keywords_search/keyword_occurence_SS_multi2.py:54-69 | the global cells of keyword `i` are the settled years of its last pass with their answers |
| SemanticV3.AskOutcome | keywords_search/keyword_occurence_ss_multi_v3.py:9-33 | never crashes; 429s wait 5 + 2k, exceptions and non-JSON 200s wait 5; after 5 failures `None`; a 200 gives `total` (0 when absent), another status `None` |
| SemanticV3.Passes | keywords_search/keyword_occurence_ss_multi_v3.py:41-52 | every keyword gets one answer per year |
| KeywordPasses.KeywordRows | keywords_search/keyword_occurence_ss_multi_v3.py:45-51 | one keyword's rows, built the same way by the v3 and OpenAlex scripts: one row per year, in year order, each tagged with the keyword |
| KeywordPasses.KeywordRowsCounts | keywords_search/keyword_occurrences_openalex.py:35-44 | each row's occurrences are what that year's loop returned |
| SemanticV3.SheetsOf | keywords_search/keyword_occurence_ss_multi_v3.py:54-58 | one sheet per keyword with its rows and stamp |
| SemanticV3.GatheredAt | keywords_search/keyword_occurence_ss_multi_v3.py:60 | the gathered rows are the sheets' rows, keyword after keyword |
| SemanticV3.Analyze | keywords_search/keyword_occurence_ss_multi_v3.py:36-68 | one sheet per keyword, the gathered rows, and a summary exactly when there is a row |
| SemanticV3.AnalyzeRows | keywords_search/keyword_occurence_ss_multi_v3.py:36-62 | keywords × years rows, keyword `i`'s block being its own pass |
| SemanticV3.AnalyzeSummary | keywords_search/keyword_occurence_ss_multi_v3.py:65-68 | the summary is written exactly when there is a keyword and a year |
| SemanticV3.Main | keywords_search/keyword_occurence_ss_multi_v3.py:77-88 | one sheet per non-blank keyword |
| OpenAlex.AskOutcome | keywords_search/keyword_occurrences_openalex.py:20-44 | request errors, error statuses and non-JSON bodies are retried, waiting 3, 6, 12, ... seconds; five failures give `None`; a body that is not an object crashes; otherwise the count, 0 when absent |
| OpenAlex.WaitsDouble | keywords_search/keyword_occurrences_openalex.py:39 | the wait starts at 3 s and doubles |
| OpenAlex.Sheets | keywords_search/keyword_occurrences_openalex.py:70-79 | one sheet per keyword until a pass crashes |
| OpenAlex.GatheredUnique | keywords_search/keyword_occurrences_openalex.py:73-83 | the gathered rows have distinct (keyword, year) keys exactly when there is no year or the keywords are distinct |
| OpenAlex.CellsExact | keywords_search/keyword_occurrences_openalex.py:83 | the pivot of distinct rows holds every row's answer and nothing else |
| OpenAlex.Collect | keywords_search/keyword_occurrences_openalex.py:68-88 | at most one sheet per keyword, one row per year each; a summary only after every sheet |
| OpenAlex.CollectSheets | keywords_search/keyword_occurrences_openalex.py:70-79 | sheet `i` holds keyword `i`'s own pass, and the run stops short exactly at a crash |
| OpenAlex.CollectCells | keywords_search/keyword_occurrences_openalex.py:81-87 | the summary's cells are exactly the sheets' rows |
| OpenAlex.CollectSummary | keywords_search/keyword_occurrences_openalex.py:81-87 | the summary is written exactly when every sheet was, there is a keyword and a year, and the keywords are distinct |
| OpenAlex.Main | keywords_search/keyword_occurrences_openalex.py:61-79 | one sheet per non-blank keyword at most |
| CrossrefCounts.AskOutcome | keyword_occurence_crossref_multi.py:15-29 | exactly one request: a 200 gives `total-results`, another status `None`, and an exception or undecodable 200 ends the run |
| CrossrefCounts.SweepReads | keywords_search/keyword_occurrences_crossref.py:39-55 | year `j` is decided by reply `j` |
| CrossrefCounts.SweepStops | keywords_search/keyword_occurrences_crossref.py:39-55 | the year loop crashes exactly when one of its replies fails |
| CrossrefCounts.YearRows | keywords_search/keyword_occurrences_crossref.py:57-61 | one row per year, in order, with its count |
| CrossrefCounts.Single | keywords_search/keyword_occurrences_crossref.py:26-69 | the single-keyword sheet keeps the keyword as typed and the stamp |
| CrossrefCounts.SingleRows | keywords_search/keyword_occurrences_crossref.py:39-69 | the sheet is written exactly when no reply fails, and row `j` is year `start + j` with reply `j`'s answer |
| CrossrefCounts.YearUrlDistinct | keywords_search/keyword_occurrences_crossref.py:40-44 | two years' URLs are equal exactly when the years are |
| CrossrefCounts.CleanAskedByUrl | keywords_search/keyword_occurrences_crossref.py:39-46 | the replies a URL-keyed network gives the years' requests are clean exactly when no year's URL gets a raising reply |
| CrossrefCounts.SingleByUrl | keywords_search/keyword_occurrences_crossref.py:39-69 | against a network answering by URL, the sheet is written exactly when no year's URL raises, and year `start + j`'s line holds the answer to that year's own URL |
| CrossrefCounts.NetOfAnswers | keywords_search/keyword_occurrences_crossref.py:40-46 | a network built from one reply per year answers each year's URL with that year's reply |
| CrossrefCounts.EveryStubByUrl | keywords_search/keyword_occurrences_crossref.py:40-46 | any replies, one per year, are what some network answering by URL gives, because the URLs differ |
| CrossrefCounts.PassOffset | keyword_occurence_crossref_multi.py:47-51 | keyword `i`'s years read the stub after `i` times the years of replies |
| CrossrefCounts.FillCells | keyword_occurence_crossref_multi.py:49-51 | one keyword's pass sets its cell for every year and leaves every other cell alone |
| CrossrefCounts.GridLast | keyword_occurence_crossref_multi.py:51 | a repeated keyword's cells are those of its last pass |
| CrossrefCounts.GridKeys | keyword_occurence_crossref_multi.py:44-51 | the cells are exactly the keyword × year pairs |
| CrossrefCounts.YearList | keyword_occurence_crossref_multi.py:44 | the table's lines are the years of the range in order |
| CrossrefCounts.Tabulate | keyword_occurence_crossref_multi.py:44-70 | the table's lines are the years and its columns come from the keywords |
| CrossrefCounts.AllFull | keyword_occurence_crossref_multi.py:47-51 | a finished run made a full pass for every keyword |
| CrossrefCounts.PassClean | keyword_occurence_crossref_multi.py:47-51 | a pass crashes exactly when one of its replies fails |
| CrossrefCounts.UnfinishedDirty | keyword_occurence_crossref_multi.py:47-51 | an unfinished run met a failing reply among the first keywords × years |
| CrossrefCounts.FinishedClean | keyword_occurence_crossref_multi.py:47-51 | a finished run met no failing reply |
| CrossrefCounts.TabulateWritten | keyword_occurence_crossref_multi.py:47-70 | the table is written exactly when none of the first keywords × years replies fails |
| CrossrefCounts.Split | keyword_occurence_crossref_multi.py:47-49 | every request among the first keywords × years is some keyword's request for some year of the range |
| CrossrefCounts.TabulateCells | search_crossref_terms.py:37-51 | the cell of keyword `i` (its last occurrence) and year `start + j` is the answer of request `i * years + j` |
| CrossrefCounts.TabulateGrid | search_crossref_terms.py:49 | a written table is the grid of a finished run |
| CrossrefCounts.TabulateKeys | search_crossref_terms.py:34-51 | the cells are exactly the keyword × year pairs of the range |
| CrossrefCounts.TabulateColumns | search_crossref_terms.py:49 | one column per distinct keyword, in order of first appearance, none when the range is empty |

## Left out

- Network, files, clock and console:
  - HTTP is a reply stub. The real network is not modelled, nor timeouts, headers or User-Agent rotation.
  - Spreadsheets are sequences of rows and folders are maps. Excel encoding is not modelled.
  - `datetime.now()` becomes a stamp parameter, or a clock function of the file's position.
  - Prompts become parameters: the keyword, the year bounds already parsed as integers, and the resume answer.
  - Console output is not modelled. Progress reports are kept only as log entries.
- Pauses are recorded as effects or waits, never taken:
  - the random pauses in `keyword_occurrences_google_scholar2.py` and the v3 script are not modelled;
  - the jitter in `crossref_scraper_v102.py`'s `1 + (6 * time.time() % 1)` is not modelled;
  - OpenAlex's 1.5 × 2^k seconds are kept exactly, in tenths of a second.
  - the fixed one-second pauses between years are not modelled: keywords_search/keyword_occurrences_google_scholar.py:83 and keywords_search/keyword_occurences_SS_semantic_scholar.py:80;
  - the same goes for the one-second pause after each year's answer in `multi2` (keywords_search/keyword_occurence_SS_multi2.py:59 and :70).
- Percent-encoding is not modelled:
  - `quote` and `quote_plus` of the keyword in URLs and in the Semantic Scholar and OpenAlex file names are left out, and file names use the unencoded slug;
  - Names.SemanticFile: the name carries the slug without the `quote_plus` the source applies;
  - Names.OpenAlexKeywordFile: the name carries the lowered slug without the `quote` the source applies.
- Scholar.Sanitize: NFKD folding is not modelled. Non-ASCII characters are dropped rather than decomposed first, so an accented letter is lost instead of kept as its base letter.
- Scholar.GetNumResults: the HTML page is reduced to whether the `gs_ab_md` div is there and the number the count pattern finds. The regular expression and BeautifulSoup are not modelled.
- pandas semantics:
  - SemanticV3.Analyze: `pivot_table` averages with `fill_value=0`. The summary's cell values are not modelled; only whether it is written is.
- OpenAlex.AskOutcome: a body that does not decode is retried like a failed request. This follows `requests` 2.27 and later, where the decoding error is a `RequestException`.
- KeyboardInterrupt in `crossref_scraper.py` (line 144) is not modelled. An interrupt between pages leaves the same files as a stub that runs out there.
- Retries inside one request are not modelled. The `requests` adapter in `get_doi.py` retries up to 5 times with backoff; each stub reply is the adapter's final answer.
- HarvestV100.ChunkMatch matches the slug literally. The source puts the slug into a regular expression unescaped, so a keyword holding regular-expression characters matches other names or raises. The pattern is also not anchored at the end, so `chunk_1_<slug>.xlsx.bak` matches.
- HarvestV100.Harvest: the last chunk is re-read into `cursor_df` and then unused. It is folded into LoadUpTo's reload of every chunk, which fails on the same missing file.
- The user-facing wrappers only parse input and pass it on, so their contracts state what the parsed lists give. Each keyword-parsing lemma is stated on `Keywords`:
  - SemanticV3.Main
  - OpenAlex.Main
  - CrossrefCounts.Tabulate (it takes the keyword list `Keywords.ParseKeep` produces)
- JournalDois.SortByCreated: the `created.date-time` strings are modelled as integer timestamps that order like the dates they encode. `strptime` is not modelled, nor the exception it raises on a malformed date.
- Integers are unbounded. Python's are too, so nothing is lost.
- HarvestMain.MergeNumeric: the source concatenates chunk files in file-name order, so chunk 10 comes before chunk 2. The model's harvest uses the corrected chunk-number order instead. The as-written order is `HarvestMain.MergeByName`, and Findings shows where the two differ.
- HarvestMain.Step, HarvestMain.ScriptStep, HarvestMain.Harvest and HarvestMain.HarvestStore: each rebuilds the combined export with the corrected `MergeNumeric`. Their combined export therefore differs from the source's once chunk 10 is written next to chunk 2 (`HarvestMain.NameOrderExample`).
- HarvestV100.Cleared: it removes the names the corrected `Deletes` takes, which are this keyword's chunks and its own final export. The source's prefix test also deletes the exports of longer keywords (`HarvestV100.DeletesAsWritten`, see Findings).
- HarvestV100.Prepare and HarvestV100.Harvest: a run that declines to resume starts from the folder `Cleared` leaves, so the corrected deletion applies there too.
- Names.AsciiLower lowers only `A`–`Z`. Python's `str.lower()` also lowers non-ASCII letters (`É` to `é`), so the OpenAlex file name of a keyword with accented capitals keeps them in the model.
- HarvestV102.Store and HarvestMain.Store key chunk files by their number. On disk they are names, so two cases are not represented:
  - a stray `chunk_old.xlsx`, which makes the `int(...)` of the resume scan raise (crossref_scraper_v102.py:66, crossref_scraper.py:79);
  - `chunk_01.xlsx` and `chunk_1.xlsx`, which both read as chunk 1.
- Works.Message always has a list of items and an optional integer total. A body without `message.items` raises `KeyError` in the harvesters (crossref_scraper_v102.py:94, crossref_scraper.py:110, crossref_scraper_v100.py:115); that crash is not represented. Neither is a `total-results` that is not an integer.

## Findings

| source | as written | input that shows it | evidently intended | confidence | as-written member | corrected member |
|---|---|---|---|---|---|---|
| crossref_scraper.py:62 | the combined export concatenates the chunk files in `sorted(glob(...))` order, which is by file name | chunk files 2 and 10 holding rows `a` and `b`: the export becomes `[b, a]` because `chunk_10.xlsx` sorts before `chunk_2.xlsx` | concatenate in chunk-number order, giving `[a, b]` | high; not executed | HarvestMain.NameOrderExample | HarvestMain.MergeAppend |
| crossref_scraper_v100.py:81 | declining to resume deletes every file whose name starts with `crossref_all_<slug>` | keyword `ai` with `crossref_all_ai_ethics.xlsx`, the export of keyword `ai ethics`, on disk: that export is deleted too | delete only this keyword's `crossref_all_<slug>.xlsx` | medium; not executed | HarvestV100.DeclineDeletesLonger | HarvestV100.DeletesOwnFiles |

=== FILE: crossref_counts.dfy ===
/** The Crossref per-year counters: keywords_search/keyword_occurrences_crossref.py
    (one keyword, one sheet of years), keyword_occurence_crossref_multi.py and
    search_crossref_terms.py (a comma-separated list, one table with a line
    per year and a column per keyword; the two differ only in the file
    name).

    Each keyword and year makes exactly one request, with no retry: a 200
    records `message.total-results`, any other status records `None`. None of
    the three catches an exception, so a failed request, or a 200 whose body
    does not decode or lacks the key, ends the run before anything is
    written. */
module CrossrefCounts {
  import opened Wrappers
  import Text
  import Retry
  import Names
  import KeywordPasses
  import Keywords

  /** The decoded answer: `data['message']['total-results']`, `None` when
      either key is missing. A body that does not decode is `None` at the
      reply level. */
  type Reply = Retry.Reply<Option<int>>

  type Trace = Retry.Trace<Option<int>, Option<int>>

  /** `requests.get(url)` once. */
  const Budget: nat := 1

  function Judge(reply: Reply, attempt: nat): Retry.Verdict<Option<int>> {
    match reply
    case Raised => Retry.Crash
    case Response(status, body) =>
      if status != 200 then Retry.GiveUp(None)
      else if body.Some? && body.value.Some? then Retry.Accept(body.value)
      else Retry.Crash
  }

  /** What the year records: the total, or `None` after another status. */
  function Count(t: Trace): Option<int> {
    if t.outcome.Accepted? || t.outcome.GaveUp? then t.outcome.value else None
  }

  /** A reply that raises: no status, or a 200 without a readable total. */
  predicate Fails(reply: Reply) {
    reply.Raised? || (reply.status == 200 && (reply.body.None? || reply.body.value.None?))
  }

  /** What a reply that does not raise records. */
  function Answer(reply: Reply): Option<int>
    requires !Fails(reply)
  {
    if reply.status == 200 then reply.body.value else None
  }

  /** A year's loop read `reply`: it crashed exactly when the reply raises,
      and otherwise recorded the reply's answer. */
  predicate Reads(t: Trace, reply: Reply) {
    (t.outcome.Crashed? <==> Fails(reply)) && (!Fails(reply) ==> Count(t) == Answer(reply))
  }

  /** `get_total_results_for_year`: one request, never a wait. */
  lemma AskOutcome(replies: seq<Reply>)
    ensures var t := Retry.Attempts(replies, 0, Budget, Judge);
            && t.used == 1 && t.waits == [] && !t.outcome.Exhausted?
            && Reads(t, Retry.Nth(replies, 0))
  {
  }

  // ---------------------------------------------------------------------
  // One keyword's years

  /** The first `n` replies all leave a count. */
  predicate Clean(replies: seq<Reply>, n: nat) {
    forall j :: 0 <= j < n ==> !Fails(Retry.Nth(replies, j))
  }

  lemma NthDrop(replies: seq<Reply>, u: nat, j: nat)
    ensures Retry.Nth(Retry.Drop(replies, u), j) == Retry.Nth(replies, u + j)
  {
  }

  /** A year in front of years that each read their reply reads the first,
      and each of them the next. */
  lemma ReadsShift(t: Trace, tail: seq<Trace>, replies: seq<Reply>)
    requires Reads(t, Retry.Nth(replies, 0))
    requires forall j :: 0 <= j < |tail| ==> Reads(tail[j], Retry.Nth(Retry.Drop(replies, 1), j))
    ensures forall j :: 0 <= j < |[t] + tail| ==> Reads(([t] + tail)[j], Retry.Nth(replies, j))
  {
    forall j | 0 <= j < |[t] + tail|
      ensures Reads(([t] + tail)[j], Retry.Nth(replies, j))
    {
      if j > 0 {
        assert ([t] + tail)[j] == tail[j - 1];
        NthDrop(replies, 1, j - 1);
      }
    }
  }

  /** With one request a year, the `j`-th year reads the `j`-th reply. */
  lemma {:induction false} SweepReads(replies: seq<Reply>, n: nat)
    ensures var ts := Retry.Sweep(replies, n, Budget, Judge);
            forall j :: 0 <= j < |ts| ==> Reads(ts[j], Retry.Nth(replies, j))
    decreases n
  {
    if n > 0 {
      var t := Retry.Attempts(replies, 0, Budget, Judge);
      AskOutcome(replies);
      if !t.outcome.Crashed? {
        var rest := Retry.Drop(replies, 1);
        SweepReads(rest, n - 1);
        ReadsShift(t, Retry.Sweep(rest, n - 1, Budget, Judge), replies);
      }
    }
  }

  /** A loop of one request in front of loops of one request each. */
  lemma UsedFront(t: Trace, tail: seq<Trace>)
    requires t.used == 1 && Retry.Used(tail) == |tail|
    ensures Retry.Used([t] + tail) == |[t] + tail|
  {
    Retry.UsedCons(t, tail, |tail|);
    assert ([t] + tail)[..|tail| + 1] == [t] + tail;
    assert tail[..|tail|] == tail;
  }

  /** The years use exactly one reply each. */
  lemma {:induction false} SweepUsed(replies: seq<Reply>, n: nat)
    ensures Retry.Used(Retry.Sweep(replies, n, Budget, Judge)) == |Retry.Sweep(replies, n, Budget, Judge)|
    decreases n
  {
    if n > 0 {
      var t := Retry.Attempts(replies, 0, Budget, Judge);
      AskOutcome(replies);
      if t.outcome.Crashed? {
        UsedFront(t, []);
        assert [t] + [] == [t];
      } else {
        SweepUsed(Retry.Drop(replies, 1), n - 1);
        UsedFront(t, Retry.Sweep(Retry.Drop(replies, 1), n - 1, Budget, Judge));
      }
    }
  }

  /** Years that each read their reply, none crashed, leave the replies
      clean. */
  lemma CleanOf(ts: seq<Trace>, replies: seq<Reply>, n: nat)
    requires |ts| == n
    requires forall j :: 0 <= j < |ts| ==> Reads(ts[j], Retry.Nth(replies, j))
    requires forall j :: 0 <= j < |ts| ==> !ts[j].outcome.Crashed?
    ensures Clean(replies, n)
  {
    forall j | 0 <= j < n
      ensures !Fails(Retry.Nth(replies, j))
    {
      assert Reads(ts[j], Retry.Nth(replies, j));
    }
  }

  /** The years run to the end exactly when none of their replies raises. */
  lemma SweepStops(replies: seq<Reply>, n: nat)
    ensures Retry.Stopped(Retry.Sweep(replies, n, Budget, Judge)) <==> !Clean(replies, n)
  {
    var ts := Retry.Sweep(replies, n, Budget, Judge);
    SweepReads(replies, n);
    if Retry.Stopped(ts) {
      assert Reads(ts[|ts| - 1], Retry.Nth(replies, |ts| - 1));
    } else {
      assert forall j :: 0 <= j < |ts| ==> !ts[j].outcome.Crashed?;
      CleanOf(ts, replies, n);
    }
  }

  /** One line of the single-keyword sheet. */
  datatype CountRow = CountRow(year: int, keyword: string, occurrences: Option<int>)

  /** `year_counts` in year order. */
  function YearRows(keyword: string, year: int, ts: seq<Trace>): (rows: seq<CountRow>)
    ensures |rows| == |ts|
    ensures forall j :: 0 <= j < |ts| ==> rows[j] == CountRow(year + j, keyword, Count(ts[j]))
    decreases |ts|
  {
    if ts == [] then [] else [CountRow(year, keyword, Count(ts[0]))] + YearRows(keyword, year + 1, ts[1..])
  }

  /** What keyword_occurrences_crossref.py writes: the keyword as typed and
      its years. */
  datatype CountSheet = CountSheet(keyword: string, stamp: Names.Stamp, rows: seq<CountRow>) {
    /** `crossref_{safe_keyword}_{start}_{end}_{timestamp}.xlsx`. */
    function File(start: int, end: int): string {
      Names.CrossrefCountFile(keyword, start, end, stamp)
    }
  }

  /** keyword_occurrences_crossref.py from its prompts; the keyword is not
      stripped. */
  function Single(keyword: string, start: int, end: int, stamp: Names.Stamp, replies: seq<Reply>): (out: Option<CountSheet>)
    ensures out.Some? ==> out.value.keyword == keyword && out.value.stamp == stamp
  {
    var ts := Retry.Sweep(replies, KeywordPasses.Years(start, end), Budget, Judge);
    if Retry.Stopped(ts) then None else Some(CountSheet(keyword, stamp, YearRows(keyword, start, ts)))
  }

  /** The sheet is written exactly when no reply of the run raises, and then
      the line of year `start + j` holds the answer of the `j`-th reply. */
  lemma SingleRows(keyword: string, start: int, end: int, stamp: Names.Stamp, replies: seq<Reply>)
    ensures Single(keyword, start, end, stamp, replies).Some? <==> Clean(replies, KeywordPasses.Years(start, end))
    ensures Single(keyword, start, end, stamp, replies).Some? ==>
              var rows := Single(keyword, start, end, stamp, replies).value.rows;
              && |rows| == KeywordPasses.Years(start, end)
              && forall j :: 0 <= j < |rows| ==>
                   !Fails(Retry.Nth(replies, j)) && rows[j] == CountRow(start + j, keyword, Answer(Retry.Nth(replies, j)))
  {
    var n := KeywordPasses.Years(start, end);
    var ts := Retry.Sweep(replies, n, Budget, Judge);
    SweepStops(replies, n);
    SweepReads(replies, n);
    if !Retry.Stopped(ts) {
      var rows := YearRows(keyword, start, ts);
      forall j | 0 <= j < |rows|
        ensures !Fails(Retry.Nth(replies, j)) && rows[j] == CountRow(start + j, keyword, Answer(Retry.Nth(replies, j)))
      {
        assert Reads(ts[j], Retry.Nth(replies, j));
      }
    }
  }

  /** `https://api.crossref.org/works?query={encoded}&filter=from-pub-date:{year}-01-01,until-pub-date:{year}-12-31&rows=0`:
      one year's publications, the count only. */
  function YearUrl(encoded: string, year: int): string {
    UrlHead(encoded) + (Text.IntToString(year) + YearTail(year))
  }

  function UrlHead(encoded: string): string {
    "https://api.crossref.org/works?query=" + encoded + "&filter=from-pub-date:"
  }

  function YearTail(year: int): (tail: string)
    ensures |tail| > 0 && tail[0] == '-'
  {
    "-01-01,until-pub-date:" + Text.IntToString(year) + "-12-31&rows=0"
  }

  /** Two numbers each followed by a tail starting with `-` spell the same
      text only when they are the same number. */
  lemma NumberThenDash(y1: int, y2: int, x1: string, x2: string)
    requires |x1| > 0 && x1[0] == '-' && |x2| > 0 && x2[0] == '-'
    requires Text.IntToString(y1) + x1 == Text.IntToString(y2) + x2
    ensures y1 == y2
  {
    var s1 := Text.IntToString(y1);
    var s2 := Text.IntToString(y2);
    if |s1| < |s2| {
      CharAt(s1, x1, s2, x2, |s1|);
      assert false;
    } else if |s2| < |s1| {
      CharAt(s2, x2, s1, x1, |s2|);
      assert false;
    }
    assert s1 == (s1 + x1)[..|s1|];
    assert s2 == (s2 + x2)[..|s2|];
    Text.IntToStringInjective(y1, y2);
  }

  /** Where the first text ends, the joined texts hold its tail's first
      character and the second text's character there. */
  lemma CharAt(a: string, x: string, b: string, y: string, k: int)
    ensures k == |a| && |x| > 0 && k < |b| && a + x == b + y ==> x[0] == b[k]
  {
    if k == |a| && |x| > 0 && k < |b| && a + x == b + y {
      assert (a + x)[k] == x[0];
      assert (b + y)[k] == b[k];
    }
  }

  lemma SameHead(head: string, a: string, b: string)
    requires head + a == head + b
    ensures a == b
  {
    assert (head + a)[|head|..] == a;
    assert (head + b)[|head|..] == b;
  }

  /** The requests of one keyword differ from year to year. */
  lemma YearUrlDistinct(encoded: string, y1: int, y2: int)
    ensures YearUrl(encoded, y1) == YearUrl(encoded, y2) <==> y1 == y2
  {
    if YearUrl(encoded, y1) == YearUrl(encoded, y2) {
      SameHead(UrlHead(encoded), Text.IntToString(y1) + YearTail(y1), Text.IntToString(y2) + YearTail(y2));
      NumberThenDash(y1, y2, YearTail(y1), YearTail(y2));
    }
  }

  /** A network that answers each request by its URL alone. */
  type Network = string -> Reply

  /** What `net` answers the years' requests, in request order: the `j`-th
      request is year `start + j`'s URL. */
  function AskedByUrl(encoded: string, start: int, n: nat, net: Network): (replies: seq<Reply>)
    ensures |replies| == n
    ensures forall j :: 0 <= j < n ==> replies[j] == net(YearUrl(encoded, start + j))
  {
    seq(n, j => net(YearUrl(encoded, start + j)))
  }

  /** No year's URL gets a reply that raises. */
  predicate CleanByUrl(encoded: string, start: int, end: int, net: Network) {
    forall y :: start <= y <= end ==> !Fails(net(YearUrl(encoded, y)))
  }

  /** The replies asked by URL are clean exactly when no year's URL gets a
      reply that raises. */
  lemma CleanAskedByUrl(encoded: string, start: int, end: int, net: Network)
    ensures Clean(AskedByUrl(encoded, start, KeywordPasses.Years(start, end), net), KeywordPasses.Years(start, end))
            <==> CleanByUrl(encoded, start, end, net)
  {
    var n := KeywordPasses.Years(start, end);
    var replies := AskedByUrl(encoded, start, n, net);
    if Clean(replies, n) {
      forall y | start <= y <= end
        ensures !Fails(net(YearUrl(encoded, y)))
      {
        assert !Fails(Retry.Nth(replies, y - start));
      }
    } else {
      var j :| 0 <= j < n && Fails(Retry.Nth(replies, j));
      assert Fails(net(YearUrl(encoded, start + j)));
    }
  }

  /** keyword_occurrences_crossref.py against a network that answers by URL:
      the sheet is written exactly when no year's URL gets a reply that
      raises, and then the line of year `start + j` holds the answer to that
      year's own URL. */
  lemma SingleByUrl(keyword: string, encoded: string, start: int, end: int, stamp: Names.Stamp, net: Network)
    ensures Single(keyword, start, end, stamp, AskedByUrl(encoded, start, KeywordPasses.Years(start, end), net)).Some? <==>
              CleanByUrl(encoded, start, end, net)
    ensures Single(keyword, start, end, stamp, AskedByUrl(encoded, start, KeywordPasses.Years(start, end), net)).Some? ==>
              var rows := Single(keyword, start, end, stamp, AskedByUrl(encoded, start, KeywordPasses.Years(start, end), net)).value.rows;
              forall j :: 0 <= j < |rows| ==>
                !Fails(net(YearUrl(encoded, start + j))) &&
                rows[j] == CountRow(start + j, keyword, Answer(net(YearUrl(encoded, start + j))))
  {
    var n := KeywordPasses.Years(start, end);
    var replies := AskedByUrl(encoded, start, n, net);
    SingleRows(keyword, start, end, stamp, replies);
    CleanAskedByUrl(encoded, start, end, net);
  }

  /** A network answering year `start + j`'s URL with `replies[j]` and
      raising on any other request. */
  function NetOf(encoded: string, start: int, replies: seq<Reply>): Network
    decreases |replies|
  {
    if replies == [] then _ => Retry.Raised
    else
      var rest := NetOf(encoded, start + 1, replies[1..]);
      url => if url == YearUrl(encoded, start) then replies[0] else rest(url)
  }

  /** `NetOf` answers each year's URL with that year's reply: the later
      years' URLs never match an earlier year's. */
  lemma {:induction false} NetOfAnswers(encoded: string, start: int, replies: seq<Reply>, j: nat)
    requires j < |replies|
    ensures NetOf(encoded, start, replies)(YearUrl(encoded, start + j)) == replies[j]
    decreases |replies|
  {
    if j > 0 {
      YearUrlDistinct(encoded, start + j, start);
      NetOfAnswers(encoded, start + 1, replies[1..], j - 1);
      assert start + 1 + (j - 1) == start + j;
    }
  }

  /** Modelling the replies by position loses nothing: since the years' URLs
      differ, any replies, one per year, are what some network answering by
      URL gives. */
  lemma EveryStubByUrl(encoded: string, start: int, replies: seq<Reply>)
    ensures exists net: Network :: AskedByUrl(encoded, start, |replies|, net) == replies
  {
    var net := NetOf(encoded, start, replies);
    forall j | 0 <= j < |replies|
      ensures net(YearUrl(encoded, start + j)) == replies[j]
    {
      NetOfAnswers(encoded, start, replies, j);
    }
    assert AskedByUrl(encoded, start, |replies|, net) == replies;
  }

  // ---------------------------------------------------------------------
  // keyword_occurence_crossref_multi.py and search_crossref_terms.py

  type Pass = KeywordPasses.Pass<Option<int>, Option<int>>

  /** The keywords in turn, each asking its years on the stub the keywords
      before it left. */
  function Passes(keywords: seq<string>, n: nat, replies: seq<Reply>): seq<Pass> {
    KeywordPasses.Passes(keywords, n, replies, Budget, Judge)
  }

  /** Passes that each asked `n` years used `n` replies each. */
  lemma {:induction false} UsedPrefix(ps: seq<Pass>, i: nat, n: nat)
    requires i <= |ps|
    requires forall k :: 0 <= k < i ==> Retry.Used(ps[k].rounds) == n
    ensures KeywordPasses.PassesUsed(ps[..i]) == KeywordPasses.Before(i, n)
  {
    if i > 0 {
      assert ps[..i][..i - 1] == ps[..i - 1];
      assert ps[..i][i - 1] == ps[i - 1];
      UsedPrefix(ps, i - 1, n);
    }
  }

  /** Keyword `i` asks its years on the replies after the `i * n` of the
      keywords before it. */
  lemma PassOffset(keywords: seq<string>, n: nat, replies: seq<Reply>, i: nat)
    requires i < |Passes(keywords, n, replies)|
    ensures Passes(keywords, n, replies)[i].rounds == Retry.Sweep(Retry.Drop(replies, KeywordPasses.Before(i, n)), n, Budget, Judge)
  {
    var ps := Passes(keywords, n, replies);
    KeywordPasses.PassesStop(keywords, n, replies, Budget, Judge);
    forall k | 0 <= k < i
      ensures Retry.Used(ps[k].rounds) == n
    {
      KeywordPasses.PassComplete(keywords, n, replies, Budget, Judge, k);
      KeywordPasses.PassRounds(keywords, n, replies, Budget, Judge, k);
      SweepUsed(Retry.Drop(replies, KeywordPasses.PassesUsed(ps[..k])), n);
    }
    UsedPrefix(ps, i, n);
    KeywordPasses.PassRounds(keywords, n, replies, Budget, Judge, i);
  }

  /** `results[year][keyword] = count` for one keyword's years from `year`. */
  function Fill(cells: map<(int, string), Option<int>>, keyword: string, year: int, ts: seq<Trace>): map<(int, string), Option<int>>
    decreases |ts|
  {
    if ts == [] then cells else Fill(cells[(year, keyword) := Count(ts[0])], keyword, year + 1, ts[1..])
  }

  /** The table has a cell for `year` and `keyword`, holding `value`. */
  predicate Cell(cells: map<(int, string), Option<int>>, year: int, keyword: string, value: Option<int>) {
    (year, keyword) in cells && cells[(year, keyword)] == value
  }

  /** One keyword's years overwrite that keyword's cells for those years and
      leave every other cell as it was. */
  lemma {:induction false} FillCells(cells: map<(int, string), Option<int>>, keyword: string, year: int, ts: seq<Trace>)
    ensures forall j :: 0 <= j < |ts| ==> Cell(Fill(cells, keyword, year, ts), year + j, keyword, Count(ts[j]))
    ensures forall key :: key in Fill(cells, keyword, year, ts) <==> key in cells || (key.1 == keyword && year <= key.0 < year + |ts|)
    ensures forall key :: key in cells && !(key.1 == keyword && year <= key.0 < year + |ts|) ==>
              Fill(cells, keyword, year, ts)[key] == cells[key]
    decreases |ts|
  {
    if ts != [] {
      var next := cells[(year, keyword) := Count(ts[0])];
      FillCells(next, keyword, year + 1, ts[1..]);
      forall j | 0 <= j < |ts|
        ensures Cell(Fill(cells, keyword, year, ts), year + j, keyword, Count(ts[j]))
      {
        if j > 0 {
          assert ts[1..][j - 1] == ts[j];
          assert Cell(Fill(next, keyword, year + 1, ts[1..]), year + 1 + (j - 1), keyword, Count(ts[1..][j - 1]));
        }
      }
    }
  }

  /** `results` after the passes. */
  function Grid(start: int, ps: seq<Pass>): map<(int, string), Option<int>> {
    if ps == [] then map[]
    else
      var last := ps[|ps| - 1];
      Fill(Grid(start, ps[..|ps| - 1]), last.keyword, start, last.rounds)
  }

  /** A keyword's cells hold the years of its last pass: a repeated keyword
      overwrites its earlier values. */
  lemma {:induction false} GridLast(start: int, ps: seq<Pass>, i: nat)
    requires i < |ps|
    requires forall k :: i < k < |ps| ==> ps[k].keyword != ps[i].keyword
    ensures forall j :: 0 <= j < |ps[i].rounds| ==>
              Cell(Grid(start, ps), start + j, ps[i].keyword, Count(ps[i].rounds[j]))
    decreases |ps|
  {
    var init := ps[..|ps| - 1];
    var last := ps[|ps| - 1];
    FillCells(Grid(start, init), last.keyword, start, last.rounds);
    if i < |ps| - 1 {
      assert init[i] == ps[i];
      GridLast(start, init, i);
    }
  }

  /** With every pass over the same `n` years, the table has exactly a cell
      for each of those years and each keyword. */
  lemma {:induction false} GridKeys(start: int, ps: seq<Pass>, keywords: seq<string>, n: nat)
    requires |ps| == |keywords|
    requires forall k :: 0 <= k < |ps| ==> ps[k].keyword == keywords[k] && |ps[k].rounds| == n
    ensures forall key :: key in Grid(start, ps) <==> key.1 in keywords && start <= key.0 < start + n
    decreases |ps|
  {
    if ps != [] {
      var init := ps[..|ps| - 1];
      var last := ps[|ps| - 1];
      GridKeys(start, init, keywords[..|keywords| - 1], n);
      FillCells(Grid(start, init), last.keyword, start, last.rounds);
      assert forall x :: x in keywords <==> x in keywords[..|keywords| - 1] || x == keywords[|keywords| - 1];
    }
  }

  /** `df` after `reset_index`: a line per year, in year order, and after the
      year a column per keyword in order of first appearance; with no year
      the frame has no keyword column either. */
  datatype Table = Table(years: seq<int>, columns: seq<string>, cells: map<(int, string), Option<int>>)

  function YearList(start: int, n: nat): (ys: seq<int>)
    ensures |ys| == n
    ensures forall j :: 0 <= j < n ==> ys[j] == start + j
    decreases n
  {
    if n == 0 then [] else [start] + YearList(start + 1, n - 1)
  }

  /** No keyword's years stopped at a raising reply. */
  predicate Finished(keywords: seq<string>, n: nat, replies: seq<Reply>) {
    var ps := Passes(keywords, n, replies);
    !(|ps| > 0 && Retry.Stopped(ps[|ps| - 1].rounds))
  }

  /** The table of the parsed keywords, `None` when an exception ends the run
      first. keyword_occurence_crossref_multi.py writes it to
      `Names.CrossrefMultiFile`, search_crossref_terms.py to
      `Names.TermsFile`. */
  function Tabulate(keywords: seq<string>, start: int, end: int, replies: seq<Reply>): (out: Option<Table>)
    ensures out.Some? ==> out.value.years == YearList(start, KeywordPasses.Years(start, end))
    ensures out.Some? ==> forall k :: k in out.value.columns ==> k in keywords
  {
    var n := KeywordPasses.Years(start, end);
    if !Finished(keywords, n, replies) then None
    else Some(Table(YearList(start, n), if n == 0 then [] else Keywords.FirstSeen(keywords), Grid(start, Passes(keywords, n, replies))))
  }

  /** In a finished run every keyword asked all its years. */
  lemma AllFull(keywords: seq<string>, n: nat, replies: seq<Reply>)
    requires Finished(keywords, n, replies)
    ensures var ps := Passes(keywords, n, replies);
            && |ps| == |keywords|
            && forall k :: 0 <= k < |ps| ==> !Retry.Stopped(ps[k].rounds) && |ps[k].rounds| == n
  {
    var ps := KeywordPasses.Passes(keywords, n, replies, Budget, Judge);
    assert ps == Passes(keywords, n, replies);
    KeywordPasses.PassesStop(keywords, n, replies, Budget, Judge);
    forall k | 0 <= k < |ps|
      ensures !Retry.Stopped(ps[k].rounds) && |ps[k].rounds| == n
    {
      assert !Retry.Stopped(ps[k].rounds) by {
        if k < |ps| - 1 {
          assert 0 <= k < |ps| - 1;
        }
      }
      KeywordPasses.PassComplete(keywords, n, replies, Budget, Judge, k);
    }
  }

  /** Keyword `i` stops exactly when one of its own `n` replies raises. */
  lemma PassClean(keywords: seq<string>, n: nat, replies: seq<Reply>, i: nat)
    requires i < |Passes(keywords, n, replies)|
    ensures Retry.Stopped(Passes(keywords, n, replies)[i].rounds) <==> !Clean(Retry.Drop(replies, KeywordPasses.Before(i, n)), n)
  {
    PassOffset(keywords, n, replies, i);
    SweepStops(Retry.Drop(replies, KeywordPasses.Before(i, n)), n);
  }

  /** Keyword `i`'s year `j` reads reply `KeywordPasses.Before(i, n) + j`. */
  lemma PassYear(keywords: seq<string>, n: nat, replies: seq<Reply>, i: nat, j: nat)
    requires i < |Passes(keywords, n, replies)|
    requires j < |Passes(keywords, n, replies)[i].rounds|
    ensures Reads(Passes(keywords, n, replies)[i].rounds[j], Asked(replies, n, i, j))
  {
    PassOffset(keywords, n, replies, i);
    SweepReads(Retry.Drop(replies, KeywordPasses.Before(i, n)), n);
    NthDrop(replies, KeywordPasses.Before(i, n), j);
  }

  lemma CleanAsked(replies: seq<Reply>, n: nat, i: nat, j: nat)
    requires j < n && Clean(Retry.Drop(replies, KeywordPasses.Before(i, n)), n)
    ensures !Fails(Asked(replies, n, i, j))
  {
    NthDrop(replies, KeywordPasses.Before(i, n), j);
  }

  lemma CleanAt(replies: seq<Reply>, u: nat, n: nat, j: nat)
    requires j < n && Clean(Retry.Drop(replies, u), n)
    ensures !Fails(Retry.Nth(replies, u + j))
  {
    NthDrop(replies, u, j);
  }

  lemma DirtyAt(replies: seq<Reply>, u: nat, n: nat) returns (j: nat)
    requires !Clean(Retry.Drop(replies, u), n)
    ensures j < n && Fails(Retry.Nth(replies, u + j))
  {
    j :| j < n && Fails(Retry.Nth(Retry.Drop(replies, u), j));
    NthDrop(replies, u, j);
  }

  /** A run that stops leaves a raising reply among the first
      `KeywordPasses.Before(|keywords|, n)`. */
  lemma UnfinishedDirty(keywords: seq<string>, n: nat, replies: seq<Reply>)
    requires !Finished(keywords, n, replies)
    ensures !Clean(replies, KeywordPasses.Before(|keywords|, n))
  {
    var m := |Passes(keywords, n, replies)| - 1;
    PassClean(keywords, n, replies, m);
    DirtyWithin(replies, m, |keywords|, n);
  }

  /** A raising reply of keyword `m` lies among the replies of the first
      `k > m` keywords. */
  lemma DirtyWithin(replies: seq<Reply>, m: nat, k: nat, n: nat)
    requires m < k && !Clean(Retry.Drop(replies, KeywordPasses.Before(m, n)), n)
    ensures !Clean(replies, KeywordPasses.Before(k, n))
  {
    var j := DirtyAt(replies, KeywordPasses.Before(m, n), n);
    BeforeBound(m, k, n, j);
    assert Fails(Retry.Nth(replies, KeywordPasses.Before(m, n) + j));
  }

  /** A finished run read `KeywordPasses.Before(|keywords|, n)` replies,
      none raising. */
  lemma FinishedClean(keywords: seq<string>, n: nat, replies: seq<Reply>)
    requires Finished(keywords, n, replies)
    ensures Clean(replies, KeywordPasses.Before(|keywords|, n))
  {
    PassesClean(keywords, n, replies);
    CleanJoin(replies, |keywords|, n);
  }

  /** In a finished run no keyword's own replies raise. */
  lemma PassesClean(keywords: seq<string>, n: nat, replies: seq<Reply>)
    requires Finished(keywords, n, replies)
    ensures forall i :: 0 <= i < |keywords| ==> Clean(Retry.Drop(replies, KeywordPasses.Before(i, n)), n)
  {
    AllFull(keywords, n, replies);
    forall i | 0 <= i < |keywords|
      ensures Clean(Retry.Drop(replies, KeywordPasses.Before(i, n)), n)
    {
      PassClean(keywords, n, replies, i);
    }
  }

  /** The replies of `m` keywords of `n` years each are clean when each
      keyword's are. */
  lemma CleanJoin(replies: seq<Reply>, m: nat, n: nat)
    requires forall i :: 0 <= i < m ==> Clean(Retry.Drop(replies, KeywordPasses.Before(i, n)), n)
    ensures Clean(replies, KeywordPasses.Before(m, n))
  {
    forall p | 0 <= p < KeywordPasses.Before(m, n)
      ensures !Fails(Retry.Nth(replies, p))
    {
      var i, j := Split(p, m, n);
      CleanAt(replies, KeywordPasses.Before(i, n), n, j);
    }
  }

  /** The table is written exactly when none of the `|keywords| * n`
      replies raises. */
  lemma TabulateWritten(keywords: seq<string>, start: int, end: int, replies: seq<Reply>)
    ensures Tabulate(keywords, start, end, replies).Some? <==> Clean(replies, |keywords| * KeywordPasses.Years(start, end))
  {
    var n := KeywordPasses.Years(start, end);
    KeywordPasses.BeforeIsProduct(|keywords|, n);
    if Finished(keywords, n, replies) {
      FinishedClean(keywords, n, replies);
    } else {
      UnfinishedDirty(keywords, n, replies);
    }
  }

  /** Reply `KeywordPasses.Before(i, n) + j` of keyword `i`'s year `j` lies among the
      replies of the first `m` keywords when `i < m`. */
  lemma {:induction false} BeforeBound(i: nat, m: nat, n: nat, j: nat)
    requires i < m && j < n
    ensures KeywordPasses.Before(i, n) + j < KeywordPasses.Before(m, n)
    decreases m
  {
    if i + 1 < m {
      BeforeBound(i, m - 1, n, j);
    }
  }

  /** Reply `p` among those of the first `m` keywords is keyword `i`'s year
      `j`. */
  lemma {:induction false} Split(p: nat, m: nat, n: nat) returns (i: nat, j: nat)
    requires p < KeywordPasses.Before(m, n)
    ensures i < m && j < n && p == KeywordPasses.Before(i, n) + j
    decreases m
  {
    if p < KeywordPasses.Before(m - 1, n) {
      i, j := Split(p, m - 1, n);
    } else {
      i, j := m - 1, p - KeywordPasses.Before(m - 1, n);
    }
  }

  /** The reply keyword `i` reads for its year `j` when each keyword asks
      `n` years. */
  function YearReply(replies: seq<Reply>, n: nat, i: nat, j: nat): Reply {
    Retry.Nth(replies, i * n + j)
  }

  /** Keyword `i`'s year `j` as the run counts them: reply `KeywordPasses.Before(i, n) + j`. */
  function Asked(replies: seq<Reply>, n: nat, i: nat, j: nat): Reply {
    Retry.Nth(replies, KeywordPasses.Before(i, n) + j)
  }

  /** In a finished run, the last keyword `i` of its name leaves its years'
      answers in the grid. */
  lemma GridCells(keywords: seq<string>, start: int, n: nat, replies: seq<Reply>, i: nat)
    requires Finished(keywords, n, replies)
    requires i < |keywords|
    requires forall k :: i < k < |keywords| ==> keywords[k] != keywords[i]
    ensures forall j :: 0 <= j < n ==>
              && !Fails(Asked(replies, n, i, j))
              && Cell(Grid(start, Passes(keywords, n, replies)), start + j, keywords[i],
                      Answer(Asked(replies, n, i, j)))
  {
    var ps := Passes(keywords, n, replies);
    AllFull(keywords, n, replies);
    GridLast(start, ps, i);
    PassClean(keywords, n, replies, i);
    forall j | 0 <= j < n
      ensures !Fails(Asked(replies, n, i, j))
              && Cell(Grid(start, ps), start + j, keywords[i], Answer(Asked(replies, n, i, j)))
    {
      PassYear(keywords, n, replies, i, j);
      CleanAsked(replies, n, i, j);
    }
  }

  /** In a written table, the cell of keyword `keywords[i]` and year
      `start + j`, for the last `i` with that keyword, holds the answer of
      reply `i * n + j`. */
  lemma TabulateCells(keywords: seq<string>, start: int, end: int, replies: seq<Reply>, i: nat)
    requires Tabulate(keywords, start, end, replies).Some?
    requires i < |keywords|
    requires forall k :: i < k < |keywords| ==> keywords[k] != keywords[i]
    ensures forall j :: 0 <= j < KeywordPasses.Years(start, end) ==>
              && !Fails(YearReply(replies, KeywordPasses.Years(start, end), i, j))
              && Cell(Tabulate(keywords, start, end, replies).value.cells, start + j, keywords[i],
                      Answer(YearReply(replies, KeywordPasses.Years(start, end), i, j)))
  {
    var n := KeywordPasses.Years(start, end);
    TabulateGrid(keywords, start, end, replies);
    GridCells(keywords, start, n, replies, i);
    YearReplyAsked(replies, n, i);
  }

  lemma YearReplyAsked(replies: seq<Reply>, n: nat, i: nat)
    ensures forall j :: YearReply(replies, n, i, j) == Asked(replies, n, i, j)
  {
    KeywordPasses.BeforeIsProduct(i, n);
  }

  /** A written table's cells are the grid of a finished run. */
  lemma TabulateGrid(keywords: seq<string>, start: int, end: int, replies: seq<Reply>)
    requires Tabulate(keywords, start, end, replies).Some?
    ensures Finished(keywords, KeywordPasses.Years(start, end), replies)
    ensures Tabulate(keywords, start, end, replies).value.cells == Grid(start, Passes(keywords, KeywordPasses.Years(start, end), replies))
  {
  }

  /** A written table has a cell for every year and keyword, and no other. */
  lemma TabulateKeys(keywords: seq<string>, start: int, end: int, replies: seq<Reply>)
    requires Tabulate(keywords, start, end, replies).Some?
    ensures forall key :: key in Tabulate(keywords, start, end, replies).value.cells <==>
              key.1 in keywords && start <= key.0 <= end
  {
    var n := KeywordPasses.Years(start, end);
    AllFull(keywords, n, replies);
    GridKeys(start, Passes(keywords, n, replies), keywords, n);
  }

  /** The columns are the keywords as parsed, each once, in order of first
      appearance, and there are none without a year. */
  lemma TabulateColumns(keywords: seq<string>, start: int, end: int, replies: seq<Reply>)
    requires Tabulate(keywords, start, end, replies).Some?
    ensures var cols := Tabulate(keywords, start, end, replies).value.columns;
            && (forall k :: k in cols <==> k in keywords && start <= end)
            && (forall a, b :: 0 <= a < b < |cols| ==> cols[a] != cols[b])
    ensures forall j :: 0 <= j < |Tabulate(keywords, start, end, replies).value.columns| ==>
              Keywords.Ahead(keywords, Tabulate(keywords, start, end, replies).value.columns, j)
  {
    Keywords.FirstSeenOrder(keywords);
  }
}

=== FILE: harvest_log.dfy ===
/** What the Crossref chunk harvesters share: the request constants, a page
    fetched under the 60-attempt budget, the log of effects a run leaves and
    the functions that read the folder's state off it; for the two keyed
    harvesters (crossref_scraper_v102.py and crossref_scraper.py) also where
    a run starts, the total probe and the progress line.
    crossref_scraper_v100.py uses the constants, pages and effects only.

    The output folder of the keyed harvesters holds the chunk files
    `chunk_<n>.xlsx`, keyed here by `n` (`Names.ChunkIndexOfName` shows the
    key is what the resume logic reads back off the name), and the
    checkpoint `cursor.txt`; the combined export sits next to it. `R` is the
    row type of the script at hand. */
module HarvestLog {
  import opened Wrappers
  import Text
  import Ordering
  import Retry
  import Works

  const RowsPerRequest: nat := 500
  /** Attempts per page and the pause after each failed one, in seconds. */
  const Budget: nat := 60
  const Pause: nat := 5

  datatype Report = Percent(saved: nat, total: int) | Raw(saved: nat)

  datatype Effect<R> =
    | Fetched(cursor: string, waits: seq<nat>)
    | ChunkWritten(index: nat, rows: seq<R>)
    | CombinedWritten(rows: seq<R>)
    | CursorWritten(cursor: string)
    | Progress(report: Report)
    | Slept(seconds: nat)

  /** How the `while True` loop ended: an empty page, 60 failed attempts, or
      an exception outside any `try` (an item that cannot be indexed, a body
      that is not JSON, a reply without `next-cursor`). */
  datatype Stop = Completed | Failed | Crashed

  /** Where the harvest starts: the stripped checkpoint when resuming and one
      exists, the first page `*` otherwise. */
  function StartCursor(resume: bool, cursorFile: Option<string>): (cursor: string)
    ensures resume && cursorFile.Some? ==> cursor == Text.Strip(cursorFile.value)
    ensures !resume || cursorFile.None? ==> cursor == "*"
  {
    if resume && cursorFile.Some? then Text.Strip(cursorFile.value) else "*"
  }

  /** The `rows=0` request for `total-results`: any failure (exception, HTTP
      error status, undecodable body, missing key) leaves the total unknown
      and the harvest goes on. */
  function ProbeTotal(probe: Retry.Reply<Works.Message>): (total: Option<int>)
    ensures probe.Raised? ==> total.None?
    ensures probe.Response? && (400 <= probe.status < 600 || probe.body.None?) ==> total.None?
    ensures total.Some? ==> probe.Response? && probe.body.Some? && total == probe.body.value.totalResults
  {
    match probe
    case Raised => None
    case Response(status, body) =>
      if 400 <= status < 600 || body.None? then None else body.value.totalResults
  }

  /** Chunk number and saved count to start from: after the highest existing
      chunk when resuming, from 1 and 0 otherwise. */
  function FirstChunk<V>(resume: bool, chunks: map<nat, V>): (start: (nat, nat))
    ensures start.0 >= 1
    ensures !resume || chunks == map[] ==> start == (1, 0)
    ensures resume && chunks != map[] ==>
              && start.0 - 1 in chunks
              && (forall k :: k in chunks ==> k < start.0)
              && start.1 == (start.0 - 1) * RowsPerRequest
  {
    if resume && chunks != map[] then
      var keys: set<int> := chunks.Keys;
      var top := Ordering.Max(keys);
      (top + 1, top * RowsPerRequest)
    else (1, 0)
  }

  /** The progress line: a percentage only when the total is truthy. */
  function ReportFor(total: Option<int>, saved: nat): (r: Report)
    ensures r.saved == saved
    ensures r.Percent? <==> total.Some? && total.value != 0
    ensures r.Percent? ==> r.total == total.value
  {
    if total.Some? && total.value != 0 then Percent(saved, total.value) else Raw(saved)
  }

  /** One page request after its retry loop: the waits slept, the kept
      value (`None` once all 60 attempts failed) and what is left of the
      network. */
  datatype Page<T> = Page(waits: seq<nat>, value: Option<T>, rest: seq<Retry.Reply<Works.Message>>)

  /** The shape every fetched page has: at most 60 failed attempts, each
      followed by the 5-second pause, and no value exactly when all failed. */
  predicate Paced<T>(page: Page<T>) {
    && |page.waits| <= Budget
    && (forall k :: 0 <= k < |page.waits| ==> page.waits[k] == Pause)
    && (page.value.None? <==> |page.waits| == Budget)
  }

  /** The `for attempt in range(60)` loop around one page request, with a
      `judge` that either keeps a reply or sleeps 5 seconds and retries. */
  function FetchPage<T>(replies: seq<Retry.Reply<Works.Message>>,
                        judge: (Retry.Reply<Works.Message>, nat) -> Retry.Verdict<T>): (page: Page<T>)
    requires forall r, a :: judge(r, a).Accept? || judge(r, a) == Retry.Backoff(Pause)
    requires forall a :: judge(Retry.Raised, a).Backoff?
    ensures Paced(page)
    ensures page.value.Some? ==> |page.rest| < |replies|
    ensures page.value.Some? ==> judge(Retry.Nth(replies, |page.waits|), |page.waits|) == Retry.Accept(page.value.value)
    ensures forall k :: 0 <= k < |page.waits| ==> judge(Retry.Nth(replies, k), k).Backoff?
  {
    var t := Retry.Attempts(replies, 0, Budget, judge);
    PacedAttempts(replies, judge);
    Page(t.waits, if t.outcome.Accepted? then Some(t.outcome.value) else None, t.rest)
  }

  /** A loop whose judge only keeps or pauses 5 seconds either accepts a
      reply it really received, after backing off on every earlier one, or
      backs off 60 times. */
  lemma PacedAttempts<T>(replies: seq<Retry.Reply<Works.Message>>,
                         judge: (Retry.Reply<Works.Message>, nat) -> Retry.Verdict<T>)
    requires forall r, a :: judge(r, a).Accept? || judge(r, a) == Retry.Backoff(Pause)
    requires forall a :: judge(Retry.Raised, a).Backoff?
    ensures var t := Retry.Attempts(replies, 0, Budget, judge);
            && |t.waits| <= Budget
            && (forall k :: 0 <= k < |t.waits| ==> t.waits[k] == Pause && judge(Retry.Nth(replies, k), k).Backoff?)
            && (t.outcome.Exhausted? <==> |t.waits| == Budget)
            && (!t.outcome.Exhausted? ==>
                  && t.outcome.Accepted? && |t.rest| < |replies|
                  && judge(Retry.Nth(replies, |t.waits|), |t.waits|) == Retry.Accept(t.outcome.value))
  {
    var t := Retry.Attempts(replies, 0, Budget, judge);
    Retry.SettledOnReply(replies, 0, Budget, judge);
    Retry.AttemptsVerdicts(replies, 0, Budget, judge);
    forall k | 0 <= k < |t.waits|
      ensures t.waits[k] == Pause && judge(Retry.Nth(replies, k), k).Backoff?
    {
      assert judge(Retry.Nth(replies, k), 0 + k) == Retry.Backoff(t.waits[k]);
    }
  }

  // ---------------------------------------------------------------------
  // Reading the network without the loop

  /** A reply the judge kept, and the attempt it came on. */
  datatype Kept<T> = Kept(attempt: nat, value: T)

  /** The first of attempts `k` to 59 whose reply `judge` keeps. */
  function FirstKept<T>(replies: seq<Retry.Reply<Works.Message>>,
                        judge: (Retry.Reply<Works.Message>, nat) -> Retry.Verdict<T>, k: nat): (first: Option<Kept<T>>)
    ensures first.Some? ==>
              && k <= first.value.attempt < Budget
              && judge(Retry.Nth(replies, first.value.attempt), first.value.attempt) == Retry.Accept(first.value.value)
    decreases Budget - k
  {
    if k >= Budget then None
    else
      match judge(Retry.Nth(replies, k), k)
      case Accept(v) => Some(Kept(k, v))
      case _ => FirstKept(replies, judge, k + 1)
  }

  /** The search passes over no kept reply: every attempt before the one it
      finds is rejected, and when it finds none, all of them are. */
  lemma {:induction false} FirstKeptSkips<T>(replies: seq<Retry.Reply<Works.Message>>,
                                             judge: (Retry.Reply<Works.Message>, nat) -> Retry.Verdict<T>, k: nat)
    ensures var first := FirstKept(replies, judge, k);
            && (first.Some? ==> forall j :: k <= j < first.value.attempt ==> !judge(Retry.Nth(replies, j), j).Accept?)
            && (first.None? ==> forall j :: k <= j < Budget ==> !judge(Retry.Nth(replies, j), j).Accept?)
    decreases Budget - k
  {
    if k < Budget && !judge(Retry.Nth(replies, k), k).Accept? {
      FirstKeptSkips(replies, judge, k + 1);
    }
  }

  /** A reply the judge keeps is one the stub really holds when the judge
      retries an exception. */
  lemma KeptInStub<T>(replies: seq<Retry.Reply<Works.Message>>,
                      judge: (Retry.Reply<Works.Message>, nat) -> Retry.Verdict<T>, k: nat)
    requires forall a :: judge(Retry.Raised, a).Backoff?
    ensures FirstKept(replies, judge, k).Some? ==> FirstKept(replies, judge, k).value.attempt < |replies|
  {
    var first := FirstKept(replies, judge, k);
    if first.Some? && first.value.attempt >= |replies| {
      assert false;
    }
  }

  /** The 60-attempt loop keeps the first reply its judge keeps: it backs
      off once per earlier attempt, fails exactly when none of the next 60
      replies is kept, and leaves the stub right after the kept one. */
  lemma AttemptsKeepFirst<T>(replies: seq<Retry.Reply<Works.Message>>,
                             judge: (Retry.Reply<Works.Message>, nat) -> Retry.Verdict<T>)
    requires forall r, a :: judge(r, a).Accept? || judge(r, a) == Retry.Backoff(Pause)
    requires forall a :: judge(Retry.Raised, a).Backoff?
    ensures var t := Retry.Attempts(replies, 0, Budget, judge);
            match FirstKept(replies, judge, 0)
            case None => t.outcome.Exhausted?
            case Some(kept) =>
              && |t.waits| == kept.attempt
              && t.outcome == Retry.Accepted(kept.value)
              && t.rest == Retry.Drop(replies, kept.attempt + 1)
  {
    var t := Retry.Attempts(replies, 0, Budget, judge);
    PacedAttempts(replies, judge);
    FirstKeptSkips(replies, judge, 0);
    var first := FirstKept(replies, judge, 0);
    if !t.outcome.Exhausted? {
      if first.None? || first.value.attempt != |t.waits| {
        assert false;
      }
    } else if first.Some? {
      assert false;
    }
  }

  /** The same for a page fetched with `FetchPage`. */
  lemma FetchKeepsFirst<T>(replies: seq<Retry.Reply<Works.Message>>,
                           judge: (Retry.Reply<Works.Message>, nat) -> Retry.Verdict<T>)
    requires forall r, a :: judge(r, a).Accept? || judge(r, a) == Retry.Backoff(Pause)
    requires forall a :: judge(Retry.Raised, a).Backoff?
    ensures var page := FetchPage(replies, judge);
            match FirstKept(replies, judge, 0)
            case None => page.value.None?
            case Some(kept) =>
              && |page.waits| == kept.attempt
              && page.value == Some(kept.value)
              && page.rest == Retry.Drop(replies, kept.attempt + 1)
  {
    AttemptsKeepFirst(replies, judge);
  }

  /** How the reading of the network ended: 60 replies in a row not kept, a
      kept reply whose body is not JSON, or the last page read. */
  datatype Ending = Exhausted | Undecodable | Last(page: Works.Message)

  /** The pages a harvest reads, read off the network alone: the pages it
      went on from, how the reading ended, and the rows of every page whose
      chunk is written. */
  datatype Reading<R> = Reading(saved: seq<Works.Message>, ending: Ending, rows: seq<R>)

  /** How a run that read up to `ending` stops: it fails after 60 failed
      attempts, completes on an empty page and crashes otherwise. */
  function StopOf(ending: Ending): (stop: Stop)
    ensures stop.Failed? <==> ending.Exhausted?
    ensures stop.Completed? <==> ending.Last? && ending.page.items == []
  {
    match ending
    case Exhausted => Failed
    case Undecodable => Crashed
    case Last(page) => if page.items == [] then Completed else Crashed
  }

  /** The `next-cursor` of each page, in order. */
  function Nexts(pages: seq<Works.Message>): (cursors: seq<string>)
    ensures |cursors| == |pages|
    ensures forall i :: 0 <= i < |pages| && pages[i].nextCursor.Some? ==> cursors[i] == pages[i].nextCursor.value
  {
    if |pages| == 0 then [] else [pages[0].nextCursor.GetOr("")] + Nexts(pages[1..])
  }

  // ---------------------------------------------------------------------
  // Reading a log

  /** The rows of every chunk written, in writing order. */
  function ChunkRows<R>(log: seq<Effect<R>>): seq<R> {
    if |log| == 0 then []
    else (if log[0].ChunkWritten? then log[0].rows else []) + ChunkRows(log[1..])
  }

  /** The chunk indices written, in writing order. */
  function ChunkIndices<R>(log: seq<Effect<R>>): seq<nat> {
    if |log| == 0 then []
    else (if log[0].ChunkWritten? then [log[0].index] else []) + ChunkIndices(log[1..])
  }

  /** The cursor of every page request, in order. */
  function Requested<R>(log: seq<Effect<R>>): seq<string> {
    if |log| == 0 then []
    else (if log[0].Fetched? then [log[0].cursor] else []) + Requested(log[1..])
  }

  /** The cursor of every checkpoint written, in order. */
  function Checkpoints<R>(log: seq<Effect<R>>): seq<string> {
    if |log| == 0 then []
    else (if log[0].CursorWritten? then [log[0].cursor] else []) + Checkpoints(log[1..])
  }

  /** The chunk files as the log leaves them (a later write wins). */
  function ChunksOf<R>(log: seq<Effect<R>>): map<nat, seq<R>> {
    if |log| == 0 then map[]
    else if log[0].ChunkWritten? then map[log[0].index := log[0].rows] + ChunksOf(log[1..])
    else ChunksOf(log[1..])
  }

  /** The checkpoint as the log leaves it, starting from `prior`. */
  function LastCheckpoint<R>(log: seq<Effect<R>>, prior: Option<string>): Option<string> {
    if |log| == 0 then prior
    else LastCheckpoint(log[1..], if log[0].CursorWritten? then Some(log[0].cursor) else prior)
  }

  /** The last progress line of the log, `prior` if it printed none. */
  function LastReport<R>(log: seq<Effect<R>>, prior: Option<Report>): Option<Report> {
    if |log| == 0 then prior
    else LastReport(log[1..], if log[0].Progress? then Some(log[0].report) else prior)
  }

  lemma {:induction false} RowsAppend<R>(a: seq<Effect<R>>, b: seq<Effect<R>>)
    ensures ChunkRows(a + b) == ChunkRows(a) + ChunkRows(b)
    decreases |a|
  {
    if |a| == 0 {
      assert a + b == b;
    } else {
      assert (a + b)[1..] == a[1..] + b;
      RowsAppend(a[1..], b);
    }
  }

  lemma {:induction false} IndicesAppend<R>(a: seq<Effect<R>>, b: seq<Effect<R>>)
    ensures ChunkIndices(a + b) == ChunkIndices(a) + ChunkIndices(b)
    decreases |a|
  {
    if |a| == 0 {
      assert a + b == b;
    } else {
      assert (a + b)[1..] == a[1..] + b;
      IndicesAppend(a[1..], b);
    }
  }

  lemma RequestedAppend<R>(a: seq<Effect<R>>, b: seq<Effect<R>>)
    ensures Requested(a + b) == Requested(a) + Requested(b)
    ensures Checkpoints(a + b) == Checkpoints(a) + Checkpoints(b)
  {
    RequestsAppend(a, b);
    CheckpointsAppend(a, b);
  }

  lemma {:induction false} RequestsAppend<R>(a: seq<Effect<R>>, b: seq<Effect<R>>)
    ensures Requested(a + b) == Requested(a) + Requested(b)
    decreases |a|
  {
    if |a| == 0 {
      assert a + b == b;
    } else {
      assert (a + b)[1..] == a[1..] + b;
      RequestsAppend(a[1..], b);
    }
  }

  lemma {:induction false} CheckpointsAppend<R>(a: seq<Effect<R>>, b: seq<Effect<R>>)
    ensures Checkpoints(a + b) == Checkpoints(a) + Checkpoints(b)
    decreases |a|
  {
    if |a| == 0 {
      assert a + b == b;
    } else {
      assert (a + b)[1..] == a[1..] + b;
      CheckpointsAppend(a[1..], b);
    }
  }

  lemma {:induction false} ChunksAppend<R>(a: seq<Effect<R>>, b: seq<Effect<R>>)
    ensures ChunksOf(a + b) == ChunksOf(a) + ChunksOf(b)
    decreases |a|
  {
    if |a| == 0 {
      assert a + b == b;
    } else {
      assert (a + b)[0] == a[0];
      assert (a + b)[1..] == a[1..] + b;
      ChunksAppend(a[1..], b);
      if a[0].ChunkWritten? {
        var m := map[a[0].index := a[0].rows];
        assert m + (ChunksOf(a[1..]) + ChunksOf(b)) == (m + ChunksOf(a[1..])) + ChunksOf(b);
      }
    }
  }

  lemma {:induction false} CheckpointAppend<R>(a: seq<Effect<R>>, b: seq<Effect<R>>, prior: Option<string>)
    ensures LastCheckpoint(a + b, prior) == LastCheckpoint(b, LastCheckpoint(a, prior))
    decreases |a|
  {
    if |a| == 0 {
      assert a + b == b;
    } else {
      assert (a + b)[0] == a[0];
      assert (a + b)[1..] == a[1..] + b;
      CheckpointAppend(a[1..], b, if a[0].CursorWritten? then Some(a[0].cursor) else prior);
    }
  }

  lemma {:induction false} ReportAppend<R>(a: seq<Effect<R>>, b: seq<Effect<R>>, prior: Option<Report>)
    ensures LastReport(a + b, prior) == LastReport(b, LastReport(a, prior))
    decreases |a|
  {
    if |a| == 0 {
      assert a + b == b;
    } else {
      assert (a + b)[0] == a[0];
      assert (a + b)[1..] == a[1..] + b;
      ReportAppend(a[1..], b, if a[0].Progress? then Some(a[0].report) else prior);
    }
  }

  lemma ReportCons<R>(e: Effect<R>, rest: seq<Effect<R>>, prior: Option<Report>)
    ensures LastReport([e] + rest, prior) == LastReport(rest, if e.Progress? then Some(e.report) else prior)
  {
    assert ([e] + rest)[0] == e;
    assert ([e] + rest)[1..] == rest;
  }

  /** Each reading, one effect at a time. */
  lemma ReadingCons<R>(e: Effect<R>, rest: seq<Effect<R>>, prior: Option<string>)
    ensures ChunkRows([e] + rest) == (if e.ChunkWritten? then e.rows else []) + ChunkRows(rest)
    ensures ChunkIndices([e] + rest) == (if e.ChunkWritten? then [e.index] else []) + ChunkIndices(rest)
    ensures ChunksOf([e] + rest) == if e.ChunkWritten? then map[e.index := e.rows] + ChunksOf(rest) else ChunksOf(rest)
    ensures LastCheckpoint([e] + rest, prior) == LastCheckpoint(rest, if e.CursorWritten? then Some(e.cursor) else prior)
    ensures Requested([e] + rest) == (if e.Fetched? then [e.cursor] else []) + Requested(rest)
    ensures Checkpoints([e] + rest) == (if e.CursorWritten? then [e.cursor] else []) + Checkpoints(rest)
  {
    assert ([e] + rest)[0] == e;
    assert ([e] + rest)[1..] == rest;
  }

  /** A fetch alone writes nothing. */
  lemma ReadingFetch<R>(log: seq<Effect<R>>, prior: Option<string>)
    requires |log| == 1 && log[0].Fetched?
    ensures ChunkRows(log) == [] && ChunkIndices(log) == [] && ChunksOf(log) == map[]
    ensures LastCheckpoint(log, prior) == prior
    ensures Requested(log) == [log[0].cursor] && Checkpoints(log) == []
  {
    assert log == [log[0]] + [];
    ReadingCons(log[0], [], prior);
  }

  /** A fetch followed by a chunk write, and perhaps a pause. */
  lemma ReadingChunk<R>(log: seq<Effect<R>>)
    requires 2 <= |log| <= 3 && log[0].Fetched? && log[1].ChunkWritten?
    requires |log| == 3 ==> log[2].Slept?
    ensures ChunkRows(log) == log[1].rows
    ensures Requested(log) == [log[0].cursor] && Checkpoints(log) == []
  {
    var tail := log[2..];
    assert log == [log[0]] + ([log[1]] + tail);
    if |log| == 3 {
      assert tail == [log[2]] + [];
      ReadingCons(log[2], [], None);
    }
    ReadingCons(log[1], tail, None);
    ReadingCons(log[0], [log[1]] + tail, None);
  }

  /** The log of a turn that fetches, may write a chunk and may then sleep,
      read back: its one request, no checkpoint and the rows of its chunk. */
  lemma ReadingTurn<R>(log: seq<Effect<R>>)
    requires 1 <= |log| <= 3 && log[0].Fetched?
    requires |log| >= 2 ==> log[1].ChunkWritten?
    requires |log| == 3 ==> log[2].Slept?
    ensures ChunkRows(log) == if |log| >= 2 then log[1].rows else []
    ensures Requested(log) == [log[0].cursor] && Checkpoints(log) == []
  {
    if |log| == 1 {
      ReadingFetch(log, None);
    } else {
      ReadingChunk(log);
    }
  }

  /** Once a checkpoint is written, the prior value no longer matters. */
  lemma {:induction false} LastCheckpointSome<R>(log: seq<Effect<R>>, prior: Option<string>)
    ensures LastCheckpoint(log, None).Some? ==> LastCheckpoint(log, prior) == LastCheckpoint(log, None)
    ensures LastCheckpoint(log, None).None? ==> LastCheckpoint(log, prior) == prior
    decreases |log|
  {
    if |log| > 0 {
      if log[0].CursorWritten? {
        LastCheckpointSome(log[1..], Some(log[0].cursor));
        LastCheckpointSome(log[1..], prior);
      } else {
        LastCheckpointSome(log[1..], prior);
      }
    }
  }

  /** Every index written is a key of the chunks the log leaves. */
  lemma {:induction false} ChunksWrittenIndexed<R>(log: seq<Effect<R>>)
    ensures forall j :: 0 <= j < |ChunkIndices(log)| ==> ChunkIndices(log)[j] in ChunksOf(log)
    decreases |log|
  {
    if |log| > 0 {
      ChunksWrittenIndexed(log[1..]);
    }
  }

  lemma MergeUpdate<V>(m: map<nat, V>, k: nat, v: V, x: map<nat, V>)
    ensures m[k := v] + x == m + (map[k := v] + x)
  {
  }

  lemma ExtendTwice<R>(prior: seq<R>, rows: seq<R>, later: seq<R>)
    ensures (if later == [] then Some(prior + rows) else Some(prior + rows + later))
            == Some(prior + (rows + later))
  {
    if later == [] {
      assert rows + later == rows;
    } else {
      assert prior + rows + later == prior + (rows + later);
    }
  }

  // ---------------------------------------------------------------------
  // Induction along the page loop

  /** A fact about the states of a page loop holds from every state once it
      holds wherever the loop stops, and carries back from the state a saved
      page goes on with to the state before it; `left` (the network still
      unread) shrinks at every saved page. */
  lemma {:induction false} AlongPages<S>(s: S, left: S -> nat, next: S -> Option<S>, holds: S -> bool)
    requires forall t :: next(t).None? ==> holds(t)
    requires forall t :: next(t).Some? ==> left(next(t).value) < left(t) && (holds(next(t).value) ==> holds(t))
    ensures holds(s)
    decreases left(s)
  {
    if next(s).Some? {
      AlongPages(next(s).value, left, next, holds);
    }
  }
}

=== FILE: harvest_main.dfy ===
/** crossref_scraper.py: `fetch_crossref_data`, the resumable cursor harvest.

    Unlike crossref_scraper_v102.py it always resumes (from `cursor.txt` when
    present and after the highest chunk on disk), it rebuilds the combined
    export from the chunk files after every page, skipping files it cannot
    read, and it pauses 1, 6 or 11 seconds between pages. Decoding the body
    happens outside the retry `try`, so a body that is not JSON crashes the
    run instead of being retried.

    The script lists the chunk files with `sorted(glob(...))`, which orders
    `chunk_10.xlsx` before `chunk_2.xlsx`; `MergeByName` models that listing
    and `NameOrderMisplacesTen` shows the misordering, while the harvest
    below merges in chunk-number order (`MergeNumeric`), which is what the
    combined export is evidently meant to hold. */
module HarvestMain {
  import opened Wrappers
  import Text
  import Retry
  import Works
  import Names
  import opened HarvestLog

  type Row = Works.RowMain

  /** A chunk file as `pd.read_excel` sees it. */
  datatype ChunkFile = Readable(rows: seq<Row>) | Unreadable

  datatype Store = Store(chunks: map<nat, ChunkFile>,
                         combined: Option<seq<Row>>,
                         cursorFile: Option<string>)

  datatype Run = Run(stop: Stop, store: Store, log: seq<Effect<Row>>)

  // ---------------------------------------------------------------------
  // Rebuilding the combined export

  function RowsAt(files: map<nat, ChunkFile>, k: nat): seq<Row> {
    if k in files && files[k].Readable? then files[k].rows else []
  }

  predicate AnyReadable(files: map<nat, ChunkFile>) {
    exists k :: k in files && files[k].Readable?
  }

  /** The readable chunks numbered below `k`, in number order. */
  function Collect(files: map<nat, ChunkFile>, k: nat): seq<Row>
    decreases k
  {
    if k == 0 then [] else Collect(files, k - 1) + RowsAt(files, k - 1)
  }

  /** `maj_fichier_combine` with the chunks taken in number order: the
      concatenation of every readable chunk, or nothing written when no
      chunk can be read. */
  function MergeNumeric(files: map<nat, ChunkFile>): (merged: Option<seq<Row>>)
    ensures merged.Some? <==> AnyReadable(files)
  {
    if AnyReadable(files) then Some(Collect(files, FirstChunk(true, files).0)) else None
  }

  lemma CollectStep(files: map<nat, ChunkFile>, k: nat)
    requires k > 0
    ensures Collect(files, k) == Collect(files, k - 1) + RowsAt(files, k - 1)
  {
  }

  /** Chunk numbers from `j` up to `k` hold nothing readable: collecting up to
      either gives the same rows. */
  lemma {:induction false} CollectGap(files: map<nat, ChunkFile>, j: nat, k: nat)
    requires j <= k
    requires forall i: nat :: j <= i < k ==> RowsAt(files, i) == []
    ensures Collect(files, k) == Collect(files, j)
    decreases k
  {
    if j < k {
      CollectGap(files, j, k - 1);
    }
  }

  /** Collecting below `k` looks only at chunks below `k`. */
  lemma {:induction false} CollectAgree(a: map<nat, ChunkFile>, b: map<nat, ChunkFile>, k: nat)
    requires forall i: nat :: i < k ==> RowsAt(a, i) == RowsAt(b, i)
    ensures Collect(a, k) == Collect(b, k)
    decreases k
  {
    if k > 0 {
      CollectAgree(a, b, k - 1);
    }
  }

  /** Writing a readable chunk above every existing one appends its rows to
      the merged export: the export lists the pages in the order they were
      fetched. */
  lemma MergeAppend(files: map<nat, ChunkFile>, n: nat, rows: seq<Row>)
    requires forall k :: k in files ==> k < n
    ensures MergeNumeric(files[n := Readable(rows)]) == Some(MergeNumeric(files).GetOr([]) + rows)
  {
    var after := files[n := Readable(rows)];
    var top := FirstChunk(true, files).0;
    assert n in after && forall k :: k in after ==> k <= n;
    assert FirstChunk(true, after).0 == n + 1;
    assert after[n].Readable?;
    CollectAgree(after, files, n);
    if AnyReadable(files) {
      var k :| k in files && files[k].Readable?;
      assert top <= n;
      CollectGap(files, top, n);
    } else {
      CollectGap(files, 0, n);
    }
  }

  /** A highest chunk that cannot be read is as good as absent. */
  lemma UnreadableSkipped(files: map<nat, ChunkFile>, k: nat)
    requires k in files && files[k].Readable?
    requires forall j :: j in files ==> j <= k
    ensures MergeNumeric(files[k := Unreadable]) ==
              if AnyReadable(files - {k}) then MergeNumeric(files - {k}) else None
  {
    var after := files[k := Unreadable];
    var gone := files - {k};
    assert k in after && forall j :: j in after ==> j <= k;
    assert FirstChunk(true, after).0 == k + 1;
    assert forall j :: j in gone ==> j < k;
    if AnyReadable(after) {
      var j :| j in after && after[j].Readable?;
      assert j in gone && gone[j].Readable?;
    }
    if AnyReadable(gone) {
      var j :| j in gone && gone[j].Readable?;
      assert j in after && after[j].Readable?;
    }
    CollectAgree(after, gone, k + 1);
    if AnyReadable(gone) {
      var j :| j in gone && gone[j].Readable?;
      CollectGap(gone, FirstChunk(true, gone).0, k + 1);
    }
  }

  // ---------------------------------------------------------------------
  // The listing as written: `sorted` on the file names

  /** A chunk whose name sorts first, as a witness. */
  lemma {:induction false} FirstByName(keys: set<nat>) returns (m: nat)
    requires keys != {}
    ensures m in keys && forall y :: y in keys ==> Text.LexLe(Names.ChunkName(m), Names.ChunkName(y))
    decreases |keys|
  {
    var x :| x in keys;
    if keys == {x} {
      m := x;
      Text.LexLeTotal(Names.ChunkName(x), Names.ChunkName(x));
    } else {
      var rest := keys - {x};
      assert rest < keys;
      var first := FirstByName(rest);
      Text.LexLeTotal(Names.ChunkName(x), Names.ChunkName(first));
      m := if Text.LexLe(Names.ChunkName(x), Names.ChunkName(first)) then x else first;
      forall y | y in keys
        ensures Text.LexLe(Names.ChunkName(m), Names.ChunkName(y))
      {
        if y == x {
          Text.LexLeTotal(Names.ChunkName(x), Names.ChunkName(x));
        } else {
          assert y in rest;
          if m == x {
            Text.LexLeTransitive(Names.ChunkName(x), Names.ChunkName(first), Names.ChunkName(y));
          }
        }
      }
    }
  }

  predicate NamedFirst(keys: set<nat>, m: nat) {
    m in keys && forall y :: y in keys ==> Text.LexLe(Names.ChunkName(m), Names.ChunkName(y))
  }

  lemma HasFirstByName(keys: set<nat>)
    requires keys != {}
    ensures exists m :: NamedFirst(keys, m)
  {
    var m := FirstByName(keys);
    assert NamedFirst(keys, m);
  }

  /** Every chunk once, names in ascending string order. */
  predicate ListedByName(order: seq<nat>) {
    forall i, j :: 0 <= i < j < |order| ==>
      order[i] != order[j] && Text.LexLe(Names.ChunkName(order[i]), Names.ChunkName(order[j]))
  }

  lemma ListedCons(keys: set<nat>, m: nat, rest: seq<nat>)
    requires NamedFirst(keys, m)
    requires forall x :: x in rest <==> x in keys - {m}
    requires ListedByName(rest)
    ensures ListedByName([m] + rest)
  {
    var order := [m] + rest;
    forall i, j | 0 <= i < j < |order|
      ensures order[i] != order[j] && Text.LexLe(Names.ChunkName(order[i]), Names.ChunkName(order[j]))
    {
      assert order[j] == rest[j - 1];
      if i > 0 {
        assert order[i] == rest[i - 1];
      } else {
        assert rest[j - 1] in keys - {m};
      }
    }
  }

  /** `sorted(glob("chunk_*.xlsx"))`. */
  ghost function ByName(keys: set<nat>): (order: seq<nat>)
    ensures |order| == |keys|
    ensures forall x :: x in order <==> x in keys
    ensures ListedByName(order)
    decreases |keys|
  {
    if keys == {} then []
    else
      HasFirstByName(keys);
      var m :| NamedFirst(keys, m);
      var rest := ByName(keys - {m});
      assert |keys - {m}| == |keys| - 1;
      ListedCons(keys, m, rest);
      [m] + rest
  }

  /** The rows of the readable chunks in the listed order. */
  function Concat(files: map<nat, ChunkFile>, order: seq<nat>): seq<Row> {
    if |order| == 0 then [] else RowsAt(files, order[0]) + Concat(files, order[1..])
  }

  /** `maj_fichier_combine` as written: the chunks in file-name order. */
  ghost function MergeByName(files: map<nat, ChunkFile>): (merged: Option<seq<Row>>)
    ensures merged.Some? <==> AnyReadable(files)
  {
    if AnyReadable(files) then Some(Concat(files, ByName(files.Keys))) else None
  }

  lemma TenSortsBeforeTwo()
    ensures Text.LexLe(Names.ChunkName(10), Names.ChunkName(2))
    ensures !Text.LexLe(Names.ChunkName(2), Names.ChunkName(10))
  {
    assert Text.NatToString(1) == "1";
    assert Text.NatToString(10) == "1" + [Text.DigitChar(0)] == "10";
    assert Text.NatToString(2) == "2";
    Text.LexLeCommonPrefix("chunk_", "10.xlsx", "2.xlsx");
    Text.LexLeCommonPrefix("chunk_", "2.xlsx", "10.xlsx");
  }

  /** As written, whenever chunks 2 and 10 are both on disk (every run that
      reaches ten pages) chunk 10 is listed before chunk 2, so its rows come
      before chunk 2's in the combined export. */
  lemma NameOrderMisplacesTen(keys: set<nat>)
    requires 2 in keys && 10 in keys
    ensures exists i, j :: 0 <= i < j < |ByName(keys)| && ByName(keys)[i] == 10 && ByName(keys)[j] == 2
  {
    var order := ByName(keys);
    var i :| 0 <= i < |order| && order[i] == 10;
    var j :| 0 <= j < |order| && order[j] == 2;
    TenSortsBeforeTwo();
    if j < i {
      assert false;
    }
  }

  lemma ListingTwoTen()
    ensures ByName({2, 10}) == [10, 2]
  {
    var order := ByName({2, 10});
    NameOrderMisplacesTen({2, 10});
    assert |order| == 2;
  }

  /** The smallest case: with two one-row chunks 2 and 10 the name order
      yields chunk 10's row first, the number order chunk 2's. */
  lemma NameOrderExample(a: Row, b: Row)
    ensures var files := map[2 := Readable([a]), 10 := Readable([b])];
            && MergeByName(files) == Some([b, a])
            && MergeNumeric(files) == Some([a, b])
  {
    NameOrderExampleListed(a, b);
    NameOrderExampleNumbered(a, b);
  }

  lemma NameOrderExampleListed(a: Row, b: Row)
    ensures MergeByName(map[2 := Readable([a]), 10 := Readable([b])]) == Some([b, a])
  {
    var files := map[2 := Readable([a]), 10 := Readable([b])];
    assert files.Keys == {2, 10};
    assert 2 in files && files[2].Readable?;
    ListingTwoTen();
    assert Concat(files, [2]) == [a] + Concat(files, []);
    assert Concat(files, [10, 2]) == [b] + Concat(files, [2]);
    assert ByName(files.Keys) == [10, 2];
    assert MergeByName(files) == Some(Concat(files, [10, 2]));
    assert [b] + ([a] + []) == [b, a];
  }

  lemma NameOrderExampleNumbered(a: Row, b: Row)
    ensures MergeNumeric(map[2 := Readable([a]), 10 := Readable([b])]) == Some([a, b])
  {
    var files := map[2 := Readable([a]), 10 := Readable([b])];
    assert 2 in files && files[2].Readable?;
    var top := FirstChunk(true, files).0;
    assert top == 11 by {
      assert 10 in files && forall k :: k in files ==> k <= 10;
    }
    CollectStep(files, top);
    CollectGap(files, 3, top - 1);
    CollectStep(files, 3);
    CollectGap(files, 0, 2);
    assert RowsAt(files, 2) == [a] && RowsAt(files, 10) == [b];
    assert Collect(files, 0) == [];
    assert Collect(files, top) == [a] + [b] == [a, b];
    assert MergeNumeric(files) == Some(Collect(files, top));
  }

  // ---------------------------------------------------------------------
  // The page loop

  /** The pause after saving a page, computed from the incremented chunk
      number: 1, 6 or 11 seconds. */
  function PauseAfter(next: nat): (seconds: nat)
    ensures seconds == 1 || seconds == 6 || seconds == 11
    ensures seconds == 1 <==> next % 3 == 0
  {
    1 + 5 * (next % 3)
  }

  /** One attempt: an exception in the request or an HTTP error status
      (`raise_for_status`) sleeps and retries; any other reply is kept,
      body undecoded. */
  function Judge(reply: Retry.Reply<Works.Message>, attempt: nat): (v: Retry.Verdict<Option<Works.Message>>)
    ensures v.Backoff? ==> v.wait == Pause
    ensures v.Accept? <==> reply.Response? && !(400 <= reply.status < 600)
    ensures v.Accept? ==> v.value == reply.body
    ensures v.Accept? || v.Backoff?
  {
    match reply
    case Raised => Retry.Backoff(Pause)
    case Response(status, body) =>
      if 400 <= status < 600 then Retry.Backoff(Pause) else Retry.Accept(body)
  }

  /** The order of effects a harvest from chunk `n`, saved count `count` and
      `cursor` performs: every page starts with a fetch of at most 60
      attempts sent with the current cursor; a saved page writes chunk `n`,
      rebuilds the combined export, reports the count grown by the page's
      rows, writes the checkpoint and pauses, and the next page uses the new
      cursor and chunk `n + 1`. The run ends on a lone fetch (empty page,
      exhausted attempts, undecodable body, unreadable item) or crashes
      after the report when the reply has no next cursor. */
  predicate Protocol(log: seq<Effect<Row>>, n: nat, count: nat, cursor: string, total: Option<int>, stop: Stop)
    decreases |log|
  {
    && |log| >= 1
    && log[0].Fetched? && log[0].cursor == cursor
    && |log[0].waits| <= Budget
    && (forall k :: 0 <= k < |log[0].waits| ==> log[0].waits[k] == Pause)
    && (|log| == 1 || |log| == 4 || |log| >= 7)
    && (|log| == 1 ==> (stop.Failed? <==> |log[0].waits| == Budget))
    && (|log| > 1 ==>
          && |log[0].waits| < Budget
          && log[1].ChunkWritten? && log[1].index == n && log[1].rows != []
          && log[2].CombinedWritten?
          && log[3] == Progress(ReportFor(total, count + |log[1].rows|))
          && (|log| == 4 ==> stop.Crashed?)
          && (|log| >= 7 ==>
                && log[4].CursorWritten?
                && log[5] == Slept(PauseAfter(n + 1))
                && Protocol(log[6..], n + 1, count + |log[1].rows|, log[4].cursor, total, stop)))
  }

  /** A page request that got a usable reply: sent with `cursor`, after
      fewer than 60 failed attempts, each followed by the 5-second pause. */
  predicate FetchedWith(e: Effect<Row>, cursor: string) {
    && e.Fetched? && e.cursor == cursor && |e.waits| < Budget
    && forall k :: 0 <= k < |e.waits| ==> e.waits[k] == Pause
  }

  /** The six effects of a saved page, in the order the script performs
      them. */
  function Block(fetched: Effect<Row>, n: nat, rows: seq<Row>, merged: seq<Row>, report: Report,
                 next: string): seq<Effect<Row>> {
    [fetched, ChunkWritten(n, rows), CombinedWritten(merged), Progress(report), CursorWritten(next),
     Slept(PauseAfter(n + 1))]
  }

  /** A saved page followed by a run from the next chunk is a run. */
  lemma ProtocolCons(run: Run, fetched: Effect<Row>, n: nat, rows: seq<Row>, merged: seq<Row>, count: nat,
                     cursor: string, total: Option<int>, next: string, rest: Run)
    requires FetchedWith(fetched, cursor) && rows != []
    requires Protocol(rest.log, n + 1, count + |rows|, next, total, rest.stop)
    requires run == Run(rest.stop, rest.store,
                        Block(fetched, n, rows, merged, ReportFor(total, count + |rows|), next) + rest.log)
    ensures Protocol(run.log, n, count, cursor, total, run.stop)
  {
    assert run.log[6..] == rest.log;
  }

  /** The store once chunk `n` holds `rows` and the export is rebuilt from
      the chunk files. */
  function Written(store: Store, n: nat, rows: seq<Row>): (w: Store)
    ensures w.combined.Some?
  {
    var files := store.chunks[n := Readable(rows)];
    assert n in files && files[n].Readable?;
    store.(chunks := files, combined := MergeNumeric(files))
  }

  /** One turn of the loop: the run stops, or a page is saved and the loop
      goes on from `next` with what is left of the network. */
  datatype Turn =
    | Stopped(stop: Stop, store: Store, log: seq<Effect<Row>>)
    | Saved(fetched: Effect<Row>, rows: seq<Row>, merged: seq<Row>, after: Store, next: string,
            rest: seq<Retry.Reply<Works.Message>>)

  /** What a turn promises: a stop leaves a well-formed run and the folder
      untouched, or with chunk `n` and its export when it crashes on the
      missing cursor; a saved page was fetched with `cursor` and held rows. */
  predicate Follows(turn: Turn, cursor: string, n: nat, count: nat, total: Option<int>) {
    match turn
    case Stopped(stop, _, log) => Protocol(log, n, count, cursor, total, stop) && (|log| == 1 || |log| == 4)
    case Saved(fetched, rows, _, _, _, _) => FetchedWith(fetched, cursor) && rows != []
  }

  /** What a turn does to the folder: a lone fetch leaves it untouched; a
      crash on the missing cursor and a saved page write chunk `n` and the
      export rebuilt from the chunk files, and a saved page also writes the
      checkpoint. */
  predicate Stores(turn: Turn, n: nat, store: Store) {
    match turn
    case Stopped(_, after, log) =>
      && (|log| <= 1 ==> after == store)
      && (|log| >= 2 && log[1].ChunkWritten? ==> after == Written(store, n, log[1].rows))
    case Saved(_, rows, merged, after, next, _) =>
      && merged == Written(store, n, rows).combined.value
      && after == Written(store, n, rows).(cursorFile := Some(next))
  }

  /** The page fetched with `cursor`, to be saved as chunk `n`: an exhausted
      retry loop fails the run; a body that is not JSON, an item that cannot
      be read or a reply without `next-cursor` crash it, the last after the
      chunk, the export and the report are written; an empty page completes
      it. */
  function Step(page: Page<Option<Works.Message>>, cursor: string, n: nat, count: nat, store: Store,
                total: Option<int>): (turn: Turn)
    requires Paced(page)
    ensures Follows(turn, cursor, n, count, total)
    ensures Stores(turn, n, store)
    ensures turn.Saved? ==> page.value.Some? && turn.rest == page.rest
  {
    var fetched := Fetched(cursor, page.waits);
    match page.value
    case None => Stopped(Failed, store, [fetched])
    case Some(body) =>
      if body.None? then Stopped(Crashed, store, [fetched])
      else if |body.value.items| == 0 then Stopped(Completed, store, [fetched])
      else (
        match Works.NormaliseAllMain(body.value.items)
        case None => Stopped(Crashed, store, [fetched])
        case Some(rows) =>
          match body.value.nextCursor
          case None =>
            var w := Written(store, n, rows);
            Stopped(Crashed, w, [fetched, ChunkWritten(n, rows), CombinedWritten(w.combined.value),
                                 Progress(ReportFor(total, count + |rows|))])
          case Some(next) =>
            var w := Written(store, n, rows);
            Saved(fetched, rows, w.combined.value, w.(cursorFile := Some(next)), next, page.rest))
  }

  /** The script's page request: the 60-attempt retry loop with `Judge`. */
  function Fetch(replies: seq<Retry.Reply<Works.Message>>): (page: Page<Option<Works.Message>>)
    ensures Paced(page)
    ensures page.value.Some? ==> |page.rest| < |replies|
    ensures page.value.Some? ==>
              exists status :: Retry.Nth(replies, |page.waits|) == Retry.Response(status, page.value.value)
                               && !(400 <= status < 600)
  {
    FetchPage(replies, Judge)
  }

  /** One page of the script: the request, then what is done with the reply. */
  function ScriptStep(replies: seq<Retry.Reply<Works.Message>>, cursor: string, n: nat, count: nat,
                      store: Store, total: Option<int>): (turn: Turn)
    ensures Follows(turn, cursor, n, count, total)
    ensures Stores(turn, n, store)
    ensures turn.Saved? ==> |turn.rest| < |replies|
  {
    Step(Fetch(replies), cursor, n, count, store, total)
  }

  /** A page step: the network, cursor, chunk number, saved count, folder
      and total in, a turn out. */
  type Stepper = (seq<Retry.Reply<Works.Message>>, string, nat, nat, Store, Option<int>) -> Turn

  /** A turn the loop can rely on: it keeps its promise, and a saved page
      used up at least one reply. */
  predicate Keeps(turn: Turn, replies: seq<Retry.Reply<Works.Message>>, cursor: string, n: nat, count: nat,
                  total: Option<int>) {
    Follows(turn, cursor, n, count, total) && (turn.Saved? ==> |turn.rest| < |replies|)
  }

  /** A step the loop can rely on: every turn it takes. */
  ghost predicate Steps(step: Stepper) {
    forall replies, cursor, n, count, store, total
      {:trigger Keeps(step(replies, cursor, n, count, store, total), replies, cursor, n, count, total)} ::
      Keeps(step(replies, cursor, n, count, store, total), replies, cursor, n, count, total)
  }

  /** A step whose turns update the folder as the script does. */
  ghost predicate Writes(step: Stepper) {
    forall replies, cursor, n, count, store, total
      {:trigger Stores(step(replies, cursor, n, count, store, total), n, store)} ::
      Stores(step(replies, cursor, n, count, store, total), n, store)
  }

  lemma StepFollows(step: Stepper, replies: seq<Retry.Reply<Works.Message>>, cursor: string, n: nat,
                    count: nat, store: Store, total: Option<int>)
    requires Steps(step)
    ensures Keeps(step(replies, cursor, n, count, store, total), replies, cursor, n, count, total)
  {
  }

  /** A saved page was fetched with the cursor and leaves less of the network. */
  lemma StepShrinks(step: Stepper, replies: seq<Retry.Reply<Works.Message>>, cursor: string, n: nat,
                    count: nat, store: Store, total: Option<int>)
    requires Steps(step)
    ensures var turn := step(replies, cursor, n, count, store, total);
            turn.Saved? ==> FetchedWith(turn.fetched, cursor) && |turn.rest| < |replies|
  {
    StepFollows(step, replies, cursor, n, count, store, total);
  }

  lemma StepStores(step: Stepper, replies: seq<Retry.Reply<Works.Message>>, cursor: string, n: nat,
                   count: nat, store: Store, total: Option<int>)
    requires Writes(step)
    ensures Stores(step(replies, cursor, n, count, store, total), n, store)
  {
  }

  lemma ScriptSteps()
    ensures Steps(ScriptStep) && Writes(ScriptStep)
  {
    forall replies, cursor, n, count, store, total
      ensures Keeps(ScriptStep(replies, cursor, n, count, store, total), replies, cursor, n, count, total)
      ensures Stores(ScriptStep(replies, cursor, n, count, store, total), n, store)
    {
    }
  }

  /** The `while True` loop from `cursor` on, with `replies` as the network:
      a saved page writes its chunk and export, reports, writes the
      checkpoint, pauses, and the loop goes on with chunk `n + 1`. */
  function Pages(step: Stepper, replies: seq<Retry.Reply<Works.Message>>, cursor: string, n: nat,
                 count: nat, store: Store, total: Option<int>): (run: Run)
    requires Steps(step)
    decreases |replies|
  {
    StepFollows(step, replies, cursor, n, count, store, total);
    match step(replies, cursor, n, count, store, total)
    case Stopped(stop, after, log) => Run(stop, after, log)
    case Saved(fetched, rows, merged, after, next, rest) =>
      var run := Pages(step, rest, next, n + 1, count + |rows|, after, total);
      Run(run.stop, run.store, Block(fetched, n, rows, merged, ReportFor(total, count + |rows|), next) + run.log)
  }

  /** One turn of the loop, unfolded: a stop is the whole run; a saved page
      is its block followed by the run from the next chunk. */
  lemma PagesUnfold(step: Stepper, replies: seq<Retry.Reply<Works.Message>>, cursor: string, n: nat,
                    count: nat, store: Store, total: Option<int>)
    requires Steps(step)
    ensures var turn := step(replies, cursor, n, count, store, total);
            && (turn.Stopped? ==> Pages(step, replies, cursor, n, count, store, total) == Run(turn.stop, turn.store, turn.log))
            && (turn.Saved? ==>
                  var rest := Pages(step, turn.rest, turn.next, n + 1, count + |turn.rows|, turn.after, total);
                  Pages(step, replies, cursor, n, count, store, total)
                    == Run(rest.stop, rest.store,
                           Block(turn.fetched, n, turn.rows, turn.merged, ReportFor(total, count + |turn.rows|),
                                 turn.next) + rest.log))
  {
  }

  /** Every run follows the protocol. */
  lemma {:induction false} PagesProtocol(step: Stepper, replies: seq<Retry.Reply<Works.Message>>,
                                         cursor: string, n: nat, count: nat, store: Store, total: Option<int>)
    requires Steps(step)
    ensures var run := Pages(step, replies, cursor, n, count, store, total);
            Protocol(run.log, n, count, cursor, total, run.stop)
    decreases |replies|
  {
    var turn := step(replies, cursor, n, count, store, total);
    PagesUnfold(step, replies, cursor, n, count, store, total);
    StepFollows(step, replies, cursor, n, count, store, total);
    if turn.Saved? {
      var rest := Pages(step, turn.rest, turn.next, n + 1, count + |turn.rows|, turn.after, total);
      PagesProtocol(step, turn.rest, turn.next, n + 1, count + |turn.rows|, turn.after, total);
      ProtocolCons(Pages(step, replies, cursor, n, count, store, total), turn.fetched, n, turn.rows,
                   turn.merged, count, cursor, total, turn.next, rest);
    }
  }

  /** `fetch_crossref_data(keyword)` against a folder in state `store`: it
      resumes from whatever checkpoint and chunks are there, with the saved
      count estimated as 500 per earlier chunk. */
  function Harvest(probe: Retry.Reply<Works.Message>, replies: seq<Retry.Reply<Works.Message>>,
                   store: Store): (run: Run)
    ensures Protocol(run.log, FirstChunk(true, store.chunks).0, FirstChunk(true, store.chunks).1,
                     StartCursor(true, store.cursorFile), ProbeTotal(probe), run.stop)
  {
    var start := FirstChunk(true, store.chunks);
    ScriptSteps();
    PagesProtocol(ScriptStep, replies, StartCursor(true, store.cursorFile), start.0, start.1, store, ProbeTotal(probe));
    Pages(ScriptStep, replies, StartCursor(true, store.cursorFile), start.0, start.1, store, ProbeTotal(probe))
  }

  // ---------------------------------------------------------------------
  // The pages read off the network

  /** Whether the loop goes on after page `msg`: it has items, every item
      can be read and it names the next cursor. */
  predicate Continues(msg: Works.Message) {
    msg.items != [] && Works.NormaliseAllMain(msg.items).Some? && msg.nextCursor.Some?
  }

  /** The harvest read off the network alone, without the loop: each page
      is the first of the next 60 replies that is a non-error response; a
      body that is not JSON ends the reading, reading goes on after a page
      that `Continues`, and a page whose items can all be read contributes
      them normalised. */
  function Chain(replies: seq<Retry.Reply<Works.Message>>): (r: Reading<Row>)
    ensures forall i :: 0 <= i < |r.saved| ==> Continues(r.saved[i])
    ensures r.ending.Last? ==> !Continues(r.ending.page)
    decreases |replies|
  {
    KeptInStub(replies, Judge, 0);
    match FirstKept(replies, Judge, 0)
    case None => Reading([], Exhausted, [])
    case Some(kept) =>
      match kept.value
      case None => Reading([], Undecodable, [])
      case Some(msg) =>
        var rows := Works.NormaliseAllMain(msg.items).GetOr([]);
        if Continues(msg) then
          var more := Chain(Retry.Drop(replies, kept.attempt + 1));
          Reading([msg] + more.saved, more.ending, rows + more.rows)
        else Reading([], Last(msg), rows)
  }

  // ---------------------------------------------------------------------
  // Reading the log

  /** The chunk write and the report of a page that crashed on its cursor. */
  lemma ReadingCrash(log: seq<Effect<Row>>, prior: Option<string>)
    requires |log| == 4 && log[0].Fetched? && log[1].ChunkWritten? && log[2].CombinedWritten?
    requires log[3].Progress?
    ensures ChunkRows(log) == log[1].rows
    ensures ChunkIndices(log) == [log[1].index]
    ensures ChunksOf(log) == map[log[1].index := log[1].rows]
    ensures LastCheckpoint(log, prior) == prior
  {
    var s3 := [log[3]] + [];
    var s2 := [log[2]] + s3;
    var s1 := [log[1]] + s2;
    assert log == [log[0]] + s1;
    ReadingCons(log[3], [], prior);
    ReadingCons(log[2], s3, prior);
    ReadingCons(log[1], s2, prior);
    ReadingCons(log[0], s1, prior);
    assert map[log[1].index := log[1].rows] + map[] == map[log[1].index := log[1].rows];
  }

  /** A saved page's six effects. */
  lemma ReadingBlock(fetched: Effect<Row>, n: nat, rows: seq<Row>, merged: seq<Row>, report: Report,
                     next: string, prior: Option<string>)
    requires fetched.Fetched?
    ensures var log := Block(fetched, n, rows, merged, report, next);
            && ChunkRows(log) == rows
            && ChunkIndices(log) == [n]
            && ChunksOf(log) == map[n := rows]
            && LastCheckpoint(log, prior) == Some(next)
  {
    var log := Block(fetched, n, rows, merged, report, next);
    var s5 := [log[5]] + [];
    var s4 := [log[4]] + s5;
    var s3 := [log[3]] + s4;
    var s2 := [log[2]] + s3;
    var s1 := [log[1]] + s2;
    assert log == [log[0]] + s1;
    var c := Some(next);
    ReadingCons(log[5], [], c);
    ReadingCons(log[4], s5, prior);
    ReadingCons(log[3], s4, prior);
    ReadingCons(log[2], s3, prior);
    ReadingCons(log[1], s2, prior);
    ReadingCons(log[0], s1, prior);
    assert map[n := rows] + map[] == map[n := rows];
  }

  /** The requests and checkpoints of a page that crashed on its cursor. */
  lemma CursorsOfCrash(log: seq<Effect<Row>>)
    requires |log| == 4 && log[0].Fetched? && !log[1].Fetched? && !log[2].Fetched? && !log[3].Fetched?
    requires !log[1].CursorWritten? && !log[2].CursorWritten? && !log[3].CursorWritten?
    ensures Requested(log) == [log[0].cursor] && Checkpoints(log) == []
  {
    var s3 := [log[3]] + [];
    var s2 := [log[2]] + s3;
    var s1 := [log[1]] + s2;
    assert log == [log[0]] + s1;
    ReadingCons(log[3], [], None);
    ReadingCons(log[2], s3, None);
    ReadingCons(log[1], s2, None);
    ReadingCons(log[0], s1, None);
  }

  /** The request and checkpoint of a saved page's six effects. */
  lemma CursorsOfBlock(fetched: Effect<Row>, n: nat, rows: seq<Row>, merged: seq<Row>, report: Report,
                       next: string)
    requires fetched.Fetched?
    ensures var log := Block(fetched, n, rows, merged, report, next);
            Requested(log) == [fetched.cursor] && Checkpoints(log) == [next]
  {
    var log := Block(fetched, n, rows, merged, report, next);
    var s5 := [log[5]] + [];
    var s4 := [log[4]] + s5;
    var s3 := [log[3]] + s4;
    var s2 := [log[2]] + s3;
    var s1 := [log[1]] + s2;
    assert log == [log[0]] + s1;
    ReadingCons(log[5], [], None);
    ReadingCons(log[4], s5, None);
    ReadingCons(log[3], s4, None);
    ReadingCons(log[2], s3, None);
    ReadingCons(log[1], s2, None);
    ReadingCons(log[0], s1, None);
  }

  /** The reports of a saved page and of a crashed one. */
  lemma ReportsOfPage(log: seq<Effect<Row>>, prior: Option<Report>)
    requires (|log| == 4 || |log| == 6) && log[3].Progress?
    requires forall i :: 0 <= i < |log| && i != 3 ==> !log[i].Progress?
    ensures LastReport(log, prior) == Some(log[3].report)
  {
    var tail := log[4..];
    assert forall i :: 0 <= i < |tail| ==> !tail[i].Progress?;
    ReportSilent(tail, Some(log[3].report));
    assert log == [log[0]] + ([log[1]] + ([log[2]] + ([log[3]] + tail)));
    ReportCons(log[3], tail, prior);
    ReportCons(log[2], [log[3]] + tail, prior);
    ReportCons(log[1], [log[2]] + ([log[3]] + tail), prior);
    ReportCons(log[0], [log[1]] + ([log[2]] + ([log[3]] + tail)), prior);
  }

  lemma {:induction false} ReportSilent(log: seq<Effect<Row>>, prior: Option<Report>)
    requires forall i :: 0 <= i < |log| ==> !log[i].Progress?
    ensures LastReport(log, prior) == prior
    decreases |log|
  {
    if |log| > 0 {
      ReportSilent(log[1..], prior);
    }
  }

  /** The chunk files a log writes, as the reader sees them. */
  function ReadableChunks(chunks: map<nat, seq<Row>>): (files: map<nat, ChunkFile>)
    ensures files.Keys == chunks.Keys
    ensures forall k :: k in chunks ==> files[k] == Readable(chunks[k])
  {
    map k | k in chunks :: Readable(chunks[k])
  }

  lemma ReadableUpdate(n: nat, rows: seq<Row>, m: map<nat, seq<Row>>)
    ensures ReadableChunks(map[n := rows] + m) == map[n := Readable(rows)] + ReadableChunks(m)
  {
  }

  // ---------------------------------------------------------------------
  // Properties

  /** A turn that stops leaves the folder as its own effects describe. */
  lemma StoppedStore(step: Stepper, replies: seq<Retry.Reply<Works.Message>>, cursor: string, n: nat,
                     count: nat, store: Store, total: Option<int>)
    requires Steps(step) && Writes(step)
    requires step(replies, cursor, n, count, store, total).Stopped?
    ensures var turn := step(replies, cursor, n, count, store, total);
            && turn.store.chunks == store.chunks + ReadableChunks(ChunksOf(turn.log))
            && turn.store.cursorFile == LastCheckpoint(turn.log, store.cursorFile)
            && ((forall k :: k in store.chunks ==> k < n) ==>
                  turn.store.combined == (if ChunkRows(turn.log) == [] then store.combined
                                          else Some(MergeNumeric(store.chunks).GetOr([]) + ChunkRows(turn.log))))
  {
    var turn := step(replies, cursor, n, count, store, total);
    StepFollows(step, replies, cursor, n, count, store, total);
    StepStores(step, replies, cursor, n, count, store, total);
    var log := turn.log;
    if |log| == 1 {
      ReadingFetch(log, store.cursorFile);
      assert store.chunks + ReadableChunks(map[]) == store.chunks;
    } else {
      ReadingCrash(log, store.cursorFile);
      ReadableUpdate(n, log[1].rows, map[]);
      assert map[n := log[1].rows] + map[] == map[n := log[1].rows];
      if forall k :: k in store.chunks ==> k < n {
        MergeAppend(store.chunks, n, log[1].rows);
      }
    }
  }

  /** The effects of a saved page ahead of the rest of the run. */
  function Ahead(turn: Turn, n: nat, count: nat, total: Option<int>, rest: Run): seq<Effect<Row>>
    requires turn.Saved?
  {
    Block(turn.fetched, n, turn.rows, turn.merged, ReportFor(total, count + |turn.rows|), turn.next) + rest.log
  }

  /** A saved page's chunk goes under the rest of the run's. */
  lemma SavedChunks(step: Stepper, replies: seq<Retry.Reply<Works.Message>>, cursor: string, n: nat,
                    count: nat, store: Store, total: Option<int>, rest: Run)
    requires Steps(step) && Writes(step)
    requires step(replies, cursor, n, count, store, total).Saved?
    requires rest.store.chunks
               == step(replies, cursor, n, count, store, total).after.chunks + ReadableChunks(ChunksOf(rest.log))
    ensures rest.store.chunks
              == store.chunks + ReadableChunks(ChunksOf(Ahead(step(replies, cursor, n, count, store, total),
                                                              n, count, total, rest)))
  {
    var turn := step(replies, cursor, n, count, store, total);
    StepFollows(step, replies, cursor, n, count, store, total);
    StepStores(step, replies, cursor, n, count, store, total);
    var block := Block(turn.fetched, n, turn.rows, turn.merged, ReportFor(total, count + |turn.rows|), turn.next);
    ReadingBlock(turn.fetched, n, turn.rows, turn.merged, ReportFor(total, count + |turn.rows|), turn.next, None);
    ChunksAppend(block, rest.log);
    MergeUpdate(store.chunks, n, Readable(turn.rows), ReadableChunks(ChunksOf(rest.log)));
    ReadableUpdate(n, turn.rows, ChunksOf(rest.log));
  }

  /** A saved page's rows go ahead of the rest of the run's in the export,
      and every chunk number stays below the next one. */
  lemma SavedCombined(step: Stepper, replies: seq<Retry.Reply<Works.Message>>, cursor: string, n: nat,
                      count: nat, store: Store, total: Option<int>, rest: Run)
    requires Steps(step) && Writes(step)
    requires step(replies, cursor, n, count, store, total).Saved?
    requires forall k :: k in store.chunks ==> k < n
    ensures var after := step(replies, cursor, n, count, store, total).after;
            forall k :: k in after.chunks ==> k < n + 1
    ensures var turn := step(replies, cursor, n, count, store, total);
            rest.store.combined == (if ChunkRows(rest.log) == [] then turn.after.combined
                                    else Some(MergeNumeric(turn.after.chunks).GetOr([]) + ChunkRows(rest.log)))
            ==> rest.store.combined
                  == Some(MergeNumeric(store.chunks).GetOr([]) + ChunkRows(Ahead(turn, n, count, total, rest)))
  {
    var turn := step(replies, cursor, n, count, store, total);
    StepFollows(step, replies, cursor, n, count, store, total);
    StepStores(step, replies, cursor, n, count, store, total);
    var block := Block(turn.fetched, n, turn.rows, turn.merged, ReportFor(total, count + |turn.rows|), turn.next);
    MergeAppend(store.chunks, n, turn.rows);
    ReadingBlock(turn.fetched, n, turn.rows, turn.merged, ReportFor(total, count + |turn.rows|), turn.next, None);
    RowsAppend(block, rest.log);
    ExtendTwice(MergeNumeric(store.chunks).GetOr([]), turn.rows, ChunkRows(rest.log));
  }

  /** A saved page's checkpoint stands until the rest of the run writes one. */
  lemma SavedCheckpoint(step: Stepper, replies: seq<Retry.Reply<Works.Message>>, cursor: string, n: nat,
                        count: nat, store: Store, total: Option<int>, rest: Run)
    requires Steps(step) && Writes(step)
    requires step(replies, cursor, n, count, store, total).Saved?
    requires rest.store.cursorFile
               == LastCheckpoint(rest.log, step(replies, cursor, n, count, store, total).after.cursorFile)
    ensures rest.store.cursorFile
              == LastCheckpoint(Ahead(step(replies, cursor, n, count, store, total), n, count, total, rest),
                                store.cursorFile)
  {
    var turn := step(replies, cursor, n, count, store, total);
    StepFollows(step, replies, cursor, n, count, store, total);
    StepStores(step, replies, cursor, n, count, store, total);
    var block := Block(turn.fetched, n, turn.rows, turn.merged, ReportFor(total, count + |turn.rows|), turn.next);
    ReadingBlock(turn.fetched, n, turn.rows, turn.merged, ReportFor(total, count + |turn.rows|), turn.next,
                 store.cursorFile);
    CheckpointAppend(block, rest.log, store.cursorFile);
  }

  lemma {:induction false} PagesChunks(step: Stepper, replies: seq<Retry.Reply<Works.Message>>, cursor: string,
                                       n: nat, count: nat, store: Store, total: Option<int>)
    requires Steps(step) && Writes(step)
    ensures var run := Pages(step, replies, cursor, n, count, store, total);
            run.store.chunks == store.chunks + ReadableChunks(ChunksOf(run.log))
    decreases |replies|
  {
    var turn := step(replies, cursor, n, count, store, total);
    PagesUnfold(step, replies, cursor, n, count, store, total);
    StepFollows(step, replies, cursor, n, count, store, total);
    if turn.Stopped? {
      StoppedStore(step, replies, cursor, n, count, store, total);
    } else {
      var rest := Pages(step, turn.rest, turn.next, n + 1, count + |turn.rows|, turn.after, total);
      PagesChunks(step, turn.rest, turn.next, n + 1, count + |turn.rows|, turn.after, total);
      SavedChunks(step, replies, cursor, n, count, store, total, rest);
    }
  }

  lemma {:induction false} PagesCombined(step: Stepper, replies: seq<Retry.Reply<Works.Message>>, cursor: string,
                                         n: nat, count: nat, store: Store, total: Option<int>)
    requires Steps(step) && Writes(step)
    requires forall k :: k in store.chunks ==> k < n
    ensures var run := Pages(step, replies, cursor, n, count, store, total);
            run.store.combined == (if ChunkRows(run.log) == [] then store.combined
                                   else Some(MergeNumeric(store.chunks).GetOr([]) + ChunkRows(run.log)))
    decreases |replies|
  {
    var turn := step(replies, cursor, n, count, store, total);
    PagesUnfold(step, replies, cursor, n, count, store, total);
    StepFollows(step, replies, cursor, n, count, store, total);
    if turn.Stopped? {
      StoppedStore(step, replies, cursor, n, count, store, total);
    } else {
      var rest := Pages(step, turn.rest, turn.next, n + 1, count + |turn.rows|, turn.after, total);
      SavedCombined(step, replies, cursor, n, count, store, total, rest);
      PagesCombined(step, turn.rest, turn.next, n + 1, count + |turn.rows|, turn.after, total);
      RowsNonEmpty(step, replies, cursor, n, count, store, total, rest);
    }
  }

  /** A saved page always adds rows to the run's chunks. */
  lemma RowsNonEmpty(step: Stepper, replies: seq<Retry.Reply<Works.Message>>, cursor: string, n: nat,
                     count: nat, store: Store, total: Option<int>, rest: Run)
    requires Steps(step)
    requires step(replies, cursor, n, count, store, total).Saved?
    ensures ChunkRows(Ahead(step(replies, cursor, n, count, store, total), n, count, total, rest)) != []
  {
    var turn := step(replies, cursor, n, count, store, total);
    StepFollows(step, replies, cursor, n, count, store, total);
    var block := Block(turn.fetched, n, turn.rows, turn.merged, ReportFor(total, count + |turn.rows|), turn.next);
    ReadingBlock(turn.fetched, n, turn.rows, turn.merged, ReportFor(total, count + |turn.rows|), turn.next, None);
    RowsAppend(block, rest.log);
  }

  lemma {:induction false} PagesCheckpoint(step: Stepper, replies: seq<Retry.Reply<Works.Message>>, cursor: string,
                                           n: nat, count: nat, store: Store, total: Option<int>)
    requires Steps(step) && Writes(step)
    ensures var run := Pages(step, replies, cursor, n, count, store, total);
            run.store.cursorFile == LastCheckpoint(run.log, store.cursorFile)
    decreases |replies|
  {
    var turn := step(replies, cursor, n, count, store, total);
    PagesUnfold(step, replies, cursor, n, count, store, total);
    StepFollows(step, replies, cursor, n, count, store, total);
    if turn.Stopped? {
      StoppedStore(step, replies, cursor, n, count, store, total);
    } else {
      var rest := Pages(step, turn.rest, turn.next, n + 1, count + |turn.rows|, turn.after, total);
      PagesCheckpoint(step, turn.rest, turn.next, n + 1, count + |turn.rows|, turn.after, total);
      SavedCheckpoint(step, replies, cursor, n, count, store, total, rest);
    }
  }

  /** The folder after a harvest is what the log wrote over what was there:
      every chunk it names, readable; the combined export holding the earlier
      chunks' rows followed by this run's pages in fetch order; and the last
      checkpoint written. */
  lemma HarvestStore(probe: Retry.Reply<Works.Message>, replies: seq<Retry.Reply<Works.Message>>,
                     store: Store)
    ensures var run := Harvest(probe, replies, store);
            && run.store.chunks == store.chunks + ReadableChunks(ChunksOf(run.log))
            && run.store.combined == (if ChunkRows(run.log) == [] then store.combined
                                      else Some(MergeNumeric(store.chunks).GetOr([]) + ChunkRows(run.log)))
            && run.store.cursorFile == LastCheckpoint(run.log, store.cursorFile)
  {
    var start := FirstChunk(true, store.chunks);
    var cursor, total := StartCursor(true, store.cursorFile), ProbeTotal(probe);
    ScriptSteps();
    PagesChunks(ScriptStep, replies, cursor, start.0, start.1, store, total);
    PagesCombined(ScriptStep, replies, cursor, start.0, start.1, store, total);
    PagesCheckpoint(ScriptStep, replies, cursor, start.0, start.1, store, total);
  }

  /** The first six effects of a longer run form a saved page. */
  lemma BlockOfRun(log: seq<Effect<Row>>, n: nat, count: nat, cursor: string, total: Option<int>, stop: Stop)
    requires Protocol(log, n, count, cursor, total, stop) && |log| > 4
    ensures log == Block(log[0], n, log[1].rows, log[2].rows, log[3].report, log[4].cursor) + log[6..]
  {
    assert log == log[..6] + log[6..];
  }

  /** Chunk numbers run consecutively from the first one. */
  lemma {:induction false} ChunksConsecutive(log: seq<Effect<Row>>, n: nat, count: nat, cursor: string,
                                             total: Option<int>, stop: Stop)
    requires Protocol(log, n, count, cursor, total, stop)
    ensures forall j :: 0 <= j < |ChunkIndices(log)| ==> ChunkIndices(log)[j] == n + j
    decreases |log|
  {
    if |log| == 1 {
      ReadingFetch(log, None);
    } else if |log| == 4 {
      ReadingCrash(log, None);
    } else {
      var tail := log[6..];
      ChunksConsecutive(tail, n + 1, count + |log[1].rows|, log[4].cursor, total, stop);
      BlockOfRun(log, n, count, cursor, total, stop);
      var block := Block(log[0], n, log[1].rows, log[2].rows, log[3].report, log[4].cursor);
      IndicesAppend(block, tail);
      ReadingBlock(log[0], n, log[1].rows, log[2].rows, log[3].report, log[4].cursor, None);
    }
  }

  /** The last progress line of a run that saved anything counts the
      starting estimate plus every row the run saved; a run that saved
      nothing prints none. */
  lemma {:induction false} LastReportCounts(log: seq<Effect<Row>>, n: nat, count: nat, cursor: string,
                                            total: Option<int>, stop: Stop)
    requires Protocol(log, n, count, cursor, total, stop)
    ensures LastReport(log, None) ==
              if ChunkRows(log) == [] then None else Some(ReportFor(total, count + |ChunkRows(log)|))
    decreases |log|
  {
    if |log| == 1 {
      ReadingFetch(log, None);
      ReportSilent(log, None);
    } else if |log| == 4 {
      ReadingCrash(log, None);
      ReportsOfPage(log, None);
    } else {
      LastReportCounts(log[6..], n + 1, count + |log[1].rows|, log[4].cursor, total, stop);
      LastReportOfBlock(log, n, count, cursor, total, stop);
    }
  }

  /** A run that saved a page counts on from it in its last report once the
      run after the page does. */
  lemma LastReportOfBlock(log: seq<Effect<Row>>, n: nat, count: nat, cursor: string, total: Option<int>,
                          stop: Stop)
    requires Protocol(log, n, count, cursor, total, stop) && |log| > 4
    requires var tail, counted := log[6..], count + |log[1].rows|;
             LastReport(tail, None) ==
               if ChunkRows(tail) == [] then None else Some(ReportFor(total, counted + |ChunkRows(tail)|))
    ensures LastReport(log, None) ==
              if ChunkRows(log) == [] then None else Some(ReportFor(total, count + |ChunkRows(log)|))
  {
    var rows := log[1].rows;
    var tail := log[6..];
    BlockOfRun(log, n, count, cursor, total, stop);
    var block := Block(log[0], n, rows, log[2].rows, log[3].report, log[4].cursor);
    ReadingBlock(log[0], n, rows, log[2].rows, log[3].report, log[4].cursor, None);
    BlockReport(log[0], n, rows, log[2].rows, log[3].report, log[4].cursor);
    ReportOfBlock(block, tail, count, total, rows);
  }

  /** A saved page's last report is the one it prints. */
  lemma BlockReport(fetched: Effect<Row>, n: nat, rows: seq<Row>, merged: seq<Row>, report: Report, next: string)
    requires fetched.Fetched?
    ensures LastReport(Block(fetched, n, rows, merged, report, next), None) == Some(report)
  {
    ReportsOfPage(Block(fetched, n, rows, merged, report, next), None);
  }

  /** A saved page reporting its rows, followed by a run whose last report
      counts on from there, leaves the report counting both. */
  lemma ReportOfBlock(block: seq<Effect<Row>>, tail: seq<Effect<Row>>, count: nat, total: Option<int>,
                      rows: seq<Row>)
    requires ChunkRows(block) == rows && rows != []
    requires LastReport(block, None) == Some(ReportFor(total, count + |rows|))
    requires LastReport(tail, None) ==
               if ChunkRows(tail) == [] then None else Some(ReportFor(total, count + |rows| + |ChunkRows(tail)|))
    ensures LastReport(block + tail, None) == Some(ReportFor(total, count + |ChunkRows(block + tail)|))
  {
    RowsAppend(block, tail);
    ReportAppend(block, tail, None);
    ReportLater(tail, LastReport(block, None));
  }

  /** A later report replaces an earlier one; without one the earlier stays. */
  lemma {:induction false} ReportLater(log: seq<Effect<Row>>, prior: Option<Report>)
    ensures LastReport(log, None).Some? ==> LastReport(log, prior) == LastReport(log, None)
    ensures LastReport(log, None).None? ==> LastReport(log, prior) == prior
    decreases |log|
  {
    if |log| > 0 {
      if log[0].Progress? {
        ReportLater(log[1..], Some(log[0].report));
      } else {
        ReportLater(log[1..], prior);
      }
    }
  }

  /** An empty page, 60 failed attempts, an undecodable body or an
      unreadable item end the run right after the fetch; a missing next
      cursor ends it after the report, with the checkpoint still at the
      previous page. */
  lemma {:induction false} StopsAfterFetch(log: seq<Effect<Row>>, n: nat, count: nat, cursor: string,
                                           total: Option<int>, stop: Stop)
    requires Protocol(log, n, count, cursor, total, stop)
    ensures stop.Completed? || stop.Failed? ==> log[|log| - 1].Fetched?
    ensures stop.Crashed? ==> log[|log| - 1].Fetched? || log[|log| - 1].Progress?
    ensures stop.Failed? ==> |log[|log| - 1].waits| == Budget
    decreases |log|
  {
    if |log| >= 7 {
      StopsAfterFetch(log[6..], n + 1, count + |log[1].rows|, log[4].cursor, total, stop);
      assert log[6..][|log| - 7] == log[|log| - 1];
    }
  }

  /** Running the script again continues where the last run stopped: from
      its last checkpoint and above every chunk it wrote. */
  lemma ResumeContinues(probe: Retry.Reply<Works.Message>, replies: seq<Retry.Reply<Works.Message>>,
                        store: Store)
    ensures var run := Harvest(probe, replies, store);
            && (LastCheckpoint(run.log, None).Some? ==>
                  StartCursor(true, run.store.cursorFile) == Text.Strip(LastCheckpoint(run.log, None).value))
            && (forall j :: 0 <= j < |ChunkIndices(run.log)| ==>
                  ChunkIndices(run.log)[j] < FirstChunk(true, run.store.chunks).0)
            && (forall k :: k in store.chunks ==> k < FirstChunk(true, run.store.chunks).0)
  {
    var run := Harvest(probe, replies, store);
    HarvestStore(probe, replies, store);
    LastCheckpointSome(run.log, store.cursorFile);
    ChunksWrittenIndexed(run.log);
  }

  /** A successful reply whose body is not JSON crashes the run at once, with
      nothing written: decoding sits outside the retry. */
  lemma UndecodableCrashes(status: int, rest: seq<Retry.Reply<Works.Message>>,
                           cursor: string, n: nat, count: nat, store: Store, total: Option<int>)
    requires !(400 <= status < 600)
    ensures Pages(ScriptStep, [Retry.Response(status, None)] + rest, cursor, n, count, store, total)
              == Run(Crashed, store, [Fetched(cursor, [])])
  {
    ScriptSteps();
  }

  /** What a turn does with the page it fetched, read off the page. */
  lemma StepOfPage(page: Page<Option<Works.Message>>, cursor: string, n: nat, count: nat, store: Store,
                   total: Option<int>)
    requires Paced(page)
    ensures var turn := Step(page, cursor, n, count, store, total);
            && (turn.Saved? ==> turn.fetched == Fetched(cursor, page.waits))
            && (turn.Stopped? ==>
                  && turn.log[0] == Fetched(cursor, page.waits)
                  && Requested(turn.log) == [cursor] && Checkpoints(turn.log) == [])
            && (page.value.None? ==> turn.Stopped? && turn.stop == Failed && |turn.log| == 1)
            && (page.value.Some? && page.value.value.None? ==> turn.Stopped? && turn.stop == Crashed && |turn.log| == 1)
            && (page.value.Some? && page.value.value.Some? ==>
                  && (turn.Saved? <==> Continues(page.value.value.value))
                  && (turn.Stopped? ==> turn.stop == StopOf(Last(page.value.value.value)))
                  && (turn.Stopped? && |turn.log| > 1 ==>
                        Works.NormaliseAllMain(page.value.value.value.items) == Some(turn.log[1].rows))
                  && (turn.Stopped? ==>
                        ChunkRows(turn.log) == Works.NormaliseAllMain(page.value.value.value.items).GetOr([]))
                  && (turn.Saved? ==>
                        && Works.NormaliseAllMain(page.value.value.value.items) == Some(turn.rows)
                        && page.value.value.value.nextCursor == Some(turn.next)
                        && turn.rest == page.rest))
  {
    var turn := Step(page, cursor, n, count, store, total);
    if page.value.None? || page.value.value.None? {
      ReadingFetch(turn.log, None);
    } else {
      var msg := page.value.value.value;
      if |msg.items| == 0 || Works.NormaliseAllMain(msg.items).None? {
        assert |turn.log| == 1;
        ReadingFetch(turn.log, None);
      } else if msg.nextCursor.None? {
        assert |turn.log| == 4;
        ReadingCrash(turn.log, None);
        CursorsOfCrash(turn.log);
      }
    }
  }

  /** One page of the script against the network: the reply it reads is the
      first kept one, after one wait per earlier attempt; a body that is not
      JSON crashes the run; otherwise the chunk holds the page's items
      normalised, the checkpoint and the next request carry its
      `next-cursor`, the loop goes on exactly when the page `Continues`, and
      the run completes exactly on an empty page. */
  lemma ScriptStepReads(replies: seq<Retry.Reply<Works.Message>>, cursor: string, n: nat, count: nat,
                        store: Store, total: Option<int>)
    ensures var turn := ScriptStep(replies, cursor, n, count, store, total);
            match FirstKept(replies, Judge, 0)
            case None => turn.Stopped? && turn.stop == Failed && |turn.log| == 1
            case Some(kept) =>
              && Retry.Nth(replies, kept.attempt).Response?
              && Retry.Nth(replies, kept.attempt).body == kept.value
              && (turn.Saved? ==> |turn.fetched.waits| == kept.attempt)
              && (turn.Stopped? ==> |turn.log[0].waits| == kept.attempt)
              && (kept.value.None? ==> turn.Stopped? && turn.stop == Crashed && |turn.log| == 1)
              && (kept.value.Some? ==>
                    && (turn.Saved? <==> Continues(kept.value.value))
                    && (turn.Stopped? ==> turn.stop == StopOf(Last(kept.value.value)))
                    && (turn.Stopped? && |turn.log| > 1 ==>
                          Works.NormaliseAllMain(kept.value.value.items) == Some(turn.log[1].rows))
                    && (turn.Stopped? ==>
                          ChunkRows(turn.log) == Works.NormaliseAllMain(kept.value.value.items).GetOr([]))
                    && (turn.Saved? ==>
                          && Works.NormaliseAllMain(kept.value.value.items) == Some(turn.rows)
                          && kept.value.value.nextCursor == Some(turn.next)
                          && turn.rest == Retry.Drop(replies, kept.attempt + 1)))
    ensures var turn := ScriptStep(replies, cursor, n, count, store, total);
            turn.Stopped? ==> Requested(turn.log) == [cursor] && Checkpoints(turn.log) == []
  {
    var page := Fetch(replies);
    FetchKeepsFirst(replies, Judge);
    StepOfPage(page, cursor, n, count, store, total);
  }

  /** A turn taken with `cursor` on `replies` matches one step of the
      reading of `replies`: a stop ends the reading as it ends the run, with
      the same rows and only the one request; a saved page is the first page
      read, and its rows and cursor head the reading of what is left. */
  predicate ReadsAs(turn: Turn, replies: seq<Retry.Reply<Works.Message>>, cursor: string) {
    && (turn.Stopped? ==>
          && turn.stop == StopOf(Chain(replies).ending)
          && ChunkRows(turn.log) == Chain(replies).rows
          && Chain(replies).saved == []
          && Requested(turn.log) == [cursor] && Checkpoints(turn.log) == [])
    && (turn.Saved? ==>
          && Chain(replies).ending == Chain(turn.rest).ending
          && Chain(replies).rows == turn.rows + Chain(turn.rest).rows
          && Nexts(Chain(replies).saved) == [turn.next] + Nexts(Chain(turn.rest).saved))
  }

  /** A step whose every turn matches the reading of its network. */
  ghost predicate Reads(step: Stepper) {
    forall replies, cursor, n, count, store, total
      {:trigger ReadsAs(step(replies, cursor, n, count, store, total), replies, cursor)} ::
      ReadsAs(step(replies, cursor, n, count, store, total), replies, cursor)
  }

  lemma StepReadsAs(step: Stepper, replies: seq<Retry.Reply<Works.Message>>, cursor: string, n: nat,
                    count: nat, store: Store, total: Option<int>)
    requires Reads(step)
    ensures ReadsAs(step(replies, cursor, n, count, store, total), replies, cursor)
  {
  }

  /** A turn that behaves as `ScriptStepReads` says is one step of the
      reading. */
  lemma ChainOfTurn(replies: seq<Retry.Reply<Works.Message>>, cursor: string, turn: Turn)
    requires match FirstKept(replies, Judge, 0)
             case None => turn.Stopped? && turn.stop == Failed && |turn.log| == 1
             case Some(kept) =>
               && (kept.value.None? ==> turn.Stopped? && turn.stop == Crashed && |turn.log| == 1)
               && (kept.value.Some? ==>
                     && (turn.Saved? <==> Continues(kept.value.value))
                     && (turn.Stopped? ==> turn.stop == StopOf(Last(kept.value.value)))
                     && (turn.Stopped? ==>
                           ChunkRows(turn.log) == Works.NormaliseAllMain(kept.value.value.items).GetOr([]))
                     && (turn.Saved? ==>
                           && Works.NormaliseAllMain(kept.value.value.items) == Some(turn.rows)
                           && kept.value.value.nextCursor == Some(turn.next)
                           && turn.rest == Retry.Drop(replies, kept.attempt + 1)))
    requires turn.Stopped? ==> Requested(turn.log) == [cursor] && Checkpoints(turn.log) == []
    requires turn.Stopped? && |turn.log| == 1 ==> ChunkRows(turn.log) == []
    ensures ReadsAs(turn, replies, cursor)
  {
    KeptInStub(replies, Judge, 0);
    if turn.Saved? {
      var kept := FirstKept(replies, Judge, 0).value;
      var more := Chain(turn.rest);
      assert Chain(replies).saved == [kept.value.value] + more.saved;
      assert Nexts([kept.value.value] + more.saved) == [turn.next] + Nexts(more.saved);
    }
  }

  /** The script's page matches one step of the reading. */
  lemma TurnChain(replies: seq<Retry.Reply<Works.Message>>, cursor: string, n: nat, count: nat,
                  store: Store, total: Option<int>)
    ensures ReadsAs(ScriptStep(replies, cursor, n, count, store, total), replies, cursor)
  {
    var turn := ScriptStep(replies, cursor, n, count, store, total);
    ScriptStepReads(replies, cursor, n, count, store, total);
    if turn.Stopped? && |turn.log| == 1 {
      ReadingFetch(turn.log, None);
    }
    ChainOfTurn(replies, cursor, turn);
  }

  lemma ScriptReads()
    ensures Reads(ScriptStep)
  {
    forall replies, cursor, n, count, store, total
      ensures ReadsAs(ScriptStep(replies, cursor, n, count, store, total), replies, cursor)
    {
      TurnChain(replies, cursor, n, count, store, total);
    }
  }

  /** A run started with `cursor` reads as the network: it stops as the
      reading ends, its chunks hold the reading's rows, and it requests
      `cursor` and then the `next-cursor` of every page it went on from,
      which are also its checkpoints. */
  predicate RunReads(run: Run, replies: seq<Retry.Reply<Works.Message>>, cursor: string) {
    ShownBy(run) == ShownOf(replies, cursor)
  }

  /** What a run shows of its reading: how it stopped, the rows its chunks
      hold, the cursors it requested and its checkpoints. */
  datatype Shown = Shown(stop: Stop, rows: seq<Row>, requested: seq<string>, checkpoints: seq<string>)

  function ShownBy(run: Run): Shown {
    Shown(run.stop, ChunkRows(run.log), Requested(run.log), Checkpoints(run.log))
  }

  /** What a run started with `cursor` shows when it reads as the network. */
  function ShownOf(replies: seq<Retry.Reply<Works.Message>>, cursor: string): Shown {
    var reading := Chain(replies);
    Shown(StopOf(reading.ending), reading.rows, [cursor] + Nexts(reading.saved), Nexts(reading.saved))
  }

  /** A turn reading as one step that stops the run reads as the network. */
  lemma ReadOfStop(replies: seq<Retry.Reply<Works.Message>>, cursor: string, turn: Turn)
    requires ReadsAs(turn, replies, cursor) && turn.Stopped?
    ensures RunReads(Run(turn.stop, turn.store, turn.log), replies, cursor)
  {
  }

  /** A turn reading as one step that saves a page, followed by a `later`
      run that reads as the rest of the network, reads as the whole
      network: the page's block heads the run. */
  lemma ReadOfSaved(replies: seq<Retry.Reply<Works.Message>>, cursor: string, n: nat, count: nat,
                    total: Option<int>, turn: Turn, later: Run)
    requires ReadsAs(turn, replies, cursor) && turn.Saved?
    requires FetchedWith(turn.fetched, cursor)
    requires RunReads(later, turn.rest, turn.next)
    ensures var block := Block(turn.fetched, n, turn.rows, turn.merged, ReportFor(total, count + |turn.rows|),
                               turn.next);
            RunReads(Run(later.stop, later.store, block + later.log), replies, cursor)
  {
    var block := Block(turn.fetched, n, turn.rows, turn.merged, ReportFor(total, count + |turn.rows|), turn.next);
    ReadingBlock(turn.fetched, n, turn.rows, turn.merged, ReportFor(total, count + |turn.rows|), turn.next, None);
    CursorsOfBlock(turn.fetched, n, turn.rows, turn.merged, ReportFor(total, count + |turn.rows|), turn.next);
    RowsAppend(block, later.log);
    RequestedAppend(block, later.log);
  }

  /** A run of the loop read against the network: it stops as the reading
      ends, its chunks hold the rows of the pages read, in order, and it
      requests the starting cursor and then the `next-cursor` of every page
      it went on from, which are also its checkpoints. */
  lemma PagesRead(step: Stepper, replies: seq<Retry.Reply<Works.Message>>, cursor: string,
                  n: nat, count: nat, store: Store, total: Option<int>)
    requires Steps(step) && Reads(step)
    ensures RunReads(Pages(step, replies, cursor, n, count, store, total), replies, cursor)
  {
    forall at: At
      ensures GoesOn(step, at).None? ==> ReadsFrom(step, at)
      ensures GoesOn(step, at).Some? ==>
                Unread(GoesOn(step, at).value) < Unread(at)
                && (ReadsFrom(step, GoesOn(step, at).value) ==> ReadsFrom(step, at))
    {
      PagesReadOnce(step, at);
    }
    AlongPages(At(replies, cursor, n, count, store, total), Unread, at => GoesOn(step, at), at => ReadsFrom(step, at));
  }

  /** Where the loop stands before a page: the network still unread, the
      cursor, the chunk number, the rows saved so far, the folder and the
      probed total. */
  datatype At = At(replies: seq<Retry.Reply<Works.Message>>, cursor: string, n: nat, count: nat, store: Store,
                   total: Option<int>)

  /** Where the loop stands after the turn `step` takes from `at`, if it goes on. */
  function GoesOn(step: Stepper, at: At): Option<At> {
    After(at, step(at.replies, at.cursor, at.n, at.count, at.store, at.total))
  }

  function After(at: At, turn: Turn): Option<At> {
    if turn.Saved? then Some(At(turn.rest, turn.next, at.n + 1, at.count + |turn.rows|, turn.after, at.total))
    else None
  }

  /** The network still unread, for the induction along the loop. */
  function Unread(at: At): nat {
    |at.replies|
  }

  /** The run from `at` reads as the network still unread. */
  ghost predicate ReadsFrom(step: Stepper, at: At) {
    Steps(step) && RunReads(Pages(step, at.replies, at.cursor, at.n, at.count, at.store, at.total), at.replies, at.cursor)
  }

  /** The run from `at` reads as the network if it stops on its first turn
      there, or once the run it goes on with reads as the rest. */
  lemma PagesReadOnce(step: Stepper, at: At)
    requires Steps(step) && Reads(step)
    ensures GoesOn(step, at).None? ==> ReadsFrom(step, at)
    ensures GoesOn(step, at).Some? ==>
              Unread(GoesOn(step, at).value) < Unread(at)
              && (ReadsFrom(step, GoesOn(step, at).value) ==> ReadsFrom(step, at))
  {
    var turn := step(at.replies, at.cursor, at.n, at.count, at.store, at.total);
    AfterSaved(at, turn);
    if turn.Stopped? {
      StoppedFrom(step, at);
    } else {
      SavedFrom(step, at);
    }
  }

  /** Where the loop goes on after a saved page. */
  lemma AfterSaved(at: At, turn: Turn)
    ensures turn.Saved? ==>
              After(at, turn) == Some(At(turn.rest, turn.next, at.n + 1, at.count + |turn.rows|, turn.after, at.total))
    ensures turn.Stopped? ==> After(at, turn) == None
  {
  }

  /** A run that stops on its first turn at `at` reads as the network there. */
  lemma StoppedFrom(step: Stepper, at: At)
    requires Steps(step) && Reads(step)
    requires step(at.replies, at.cursor, at.n, at.count, at.store, at.total).Stopped?
    ensures ReadsFrom(step, at)
  {
    StoppedReads(step, at.replies, at.cursor, at.n, at.count, at.store, at.total);
  }

  /** A run that saves a page at `at` goes on with less of the network, and
      reads as the network there once the run it goes on with does. */
  lemma SavedFrom(step: Stepper, at: At)
    requires Steps(step) && Reads(step)
    requires step(at.replies, at.cursor, at.n, at.count, at.store, at.total).Saved?
    ensures var turn := step(at.replies, at.cursor, at.n, at.count, at.store, at.total);
            && |turn.rest| < |at.replies|
            && (ReadsFrom(step, At(turn.rest, turn.next, at.n + 1, at.count + |turn.rows|, turn.after, at.total)) ==>
                ReadsFrom(step, at))
  {
    var turn := step(at.replies, at.cursor, at.n, at.count, at.store, at.total);
    StepShrinks(step, at.replies, at.cursor, at.n, at.count, at.store, at.total);
    if ReadsFrom(step, At(turn.rest, turn.next, at.n + 1, at.count + |turn.rows|, turn.after, at.total)) {
      LaterReads(step, at);
      SavedShows(step, at);
      SavedReads(step, at);
    }
  }

  /** The state a saved page leads to reads as the network once `ReadsFrom`
      says so, spelt out over the run from there. */
  lemma LaterReads(step: Stepper, at: At)
    requires Steps(step)
    requires var turn := step(at.replies, at.cursor, at.n, at.count, at.store, at.total);
             && turn.Saved?
             && ReadsFrom(step, At(turn.rest, turn.next, at.n + 1, at.count + |turn.rows|, turn.after, at.total))
    ensures var turn := step(at.replies, at.cursor, at.n, at.count, at.store, at.total);
            RunReads(Pages(step, turn.rest, turn.next, at.n + 1, at.count + |turn.rows|, turn.after, at.total),
                     turn.rest, turn.next)
  {
  }

  /** A run that stops on its first turn reads as the network. */
  lemma StoppedReads(step: Stepper, replies: seq<Retry.Reply<Works.Message>>, cursor: string,
                     n: nat, count: nat, store: Store, total: Option<int>)
    requires Steps(step) && Reads(step)
    requires step(replies, cursor, n, count, store, total).Stopped?
    ensures RunReads(Pages(step, replies, cursor, n, count, store, total), replies, cursor)
  {
    var turn := step(replies, cursor, n, count, store, total);
    PagesUnfold(step, replies, cursor, n, count, store, total);
    StepReadsAs(step, replies, cursor, n, count, store, total);
    ReadOfStop(replies, cursor, turn);
  }

  /** A run that saves a page on its first turn at `at` reads as the
      network there once the run that page's block heads does. */
  lemma SavedReads(step: Stepper, at: At)
    requires Steps(step)
    requires var turn := step(at.replies, at.cursor, at.n, at.count, at.store, at.total);
             && turn.Saved?
             && var later := Pages(step, turn.rest, turn.next, at.n + 1, at.count + |turn.rows|, turn.after, at.total);
                var block := Block(turn.fetched, at.n, turn.rows, turn.merged,
                                   ReportFor(at.total, at.count + |turn.rows|), turn.next);
                RunReads(Run(later.stop, later.store, block + later.log), at.replies, at.cursor)
    ensures RunReads(Pages(step, at.replies, at.cursor, at.n, at.count, at.store, at.total), at.replies, at.cursor)
  {
    var turn := step(at.replies, at.cursor, at.n, at.count, at.store, at.total);
    var later := Pages(step, turn.rest, turn.next, at.n + 1, at.count + |turn.rows|, turn.after, at.total);
    var block := Block(turn.fetched, at.n, turn.rows, turn.merged,
                       ReportFor(at.total, at.count + |turn.rows|), turn.next);
    PagesUnfold(step, at.replies, at.cursor, at.n, at.count, at.store, at.total);
    assert Pages(step, at.replies, at.cursor, at.n, at.count, at.store, at.total)
        == Run(later.stop, later.store, block + later.log);
  }

  /** The run a saved page at `at` heads reads as the network there once
      the run it goes on with reads as the rest. */
  lemma SavedShows(step: Stepper, at: At)
    requires Steps(step) && Reads(step)
    requires var turn := step(at.replies, at.cursor, at.n, at.count, at.store, at.total);
             && turn.Saved?
             && RunReads(Pages(step, turn.rest, turn.next, at.n + 1, at.count + |turn.rows|, turn.after, at.total),
                         turn.rest, turn.next)
    ensures var turn := step(at.replies, at.cursor, at.n, at.count, at.store, at.total);
            var later := Pages(step, turn.rest, turn.next, at.n + 1, at.count + |turn.rows|, turn.after, at.total);
            var block := Block(turn.fetched, at.n, turn.rows, turn.merged,
                               ReportFor(at.total, at.count + |turn.rows|), turn.next);
            RunReads(Run(later.stop, later.store, block + later.log), at.replies, at.cursor)
  {
    var turn := step(at.replies, at.cursor, at.n, at.count, at.store, at.total);
    StepReadsAs(step, at.replies, at.cursor, at.n, at.count, at.store, at.total);
    StepShrinks(step, at.replies, at.cursor, at.n, at.count, at.store, at.total);
    ReadOfSaved(at.replies, at.cursor, at.n, at.count, at.total, turn,
                Pages(step, turn.rest, turn.next, at.n + 1, at.count + |turn.rows|, turn.after, at.total));
  }

  /** `fetch_crossref_data(keyword)` read against the network: the run ends
      as the pages read off the replies end, its chunks hold those pages'
      rows in order, and every request after the first carries the
      `next-cursor` of the page before it, which the checkpoint records. */
  lemma HarvestRead(probe: Retry.Reply<Works.Message>, replies: seq<Retry.Reply<Works.Message>>, store: Store)
    ensures var run := Harvest(probe, replies, store);
            && run.stop == StopOf(Chain(replies).ending)
            && ChunkRows(run.log) == Chain(replies).rows
            && Requested(run.log) == [StartCursor(true, store.cursorFile)] + Nexts(Chain(replies).saved)
            && Checkpoints(run.log) == Nexts(Chain(replies).saved)
  {
    var start := FirstChunk(true, store.chunks);
    ScriptSteps();
    ScriptReads();
    PagesRead(ScriptStep, replies, StartCursor(true, store.cursorFile), start.0, start.1, store, ProbeTotal(probe));
  }
}

=== FILE: harvest_v100.dfy ===
/** crossref_scraper_v100.py: the module-level harvest of every Crossref work
    matching a keyword, in chunks of 500, with files named after the keyword.

    The output folder is a map from file name to rows. A chunk is
    `chunk_<n>_<slug>.xlsx` and the final export `crossref_all_<slug>.xlsx`,
    where the slug is the keyword with spaces turned into `_`. A run first
    looks for earlier chunks of the keyword and either reloads them all
    (resume) or deletes them; it then pages from the first page (`*`),
    writing one chunk per page and pausing a second, and writes the final
    export from every chunk it holds unless an exception ended the run. */
module HarvestV100 {
  import opened Wrappers
  import Text
  import Ordering
  import Retry
  import Works
  import Keywords
  import Names
  import opened HarvestLog

  type Row = Works.RowV100
  type Folder = map<string, seq<Row>>

  function ChunkFile(n: nat, slug: string): string {
    "chunk_" + Text.NatToString(n) + "_" + slug + ".xlsx"
  }

  function FinalFile(slug: string): string {
    "crossref_all_" + slug + ".xlsx"
  }

  // ---------------------------------------------------------------------
  // Finding earlier chunks: `detect_last_chunk`

  /** The length of the run of decimal digits `s` starts with. */
  function DigitRun(s: string): (k: nat)
    ensures k <= |s|
    ensures forall i :: 0 <= i < k ==> Text.IsDigit(s[i])
    ensures k < |s| ==> !Text.IsDigit(s[k])
  {
    if |s| == 0 || !Text.IsDigit(s[0]) then 0 else 1 + DigitRun(s[1..])
  }

  /** `re.match(rf"chunk_(\d+)_({slug})\.xlsx", name)` with the slug read
      literally, and the number the first group holds. The pattern is only
      anchored at the start, so anything may follow `.xlsx`. */
  function ChunkMatch(name: string, slug: string): (n: Option<nat>)
    ensures n.Some? ==> Text.StartsWith(name, "chunk_")
  {
    if !Text.StartsWith(name, "chunk_") then None
    else
      var rest := name[6..];
      var k := DigitRun(rest);
      if k > 0 && Text.StartsWith(rest[k..], "_" + slug + ".xlsx") then Names.DigitsNat(rest[..k]) else None
  }

  lemma {:induction false} DigitRunPrefix(d: string, t: string)
    requires forall i :: 0 <= i < |d| ==> Text.IsDigit(d[i])
    requires |t| > 0 && !Text.IsDigit(t[0])
    ensures DigitRun(d + t) == |d|
    decreases |d|
  {
    if |d| > 0 {
      assert (d + t)[1..] == d[1..] + t;
      DigitRunPrefix(d[1..], t);
    } else {
      assert d + t == t;
    }
  }

  /** Round trip: the pattern finds every chunk file of the keyword and reads
      back the number it was written under. */
  lemma ChunkMatchOfFile(n: nat, slug: string)
    ensures ChunkMatch(ChunkFile(n, slug), slug) == Some(n)
  {
    var d := Text.NatToString(n);
    var t := "_" + slug + ".xlsx";
    var name := ChunkFile(n, slug);
    assert name == "chunk_" + (d + t);
    assert Text.StartsWith(name, "chunk_");
    assert name[6..] == d + t;
    DigitRunPrefix(d, t);
    assert (d + t)[..|d|] == d;
    assert (d + t)[|d|..] == t;
  }

  /** No final export passes for a chunk file. */
  lemma FinalIsNoChunk(s: string, slug: string)
    ensures ChunkMatch(FinalFile(s), slug).None?
  {
    assert FinalFile(s)[1] == 'r';
  }

  /** The numbers of the keyword's chunk files among `names`. */
  function ChunkNumbers(names: set<string>, slug: string): (found: set<int>)
    ensures forall k :: k in found ==> k >= 0
    ensures forall name :: name in names && ChunkMatch(name, slug).Some? ==> ChunkMatch(name, slug).value in found
    ensures forall k :: k in found ==> exists name :: name in names && ChunkMatch(name, slug) == Some(k)
  {
    set name | name in names && ChunkMatch(name, slug).Some? :: ChunkMatch(name, slug).value as int
  }

  /** `detect_last_chunk`: the highest number among the keyword's chunk
      files, 0 when there is none. */
  function DetectLast(names: set<string>, slug: string): (last: nat)
    ensures (forall name :: name in names ==> ChunkMatch(name, slug).None?) ==> last == 0
    ensures (exists name :: name in names && ChunkMatch(name, slug).Some?) ==>
              exists name :: name in names && ChunkMatch(name, slug) == Some(last)
    ensures forall name :: name in names && ChunkMatch(name, slug).Some? ==> ChunkMatch(name, slug).value <= last
  {
    var found := ChunkNumbers(names, slug);
    if found == {} then 0 else Ordering.Max(found)
  }

  // ---------------------------------------------------------------------
  // Before the first page: reload or delete

  /** `pd.read_excel` of chunks 1 to `k` in order; `None` where one is
      missing and reading it raises. */
  function LoadUpTo(folder: Folder, slug: string, k: nat): (frames: Option<seq<seq<Row>>>)
    ensures frames.None? <==> exists j :: 1 <= j <= k && ChunkFile(j, slug) !in folder
    ensures frames.Some? ==> |frames.value| == k
    ensures frames.Some? ==> forall j :: 1 <= j <= k ==> frames.value[j - 1] == folder[ChunkFile(j, slug)]
  {
    if k == 0 then Some([])
    else
      match LoadUpTo(folder, slug, k - 1)
      case None => None
      case Some(fs) =>
        if ChunkFile(k, slug) in folder then Some(fs + [folder[ChunkFile(k, slug)]]) else None
  }

  /** The deletion test as written: the keyword's chunk files, and every file
      whose name merely starts with `crossref_all_<slug>`. */
  predicate DeletesAsWritten(name: string, slug: string) {
    ChunkMatch(name, slug).Some? || Text.StartsWith(name, "crossref_all_" + slug)
  }

  /** The deletion test meant: the keyword's chunk files and its own final
      export. */
  predicate Deletes(name: string, slug: string) {
    ChunkMatch(name, slug).Some? || name == FinalFile(slug)
  }

  /** Declining to resume for a keyword deletes the final export of every
      keyword whose slug extends its own: for "ai", that of "ai ethics". */
  lemma DeletesOtherExport(slug: string, more: string)
    requires more != []
    ensures slug + more != slug
    ensures DeletesAsWritten(FinalFile(slug + more), slug)
  {
    assert |slug + more| > |slug|;
    assert FinalFile(slug + more) == ("crossref_all_" + slug) + (more + ".xlsx");
  }

  /** A keyword extended by a further word slugs to the keyword's slug
      extended by `_` and that word. */
  lemma SlugExtends(k: string, word: string)
    requires ' ' !in word
    ensures Keywords.SpaceSlug(k + " " + word) == Keywords.SpaceSlug(k) + "_" + word
  {
    var x := Keywords.SpaceSlug(k + " " + word);
    var y := Keywords.SpaceSlug(k) + "_" + word;
    forall i | 0 <= i < |x|
      ensures x[i] == y[i]
    {
      if i < |k| {
        assert (k + " " + word)[i] == k[i];
      } else if i > |k| {
        assert (k + " " + word)[i] == word[i - |k| - 1];
      }
    }
  }

  /** Declining to resume for a keyword `k` deletes the final export of the
      keyword `k` followed by any further word: for "ai", that of
      "ai ethics". */
  lemma DeclineDeletesLonger(k: string, word: string)
    requires ' ' !in word
    ensures Keywords.SpaceSlug(k + " " + word) != Keywords.SpaceSlug(k)
    ensures DeletesAsWritten(FinalFile(Keywords.SpaceSlug(k + " " + word)), Keywords.SpaceSlug(k))
  {
    SlugExtends(k, word);
    assert Keywords.SpaceSlug(k) + "_" + word == Keywords.SpaceSlug(k) + ("_" + word);
    DeletesOtherExport(Keywords.SpaceSlug(k), "_" + word);
  }

  /** The keyword's own files all go, and no other keyword's final export. */
  lemma DeletesOwnFiles(n: nat, slug: string, other: string)
    ensures Deletes(ChunkFile(n, slug), slug)
    ensures Deletes(FinalFile(slug), slug)
    ensures Deletes(FinalFile(other), slug) ==> other == slug
  {
    ChunkMatchOfFile(n, slug);
    FinalIsNoChunk(other, slug);
    if FinalFile(other) == FinalFile(slug) {
      assert other == FinalFile(other)[13..|FinalFile(other)| - 5];
      assert slug == FinalFile(slug)[13..|FinalFile(slug)| - 5];
    }
  }

  /** The folder once the keyword's earlier files are deleted. */
  function Cleared(folder: Folder, slug: string): (after: Folder)
    ensures forall name :: name in after <==> name in folder && !Deletes(name, slug)
    ensures forall name :: name in after ==> after[name] == folder[name]
  {
    map name | name in folder && !Deletes(name, slug) :: folder[name]
  }

  /** After deleting, a new run finds no earlier chunk of the keyword. */
  lemma ClearedIsFresh(folder: Folder, slug: string)
    ensures DetectLast(Cleared(folder, slug).Keys, slug) == 0
  {
  }

  /** Where the page loop starts: the chunk count, the folder and the frames
      already held. */
  datatype Start = Start(last: nat, folder: Folder, frames: seq<seq<Row>>)

  /** The resume prompt: with earlier chunks, `o` reloads chunks 1 to the
      last one (and raises when one is missing); any other answer deletes
      the keyword's files and starts from chunk 1. */
  function Prepare(folder: Folder, slug: string, resume: bool): (start: Option<Start>)
    ensures var last := DetectLast(folder.Keys, slug);
            && (last == 0 ==> start == Some(Start(0, folder, [])))
            && (last > 0 && !resume ==> start == Some(Start(0, Cleared(folder, slug), [])))
            && (last > 0 && resume ==>
                  && (start.None? <==> exists j :: 1 <= j <= last && ChunkFile(j, slug) !in folder)
                  && (start.Some? ==> start.value.last == last && start.value.folder == folder
                                      && |start.value.frames| == last))
  {
    var last := DetectLast(folder.Keys, slug);
    if last == 0 then Some(Start(0, folder, []))
    else if !resume then Some(Start(0, Cleared(folder, slug), []))
    else
      match LoadUpTo(folder, slug, last)
      case None => None
      case Some(frames) => Some(Start(last, folder, frames))
  }

  // ---------------------------------------------------------------------
  // The page loop

  /** One attempt: anything but a status 200 with a JSON body raises inside
      the `try`, sleeps 5 seconds and retries. */
  function Judge(reply: Retry.Reply<Works.Message>, attempt: nat): (v: Retry.Verdict<Works.Message>)
    ensures v.Accept? <==> reply.Response? && reply.status == 200 && reply.body.Some?
    ensures v.Accept? ==> v.value == reply.body.value
    ensures v.Accept? || v == Retry.Backoff(Pause)
  {
    match reply
    case Response(200, Some(msg)) => Retry.Accept(msg)
    case _ => Retry.Backoff(Pause)
  }

  /** The order of effects of a run whose chunk count is `n`: every page
      starts with a fetch of at most 60 attempts; a saved page writes chunk
      `n + 1` and sleeps a second, and the next page counts from `n + 1`.
      The run ends on a lone fetch (60 failed attempts, an empty page, a
      missing total on the very first chunk, an item that cannot be read)
      or crashes right after a chunk whose reply has no `next-cursor`. */
  predicate Protocol(log: seq<Effect<Row>>, n: nat, stop: Stop)
    decreases |log|
  {
    && |log| >= 1
    && log[0].Fetched?
    && |log[0].waits| <= Budget
    && (forall k :: 0 <= k < |log[0].waits| ==> log[0].waits[k] == Pause)
    && (|log| == 1 || |log| == 2 || |log| >= 4)
    && (|log| == 1 ==> (stop.Failed? <==> |log[0].waits| == Budget))
    && (|log| > 1 ==>
          && |log[0].waits| < Budget
          && log[1].ChunkWritten? && log[1].index == n + 1 && log[1].rows != []
          && (|log| == 2 ==> stop.Crashed?)
          && (|log| >= 4 ==> log[2] == Slept(1) && Protocol(log[3..], n + 1, stop)))
  }

  /** How the page loop stands: the folder, the frames held for the final
      export and the effects so far. */
  datatype Turn =
    | Stopped(stop: Stop, folder: Folder, frames: seq<seq<Row>>, log: seq<Effect<Row>>)
    | Saved(folder: Folder, frames: seq<seq<Row>>, log: seq<Effect<Row>>, next: string,
            rest: seq<Retry.Reply<Works.Message>>)

  /** One page, fetched with `cursor` while `n` chunks are counted. */
  function Step(page: Page<Works.Message>, cursor: string, n: nat, folder: Folder, frames: seq<seq<Row>>,
                slug: string): (turn: Turn)
    requires Paced(page)
    ensures |turn.log| >= 1 && turn.log[0] == Fetched(cursor, page.waits)
    ensures turn.Stopped? ==> Protocol(turn.log, n, turn.stop) && (|turn.log| == 1 || |turn.log| == 2)
    ensures turn.Stopped? && |turn.log| == 1 ==> turn.folder == folder && turn.frames == frames
    ensures |turn.log| >= 2 ==>
              && turn.log[1].ChunkWritten? && turn.log[1].index == n + 1
              && turn.folder == folder[ChunkFile(n + 1, slug) := turn.log[1].rows]
              && turn.frames == frames + [turn.log[1].rows]
    ensures turn.Saved? ==>
              && page.value.Some? && page.value.value.nextCursor == Some(turn.next) && turn.rest == page.rest
              && |turn.log| == 3 && |page.waits| < Budget
              && turn.log[1].rows != [] && turn.log[2] == Slept(1)
  {
    var fetched := Fetched(cursor, page.waits);
    match page.value
    case None => Stopped(Failed, folder, frames, [fetched])
    case Some(msg) =>
      if |msg.items| == 0 then Stopped(Completed, folder, frames, [fetched])
      else if n == 0 && msg.totalResults.None? then Stopped(Crashed, folder, frames, [fetched])
      else (
        match Works.NormaliseAllV100(msg.items)
        case None => Stopped(Crashed, folder, frames, [fetched])
        case Some(rows) =>
          var written := folder[ChunkFile(n + 1, slug) := rows];
          match msg.nextCursor
          case None => Stopped(Crashed, written, frames + [rows], [fetched, ChunkWritten(n + 1, rows)])
          case Some(next) => Saved(written, frames + [rows], [fetched, ChunkWritten(n + 1, rows), Slept(1)], next, page.rest))
  }

  /** `total-results` is read only while no chunk is counted: later pages
      go the same way whether the reply carries it or not. */
  lemma TotalReadOnlyFresh(page: Page<Works.Message>, cursor: string, n: nat, folder: Folder,
                           frames: seq<seq<Row>>, slug: string)
    requires Paced(page) && n > 0 && page.value.Some?
    ensures var blind := page.(value := Some(page.value.value.(totalResults := None)));
            Paced(blind) && Step(blind, cursor, n, folder, frames, slug) == Step(page, cursor, n, folder, frames, slug)
  {
  }

  datatype Loop = Loop(stop: Stop, folder: Folder, frames: seq<seq<Row>>, log: seq<Effect<Row>>)

  /** The `while True` loop from `cursor` on, with `replies` as the network. */
  function Pages(replies: seq<Retry.Reply<Works.Message>>, cursor: string, n: nat, folder: Folder,
                 frames: seq<seq<Row>>, slug: string): (loop: Loop)
    ensures Protocol(loop.log, n, loop.stop)
    ensures loop.log[0].cursor == cursor
    decreases |replies|
  {
    var page := FetchPage(replies, Judge);
    match Step(page, cursor, n, folder, frames, slug)
    case Stopped(stop, folder', frames', log) => Loop(stop, folder', frames', log)
    case Saved(folder', frames', log, next, rest) =>
      var loop := Pages(rest, next, n + 1, folder', frames', slug);
      assert (log + loop.log)[3..] == loop.log;
      Loop(loop.stop, loop.folder, loop.frames, log + loop.log)
  }

  /** `fetch`-and-save from the script's start: a blank keyword exits; a
      missing earlier chunk raises before any request; otherwise the loop
      runs from the first page `*`, and the final export is written from
      every frame held unless an exception ended the loop. */
  datatype Run = Run(stop: Stop, folder: Folder, log: seq<Effect<Row>>)

  function Concat(frames: seq<seq<Row>>): (rows: seq<Row>) {
    if |frames| == 0 then [] else frames[0] + Concat(frames[1..])
  }

  /** Whether the `o`/`n` answer asks to resume: `rep.lower() == 'o'`. */
  predicate Resumes(answer: string) {
    answer == "o" || answer == "O"
  }

  function Harvest(keyword: string, answer: string, folder: Folder,
                   replies: seq<Retry.Reply<Works.Message>>): (run: Option<Run>)
    ensures run.None? <==> Text.Strip(keyword) == ""
    ensures run.Some? && run.value.log == [] ==> run.value.stop.Crashed? && run.value.folder == folder
    ensures run.Some? && run.value.log != [] ==> run.value.log[0].Fetched? && run.value.log[0].cursor == "*"
  {
    var k := Text.Strip(keyword);
    if k == "" then None
    else
      var slug := Keywords.SpaceSlug(k);
      match Prepare(folder, slug, Resumes(answer))
      case None => Some(Run(Crashed, folder, []))
      case Some(start) =>
        var loop := Pages(replies, "*", start.last, start.folder, start.frames, slug);
        var out := if !loop.stop.Crashed? && loop.frames != [] then loop.folder[FinalFile(slug) := Concat(loop.frames)]
                   else loop.folder;
        Some(Run(loop.stop, out, loop.log))
  }

  // ---------------------------------------------------------------------
  // Reading the log

  /** The folder once the log's chunk writes are applied in order. */
  function Replay(folder: Folder, log: seq<Effect<Row>>, slug: string): Folder
    decreases |log|
  {
    if |log| == 0 then folder
    else Replay(if log[0].ChunkWritten? then folder[ChunkFile(log[0].index, slug) := log[0].rows] else folder,
                log[1..], slug)
  }

  /** The frame of every chunk the log writes, in writing order. */
  function ChunkFrames(log: seq<Effect<Row>>): seq<seq<Row>> {
    if |log| == 0 then [] else (if log[0].ChunkWritten? then [log[0].rows] else []) + ChunkFrames(log[1..])
  }

  lemma {:induction false} ReplayAppend(folder: Folder, a: seq<Effect<Row>>, b: seq<Effect<Row>>, slug: string)
    ensures Replay(folder, a + b, slug) == Replay(Replay(folder, a, slug), b, slug)
    decreases |a|
  {
    if |a| > 0 {
      assert (a + b)[1..] == a[1..] + b;
      var f := if a[0].ChunkWritten? then folder[ChunkFile(a[0].index, slug) := a[0].rows] else folder;
      ReplayAppend(f, a[1..], b, slug);
    } else {
      assert a + b == b;
    }
  }

  lemma {:induction false} FramesAppend(a: seq<Effect<Row>>, b: seq<Effect<Row>>)
    ensures ChunkFrames(a + b) == ChunkFrames(a) + ChunkFrames(b)
    decreases |a|
  {
    if |a| > 0 {
      assert (a + b)[1..] == a[1..] + b;
      FramesAppend(a[1..], b);
    } else {
      assert a + b == b;
    }
  }

  lemma {:induction false} ConcatAppend(a: seq<seq<Row>>, b: seq<seq<Row>>)
    ensures Concat(a + b) == Concat(a) + Concat(b)
    decreases |a|
  {
    if |a| > 0 {
      assert (a + b)[1..] == a[1..] + b;
      ConcatAppend(a[1..], b);
    } else {
      assert a + b == b;
    }
  }

  /** The frames a log writes hold exactly the rows it writes. */
  lemma {:induction false} ConcatFrames(log: seq<Effect<Row>>)
    ensures Concat(ChunkFrames(log)) == ChunkRows(log)
    decreases |log|
  {
    if |log| > 0 {
      ConcatFrames(log[1..]);
      var head := if log[0].ChunkWritten? then [log[0].rows] else [];
      ConcatAppend(head, ChunkFrames(log[1..]));
      if log[0].ChunkWritten? {
        assert Concat(head) == log[0].rows + Concat([]);
      }
    }
  }

  /** The effects of a turn that wrote a chunk, read back. */
  lemma ReadBack(f: Effect<Row>, c: Effect<Row>, tail: seq<Effect<Row>>, folder: Folder, slug: string)
    requires !f.ChunkWritten? && c.ChunkWritten? && (tail == [] || (|tail| == 1 && !tail[0].ChunkWritten?))
    ensures Replay(folder, [f, c] + tail, slug) == folder[ChunkFile(c.index, slug) := c.rows]
    ensures ChunkFrames([f, c] + tail) == [c.rows]
  {
    var s := [f, c] + tail;
    var after := folder[ChunkFile(c.index, slug) := c.rows];
    assert s[1..] == [c] + tail;
    assert ([c] + tail)[1..] == tail;
    assert Replay(folder, s, slug) == Replay(folder, [c] + tail, slug);
    assert Replay(folder, [c] + tail, slug) == Replay(after, tail, slug);
    assert ChunkFrames(s) == ChunkFrames([c] + tail);
    assert ChunkFrames([c] + tail) == [c.rows] + ChunkFrames(tail);
    if tail != [] {
      assert tail[1..] == [];
      assert Replay(after, tail, slug) == Replay(after, [], slug);
      assert ChunkFrames(tail) == ChunkFrames(tail[1..]);
    }
  }

  /** `Pages` unfolded once, with the turn it took. */
  lemma PagesUnfold(replies: seq<Retry.Reply<Works.Message>>, cursor: string, n: nat, folder: Folder,
                    frames: seq<seq<Row>>, slug: string) returns (turn: Turn)
    ensures turn == Step(FetchPage(replies, Judge), cursor, n, folder, frames, slug)
  {
    turn := Step(FetchPage(replies, Judge), cursor, n, folder, frames, slug);
  }

  /** What the loop does with the turn it took, with no term of `Step`
      left for the caller to unfold. */
  lemma PagesTurn(replies: seq<Retry.Reply<Works.Message>>, cursor: string, n: nat, folder: Folder,
                  frames: seq<seq<Row>>, slug: string) returns (turn: Turn)
    ensures |turn.log| >= 1 && !turn.log[0].ChunkWritten?
    ensures |turn.log| == 1 ==> turn.Stopped? && turn.folder == folder && turn.frames == frames
    ensures |turn.log| >= 2 ==>
              && turn.log[1].ChunkWritten? && turn.log[1].index == n + 1
              && turn.folder == folder[ChunkFile(n + 1, slug) := turn.log[1].rows]
              && turn.frames == frames + [turn.log[1].rows]
              && (|turn.log| == 2 || (|turn.log| == 3 && !turn.log[2].ChunkWritten?))
    ensures var loop := Pages(replies, cursor, n, folder, frames, slug);
            && (turn.Stopped? ==> loop == Loop(turn.stop, turn.folder, turn.frames, turn.log))
            && (turn.Saved? ==>
                  && |turn.rest| < |replies|
                  && var later := Pages(turn.rest, turn.next, n + 1, turn.folder, turn.frames, slug);
                     loop == Loop(later.stop, later.folder, later.frames, turn.log + later.log))
  {
    turn := PagesUnfold(replies, cursor, n, folder, frames, slug);
  }

  // ---------------------------------------------------------------------
  // The network read on its own

  /** Whether the loop goes on after `msg`: it has items, it carries
      `total-results` unless no chunk is counted yet (`opening`), every item
      can be read, and it has a `next-cursor`. */
  predicate Continues(msg: Works.Message, opening: bool) {
    && msg.items != []
    && !(opening && msg.totalResults.None?)
    && Works.NormaliseAllV100(msg.items).Some?
    && msg.nextCursor.Some?
  }

  /** The rows of the chunk written for `msg`, none when no chunk is. */
  function Written(msg: Works.Message, opening: bool): seq<Row> {
    if msg.items == [] || (opening && msg.totalResults.None?) then []
    else Works.NormaliseAllV100(msg.items).GetOr([])
  }

  /** The harvest read off the network alone, without the loop: each page
      is the body of the first of the next 60 replies that is a status 200
      with a body; reading goes on after a page that `Continues`, only the
      first page being `opening` when no chunk was found to resume from. */
  function Chain(replies: seq<Retry.Reply<Works.Message>>, opening: bool): (r: Reading<Row>)
    ensures forall i :: 0 <= i < |r.saved| ==> Continues(r.saved[i], opening && i == 0)
    ensures r.ending.Last? ==> !Continues(r.ending.page, opening && r.saved == [])
    ensures !r.ending.Undecodable?
    decreases |replies|
  {
    KeptInStub(replies, Judge, 0);
    match FirstKept(replies, Judge, 0)
    case None => Reading([], Exhausted, [])
    case Some(kept) =>
      var msg := kept.value;
      if Continues(msg, opening) then
        var more := Chain(Retry.Drop(replies, kept.attempt + 1), false);
        Reading([msg] + more.saved, more.ending, Written(msg, opening) + more.rows)
      else Reading([], Last(msg), Written(msg, opening))
  }

  // ---------------------------------------------------------------------
  // Properties

  /** The loop's folder and frames are what its log wrote: every chunk file
      over the folder it started from, and one frame per chunk in order. */
  lemma {:induction false} PagesState(replies: seq<Retry.Reply<Works.Message>>, cursor: string, n: nat,
                                      folder: Folder, frames: seq<seq<Row>>, slug: string)
    ensures var loop := Pages(replies, cursor, n, folder, frames, slug);
            loop.folder == Replay(folder, loop.log, slug) && loop.frames == frames + ChunkFrames(loop.log)
    decreases |replies|
  {
    var turn := PagesTurn(replies, cursor, n, folder, frames, slug);
    if turn.Stopped? {
      TurnState(turn, n, folder, frames, slug, []);
      assert turn.log + [] == turn.log;
    } else {
      var loop := Pages(turn.rest, turn.next, n + 1, turn.folder, turn.frames, slug);
      PagesState(turn.rest, turn.next, n + 1, turn.folder, turn.frames, slug);
      TurnState(turn, n, folder, frames, slug, loop.log);
    }
  }

  /** One turn's effects, followed by a later run's, read back over the
      turn's starting folder and frames. */
  lemma TurnState(turn: Turn, n: nat, folder: Folder, frames: seq<seq<Row>>, slug: string,
                  later: seq<Effect<Row>>)
    requires |turn.log| >= 1 && !turn.log[0].ChunkWritten?
    requires |turn.log| == 1 ==> turn.folder == folder && turn.frames == frames
    requires |turn.log| >= 2 ==>
               && turn.log[1].ChunkWritten? && turn.log[1].index == n + 1
               && turn.folder == folder[ChunkFile(n + 1, slug) := turn.log[1].rows]
               && turn.frames == frames + [turn.log[1].rows]
               && (|turn.log| == 2 || (|turn.log| == 3 && !turn.log[2].ChunkWritten?))
    ensures Replay(folder, turn.log + later, slug) == Replay(turn.folder, later, slug)
    ensures frames + ChunkFrames(turn.log + later) == turn.frames + ChunkFrames(later)
  {
    ReplayAppend(folder, turn.log, later, slug);
    FramesAppend(turn.log, later);
    if |turn.log| == 1 {
      assert turn.log[1..] == [];
    } else {
      assert turn.log == [turn.log[0], turn.log[1]] + turn.log[2..];
      ReadBack(turn.log[0], turn.log[1], turn.log[2..], folder, slug);
      assert frames + [turn.log[1].rows] + ChunkFrames(later) == frames + ([turn.log[1].rows] + ChunkFrames(later));
    }
  }

  /** Chunks are numbered consecutively from the count the loop started at
      plus one. */
  lemma {:induction false} ChunksConsecutive(log: seq<Effect<Row>>, n: nat, stop: Stop)
    requires Protocol(log, n, stop)
    ensures forall j :: 0 <= j < |ChunkIndices(log)| ==> ChunkIndices(log)[j] == n + 1 + j
    decreases |log|
  {
    if |log| == 1 {
      ReadingFetch(log, None);
    } else if |log| == 2 {
      assert log == [log[0]] + ([log[1]] + []);
      ReadingCons(log[1], [], None);
      ReadingCons(log[0], [log[1]] + [], None);
    } else {
      var tail := log[3..];
      ChunksConsecutive(tail, n + 1, stop);
      assert log == [log[0]] + ([log[1]] + ([log[2]] + tail));
      ReadingCons(log[2], tail, None);
      ReadingCons(log[1], [log[2]] + tail, None);
      ReadingCons(log[0], [log[1]] + ([log[2]] + tail), None);
    }
  }

  /** A run, resumed or not, starts from the first page and numbers its
      chunks right after the last one found; when the reply for chunk
      `last + 1` repeats the first page, the resumed export holds it twice. */
  lemma HarvestChunks(keyword: string, answer: string, folder: Folder, replies: seq<Retry.Reply<Works.Message>>)
    requires Text.Strip(keyword) != ""
    ensures var slug := Keywords.SpaceSlug(Text.Strip(keyword));
            var start := Prepare(folder, slug, Resumes(answer));
            var run := Harvest(keyword, answer, folder, replies).value;
            start.Some? ==>
              && Protocol(run.log, start.value.last, run.stop)
              && run.log[0].cursor == "*"
              && (forall j :: 0 <= j < |ChunkIndices(run.log)| ==> ChunkIndices(run.log)[j] == start.value.last + 1 + j)
  {
    var slug := Keywords.SpaceSlug(Text.Strip(keyword));
    var start := Prepare(folder, slug, Resumes(answer));
    if start.Some? {
      var st := start.value;
      var loop := Pages(replies, "*", st.last, st.folder, st.frames, slug);
      ChunksConsecutive(loop.log, st.last, loop.stop);
    }
  }

  /** What a run leaves in the folder: the chunk files over the folder it
      started from and, unless an exception ended it, the final export
      holding the reloaded chunks followed by this run's, when there are
      any. */
  lemma HarvestFolder(keyword: string, answer: string, folder: Folder, replies: seq<Retry.Reply<Works.Message>>)
    requires Text.Strip(keyword) != ""
    ensures var slug := Keywords.SpaceSlug(Text.Strip(keyword));
            var start := Prepare(folder, slug, Resumes(answer));
            var run := Harvest(keyword, answer, folder, replies).value;
            start.Some? ==>
              var written := Replay(start.value.folder, run.log, slug);
              run.folder == if !run.stop.Crashed? && start.value.frames + ChunkFrames(run.log) != []
                            then written[FinalFile(slug) := Concat(start.value.frames) + ChunkRows(run.log)]
                            else written
  {
    var slug := Keywords.SpaceSlug(Text.Strip(keyword));
    var start := Prepare(folder, slug, Resumes(answer));
    if start.Some? {
      var st := start.value;
      var loop := Pages(replies, "*", st.last, st.folder, st.frames, slug);
      PagesState(replies, "*", st.last, st.folder, st.frames, slug);
      ConcatAppend(st.frames, ChunkFrames(loop.log));
      ConcatFrames(loop.log);
    }
  }

  /** One fetched page: a missing page fails; otherwise the turn goes on
      exactly when the page `Continues`, stops as that page ends a reading,
      writes the page's rows and goes on from its `next-cursor`. It requests
      only `cursor`. */
  lemma StepOfPage(page: Page<Works.Message>, cursor: string, n: nat, folder: Folder,
                   frames: seq<seq<Row>>, slug: string)
    requires Paced(page)
    ensures var turn := Step(page, cursor, n, folder, frames, slug);
            && (page.value.None? ==> turn.Stopped? && turn.stop == Failed && |turn.log| == 1)
            && (page.value.Some? ==>
                  && (turn.Saved? <==> Continues(page.value.value, n == 0))
                  && (turn.Stopped? ==> turn.stop == StopOf(Last(page.value.value)))
                  && ChunkRows(turn.log) == Written(page.value.value, n == 0)
                  && (turn.Saved? ==> page.value.value.nextCursor == Some(turn.next) && turn.rest == page.rest))
            && Requested(turn.log) == [cursor] && Checkpoints(turn.log) == []
  {
    var turn := Step(page, cursor, n, folder, frames, slug);
    ReadingTurn(turn.log);
    if page.value.Some? {
      var msg := page.value.value;
      if |msg.items| == 0 {
        assert turn.Stopped? && turn.stop == Completed && |turn.log| == 1;
      } else if n == 0 && msg.totalResults.None? {
        assert turn.Stopped? && turn.stop == Crashed && |turn.log| == 1;
      } else if Works.NormaliseAllV100(msg.items).None? {
        assert turn.Stopped? && turn.stop == Crashed && |turn.log| == 1;
      } else {
        assert turn.log[1].rows == Works.NormaliseAllV100(msg.items).value;
        if msg.nextCursor.None? {
          assert turn.Stopped? && turn.stop == Crashed;
        } else {
          assert turn.Saved? && turn.next == msg.nextCursor.value;
        }
      }
    }
  }

  /** One turn against the network is one step of its reading: it fails
      when no attempt is kept, and otherwise waited for every attempt before
      the kept one, goes on exactly when the kept page `Continues`, stops as
      that page ends the reading, writes that page's rows and requests only
      `cursor`. */
  lemma StepReads(replies: seq<Retry.Reply<Works.Message>>, cursor: string, n: nat, folder: Folder,
                  frames: seq<seq<Row>>, slug: string)
    ensures var turn := Step(FetchPage(replies, Judge), cursor, n, folder, frames, slug);
            match FirstKept(replies, Judge, 0)
            case None => turn.Stopped? && turn.stop == Failed && |turn.log| == 1
            case Some(kept) =>
              && |turn.log[0].waits| == kept.attempt
              && (turn.Saved? <==> Continues(kept.value, n == 0))
              && (turn.Stopped? ==> turn.stop == StopOf(Last(kept.value)))
              && ChunkRows(turn.log) == Written(kept.value, n == 0)
              && (turn.Saved? ==>
                    && kept.value.nextCursor == Some(turn.next)
                    && turn.rest == Retry.Drop(replies, kept.attempt + 1))
    ensures var turn := Step(FetchPage(replies, Judge), cursor, n, folder, frames, slug);
            Requested(turn.log) == [cursor] && Checkpoints(turn.log) == []
  {
    FetchKeepsFirst(replies, Judge);
    StepOfPage(FetchPage(replies, Judge), cursor, n, folder, frames, slug);
  }

  /** A turn matches one step of the reading of its network: a stop ends
      the reading as it ends the run, with the same rows; a saved page heads
      the reading, which goes on with what is left of the network. */
  predicate ReadsAs(turn: Turn, replies: seq<Retry.Reply<Works.Message>>, opening: bool) {
    && (turn.Stopped? ==>
          && turn.stop == StopOf(Chain(replies, opening).ending)
          && ChunkRows(turn.log) == Chain(replies, opening).rows
          && Chain(replies, opening).saved == [])
    && (turn.Saved? ==>
          && Chain(replies, opening).ending == Chain(turn.rest, false).ending
          && Chain(replies, opening).rows == ChunkRows(turn.log) + Chain(turn.rest, false).rows
          && Nexts(Chain(replies, opening).saved) == [turn.next] + Nexts(Chain(turn.rest, false).saved))
  }

  /** A turn that behaves as `StepReads` says is one step of the reading. */
  lemma ChainOfTurn(replies: seq<Retry.Reply<Works.Message>>, opening: bool, turn: Turn)
    requires match FirstKept(replies, Judge, 0)
             case None => turn.Stopped? && turn.stop == Failed && |turn.log| == 1
             case Some(kept) =>
               && (turn.Saved? <==> Continues(kept.value, opening))
               && (turn.Stopped? ==> turn.stop == StopOf(Last(kept.value)))
               && ChunkRows(turn.log) == Written(kept.value, opening)
               && (turn.Saved? ==>
                     && kept.value.nextCursor == Some(turn.next)
                     && turn.rest == Retry.Drop(replies, kept.attempt + 1))
    requires |turn.log| == 1 ==> ChunkRows(turn.log) == []
    ensures ReadsAs(turn, replies, opening)
  {
    KeptInStub(replies, Judge, 0);
    if turn.Saved? {
      var kept := FirstKept(replies, Judge, 0).value;
      var more := Chain(turn.rest, false);
      assert Chain(replies, opening).saved == [kept.value] + more.saved;
      assert Nexts([kept.value] + more.saved) == [turn.next] + Nexts(more.saved);
    }
  }

  /** Every turn is one step of the reading of its network. */
  lemma TurnChain(replies: seq<Retry.Reply<Works.Message>>, cursor: string, n: nat, folder: Folder,
                  frames: seq<seq<Row>>, slug: string)
    ensures var turn := Step(FetchPage(replies, Judge), cursor, n, folder, frames, slug);
            ReadsAs(turn, replies, n == 0) && Requested(turn.log) == [cursor] && Checkpoints(turn.log) == []
  {
    var turn := Step(FetchPage(replies, Judge), cursor, n, folder, frames, slug);
    StepReads(replies, cursor, n, folder, frames, slug);
    ReadingTurn(turn.log);
    ChainOfTurn(replies, n == 0, turn);
  }

  /** `Pages` after the turn it took. */
  lemma PagesAfter(replies: seq<Retry.Reply<Works.Message>>, cursor: string, n: nat, folder: Folder,
                   frames: seq<seq<Row>>, slug: string, turn: Turn)
    requires turn == Step(FetchPage(replies, Judge), cursor, n, folder, frames, slug)
    ensures var loop := Pages(replies, cursor, n, folder, frames, slug);
            && (turn.Stopped? ==> loop.stop == turn.stop && loop.log == turn.log)
            && (turn.Saved? ==>
                  && |turn.rest| < |replies|
                  && var later := Pages(turn.rest, turn.next, n + 1, turn.folder, turn.frames, slug);
                     loop.stop == later.stop && loop.log == turn.log + later.log)
  {
  }

  /** The turn `Pages` took, read against the network, with no term of
      `Step` left for the caller to unfold. */
  lemma PagesTurnRead(replies: seq<Retry.Reply<Works.Message>>, cursor: string, n: nat, folder: Folder,
                      frames: seq<seq<Row>>, slug: string) returns (turn: Turn)
    ensures turn == Step(FetchPage(replies, Judge), cursor, n, folder, frames, slug)
    ensures ReadsAs(turn, replies, n == 0) && Requested(turn.log) == [cursor] && Checkpoints(turn.log) == []
    ensures var loop := Pages(replies, cursor, n, folder, frames, slug);
            && (turn.Stopped? ==> loop.stop == turn.stop && loop.log == turn.log)
            && (turn.Saved? ==>
                  && |turn.rest| < |replies|
                  && var later := Pages(turn.rest, turn.next, n + 1, turn.folder, turn.frames, slug);
                     loop.stop == later.stop && loop.log == turn.log + later.log)
  {
    turn := PagesUnfold(replies, cursor, n, folder, frames, slug);
    TurnChain(replies, cursor, n, folder, frames, slug);
    PagesAfter(replies, cursor, n, folder, frames, slug, turn);
  }

  /** A loop started with `cursor` reads as the network: it stops as the
      reading ends, its chunks hold the reading's rows, it requests `cursor`
      and then the `next-cursor` of every page it went on from, and it
      writes no checkpoint. */
  predicate LoopReads(loop: Loop, replies: seq<Retry.Reply<Works.Message>>, cursor: string, opening: bool) {
    && loop.stop == StopOf(Chain(replies, opening).ending)
    && ChunkRows(loop.log) == Chain(replies, opening).rows
    && Requested(loop.log) == [cursor] + Nexts(Chain(replies, opening).saved)
    && Checkpoints(loop.log) == []
  }

  /** A loop that took a turn reading as one step, and then, after a saved
      page, ran a `later` loop that reads as the rest of the network, reads
      as the whole network. */
  lemma ReadOfTurn(replies: seq<Retry.Reply<Works.Message>>, cursor: string, n: nat, turn: Turn,
                   loop: Loop, later: Loop)
    requires ReadsAs(turn, replies, n == 0) && Requested(turn.log) == [cursor] && Checkpoints(turn.log) == []
    requires turn.Stopped? ==> loop.stop == turn.stop && loop.log == turn.log
    requires turn.Saved? ==>
               && loop.stop == later.stop && loop.log == turn.log + later.log
               && LoopReads(later, turn.rest, turn.next, n + 1 == 0)
    ensures LoopReads(loop, replies, cursor, n == 0)
  {
    if turn.Saved? {
      assert (n + 1 == 0) == false;
      RowsAppend(turn.log, later.log);
      RequestedAppend(turn.log, later.log);
    }
  }

  /** Where the loop stands before a page: the network still unread, the
      cursor, the chunks counted, the folder, the frames held and the
      keyword's slug. */
  datatype At = At(replies: seq<Retry.Reply<Works.Message>>, cursor: string, n: nat, folder: Folder,
                   frames: seq<seq<Row>>, slug: string)

  /** Where the loop stands after the page it fetches from `at`, if it goes on. */
  function GoesOn(at: At): Option<At> {
    After(at, Step(FetchPage(at.replies, Judge), at.cursor, at.n, at.folder, at.frames, at.slug))
  }

  function After(at: At, turn: Turn): Option<At> {
    if turn.Saved? then Some(At(turn.rest, turn.next, at.n + 1, turn.folder, turn.frames, at.slug)) else None
  }

  /** The loop run from `at` reads as the network still unread. */
  predicate ReadsFrom(at: At) {
    PagesReadAs(at.replies, at.cursor, at.n, at.folder, at.frames, at.slug)
  }

  /** The loop run from these arguments reads as the network. */
  predicate PagesReadAs(replies: seq<Retry.Reply<Works.Message>>, cursor: string, n: nat, folder: Folder,
                        frames: seq<seq<Row>>, slug: string) {
    LoopReads(Pages(replies, cursor, n, folder, frames, slug), replies, cursor, n == 0)
  }

  /** Where the loop stands after the turn it took from `at`. */
  lemma GoesOnTurn(at: At, turn: Turn)
    requires turn == Step(FetchPage(at.replies, Judge), at.cursor, at.n, at.folder, at.frames, at.slug)
    ensures GoesOn(at) == After(at, turn)
  {
  }

  /** The network still unread, for the induction along the loop. */
  function Unread(at: At): nat {
    |at.replies|
  }

  /** The loop reads as the network from `at` if it stops on the page it
      fetches there, or once the loop it goes on with reads as the rest. */
  lemma TurnReads(at: At) returns (turn: Turn)
    ensures GoesOn(at) == After(at, turn)
    ensures turn.Stopped? ==> PagesReadAs(at.replies, at.cursor, at.n, at.folder, at.frames, at.slug)
    ensures turn.Saved? ==>
              && |turn.rest| < |at.replies|
              && (PagesReadAs(turn.rest, turn.next, at.n + 1, turn.folder, turn.frames, at.slug) ==>
                  PagesReadAs(at.replies, at.cursor, at.n, at.folder, at.frames, at.slug))
  {
    turn := PagesTurnRead(at.replies, at.cursor, at.n, at.folder, at.frames, at.slug);
    GoesOnTurn(at, turn);
    var loop := Pages(at.replies, at.cursor, at.n, at.folder, at.frames, at.slug);
    if turn.Saved? {
      var later := Pages(turn.rest, turn.next, at.n + 1, turn.folder, turn.frames, at.slug);
      if LoopReads(later, turn.rest, turn.next, at.n + 1 == 0) {
        ReadOfTurn(at.replies, at.cursor, at.n, turn, loop, later);
      }
    } else {
      ReadOfTurn(at.replies, at.cursor, at.n, turn, loop, loop);
    }
  }

  /** `TurnReads` in terms of where the loop goes on. */
  lemma PagesReadOnce(at: At)
    ensures GoesOn(at).None? ==> ReadsFrom(at)
    ensures GoesOn(at).Some? ==>
              && Unread(GoesOn(at).value) < Unread(at)
              && (ReadsFrom(GoesOn(at).value) ==> ReadsFrom(at))
  {
    var turn := TurnReads(at);
    AfterSaved(at, turn);
    if turn.Saved? {
      ReadsFromAt(turn.rest, turn.next, at.n + 1, turn.folder, turn.frames, at.slug);
    }
  }

  /** Where the loop goes on after a saved page. */
  lemma AfterSaved(at: At, turn: Turn)
    ensures turn.Saved? ==> After(at, turn) == Some(At(turn.rest, turn.next, at.n + 1, turn.folder, turn.frames, at.slug))
    ensures turn.Stopped? ==> After(at, turn) == None
  {
  }

  /** `ReadsFrom` of a state built from its parts, spelt out. */
  lemma ReadsFromAt(replies: seq<Retry.Reply<Works.Message>>, cursor: string, n: nat, folder: Folder,
                    frames: seq<seq<Row>>, slug: string)
    ensures ReadsFrom(At(replies, cursor, n, folder, frames, slug)) == PagesReadAs(replies, cursor, n, folder, frames, slug)
  {
  }

  /** A run of the loop read against the network: it stops as the reading
      ends (failed after 60 failed attempts, completed on an empty page,
      crashed otherwise), its chunks hold the rows of the pages read, in
      order, and it requests `cursor` and then the `next-cursor` of every
      page it went on from; it writes no checkpoint. */
  lemma PagesRead(replies: seq<Retry.Reply<Works.Message>>, cursor: string, n: nat,
                  folder: Folder, frames: seq<seq<Row>>, slug: string)
    ensures LoopReads(Pages(replies, cursor, n, folder, frames, slug), replies, cursor, n == 0)
  {
    forall at: At
      ensures GoesOn(at).None? ==> ReadsFrom(at)
      ensures GoesOn(at).Some? ==> Unread(GoesOn(at).value) < Unread(at) && (ReadsFrom(GoesOn(at).value) ==> ReadsFrom(at))
    {
      PagesReadOnce(at);
    }
    AlongPages(At(replies, cursor, n, folder, frames, slug), Unread, GoesOn, ReadsFrom);
  }

  /** A run read against the network: it starts from `*`, stops as the
      reading ends, writes the rows of the pages read, and requests `*` and
      then each page's `next-cursor`; only a run with no chunk to resume
      from reads its first page as the opening one. */
  lemma HarvestRead(keyword: string, answer: string, folder: Folder, replies: seq<Retry.Reply<Works.Message>>)
    requires Text.Strip(keyword) != ""
    ensures var slug := Keywords.SpaceSlug(Text.Strip(keyword));
            var start := Prepare(folder, slug, Resumes(answer));
            var run := Harvest(keyword, answer, folder, replies).value;
            start.Some? ==>
              var reading := Chain(replies, start.value.last == 0);
              && run.stop == StopOf(reading.ending)
              && ChunkRows(run.log) == reading.rows
              && Requested(run.log) == ["*"] + Nexts(reading.saved)
              && Checkpoints(run.log) == []
  {
    var slug := Keywords.SpaceSlug(Text.Strip(keyword));
    var start := Prepare(folder, slug, Resumes(answer));
    if start.Some? {
      PagesRead(replies, "*", start.value.last, start.value.folder, start.value.frames, slug);
    }
  }
}

=== FILE: harvest_v102.dfy ===
/** crossref_scraper_v102.py: `fetch_crossref_data`, the cursor-paginated
    harvest of every Crossref work matching a keyword, saved in chunks of 500.

    A run is a log of effects: one `Fetched` per page request (with the waits
    of its failed attempts), then for a saved page the chunk file, the
    combined export, the checkpoint and a progress report, in that order. */
module HarvestV102 {
  import opened Wrappers
  import Text
  import Retry
  import Works
  import opened HarvestLog

  type Row = Works.RowV102

  datatype Store = Store(chunks: map<nat, seq<Row>>,
                         combined: Option<seq<Row>>,
                         cursorFile: Option<string>)

  datatype Run = Run(stop: Stop, store: Store, log: seq<Effect<Row>>)

  /** One attempt: any exception inside the `try` (network, `raise_for_status`,
      `json()`) sleeps and retries; anything else is kept. */
  function Judge(reply: Retry.Reply<Works.Message>, attempt: nat): (v: Retry.Verdict<Works.Message>)
    ensures v.Backoff? ==> v.wait == Pause
    ensures v.Accept? <==> reply.Response? && !(400 <= reply.status < 600) && reply.body.Some?
    ensures v.Accept? ==> v.value == reply.body.value
    ensures v.Accept? || v.Backoff?
  {
    match reply
    case Raised => Retry.Backoff(Pause)
    case Response(status, body) =>
      if 400 <= status < 600 || body.None? then Retry.Backoff(Pause) else Retry.Accept(body.value)
  }

  /** The order of effects a harvest from chunk `n` and `cursor` performs:
      every page starts with a fetch of at most 60 attempts sent with the
      current cursor; a saved page writes chunk `n`, then the combined export,
      then the checkpoint, then reports, and the next page uses the new
      cursor and chunk `n + 1`. The run ends on a lone fetch (empty page,
      exhausted attempts, unreadable item) or crashes between the combined
      export and the checkpoint. */
  predicate Protocol(log: seq<Effect<Row>>, n: nat, cursor: string, total: Option<int>, stop: Stop)
    decreases |log|
  {
    && |log| >= 1
    && log[0].Fetched? && log[0].cursor == cursor
    && |log[0].waits| <= Budget
    && (forall k :: 0 <= k < |log[0].waits| ==> log[0].waits[k] == Pause)
    && (|log| == 1 || |log| == 3 || |log| >= 6)
    && (|log| == 1 ==> (stop.Failed? <==> |log[0].waits| == Budget))
    && (|log| > 1 ==>
          && |log[0].waits| < Budget
          && log[1].ChunkWritten? && log[1].index == n && log[1].rows != []
          && log[2].CombinedWritten?
          && (|log| == 3 ==> stop.Crashed?)
          && (|log| >= 6 ==>
                && log[3].CursorWritten?
                && log[4] == Progress(ReportFor(total, |log[2].rows|))
                && Protocol(log[5..], n + 1, log[3].cursor, total, stop)))
  }

  /** One turn of the loop: either the run stops, or the page is saved and
      the loop goes on from `next` with what is left of the network. */
  datatype Turn =
    | Stopped(stop: Stop, store: Store, log: seq<Effect<Row>>)
    | Saved(store: Store, log: seq<Effect<Row>>, next: string, rest: seq<Retry.Reply<Works.Message>>)

  /** The page fetched with `cursor` and saved as chunk `n`. */
  function Step(page: Page<Works.Message>, cursor: string, n: nat,
                store: Store, total: Option<int>): (turn: Turn)
    requires Paced(page)
    ensures |turn.log| >= 1 && turn.log[0] == Fetched(cursor, page.waits)
    ensures turn.Stopped? ==> Protocol(turn.log, n, cursor, total, turn.stop)
    ensures turn.Stopped? ==> |turn.log| == 1 || |turn.log| == 3
    ensures turn.Stopped? && |turn.log| == 1 ==> turn.store == store
    ensures turn.Stopped? && |turn.log| == 3 ==>
              && turn.log[1].ChunkWritten? && turn.log[2].CombinedWritten?
              && turn.store == store.(chunks := store.chunks[n := turn.log[1].rows],
                                      combined := Some(store.combined.GetOr([]) + turn.log[1].rows))
    ensures turn.Saved? ==>
              && page.value.Some? && page.value.value.nextCursor == Some(turn.next) && turn.rest == page.rest
              && |turn.log| == 5
              && turn.log[3] == CursorWritten(turn.next)
              && |page.waits| < Budget
              && turn.log[1].ChunkWritten? && turn.log[1].index == n && turn.log[1].rows != []
              && turn.log[2] == CombinedWritten(store.combined.GetOr([]) + turn.log[1].rows)
              && turn.log[4] == Progress(ReportFor(total, |turn.log[2].rows|))
              && turn.store == store.(chunks := store.chunks[n := turn.log[1].rows],
                                      combined := Some(turn.log[2].rows),
                                      cursorFile := Some(turn.next))
  {
    var fetched := Fetched(cursor, page.waits);
    match page.value
    case None => Stopped(Failed, store, [fetched])
    case Some(msg) =>
      if |msg.items| == 0 then Stopped(Completed, store, [fetched])
      else (
        match Works.NormaliseAllV102(msg.items)
        case None => Stopped(Crashed, store, [fetched])
        case Some(rows) =>
          var combined := store.combined.GetOr([]) + rows;
          var written := store.(chunks := store.chunks[n := rows], combined := Some(combined));
          var head := [fetched, ChunkWritten(n, rows), CombinedWritten(combined)];
          match msg.nextCursor
          case None => Stopped(Crashed, written, head)
          case Some(next) =>
            Saved(written.(cursorFile := Some(next)),
                  head + [CursorWritten(next), Progress(ReportFor(total, |combined|))],
                  next, page.rest))
  }

  /** Pages from `cursor` on, with `replies` as the network. */
  function Pages(replies: seq<Retry.Reply<Works.Message>>, cursor: string, n: nat,
                 store: Store, total: Option<int>): (run: Run)
    ensures Protocol(run.log, n, cursor, total, run.stop)
    decreases |replies|
  {
    match Step(FetchPage(replies, Judge), cursor, n, store, total)
    case Stopped(stop, store', log) => Run(stop, store', log)
    case Saved(store', log, next, rest) =>
      var run := Pages(rest, next, n + 1, store', total);
      assert (log + run.log)[5..] == run.log;
      Run(run.stop, run.store, log + run.log)
  }

  /** `fetch_crossref_data(keyword, resume)` against a folder in state
      `store`: the probe reply first, then the page replies. */
  function Harvest(resume: bool, probe: Retry.Reply<Works.Message>,
                   replies: seq<Retry.Reply<Works.Message>>, store: Store): (run: Run)
    ensures Protocol(run.log, FirstChunk(resume, store.chunks).0,
                     StartCursor(resume, store.cursorFile), ProbeTotal(probe), run.stop)
  {
    Pages(replies, StartCursor(resume, store.cursorFile), FirstChunk(resume, store.chunks).0,
          store, ProbeTotal(probe))
  }

  // ---------------------------------------------------------------------
  // The pages read off the network

  /** Whether the loop goes on after page `msg`: it has items, every item
      can be read and it names the next cursor. */
  predicate Continues(msg: Works.Message) {
    msg.items != [] && Works.NormaliseAllV102(msg.items).Some? && msg.nextCursor.Some?
  }

  /** The harvest read off the network alone, without the loop: each page
      is the body of the first of the next 60 replies that is a non-error
      response with a body; reading goes on after a page that `Continues`,
      and a page whose items can all be read contributes them normalised. */
  function Chain(replies: seq<Retry.Reply<Works.Message>>): (r: Reading<Row>)
    ensures forall i :: 0 <= i < |r.saved| ==> Continues(r.saved[i])
    ensures r.ending.Last? ==> !Continues(r.ending.page)
    ensures !r.ending.Undecodable?
    decreases |replies|
  {
    KeptInStub(replies, Judge, 0);
    match FirstKept(replies, Judge, 0)
    case None => Reading([], Exhausted, [])
    case Some(kept) =>
      var msg := kept.value;
      var rows := Works.NormaliseAllV102(msg.items).GetOr([]);
      if Continues(msg) then
        var more := Chain(Retry.Drop(replies, kept.attempt + 1));
        Reading([msg] + more.saved, more.ending, rows + more.rows)
      else Reading([], Last(msg), rows)
  }

  /** The chunk and export writes of a page, without its checkpoint. */
  lemma ReadingCrash(log: seq<Effect<Row>>, prior: Option<string>)
    requires |log| == 3 && log[0].Fetched? && log[1].ChunkWritten? && log[2].CombinedWritten?
    ensures ChunkRows(log) == log[1].rows
    ensures ChunkIndices(log) == [log[1].index]
    ensures ChunksOf(log) == map[log[1].index := log[1].rows]
    ensures LastCheckpoint(log, prior) == prior
    ensures Requested(log) == [log[0].cursor] && Checkpoints(log) == []
  {
    assert log == [log[0]] + ([log[1]] + ([log[2]] + []));
    ReadingCons(log[2], [], prior);
    ReadingCons(log[1], [log[2]] + [], prior);
    ReadingCons(log[0], [log[1]] + ([log[2]] + []), prior);
    assert map[log[1].index := log[1].rows] + map[] == map[log[1].index := log[1].rows];
  }

  /** A saved page's five effects. */
  lemma ReadingBlock(log: seq<Effect<Row>>, prior: Option<string>)
    requires |log| == 5 && log[0].Fetched? && log[1].ChunkWritten? && log[2].CombinedWritten?
    requires log[3].CursorWritten? && log[4].Progress?
    ensures ChunkRows(log) == log[1].rows
    ensures ChunkIndices(log) == [log[1].index]
    ensures ChunksOf(log) == map[log[1].index := log[1].rows]
    ensures LastCheckpoint(log, prior) == Some(log[3].cursor)
    ensures Requested(log) == [log[0].cursor] && Checkpoints(log) == [log[3].cursor]
  {
    var s4 := [log[4]] + [];
    var s3 := [log[3]] + s4;
    var s2 := [log[2]] + s3;
    var s1 := [log[1]] + s2;
    assert log == [log[0]] + s1;
    var c := Some(log[3].cursor);
    ReadingCons(log[4], [], c);
    ReadingCons(log[3], s4, prior);
    ReadingCons(log[2], s3, prior);
    ReadingCons(log[1], s2, prior);
    ReadingCons(log[0], s1, prior);
    assert map[log[1].index := log[1].rows] + map[] == map[log[1].index := log[1].rows];
  }

  // ---------------------------------------------------------------------
  // Properties

  /** The chunks a turn writes, ahead of whatever the rest of the run writes. */
  lemma StepChunks(page: Page<Works.Message>, cursor: string, n: nat, store: Store,
                   total: Option<int>, later: seq<Effect<Row>>)
    requires Paced(page)
    ensures var turn := Step(page, cursor, n, store, total);
            && (turn.Stopped? ==> turn.store.chunks == store.chunks + ChunksOf(turn.log))
            && (turn.Saved? ==> turn.store.chunks + ChunksOf(later) == store.chunks + ChunksOf(turn.log + later))
  {
    var turn := Step(page, cursor, n, store, total);
    if turn.Stopped? {
      if |turn.log| == 1 {
        ReadingFetch(turn.log, None);
      } else {
        ReadingCrash(turn.log, None);
        MergeUpdate(store.chunks, n, turn.log[1].rows, map[]);
        assert map[n := turn.log[1].rows] + map[] == map[n := turn.log[1].rows];
      }
    } else {
      ReadingBlock(turn.log, None);
      ChunksAppend(turn.log, later);
      MergeUpdate(store.chunks, n, turn.log[1].rows, ChunksOf(later));
    }
  }

  lemma {:induction false} PagesChunks(replies: seq<Retry.Reply<Works.Message>>, cursor: string, n: nat,
                                       store: Store, total: Option<int>)
    ensures var run := Pages(replies, cursor, n, store, total);
            run.store.chunks == store.chunks + ChunksOf(run.log)
    decreases |replies|
  {
    var turn := Step(FetchPage(replies, Judge), cursor, n, store, total);
    if turn.Stopped? {
      StepChunks(FetchPage(replies, Judge), cursor, n, store, total, []);
    } else {
      var rest := Pages(turn.rest, turn.next, n + 1, turn.store, total);
      PagesChunks(turn.rest, turn.next, n + 1, turn.store, total);
      StepChunks(FetchPage(replies, Judge), cursor, n, store, total, rest.log);
    }
  }

  lemma {:induction false} PagesCombined(replies: seq<Retry.Reply<Works.Message>>, cursor: string, n: nat,
                                         store: Store, total: Option<int>)
    ensures var run := Pages(replies, cursor, n, store, total);
            run.store.combined == (if ChunkRows(run.log) == [] then store.combined
                                   else Some(store.combined.GetOr([]) + ChunkRows(run.log)))
    decreases |replies|
  {
    var turn := Step(FetchPage(replies, Judge), cursor, n, store, total);
    if turn.Stopped? {
      if |turn.log| == 1 {
        ReadingFetch(turn.log, None);
      } else {
        ReadingCrash(turn.log, None);
      }
    } else {
      var rows := turn.log[1].rows;
      var rest := Pages(turn.rest, turn.next, n + 1, turn.store, total);
      var run := Pages(replies, cursor, n, store, total);
      assert run.store == rest.store && run.log == turn.log + rest.log;
      PagesCombined(turn.rest, turn.next, n + 1, turn.store, total);
      ReadingBlock(turn.log, None);
      RowsAppend(turn.log, rest.log);
      ExtendTwice(store.combined.GetOr([]), rows, ChunkRows(rest.log));
    }
  }

  lemma {:induction false} PagesCheckpoint(replies: seq<Retry.Reply<Works.Message>>, cursor: string, n: nat,
                                           store: Store, total: Option<int>)
    ensures var run := Pages(replies, cursor, n, store, total);
            run.store.cursorFile == LastCheckpoint(run.log, store.cursorFile)
    decreases |replies|
  {
    var turn := Step(FetchPage(replies, Judge), cursor, n, store, total);
    if turn.Stopped? {
      if |turn.log| == 1 {
        ReadingFetch(turn.log, store.cursorFile);
      } else {
        ReadingCrash(turn.log, store.cursorFile);
      }
    } else {
      var rest := Pages(turn.rest, turn.next, n + 1, turn.store, total);
      PagesCheckpoint(turn.rest, turn.next, n + 1, turn.store, total);
      ReadingBlock(turn.log, store.cursorFile);
      CheckpointAppend(turn.log, rest.log, store.cursorFile);
    }
  }

  /** The folder after a run is exactly what the log wrote over what was
      there: every chunk the log names, the combined export extended by the
      rows of every chunk in order (appended to a stale export even on a
      fresh run), and the last checkpoint written. */
  lemma PagesStore(replies: seq<Retry.Reply<Works.Message>>, cursor: string, n: nat,
                   store: Store, total: Option<int>)
    ensures var run := Pages(replies, cursor, n, store, total);
            && run.store.chunks == store.chunks + ChunksOf(run.log)
            && run.store.combined == (if ChunkRows(run.log) == [] then store.combined
                                      else Some(store.combined.GetOr([]) + ChunkRows(run.log)))
            && run.store.cursorFile == LastCheckpoint(run.log, store.cursorFile)
  {
    PagesChunks(replies, cursor, n, store, total);
    PagesCombined(replies, cursor, n, store, total);
    PagesCheckpoint(replies, cursor, n, store, total);
  }

  /** Chunk numbers run consecutively from the first one. */
  lemma {:induction false} ChunksConsecutive(log: seq<Effect<Row>>, n: nat, cursor: string, total: Option<int>, stop: Stop)
    requires Protocol(log, n, cursor, total, stop)
    ensures forall j :: 0 <= j < |ChunkIndices(log)| ==> ChunkIndices(log)[j] == n + j
    decreases |log|
  {
    if |log| == 1 {
      ReadingFetch(log, None);
    } else if |log| == 3 {
      ReadingCrash(log, None);
    } else {
      ChunksConsecutive(log[5..], n + 1, log[3].cursor, total, stop);
      assert log == log[..5] + log[5..];
      IndicesAppend(log[..5], log[5..]);
      ReadingBlock(log[..5], None);
    }
  }

  /** The checkpoint is always written right after the combined export, which
      is written right after a chunk: an interrupted run never has a
      checkpoint ahead of its exports. */
  lemma {:induction false} CheckpointAfterExports(log: seq<Effect<Row>>, n: nat, cursor: string, total: Option<int>, stop: Stop)
    requires Protocol(log, n, cursor, total, stop)
    ensures forall i :: 0 <= i < |log| && log[i].CursorWritten? ==>
              i >= 2 && log[i - 1].CombinedWritten? && log[i - 2].ChunkWritten?
    decreases |log|
  {
    if |log| >= 6 {
      CheckpointAfterExports(log[5..], n + 1, log[3].cursor, total, stop);
      forall i | 0 <= i < |log| && log[i].CursorWritten?
        ensures i >= 2 && log[i - 1].CombinedWritten? && log[i - 2].ChunkWritten?
      {
        if i >= 5 {
          assert log[5..][i - 5] == log[i];
        }
      }
    }
  }

  /** An empty page, 60 failed attempts or an unreadable item end the run
      right after the fetch: no chunk, no export, no checkpoint for that
      page. A crash on a missing `next-cursor` leaves the exports written and
      the checkpoint at the previous page. */
  lemma {:induction false} StopsAfterFetch(log: seq<Effect<Row>>, n: nat, cursor: string, total: Option<int>, stop: Stop)
    requires Protocol(log, n, cursor, total, stop)
    ensures stop.Completed? || stop.Failed? ==> log[|log| - 1].Fetched?
    ensures stop.Crashed? ==> log[|log| - 1].Fetched? || log[|log| - 1].CombinedWritten?
    ensures stop.Failed? ==> |log[|log| - 1].waits| == Budget
    decreases |log|
  {
    if |log| >= 6 {
      StopsAfterFetch(log[5..], n + 1, log[3].cursor, total, stop);
      assert log[5..][|log| - 6] == log[|log| - 1];
    }
  }

  /** Resuming after a run picks up exactly where it stopped: from the last
      checkpoint it wrote (when the cursor has no surrounding whitespace, as
      Crossref's do not) and with a chunk number above every chunk it wrote,
      so no saved chunk is overwritten. */
  lemma ResumeContinues(resume: bool, probe: Retry.Reply<Works.Message>,
                        replies: seq<Retry.Reply<Works.Message>>, store: Store)
    ensures var run := Harvest(resume, probe, replies, store);
            && (LastCheckpoint(run.log, None).Some? ==>
                  StartCursor(true, run.store.cursorFile) == Text.Strip(LastCheckpoint(run.log, None).value))
            && (forall j :: 0 <= j < |ChunkIndices(run.log)| ==>
                  ChunkIndices(run.log)[j] < FirstChunk(true, run.store.chunks).0)
            && (forall k :: k in store.chunks ==> k < FirstChunk(true, run.store.chunks).0)
  {
    var run := Harvest(resume, probe, replies, store);
    var cursor, n, total := StartCursor(resume, store.cursorFile), FirstChunk(resume, store.chunks).0, ProbeTotal(probe);
    PagesStore(replies, cursor, n, store, total);
    LastCheckpointSome(run.log, store.cursorFile);
    ChunksWrittenIndexed(run.log);
  }

  /** A first reply that is a readable empty page ends the harvest at once,
      with nothing written. */
  lemma EmptyFirstPage(status: int, msg: Works.Message, rest: seq<Retry.Reply<Works.Message>>,
                       cursor: string, n: nat, store: Store, total: Option<int>)
    requires !(400 <= status < 600) && msg.items == []
    ensures Pages([Retry.Response(status, Some(msg))] + rest, cursor, n, store, total)
              == Run(Completed, store, [Fetched(cursor, [])])
  {
  }

  /** One fetched page: a missing page fails; otherwise the turn goes on
      exactly when the page `Continues`, stops as that page ends a reading,
      writes the page's items normalised and goes on from, and checkpoints,
      its `next-cursor`. It requests only `cursor`. */
  lemma StepOfPage(page: Page<Works.Message>, cursor: string, n: nat, store: Store, total: Option<int>)
    requires Paced(page)
    ensures var turn := Step(page, cursor, n, store, total);
            && (page.value.None? ==> turn.Stopped? && turn.stop == Failed && |turn.log| == 1)
            && (page.value.Some? ==>
                  && (turn.Saved? <==> Continues(page.value.value))
                  && (turn.Stopped? ==> turn.stop == StopOf(Last(page.value.value)))
                  && (|turn.log| > 1 ==> Works.NormaliseAllV102(page.value.value.items) == Some(turn.log[1].rows))
                  && ChunkRows(turn.log) == Works.NormaliseAllV102(page.value.value.items).GetOr([])
                  && (turn.Saved? ==> page.value.value.nextCursor == Some(turn.next) && turn.rest == page.rest))
            && Requested(turn.log) == [cursor]
            && Checkpoints(turn.log) == if turn.Saved? then [turn.next] else []
  {
    var turn := Step(page, cursor, n, store, total);
    if turn.Saved? {
      ReadingBlock(turn.log, None);
    } else if |turn.log| == 1 {
      ReadingFetch(turn.log, None);
    } else {
      ReadingCrash(turn.log, None);
    }
    if page.value.Some? {
      var msg := page.value.value;
      if |msg.items| == 0 {
        assert turn.Stopped? && turn.stop == Completed && |turn.log| == 1;
      } else if Works.NormaliseAllV102(msg.items).None? {
        assert turn.Stopped? && turn.stop == Crashed && |turn.log| == 1;
      } else {
        assert turn.log[1].rows == Works.NormaliseAllV102(msg.items).value;
        if msg.nextCursor.None? {
          assert turn.Stopped? && turn.stop == Crashed;
        } else {
          assert turn.Saved? && turn.next == msg.nextCursor.value;
        }
      }
    }
  }

  /** One turn against the network: the page it reads is the first kept
      reply, after one wait per earlier attempt; the chunk holds that page's
      items normalised, the checkpoint and the next request carry its
      `next-cursor`, the loop goes on exactly when the page `Continues`, and
      the run completes exactly on an empty page. */
  lemma StepReads(replies: seq<Retry.Reply<Works.Message>>, cursor: string, n: nat, store: Store,
                  total: Option<int>)
    ensures var turn := Step(FetchPage(replies, Judge), cursor, n, store, total);
            match FirstKept(replies, Judge, 0)
            case None => turn.Stopped? && turn.stop == Failed && |turn.log| == 1
            case Some(kept) =>
              && Retry.Nth(replies, kept.attempt).Response?
              && Retry.Nth(replies, kept.attempt).body == Some(kept.value)
              && |turn.log[0].waits| == kept.attempt
              && (turn.Saved? <==> Continues(kept.value))
              && (turn.Stopped? ==> turn.stop == StopOf(Last(kept.value)))
              && (|turn.log| > 1 ==> Works.NormaliseAllV102(kept.value.items) == Some(turn.log[1].rows))
              && ChunkRows(turn.log) == Works.NormaliseAllV102(kept.value.items).GetOr([])
              && (turn.Saved? ==>
                    && kept.value.nextCursor == Some(turn.next)
                    && turn.rest == Retry.Drop(replies, kept.attempt + 1))
    ensures var turn := Step(FetchPage(replies, Judge), cursor, n, store, total);
            && Requested(turn.log) == [cursor]
            && Checkpoints(turn.log) == if turn.Saved? then [turn.next] else []
  {
    FetchKeepsFirst(replies, Judge);
    StepOfPage(FetchPage(replies, Judge), cursor, n, store, total);
  }

  /** A turn matches one step of the reading of its network: a stop ends
      the reading as it ends the run, with the same rows; a saved page heads
      the reading, which goes on with what is left of the network. */
  predicate ReadsAs(turn: Turn, replies: seq<Retry.Reply<Works.Message>>) {
    && (turn.Stopped? ==>
          && turn.stop == StopOf(Chain(replies).ending)
          && ChunkRows(turn.log) == Chain(replies).rows
          && Chain(replies).saved == [])
    && (turn.Saved? ==>
          && Chain(replies).ending == Chain(turn.rest).ending
          && Chain(replies).rows == ChunkRows(turn.log) + Chain(turn.rest).rows
          && Nexts(Chain(replies).saved) == [turn.next] + Nexts(Chain(turn.rest).saved))
  }

  /** A turn that behaves as `StepReads` says is one step of the reading. */
  lemma ChainOfTurn(replies: seq<Retry.Reply<Works.Message>>, turn: Turn)
    requires match FirstKept(replies, Judge, 0)
             case None => turn.Stopped? && turn.stop == Failed && ChunkRows(turn.log) == []
             case Some(kept) =>
               && (turn.Saved? <==> Continues(kept.value))
               && (turn.Stopped? ==> turn.stop == StopOf(Last(kept.value)))
               && ChunkRows(turn.log) == Works.NormaliseAllV102(kept.value.items).GetOr([])
               && (turn.Saved? ==>
                     && kept.value.nextCursor == Some(turn.next)
                     && turn.rest == Retry.Drop(replies, kept.attempt + 1))
    ensures ReadsAs(turn, replies)
  {
    KeptInStub(replies, Judge, 0);
    if turn.Saved? {
      var kept := FirstKept(replies, Judge, 0).value;
      var more := Chain(turn.rest);
      assert Chain(replies).saved == [kept.value] + more.saved;
      assert Nexts([kept.value] + more.saved) == [turn.next] + Nexts(more.saved);
    }
  }

  /** Every turn is one step of the reading of its network. */
  lemma TurnChain(replies: seq<Retry.Reply<Works.Message>>, cursor: string, n: nat, store: Store,
                  total: Option<int>)
    ensures var turn := Step(FetchPage(replies, Judge), cursor, n, store, total);
            && ReadsAs(turn, replies) && Requested(turn.log) == [cursor]
            && Checkpoints(turn.log) == if turn.Saved? then [turn.next] else []
  {
    var turn := Step(FetchPage(replies, Judge), cursor, n, store, total);
    StepReads(replies, cursor, n, store, total);
    if |turn.log| == 1 {
      ReadingFetch(turn.log, None);
    }
    ChainOfTurn(replies, turn);
  }

  /** `Pages` unfolded once, with the turn it took. */
  lemma PagesUnfold(replies: seq<Retry.Reply<Works.Message>>, cursor: string, n: nat, store: Store,
                    total: Option<int>) returns (turn: Turn)
    ensures turn == Step(FetchPage(replies, Judge), cursor, n, store, total)
  {
    turn := Step(FetchPage(replies, Judge), cursor, n, store, total);
  }

  /** `Pages` after the turn it took. */
  lemma PagesAfter(replies: seq<Retry.Reply<Works.Message>>, cursor: string, n: nat, store: Store,
                   total: Option<int>, turn: Turn)
    requires turn == Step(FetchPage(replies, Judge), cursor, n, store, total)
    ensures var run := Pages(replies, cursor, n, store, total);
            && (turn.Stopped? ==> run.stop == turn.stop && run.log == turn.log)
            && (turn.Saved? ==>
                  && |turn.rest| < |replies|
                  && var later := Pages(turn.rest, turn.next, n + 1, turn.store, total);
                     run.stop == later.stop && run.log == turn.log + later.log)
  {
  }

  /** The turn `Pages` took, read against the network, with no term of
      `Step` left for the caller to unfold. */
  lemma PagesTurnRead(replies: seq<Retry.Reply<Works.Message>>, cursor: string, n: nat, store: Store,
                      total: Option<int>) returns (turn: Turn)
    ensures turn == Step(FetchPage(replies, Judge), cursor, n, store, total)
    ensures && ReadsAs(turn, replies) && Requested(turn.log) == [cursor]
            && Checkpoints(turn.log) == if turn.Saved? then [turn.next] else []
    ensures var run := Pages(replies, cursor, n, store, total);
            && (turn.Stopped? ==> run.stop == turn.stop && run.log == turn.log)
            && (turn.Saved? ==>
                  && |turn.rest| < |replies|
                  && var later := Pages(turn.rest, turn.next, n + 1, turn.store, total);
                     run.stop == later.stop && run.log == turn.log + later.log)
  {
    turn := PagesUnfold(replies, cursor, n, store, total);
    TurnChain(replies, cursor, n, store, total);
    PagesAfter(replies, cursor, n, store, total, turn);
  }

  /** A run started with `cursor` reads as the network: it stops as the
      reading ends, its chunks hold the reading's rows, and it requests
      `cursor` and then the `next-cursor` of every page it went on from,
      which are also its checkpoints. */
  predicate RunReads(run: Run, replies: seq<Retry.Reply<Works.Message>>, cursor: string) {
    && run.stop == StopOf(Chain(replies).ending)
    && ChunkRows(run.log) == Chain(replies).rows
    && Requested(run.log) == [cursor] + Nexts(Chain(replies).saved)
    && Checkpoints(run.log) == Nexts(Chain(replies).saved)
  }

  /** A run that took a turn reading as one step, and then, after a saved
      page, ran a `later` run that reads as the rest of the network, reads
      as the whole network. */
  lemma ReadOfTurn(replies: seq<Retry.Reply<Works.Message>>, cursor: string, turn: Turn, run: Run, later: Run)
    requires && ReadsAs(turn, replies) && Requested(turn.log) == [cursor]
             && Checkpoints(turn.log) == if turn.Saved? then [turn.next] else []
    requires turn.Stopped? ==> run.stop == turn.stop && run.log == turn.log
    requires turn.Saved? ==>
               && run.stop == later.stop && run.log == turn.log + later.log
               && RunReads(later, turn.rest, turn.next)
    ensures RunReads(run, replies, cursor)
  {
    if turn.Saved? {
      RowsAppend(turn.log, later.log);
      RequestedAppend(turn.log, later.log);
    }
  }

  /** Where the loop stands before a page: the network still unread, the
      cursor, the chunk number, the folder and the probed total. */
  datatype At = At(replies: seq<Retry.Reply<Works.Message>>, cursor: string, n: nat, store: Store,
                   total: Option<int>)

  /** Where the loop stands after the page it fetches from `at`, if it goes on. */
  function GoesOn(at: At): Option<At> {
    After(at, Step(FetchPage(at.replies, Judge), at.cursor, at.n, at.store, at.total))
  }

  function After(at: At, turn: Turn): Option<At> {
    if turn.Saved? then Some(At(turn.rest, turn.next, at.n + 1, turn.store, at.total)) else None
  }

  /** The run from `at` reads as the network still unread. */
  predicate ReadsFrom(at: At) {
    PagesReadAs(at.replies, at.cursor, at.n, at.store, at.total)
  }

  /** The run from these arguments reads as the network. */
  predicate PagesReadAs(replies: seq<Retry.Reply<Works.Message>>, cursor: string, n: nat, store: Store,
                        total: Option<int>) {
    RunReads(Pages(replies, cursor, n, store, total), replies, cursor)
  }

  /** Where the loop stands after the turn it took from `at`. */
  lemma GoesOnTurn(at: At, turn: Turn)
    requires turn == Step(FetchPage(at.replies, Judge), at.cursor, at.n, at.store, at.total)
    ensures GoesOn(at) == After(at, turn)
  {
  }

  /** The network still unread, for the induction along the loop. */
  function Unread(at: At): nat {
    |at.replies|
  }

  /** The run reads as the network from `at` if it stops on the page it
      fetches there, or once the run it goes on with reads as the rest. */
  lemma TurnReads(at: At) returns (turn: Turn)
    ensures GoesOn(at) == After(at, turn)
    ensures turn.Stopped? ==> PagesReadAs(at.replies, at.cursor, at.n, at.store, at.total)
    ensures turn.Saved? ==>
              && |turn.rest| < |at.replies|
              && (PagesReadAs(turn.rest, turn.next, at.n + 1, turn.store, at.total) ==>
                  PagesReadAs(at.replies, at.cursor, at.n, at.store, at.total))
  {
    turn := PagesTurnRead(at.replies, at.cursor, at.n, at.store, at.total);
    GoesOnTurn(at, turn);
    var run := Pages(at.replies, at.cursor, at.n, at.store, at.total);
    if turn.Saved? {
      var later := Pages(turn.rest, turn.next, at.n + 1, turn.store, at.total);
      if RunReads(later, turn.rest, turn.next) {
        ReadOfTurn(at.replies, at.cursor, turn, run, later);
      }
    } else {
      ReadOfTurn(at.replies, at.cursor, turn, run, run);
    }
  }

  /** `TurnReads` in terms of where the loop goes on. */
  lemma PagesReadOnce(at: At)
    ensures GoesOn(at).None? ==> ReadsFrom(at)
    ensures GoesOn(at).Some? ==>
              && Unread(GoesOn(at).value) < Unread(at)
              && (ReadsFrom(GoesOn(at).value) ==> ReadsFrom(at))
  {
    var turn := TurnReads(at);
    AfterSaved(at, turn);
    if turn.Saved? {
      ReadsFromAt(turn.rest, turn.next, at.n + 1, turn.store, at.total);
    }
  }

  /** Where the loop goes on after a saved page. */
  lemma AfterSaved(at: At, turn: Turn)
    ensures turn.Saved? ==> After(at, turn) == Some(At(turn.rest, turn.next, at.n + 1, turn.store, at.total))
    ensures turn.Stopped? ==> After(at, turn) == None
  {
  }

  /** `ReadsFrom` of a state built from its parts, spelt out. */
  lemma ReadsFromAt(replies: seq<Retry.Reply<Works.Message>>, cursor: string, n: nat, store: Store,
                    total: Option<int>)
    ensures ReadsFrom(At(replies, cursor, n, store, total)) == PagesReadAs(replies, cursor, n, store, total)
  {
  }

  /** A run read against the network: it stops as the reading ends (failed
      after 60 failed attempts, completed on an empty page), its chunks hold
      the rows of the pages read, in order, and it requests the starting
      cursor and then the `next-cursor` of every page it went on from, which
      are also its checkpoints. */
  lemma PagesRead(replies: seq<Retry.Reply<Works.Message>>, cursor: string, n: nat,
                  store: Store, total: Option<int>)
    ensures RunReads(Pages(replies, cursor, n, store, total), replies, cursor)
  {
    forall at: At
      ensures GoesOn(at).None? ==> ReadsFrom(at)
      ensures GoesOn(at).Some? ==> Unread(GoesOn(at).value) < Unread(at) && (ReadsFrom(GoesOn(at).value) ==> ReadsFrom(at))
    {
      PagesReadOnce(at);
    }
    AlongPages(At(replies, cursor, n, store, total), Unread, GoesOn, ReadsFrom);
  }

  /** A whole run read against the network: it starts from the resume
      cursor, stops as the reading ends, writes the rows of the pages read
      and checkpoints each page's `next-cursor` in order. */
  lemma HarvestRead(resume: bool, probe: Retry.Reply<Works.Message>,
                    replies: seq<Retry.Reply<Works.Message>>, store: Store)
    ensures var run := Harvest(resume, probe, replies, store);
            && run.stop == StopOf(Chain(replies).ending)
            && ChunkRows(run.log) == Chain(replies).rows
            && Requested(run.log) == [StartCursor(resume, store.cursorFile)] + Nexts(Chain(replies).saved)
            && Checkpoints(run.log) == Nexts(Chain(replies).saved)
  {
    PagesRead(replies, StartCursor(resume, store.cursorFile), FirstChunk(resume, store.chunks).0,
              store, ProbeTotal(probe));
  }
}

=== FILE: journal_dois.dfy ===
/** Every DOI of one journal (get_doi.py): both ISSNs are walked page by
    page through Crossref's `/journals/<issn>/works` with a cursor, the
    journal's title, publisher and ISSNs are gathered on the way, and the
    DOIs come out sorted by creation time.

    The network is a stub: `replies` holds the outcome of each request in
    the order they are made, across both ISSNs; a stub that runs out
    behaves like a request error. The HTTP adapter's own retries on 429 and
    5xx happen inside one request and are not modelled: a reply is what the
    adapter finally returns. Creation times are compared as the numbers
    `strptime` would turn them into. */
module JournalDois {
  import opened Wrappers
  import Text
  import Names

  /** `format_issn`: the ISSN with every `-` removed and nothing else
      changed. */
  function FormatIssn(issn: string): (r: string)
    ensures '-' !in r
    ensures multiset(r) == multiset(issn)['-' := 0]
  {
    Text.RemoveCharKeepsOthers(issn, '-');
    Text.RemoveChar(issn, '-')
  }

  /** A printed ISSN `xxxx-xxxx` formats to its two halves side by side;
      an ISSN typed without the hyphen is left as it is. */
  lemma FormatHalves(a: string, b: string)
    requires '-' !in a && '-' !in b
    ensures FormatIssn(a + "-" + b) == a + b
    ensures FormatIssn(a + b) == a + b
  {
    var dash := "-";
    assert dash[1..] == "";
    assert Text.RemoveChar(dash, '-') == "";
    Text.RemoveCharAbsent(a, '-');
    Text.RemoveCharAbsent(b, '-');
    Text.RemoveCharAppend(a, dash, '-');
    Text.RemoveCharAppend(a + dash, b, '-');
    Text.RemoveCharAppend(a, b, '-');
    assert a + "" == a;
  }

  /** `https://api.crossref.org/journals/{issn}/works`. */
  function WorksUrl(issn: string): string {
    "https://api.crossref.org/journals/" + issn + "/works"
  }

  // ---------------------------------------------------------------------
  // One request

  /** The fields of a work that the script reads; a `None` is a missing
      key. `created` is the parsed `created.date-time`. */
  datatype Item = Item(doi: Option<string>, created: Option<int>, containerTitle: Option<seq<string>>,
                       publisher: Option<string>, issn: Option<seq<string>>)

  datatype Listing = Listing(items: Option<seq<Item>>, nextCursor: Option<string>)

  /** The body: not JSON at all, JSON that Python reads as false (`{}`,
      `null`, ...), or a truthy document with or without a `message`. */
  datatype Payload = NotJson | Falsy | Data(message: Option<Listing>)

  /** `Raised` is a `RequestException`: connection failure, timeout, or
      the adapter giving up. */
  datatype Reply = Raised | Response(status: int, payload: Payload)

  datatype Dated = Dated(doi: string, created: int)

  /** What `get_dois` returns. */
  datatype Answer = Answer(pairs: seq<Dated>, title: string, publisher: string, issns: seq<string>,
                           cursor: Option<string>)

  const UnknownPublisher := "Éditeur inconnu"

  /** The answer of a request that failed or brought no data. */
  const NoAnswer := Answer([], "", UnknownPublisher, [], None)

  /** `raise_for_status` raises for client and server errors. */
  predicate IsHttpError(status: int) {
    400 <= status < 600
  }

  predicate Dateable(items: seq<Item>) {
    forall i :: 0 <= i < |items| ==> items[i].doi.Some? && items[i].created.Some?
  }

  function PairsOf(items: seq<Item>): (pairs: seq<Dated>)
    requires Dateable(items)
  {
    seq(|items|, i requires 0 <= i < |items| => Dated(items[i].doi.value, items[i].created.value))
  }

  /** Whether the first item has everything the metadata lines read. */
  predicate Described(item: Item) {
    item.containerTitle.Some? && item.containerTitle.value != [] && item.publisher.Some? && item.issn.Some?
  }

  /** `get_dois` on one reply; `None` when a `KeyError`, `IndexError` or
      `TypeError` escapes it, which ends the script. */
  function GetDois(reply: Reply): (a: Option<Answer>)
    ensures (reply.Raised? || (reply.Response? && (IsHttpError(reply.status) || !reply.payload.Data?)))
            ==> a == Some(NoAnswer)
    ensures a.Some? && a.value.pairs == [] ==>
              a.value.title == "" && a.value.publisher == UnknownPublisher && a.value.issns == []
    ensures a.Some? && a.value.pairs != [] ==>
              && reply.Response? && reply.payload.Data? && reply.payload.message.Some?
              && var listing := reply.payload.message.value;
                 && listing.items.Some? && Dateable(listing.items.value) && |a.value.pairs| == |listing.items.value|
                 && listing.items.value != [] && Described(listing.items.value[0])
                 && (forall i :: 0 <= i < |a.value.pairs| ==>
                       a.value.pairs[i] == Dated(listing.items.value[i].doi.value, listing.items.value[i].created.value))
                 && a.value.title == listing.items.value[0].containerTitle.value[0]
                 && a.value.publisher == listing.items.value[0].publisher.value
                 && a.value.issns == listing.items.value[0].issn.value
                 && a.value.cursor == listing.nextCursor
    ensures a.None? <==>
              && reply.Response? && !IsHttpError(reply.status) && reply.payload.Data?
              && (|| reply.payload.message.None?
                  || reply.payload.message.value.items.None?
                  || !Dateable(reply.payload.message.value.items.value)
                  || (reply.payload.message.value.items.value != []
                      && !Described(reply.payload.message.value.items.value[0])))
  {
    match reply
    case Raised => Some(NoAnswer)
    case Response(status, payload) =>
      if IsHttpError(status) then Some(NoAnswer)
      else
        match payload
        case NotJson => Some(NoAnswer)
        case Falsy => Some(NoAnswer)
        case Data(None) => None
        case Data(Some(listing)) =>
          match listing.items
          case None => None
          case Some(items) =>
            if !Dateable(items) then None
            else if items == [] then Some(Answer([], "", UnknownPublisher, [], listing.nextCursor))
            else if !Described(items[0]) then None
            else Some(Answer(PairsOf(items), items[0].containerTitle.value[0], items[0].publisher.value,
                             items[0].issn.value, listing.nextCursor))
  }

  // ---------------------------------------------------------------------
  // The pagination loop

  /** What the script keeps across pages and ISSNs. */
  datatype Journal = Journal(pairs: seq<Dated>, title: string, publisher: string, issns: set<string>)

  const Fresh := Journal([], "", UnknownPublisher, {})

  /** A page with DOIs extends the list, replaces the title and publisher
      only by non-empty values, and adds its ISSNs to the set. */
  function Absorb(j: Journal, a: Answer): Journal {
    Journal(j.pairs + a.pairs,
            if a.title != "" then a.title else j.title,
            if a.publisher != "" then a.publisher else j.publisher,
            j.issns + set x | x in a.issns)
  }

  /** `while cursor`: a missing or empty cursor ends the walk. */
  predicate Truthy(cursor: Option<string>) {
    cursor.Some? && cursor.value != ""
  }

  /** One ISSN's walk: the cursors requested, the pages that brought DOIs,
      and what is left of the network. */
  datatype Walk = Walk(journal: Journal, crashed: bool, requests: seq<string>, pages: seq<Answer>,
                       rest: seq<Reply>)

  /** The `while cursor` loop from `cursor` on. A page without DOIs ends
      it (`break`), and so does a page whose next cursor is missing or
      empty. */
  function Paginate(cursor: string, j: Journal, replies: seq<Reply>): (w: Walk)
    ensures 1 <= |w.requests| && w.requests[0] == cursor
    decreases |replies|
  {
    var reply := if replies == [] then Raised else replies[0];
    var rest := if replies == [] then [] else replies[1..];
    match GetDois(reply)
    case None => Walk(j, true, [cursor], [], rest)
    case Some(a) =>
      if a.pairs == [] then Walk(j, false, [cursor], [], rest)
      else if !Truthy(a.cursor) then Walk(Absorb(j, a), false, [cursor], [a], rest)
      else
        var w := Paginate(a.cursor.value, Absorb(j, a), rest);
        Walk(w.journal, w.crashed, [cursor] + w.requests, [a] + w.pages, w.rest)
  }

  // ---------------------------------------------------------------------
  // What a walk gathers

  /** The pairs of the pages, one page after the other. */
  function AllPairs(pages: seq<Answer>): seq<Dated> {
    if pages == [] then [] else pages[0].pairs + AllPairs(pages[1..])
  }

  function TitlesOf(pages: seq<Answer>): (ts: seq<string>)
    ensures |ts| == |pages| && forall i :: 0 <= i < |pages| ==> ts[i] == pages[i].title
  {
    seq(|pages|, i requires 0 <= i < |pages| => pages[i].title)
  }

  function PublishersOf(pages: seq<Answer>): (ps: seq<string>)
    ensures |ps| == |pages| && forall i :: 0 <= i < |pages| ==> ps[i] == pages[i].publisher
  {
    seq(|pages|, i requires 0 <= i < |pages| => pages[i].publisher)
  }

  /** `v` is the last non-empty value of `vals`, or `initial` when they are
      all empty. */
  predicate Latest(v: string, initial: string, vals: seq<string>) {
    && ((forall i :: 0 <= i < |vals| ==> vals[i] == "") ==> v == initial)
    && (forall i :: 0 <= i < |vals| && vals[i] != "" && (forall k :: i < k < |vals| ==> vals[k] == "") ==> v == vals[i])
  }

  lemma LatestCons(v: string, initial: string, x: string, vals: seq<string>)
    requires Latest(v, if x != "" then x else initial, vals)
    ensures Latest(v, initial, [x] + vals)
  {
    var all := [x] + vals;
    forall i | 0 <= i < |all| && all[i] != "" && (forall k :: i < k < |all| ==> all[k] == "")
      ensures v == all[i]
    {
      if i > 0 {
        assert all[i] == vals[i - 1];
        forall k | i - 1 < k < |vals| ensures vals[k] == "" {
          assert all[k + 1] == vals[k];
        }
      } else {
        forall k | 0 <= k < |vals| ensures vals[k] == "" {
          assert all[k + 1] == vals[k];
        }
      }
    }
    if forall i :: 0 <= i < |all| ==> all[i] == "" {
      assert all[0] == x;
      forall k | 0 <= k < |vals| ensures vals[k] == "" {
        assert all[k + 1] == vals[k];
      }
    }
  }

  lemma LatestAppend(v1: string, v2: string, initial: string, a: seq<string>, b: seq<string>)
    requires Latest(v1, initial, a) && Latest(v2, v1, b)
    ensures Latest(v2, initial, a + b)
  {
    var all := a + b;
    forall i | 0 <= i < |all| && all[i] != "" && (forall k :: i < k < |all| ==> all[k] == "")
      ensures v2 == all[i]
    {
      if i >= |a| {
        assert all[i] == b[i - |a|];
        forall k | i - |a| < k < |b| ensures b[k] == "" {
          assert all[k + |a|] == b[k];
        }
      } else {
        forall k | 0 <= k < |b| ensures b[k] == "" {
          assert all[k + |a|] == b[k];
        }
        forall k | i < k < |a| ensures a[k] == "" {
          assert all[k] == a[k];
        }
        assert all[i] == a[i];
      }
    }
    if forall i :: 0 <= i < |all| ==> all[i] == "" {
      forall k | 0 <= k < |b| ensures b[k] == "" {
        assert all[k + |a|] == b[k];
      }
      forall k | 0 <= k < |a| ensures a[k] == "" {
        assert all[k] == a[k];
      }
    }
  }

  /** Whether `x` is one of the pages' ISSNs. */
  predicate ListedIn(x: string, pages: seq<Answer>) {
    exists i :: 0 <= i < |pages| && x in pages[i].issns
  }

  /** `Paginate` unfolded once, with the answer of its first request. */
  lemma WalkStep(cursor: string, j: Journal, replies: seq<Reply>) returns (a: Option<Answer>, rest: seq<Reply>)
    ensures var w := Paginate(cursor, j, replies);
            && (a.None? ==> w.pages == [] && w.journal == j && w.crashed && w.requests == [cursor])
            && (a.Some? && a.value.pairs == [] ==>
                  w.pages == [] && w.journal == j && !w.crashed && w.requests == [cursor])
            && (a.Some? && a.value.pairs != [] && !Truthy(a.value.cursor) ==>
                  w.pages == [a.value] && w.journal == Absorb(j, a.value) && !w.crashed && w.requests == [cursor])
            && (a.Some? && a.value.pairs != [] && Truthy(a.value.cursor) ==>
                  && |rest| < |replies|
                  && var v := Paginate(a.value.cursor.value, Absorb(j, a.value), rest);
                     && w.pages == [a.value] + v.pages && w.journal == v.journal
                     && w.crashed == v.crashed && w.requests == [cursor] + v.requests)
  {
    var reply := if replies == [] then Raised else replies[0];
    rest := if replies == [] then [] else replies[1..];
    a := GetDois(reply);
  }

  /** The cursors a walk follows: each page that brought DOIs hands on the
      cursor of the next request, and a walk ends after one more request
      unless the last page's cursor is missing or empty. */
  predicate Chained(w: Walk) {
    && (forall i :: 0 <= i < |w.pages| ==> w.pages[i].pairs != [])
    && (|| |w.requests| == |w.pages| + 1
        || (|w.pages| > 0 && |w.requests| == |w.pages| && !w.crashed && !Truthy(w.pages[|w.pages| - 1].cursor)))
    && (forall i :: 0 <= i < |w.pages| && i + 1 < |w.requests| ==>
          Truthy(w.pages[i].cursor) && w.requests[i + 1] == w.pages[i].cursor.value)
  }

  lemma ChainedCons(cursor: string, p: Answer, v: Walk, w: Walk)
    requires p.pairs != [] && Truthy(p.cursor)
    requires Chained(v) && |v.requests| >= 1 && v.requests[0] == p.cursor.value
    requires w.pages == [p] + v.pages && w.requests == [cursor] + v.requests && w.crashed == v.crashed
    ensures Chained(w)
  {
    assert forall i :: 1 <= i < |w.pages| ==> w.pages[i] == v.pages[i - 1];
    assert forall i :: 1 <= i < |w.requests| ==> w.requests[i] == v.requests[i - 1];
  }

  lemma {:induction false} WalkRequests(cursor: string, j: Journal, replies: seq<Reply>)
    ensures Chained(Paginate(cursor, j, replies))
    decreases |replies|
  {
    var a, rest := WalkStep(cursor, j, replies);
    if a.Some? && a.value.pairs != [] && Truthy(a.value.cursor) {
      var p := a.value;
      WalkRequests(p.cursor.value, Absorb(j, p), rest);
      ChainedCons(cursor, p, Paginate(p.cursor.value, Absorb(j, p), rest), Paginate(cursor, j, replies));
    }
  }

  lemma PairsCons(p: Answer, pages: seq<Answer>)
    ensures AllPairs([p] + pages) == p.pairs + AllPairs(pages)
  {
    assert ([p] + pages)[1..] == pages;
  }

  lemma PairsAbsorbed(j: Journal, p: Answer, later: Journal, pages: seq<Answer>)
    requires later.pairs == Absorb(j, p).pairs + AllPairs(pages)
    ensures later.pairs == j.pairs + AllPairs([p] + pages)
  {
    PairsCons(p, pages);
  }

  lemma {:induction false} WalkPairs(cursor: string, j: Journal, replies: seq<Reply>)
    ensures var w := Paginate(cursor, j, replies);
            w.journal.pairs == j.pairs + AllPairs(w.pages)
    decreases |replies|
  {
    var a, rest := WalkStep(cursor, j, replies);
    if a.Some? && a.value.pairs != [] {
      var p := a.value;
      if !Truthy(p.cursor) {
        PairsCons(p, []);
        assert [p] + [] == [p];
      } else {
        var v := Paginate(p.cursor.value, Absorb(j, p), rest);
        WalkPairs(p.cursor.value, Absorb(j, p), rest);
        PairsAbsorbed(j, p, v.journal, v.pages);
      }
    }
  }

  lemma FieldsCons(p: Answer, pages: seq<Answer>)
    ensures TitlesOf([p] + pages) == [p.title] + TitlesOf(pages)
    ensures PublishersOf([p] + pages) == [p.publisher] + PublishersOf(pages)
  {
    assert TitlesOf([p] + pages) == [p.title] + TitlesOf(pages);
    assert PublishersOf([p] + pages) == [p.publisher] + PublishersOf(pages);
  }

  lemma {:induction false} WalkLatest(cursor: string, j: Journal, replies: seq<Reply>)
    ensures var w := Paginate(cursor, j, replies);
            && Latest(w.journal.title, j.title, TitlesOf(w.pages))
            && Latest(w.journal.publisher, j.publisher, PublishersOf(w.pages))
    decreases |replies|
  {
    var a, rest := WalkStep(cursor, j, replies);
    if a.Some? && a.value.pairs != [] {
      var p := a.value;
      var j' := Absorb(j, p);
      if !Truthy(p.cursor) {
        LatestCons(j'.title, j.title, p.title, []);
        LatestCons(j'.publisher, j.publisher, p.publisher, []);
        FieldsCons(p, []);
        assert [p] + [] == [p];
      } else {
        var v := Paginate(p.cursor.value, j', rest);
        WalkLatest(p.cursor.value, j', rest);
        LatestCons(v.journal.title, j.title, p.title, TitlesOf(v.pages));
        LatestCons(v.journal.publisher, j.publisher, p.publisher, PublishersOf(v.pages));
        FieldsCons(p, v.pages);
      }
    }
  }

  lemma ListedCons(x: string, p: Answer, pages: seq<Answer>)
    ensures ListedIn(x, [p] + pages) <==> x in p.issns || ListedIn(x, pages)
  {
    var all := [p] + pages;
    if x in p.issns {
      assert x in all[0].issns;
    }
    if ListedIn(x, pages) {
      var i :| 0 <= i < |pages| && x in pages[i].issns;
      assert all[i + 1] == pages[i];
    }
    if ListedIn(x, all) {
      var i :| 0 <= i < |all| && x in all[i].issns;
      if i > 0 {
        assert all[i] == pages[i - 1];
      }
    }
  }

  lemma {:induction false} WalkIssns(cursor: string, j: Journal, replies: seq<Reply>)
    ensures var w := Paginate(cursor, j, replies);
            forall x :: x in w.journal.issns <==> x in j.issns || ListedIn(x, w.pages)
    decreases |replies|
  {
    var a, rest := WalkStep(cursor, j, replies);
    if a.Some? && a.value.pairs != [] {
      var p := a.value;
      if !Truthy(p.cursor) {
        forall x ensures ListedIn(x, [p]) <==> x in p.issns {
          ListedCons(x, p, []);
          assert [p] + [] == [p];
        }
      } else {
        var v := Paginate(p.cursor.value, Absorb(j, p), rest);
        WalkIssns(p.cursor.value, Absorb(j, p), rest);
        forall x ensures ListedIn(x, [p] + v.pages) <==> x in p.issns || ListedIn(x, v.pages) {
          ListedCons(x, p, v.pages);
        }
      }
    }
  }

  // ---------------------------------------------------------------------
  // Sorting by creation time

  predicate SortedByCreated(ps: seq<Dated>) {
    forall i, j :: 0 <= i < j < |ps| ==> ps[i].created <= ps[j].created
  }

  /** `p` placed before the first pair created no earlier than it. */
  function Insert(p: Dated, s: seq<Dated>): (r: seq<Dated>)
    ensures multiset(r) == multiset(s) + multiset{p}
    ensures forall x :: x in r <==> x in s || x == p
  {
    if s == [] || p.created <= s[0].created then [p] + s
    else
      assert s == [s[0]] + s[1..];
      [s[0]] + Insert(p, s[1..])
  }

  lemma SortedCons(x: Dated, t: seq<Dated>)
    requires SortedByCreated(t)
    requires forall y :: y in t ==> x.created <= y.created
    ensures SortedByCreated([x] + t)
  {
    var r := [x] + t;
    forall i, j | 0 <= i < j < |r|
      ensures r[i].created <= r[j].created
    {
      assert r[j] == t[j - 1];
      if i > 0 {
        assert r[i] == t[i - 1];
      }
    }
  }

  lemma {:induction false} InsertSorted(p: Dated, s: seq<Dated>)
    requires SortedByCreated(s)
    ensures SortedByCreated(Insert(p, s))
    decreases |s|
  {
    if s == [] || p.created <= s[0].created {
      forall y | y in s
        ensures p.created <= y.created
      {
        var i :| 0 <= i < |s| && s[i] == y;
        assert s[0].created <= s[i].created;
      }
      SortedCons(p, s);
    } else {
      InsertSorted(p, s[1..]);
      forall y | y in Insert(p, s[1..])
        ensures s[0].created <= y.created
      {
        if y != p {
          var i :| 0 <= i < |s[1..]| && s[1..][i] == y;
          assert s[i + 1] == y;
        }
      }
      SortedCons(s[0], Insert(p, s[1..]));
    }
  }

  /** `all_dois_dates.sort(key=...)`: a stable sort on creation time. */
  function SortByCreated(ps: seq<Dated>): (r: seq<Dated>)
    ensures SortedByCreated(r)
    ensures multiset(r) == multiset(ps)
  {
    if ps == [] then []
    else
      assert ps == [ps[0]] + ps[1..];
      InsertSorted(ps[0], SortByCreated(ps[1..]));
      Insert(ps[0], SortByCreated(ps[1..]))
  }

  /** The pairs created at `k`, in their order. */
  function CreatedAt(ps: seq<Dated>, k: int): seq<Dated> {
    if ps == [] then [] else (if ps[0].created == k then [ps[0]] else []) + CreatedAt(ps[1..], k)
  }

  lemma {:induction false} InsertKeepsTies(p: Dated, s: seq<Dated>, k: int)
    ensures CreatedAt(Insert(p, s), k) == (if p.created == k then [p] else []) + CreatedAt(s, k)
    decreases |s|
  {
    if s == [] || p.created <= s[0].created {
      assert ([p] + s)[1..] == s;
    } else {
      InsertKeepsTies(p, s[1..], k);
      var r := [s[0]] + Insert(p, s[1..]);
      assert r[1..] == Insert(p, s[1..]);
    }
  }

  /** The sort is stable: pairs created at the same time keep the order in
      which they were fetched. */
  lemma {:induction false} SortStable(ps: seq<Dated>, k: int)
    ensures CreatedAt(SortByCreated(ps), k) == CreatedAt(ps, k)
    decreases |ps|
  {
    if ps != [] {
      SortStable(ps[1..], k);
      InsertKeepsTies(ps[0], SortByCreated(ps[1..]), k);
    }
  }

  function DoisOf(ps: seq<Dated>): (dois: seq<string>)
    ensures |dois| == |ps| && forall i :: 0 <= i < |ps| ==> dois[i] == ps[i].doi
  {
    seq(|ps|, i requires 0 <= i < |ps| => ps[i].doi)
  }

  // ---------------------------------------------------------------------
  // The script

  /** What the text file says: the title (`Titre inconnu` when none was
      found), the publisher, the ISSNs, and the DOIs in order. */
  datatype Output = Output(file: string, title: string, publisher: string, issns: set<string>,
                           dois: seq<string>, requests: seq<(string, string)>)

  function Shown(title: string): (shown: string)
    ensures shown != ""
    ensures title != "" ==> shown == title
  {
    if title != "" then title else "Titre inconnu"
  }

  function Tagged(url: string, cursors: seq<string>): (r: seq<(string, string)>)
    ensures |r| == |cursors| && forall i :: 0 <= i < |r| ==> r[i] == (url, cursors[i])
  {
    seq(|cursors|, i requires 0 <= i < |cursors| => (url, cursors[i]))
  }

  /** The whole script for the two ISSNs as typed; `None` when an
      exception ends it before the file is written. */
  function Collect(issn1: string, issn2: string, replies: seq<Reply>, t: Names.Stamp): (out: Option<Output>)
    ensures out.Some? ==> |out.value.requests| >= 2 && out.value.requests[0] == (WorksUrl(FormatIssn(issn1)), "*")
    ensures out.Some? ==> out.value.title != ""
  {
    var f1, f2 := FormatIssn(issn1), FormatIssn(issn2);
    var w1 := Paginate("*", Fresh, replies);
    if w1.crashed then None
    else
      var w2 := Paginate("*", w1.journal, w1.rest);
      if w2.crashed then None
      else
        var requests := Tagged(WorksUrl(f1), w1.requests) + Tagged(WorksUrl(f2), w2.requests);
        Some(Output(Names.DoiFile(f1, f2, t), Shown(w2.journal.title), w2.journal.publisher, w2.journal.issns,
                    DoisOf(SortByCreated(w2.journal.pairs)), requests))
  }

  /** Both walks, one after the other, when neither crashed. */
  function Walks(replies: seq<Reply>): (ws: (Walk, Walk)) {
    var w1 := Paginate("*", Fresh, replies);
    (w1, Paginate("*", w1.journal, w1.rest))
  }

  /** The script writes its file, named after both ISSNs as formatted,
      exactly when neither walk hit an exception. */
  lemma CollectWrites(issn1: string, issn2: string, replies: seq<Reply>, t: Names.Stamp)
    ensures var (w1, w2) := Walks(replies);
            var out := Collect(issn1, issn2, replies, t);
            && (out.Some? <==> !w1.crashed && !w2.crashed)
            && (out.Some? ==> out.value.file == Names.DoiFile(FormatIssn(issn1), FormatIssn(issn2), t))
  {
  }

  /** `rs` is the requests to `url1` with the cursors `c1`, then those to
      `url2` with the cursors `c2`. */
  predicate Interleaved(rs: seq<(string, string)>, url1: string, c1: seq<string>, url2: string, c2: seq<string>) {
    && |rs| == |c1| + |c2|
    && (forall i :: 0 <= i < |c1| ==> rs[i] == (url1, c1[i]))
    && (forall i :: |c1| <= i < |rs| ==> rs[i] == (url2, c2[i - |c1|]))
  }

  lemma TaggedInterleaved(url1: string, c1: seq<string>, url2: string, c2: seq<string>)
    ensures Interleaved(Tagged(url1, c1) + Tagged(url2, c2), url1, c1, url2, c2)
  {
  }

  /** It asks for the first ISSN's pages from `*`, then the second's from
      `*`, each with the cursors its walk followed. */
  lemma CollectRequests(issn1: string, issn2: string, replies: seq<Reply>, t: Names.Stamp)
    requires Collect(issn1, issn2, replies, t).Some?
    ensures var (w1, w2) := Walks(replies);
            var rs := Collect(issn1, issn2, replies, t).value.requests;
            && w1.requests[0] == "*" && w2.requests[0] == "*"
            && Interleaved(rs, WorksUrl(FormatIssn(issn1)), w1.requests, WorksUrl(FormatIssn(issn2)), w2.requests)
  {
    var (w1, w2) := Walks(replies);
    TaggedInterleaved(WorksUrl(FormatIssn(issn1)), w1.requests, WorksUrl(FormatIssn(issn2)), w2.requests);
  }

  lemma {:induction false} PairsAppend(a: seq<Answer>, b: seq<Answer>)
    ensures AllPairs(a + b) == AllPairs(a) + AllPairs(b)
    decreases |a|
  {
    if a == [] {
      assert a + b == b;
    } else {
      assert (a + b)[1..] == a[1..] + b;
      PairsAppend(a[1..], b);
    }
  }

  lemma FieldsAppend(a: seq<Answer>, b: seq<Answer>)
    ensures TitlesOf(a + b) == TitlesOf(a) + TitlesOf(b)
    ensures PublishersOf(a + b) == PublishersOf(a) + PublishersOf(b)
  {
    assert TitlesOf(a + b) == TitlesOf(a) + TitlesOf(b);
    assert PublishersOf(a + b) == PublishersOf(a) + PublishersOf(b);
  }

  lemma ListedAppend(x: string, a: seq<Answer>, b: seq<Answer>)
    ensures ListedIn(x, a + b) <==> ListedIn(x, a) || ListedIn(x, b)
  {
    if ListedIn(x, a) {
      var i :| 0 <= i < |a| && x in a[i].issns;
      assert (a + b)[i] == a[i];
    }
    if ListedIn(x, b) {
      var i :| 0 <= i < |b| && x in b[i].issns;
      assert (a + b)[|a| + i] == b[i];
    }
    if ListedIn(x, a + b) {
      var i :| 0 <= i < |a + b| && x in (a + b)[i].issns;
      if i < |a| {
        assert (a + b)[i] == a[i];
      } else {
        assert (a + b)[i] == b[i - |a|];
      }
    }
  }

  /** What the file says, read off the pages both walks brought: the DOIs
      of every page in fetch order, stably sorted by creation time; the
      last non-empty title (`Titre inconnu` when none) and publisher
      (`Éditeur inconnu` when none); every ISSN any first item listed. */
  lemma CollectContents(issn1: string, issn2: string, replies: seq<Reply>, t: Names.Stamp)
    requires Collect(issn1, issn2, replies, t).Some?
    ensures var (w1, w2) := Walks(replies);
            var out := Collect(issn1, issn2, replies, t).value;
            var pages := w1.pages + w2.pages;
            && out.dois == DoisOf(SortByCreated(AllPairs(pages)))
            && (exists title :: Latest(title, "", TitlesOf(pages)) && out.title == Shown(title))
            && Latest(out.publisher, UnknownPublisher, PublishersOf(pages))
            && (forall x :: x in out.issns <==> ListedIn(x, pages))
  {
    var (w1, w2) := Walks(replies);
    WalkPairs("*", Fresh, replies);
    WalkPairs("*", w1.journal, w1.rest);
    PairsAppend(w1.pages, w2.pages);
    assert [] + AllPairs(w1.pages) == AllPairs(w1.pages);
    assert w2.journal.pairs == AllPairs(w1.pages + w2.pages);
    WalkLatest("*", Fresh, replies);
    WalkLatest("*", w1.journal, w1.rest);
    FieldsAppend(w1.pages, w2.pages);
    LatestAppend(w1.journal.title, w2.journal.title, "", TitlesOf(w1.pages), TitlesOf(w2.pages));
    LatestAppend(w1.journal.publisher, w2.journal.publisher, UnknownPublisher,
                 PublishersOf(w1.pages), PublishersOf(w2.pages));
    WalkIssns("*", Fresh, replies);
    WalkIssns("*", w1.journal, w1.rest);
    forall x ensures ListedIn(x, w1.pages + w2.pages) <==> ListedIn(x, w1.pages) || ListedIn(x, w2.pages) {
      ListedAppend(x, w1.pages, w2.pages);
    }
  }
}

=== FILE: keyword_passes.dfy ===
/** The keyword loop the multi-keyword count scripts share: for each keyword
    in turn, one retry loop per year, all on the one stubbed network, each
    keyword starting where the one before it left the stub. An exception
    escaping a year's loop ends the whole run there. */
module KeywordPasses {
  import opened Wrappers
  import Retry

  /** One keyword's loops over the years. */
  datatype Pass<B, T> = Pass(keyword: string, rounds: seq<Retry.Trace<B, T>>)

  /** The keywords in turn, each sweeping the years on the stub the keywords
      before it left; an exception ends the run after the pass it escaped
      from. */
  function Passes<B, T>(keywords: seq<string>, n: nat, replies: seq<Retry.Reply<B>>,
      budget: nat, judge: (Retry.Reply<B>, nat) -> Retry.Verdict<T>): (ps: seq<Pass<B, T>>)
    ensures |ps| <= |keywords|
    ensures forall i :: 0 <= i < |ps| ==> ps[i].keyword == keywords[i]
  {
    if keywords == [] then []
    else
      var ts := Retry.Sweep(replies, n, budget, judge);
      [Pass(keywords[0], ts)]
      + (if Retry.Stopped(ts) then [] else Passes(keywords[1..], n, Retry.Drop(replies, Retry.Used(ts)), budget, judge))
  }

  /** The first pass and the passes after it. */
  lemma PassesStep<B, T>(keywords: seq<string>, n: nat, replies: seq<Retry.Reply<B>>,
      budget: nat, judge: (Retry.Reply<B>, nat) -> Retry.Verdict<T>)
    returns (ts: seq<Retry.Trace<B, T>>, rest: seq<Retry.Reply<B>>)
    requires keywords != []
    ensures ts == Retry.Sweep(replies, n, budget, judge)
    ensures rest == Retry.Drop(replies, Retry.Used(ts))
    ensures Passes(keywords, n, replies, budget, judge)
            == [Pass(keywords[0], ts)] + (if Retry.Stopped(ts) then [] else Passes(keywords[1..], n, rest, budget, judge))
  {
    ts := Retry.Sweep(replies, n, budget, judge);
    rest := Retry.Drop(replies, Retry.Used(ts));
  }

  /** Only the last pass can end on an exception, and the run stops short of
      its keywords only because of one. */
  lemma {:induction false} PassesStop<B, T>(keywords: seq<string>, n: nat, replies: seq<Retry.Reply<B>>,
      budget: nat, judge: (Retry.Reply<B>, nat) -> Retry.Verdict<T>)
    ensures forall i :: 0 <= i < |Passes(keywords, n, replies, budget, judge)| - 1 ==>
              !Retry.Stopped(Passes(keywords, n, replies, budget, judge)[i].rounds)
    ensures |Passes(keywords, n, replies, budget, judge)| < |keywords| ==>
              |Passes(keywords, n, replies, budget, judge)| > 0 && Retry.Stopped(Passes(keywords, n, replies, budget, judge)[|Passes(keywords, n, replies, budget, judge)| - 1].rounds)
  {
    PassesOnlyLast(keywords, n, replies, budget, judge);
    PassesShort(keywords, n, replies, budget, judge);
  }

  lemma {:induction false} PassesOnlyLast<B, T>(keywords: seq<string>, n: nat, replies: seq<Retry.Reply<B>>,
      budget: nat, judge: (Retry.Reply<B>, nat) -> Retry.Verdict<T>)
    ensures forall i :: 0 <= i < |Passes(keywords, n, replies, budget, judge)| - 1 ==>
              !Retry.Stopped(Passes(keywords, n, replies, budget, judge)[i].rounds)
  {
    if keywords != [] {
      var ps := Passes(keywords, n, replies, budget, judge);
      var ts, rest := PassesStep(keywords, n, replies, budget, judge);
      if !Retry.Stopped(ts) {
        var tail := Passes(keywords[1..], n, rest, budget, judge);
        assert ps == [Pass(keywords[0], ts)] + tail;
        PassesOnlyLast(keywords[1..], n, rest, budget, judge);
        forall i | 0 <= i < |ps| - 1
          ensures !Retry.Stopped(ps[i].rounds)
        {
          if i > 0 {
            assert ps[i] == tail[i - 1];
          }
        }
      }
    }
  }

  lemma {:induction false} PassesShort<B, T>(keywords: seq<string>, n: nat, replies: seq<Retry.Reply<B>>,
      budget: nat, judge: (Retry.Reply<B>, nat) -> Retry.Verdict<T>)
    ensures |Passes(keywords, n, replies, budget, judge)| < |keywords| ==>
              |Passes(keywords, n, replies, budget, judge)| > 0 && Retry.Stopped(Passes(keywords, n, replies, budget, judge)[|Passes(keywords, n, replies, budget, judge)| - 1].rounds)
  {
    if keywords != [] {
      var ps := Passes(keywords, n, replies, budget, judge);
      var ts, rest := PassesStep(keywords, n, replies, budget, judge);
      if Retry.Stopped(ts) {
        assert ps == [Pass(keywords[0], ts)];
      } else {
        var tail := Passes(keywords[1..], n, rest, budget, judge);
        assert ps == [Pass(keywords[0], ts)] + tail;
        PassesShort(keywords[1..], n, rest, budget, judge);
        if |tail| > 0 {
          assert ps[|ps| - 1] == tail[|tail| - 1];
        }
      }
    }
  }

  /** The requests a run of passes made. */
  function PassesUsed<B, T>(ps: seq<Pass<B, T>>): nat {
    if ps == [] then 0 else PassesUsed(ps[..|ps| - 1]) + Retry.Used(ps[|ps| - 1].rounds)
  }

  lemma {:induction false} PassesUsedCons<B, T>(p: Pass<B, T>, ps: seq<Pass<B, T>>, i: nat)
    requires i <= |ps|
    ensures PassesUsed(([p] + ps)[..i + 1]) == Retry.Used(p.rounds) + PassesUsed(ps[..i])
    decreases i
  {
    var all := [p] + ps;
    if i == 0 {
      assert all[..1] == [p];
      assert all[..1][..0] == [];
    } else {
      assert all[..i + 1][..i] == all[..i];
      assert all[..i + 1][i] == ps[i - 1];
      assert ps[..i][..i - 1] == ps[..i - 1];
      PassesUsedCons(p, ps, i - 1);
    }
  }

  /** A pass in front of passes that each read on from the one before
      keeps that so. */
  lemma PassShift<B, T>(p: Pass<B, T>, tail: seq<Pass<B, T>>, i: nat, n: nat,
                        replies: seq<Retry.Reply<B>>, rest: seq<Retry.Reply<B>>,
                        budget: nat, judge: (Retry.Reply<B>, nat) -> Retry.Verdict<T>)
    requires 1 <= i <= |tail|
    requires rest == Retry.Drop(replies, Retry.Used(p.rounds))
    requires tail[i - 1].rounds == Retry.Sweep(Retry.Drop(rest, PassesUsed(tail[..i - 1])), n, budget, judge)
    ensures ([p] + tail)[i].rounds == Retry.Sweep(Retry.Drop(replies, PassesUsed(([p] + tail)[..i])), n, budget, judge)
  {
    var before := PassesUsed(tail[..i - 1]);
    var used := PassesUsed(([p] + tail)[..i]);
    assert used == Retry.Used(p.rounds) + before by {
      PassesUsedCons(p, tail, i - 1);
    }
    Retry.DropDrop(replies, Retry.Used(p.rounds), before);
    assert Retry.Drop(rest, before) == Retry.Drop(replies, used);
    assert ([p] + tail)[i] == tail[i - 1];
    assert ([p] + tail)[i].rounds == Retry.Sweep(Retry.Drop(rest, before), n, budget, judge);
  }

  /** Pass `i` sweeps the years on the stub the passes before it left. */
  lemma {:induction false} PassRounds<B, T>(keywords: seq<string>, n: nat, replies: seq<Retry.Reply<B>>,
      budget: nat, judge: (Retry.Reply<B>, nat) -> Retry.Verdict<T>, i: nat)
    requires i < |Passes(keywords, n, replies, budget, judge)|
    ensures Passes(keywords, n, replies, budget, judge)[i].rounds
            == Retry.Sweep(Retry.Drop(replies, PassesUsed(Passes(keywords, n, replies, budget, judge)[..i])), n, budget, judge)
    decreases i
  {
    var ts, rest := PassesStep(keywords, n, replies, budget, judge);
    if i == 0 {
      assert Passes(keywords, n, replies, budget, judge)[..0] == [];
      assert Retry.Drop(replies, 0) == replies;
    } else {
      PassRounds(keywords[1..], n, rest, budget, judge, i - 1);
      PassShift(Pass(keywords[0], ts), Passes(keywords[1..], n, rest, budget, judge), i, n, replies, rest, budget, judge);
    }
  }

  /** A pass that did not end on an exception asked every year. */
  lemma PassComplete<B, T>(keywords: seq<string>, n: nat, replies: seq<Retry.Reply<B>>,
      budget: nat, judge: (Retry.Reply<B>, nat) -> Retry.Verdict<T>, i: nat)
    requires i < |Passes(keywords, n, replies, budget, judge)|
    requires !Retry.Stopped(Passes(keywords, n, replies, budget, judge)[i].rounds)
    ensures |Passes(keywords, n, replies, budget, judge)[i].rounds| == n
  {
    PassRounds(keywords, n, replies, budget, judge, i);
  }

  /** A judge that never lets an exception escape gives every keyword its
      pass over all `n` years. */
  lemma {:induction false} PassesNeverStop<B, T>(keywords: seq<string>, n: nat, replies: seq<Retry.Reply<B>>,
      budget: nat, judge: (Retry.Reply<B>, nat) -> Retry.Verdict<T>)
    requires forall r, a :: !judge(r, a).Crash?
    ensures |Passes(keywords, n, replies, budget, judge)| == |keywords|
    ensures forall i :: 0 <= i < |keywords| ==> |Passes(keywords, n, replies, budget, judge)[i].rounds| == n
  {
    if keywords != [] {
      var ps := Passes(keywords, n, replies, budget, judge);
      var ts, rest := PassesStep(keywords, n, replies, budget, judge);
      Retry.SweepFull(replies, n, budget, judge);
      var tail := Passes(keywords[1..], n, rest, budget, judge);
      assert ps == [Pass(keywords[0], ts)] + tail;
      PassesNeverStop(keywords[1..], n, rest, budget, judge);
      forall i | 0 <= i < |keywords|
        ensures |ps[i].rounds| == n
      {
        if i > 0 {
          assert ps[i] == tail[i - 1];
        }
      }
    }
  }

  /** What the first `i` keywords use when each uses `n`: `i * n`, counted
      up so that the solver need not multiply. */
  function Before(i: nat, n: nat): nat {
    if i == 0 then 0 else Before(i - 1, n) + n
  }

  lemma {:induction false} BeforeIsProduct(i: nat, n: nat)
    ensures Before(i, n) == i * n
  {
    if i > 0 {
      BeforeIsProduct(i - 1, n);
      assert (i - 1) * n + n == i * n;
    }
  }

  /** The number of years in `start .. end`: `range(start, end + 1)`. */
  function Years(start: int, end: int): nat {
    if start <= end then end - start + 1 else 0
  }

  // ---------------------------------------------------------------------
  // One keyword's rows

  /** One `{"Mot-clé", "Année", "Occurrences"}` record. */
  datatype Row = Row(keyword: string, year: int, occurrences: Option<int>)

  /** The rows one keyword's pass gathers: one per year from `year`, in year
      order, each holding what `count` reads off that year's loop. */
  function KeywordRows<B, T>(keyword: string, year: int, ts: seq<Retry.Trace<B, T>>,
                             count: Retry.Trace<B, T> -> Option<int>): (rows: seq<Row>)
    ensures |rows| == |ts|
    ensures forall j :: 0 <= j < |ts| ==> rows[j].keyword == keyword && rows[j].year == year + j
    decreases |ts|
  {
    if ts == [] then [] else [Row(keyword, year, count(ts[0]))] + KeywordRows(keyword, year + 1, ts[1..], count)
  }

  /** Each year's row holds what that year's loop returned. */
  lemma {:induction false} KeywordRowsCounts<B, T>(keyword: string, year: int, ts: seq<Retry.Trace<B, T>>,
                                                   count: Retry.Trace<B, T> -> Option<int>)
    ensures forall j :: 0 <= j < |ts| ==> KeywordRows(keyword, year, ts, count)[j].occurrences == count(ts[j])
    decreases |ts|
  {
    if ts != [] {
      var rows := KeywordRows(keyword, year, ts, count);
      var tail := KeywordRows(keyword, year + 1, ts[1..], count);
      assert rows == [Row(keyword, year, count(ts[0]))] + tail;
      KeywordRowsCounts(keyword, year + 1, ts[1..], count);
      forall j | 0 <= j < |ts|
        ensures rows[j].occurrences == count(ts[j])
      {
        if j > 0 {
          assert rows[j] == tail[j - 1];
          assert ts[1..][j - 1] == ts[j];
        }
      }
    }
  }
}

=== FILE: keywords.dfy ===
/** The comma-separated keyword lists the multi-keyword scripts read, and the
    slugs they make of a keyword for folder and file names. */
module Keywords {
  import Text

  /** `[k.strip() for k in parts]`. */
  function StripAll(parts: seq<string>): (ks: seq<string>)
    ensures |ks| == |parts|
    ensures forall i :: 0 <= i < |parts| ==> ks[i] == Text.Strip(parts[i])
  {
    if |parts| == 0 then [] else [Text.Strip(parts[0])] + StripAll(parts[1..])
  }

  /** `[k.strip() for k in s.split(",")]`: one keyword per comma-separated
      piece, empty pieces kept (keyword_occurence_SS_multi2.py,
      keyword_occurence_crossref_multi.py, search_crossref_terms.py). */
  function ParseKeep(s: string): (ks: seq<string>)
    ensures |ks| == Text.Count(s, ',') + 1
    ensures forall i :: 0 <= i < |ks| ==> ks[i] == Text.Strip(Text.Split(s, ',')[i])
    ensures forall i :: 0 <= i < |ks| ==> ',' !in ks[i] && Text.Strip(ks[i]) == ks[i]
  {
    var parts := Text.Split(s, ',');
    var ks := StripAll(parts);
    forall i | 0 <= i < |ks|
      ensures ',' !in ks[i] && Text.Strip(ks[i]) == ks[i]
    {
      StrippedPiece(parts[i]);
    }
    ks
  }

  /** A stripped piece has no comma if the piece had none, and is stripped. */
  lemma StrippedPiece(p: string)
    requires ',' !in p
    ensures ',' !in Text.Strip(p) && Text.Strip(Text.Strip(p)) == Text.Strip(p)
  {
    Text.StripIdempotent(p);
    assert Text.Strip(p) == p[Text.LeadingSpaces(p) .. Text.LeadingSpaces(p) + |Text.Strip(p)|];
    assert forall c :: c in Text.Strip(p) ==> c in p;
  }

  /** The entries that are not empty, in their order. */
  function NonBlank(ks: seq<string>): (r: seq<string>)
    ensures |r| <= |ks|
    ensures forall k :: k in r <==> k in ks && k != ""
  {
    if |ks| == 0 then []
    else if ks[0] == "" then NonBlank(ks[1..])
    else [ks[0]] + NonBlank(ks[1..])
  }

  /** `[k.strip() for k in s.split(",") if k.strip()]`: the same keywords with
      the empty ones dropped (keyword_occurrences_openalex.py,
      keyword_occurence_ss_multi_v3.py). */
  function ParseDrop(s: string): (ks: seq<string>)
    ensures |ks| <= Text.Count(s, ',') + 1
    ensures forall k :: k in ks <==> k in ParseKeep(s) && k != ""
    ensures forall i :: 0 <= i < |ks| ==> ks[i] != "" && ',' !in ks[i] && Text.Strip(ks[i]) == ks[i]
  {
    var ks := NonBlank(ParseKeep(s));
    assert forall i :: 0 <= i < |ks| ==> ks[i] in ParseKeep(s);
    ks
  }

  /** Keeping the entries of a list that has no empty entry changes nothing. */
  lemma {:induction false} NonBlankOfFull(ks: seq<string>)
    requires forall i :: 0 <= i < |ks| ==> ks[i] != ""
    ensures NonBlank(ks) == ks
    decreases |ks|
  {
    if |ks| > 0 {
      NonBlankOfFull(ks[1..]);
      assert [ks[0]] + ks[1..] == ks;
    }
  }

  /** Dropping the empty entries works piece by piece, so the kept entries
      stay in their order. */
  lemma {:induction false} NonBlankAppend(a: seq<string>, b: seq<string>)
    ensures NonBlank(a + b) == NonBlank(a) + NonBlank(b)
    decreases |a|
  {
    if |a| == 0 {
      assert a + b == b;
    } else {
      assert (a + b)[1..] == a[1..] + b;
      NonBlankAppend(a[1..], b);
    }
  }

  /** Dropping the empty entries keeps every other entry as often as it
      occurs: a keyword typed twice is kept twice. */
  lemma {:induction false} NonBlankCounts(ks: seq<string>)
    ensures multiset(NonBlank(ks))[""] == 0
    ensures forall k :: k != "" ==> multiset(NonBlank(ks))[k] == multiset(ks)[k]
    decreases |ks|
  {
    if |ks| > 0 {
      NonBlankCounts(ks[1..]);
      assert ks == [ks[0]] + ks[1..];
    }
  }

  /** Parsing two comma-separated answers joined by a comma yields the
      keywords of the first followed by those of the second. */
  lemma ParseKeepAppend(s: string, t: string)
    ensures ParseKeep(s + [','] + t) == ParseKeep(s) + ParseKeep(t)
  {
    Text.SplitTail(s, ',', Text.Split(t, ','));
    ParseKeepStrips(s + [','] + t);
    ParseKeepStrips(s);
    ParseKeepStrips(t);
    StripAllAppend(Text.Split(s, ','), Text.Split(t, ','));
  }

  /** `ParseKeep` is the split pieces, stripped. */
  lemma ParseKeepStrips(s: string)
    ensures ParseKeep(s) == StripAll(Text.Split(s, ','))
  {
  }

  /** Stripping works piece by piece. */
  lemma StripAllAppend(a: seq<string>, b: seq<string>)
    ensures StripAll(a + b) == StripAll(a) + StripAll(b)
  {
    forall i | 0 <= i < |a + b|
      ensures StripAll(a + b)[i] == (StripAll(a) + StripAll(b))[i]
    {
      if i < |a| {
        assert (a + b)[i] == a[i];
      } else {
        assert (a + b)[i] == b[i - |a|];
      }
    }
  }

  /** The same with empty entries dropped: order is kept across the join,
      and repeats are kept. */
  lemma ParseDropAppend(s: string, t: string)
    ensures ParseDrop(s + [','] + t) == ParseDrop(s) + ParseDrop(t)
  {
    ParseKeepAppend(s, t);
    NonBlankAppend(ParseKeep(s), ParseKeep(t));
  }

  /** Every non-empty keyword of the answer is kept as often as it was
      typed, and no empty one is. */
  lemma ParseDropCounts(s: string)
    ensures multiset(ParseDrop(s))[""] == 0
    ensures forall k :: k != "" ==> multiset(ParseDrop(s))[k] == multiset(ParseKeep(s))[k]
  {
    NonBlankCounts(ParseKeep(s));
  }

  /** An empty answer to the prompt still yields one (empty) keyword when the
      empty pieces are kept, and none when they are dropped. */
  lemma EmptyInput()
    ensures ParseKeep("") == [""]
    ensures ParseDrop("") == []
  {
  }

  /** Round trip: a list of keywords without commas or surrounding
      whitespace, joined with commas, parses back to the same list. */
  lemma ParseKeepJoin(ks: seq<string>)
    requires |ks| >= 1
    requires forall i :: 0 <= i < |ks| ==> ',' !in ks[i] && Text.Strip(ks[i]) == ks[i]
    ensures ParseKeep(Text.Join(ks, ",")) == ks
  {
    Text.SplitJoin(ks, ',');
  }

  /** The same round trip when empties are dropped, for non-empty keywords. */
  lemma ParseDropJoin(ks: seq<string>)
    requires |ks| >= 1
    requires forall i :: 0 <= i < |ks| ==> ks[i] != "" && ',' !in ks[i] && Text.Strip(ks[i]) == ks[i]
    ensures ParseDrop(Text.Join(ks, ",")) == ks
  {
    ParseKeepJoin(ks);
    NonBlankOfFull(ks);
  }

  /** `keyword.replace(" ", "_")`: the slug of the harvesters' folders and
      most per-keyword files. */
  function SpaceSlug(k: string): (r: string)
    ensures |r| == |k| && ' ' !in r
    ensures forall i :: 0 <= i < |k| ==> k[i] != ' ' ==> r[i] == k[i]
  {
    Text.ReplaceChars(k, {' '}, '_')
  }

  /** `keyword.replace(" ", "_").replace("/", "_")` (keyword_occurence_SS_multi2.py). */
  function SpaceSlashSlug(k: string): (r: string)
    ensures |r| == |k| && ' ' !in r && '/' !in r
    ensures forall i :: 0 <= i < |k| ==> k[i] != ' ' && k[i] != '/' ==> r[i] == k[i]
  {
    Text.ReplaceChars(SpaceSlug(k), {'/'}, '_')
  }

  /** `keyword.replace(" ", "_").replace(",", "_")` (keyword_occurrences_crossref.py). */
  function SpaceCommaSlug(k: string): (r: string)
    ensures |r| == |k| && ' ' !in r && ',' !in r
    ensures forall i :: 0 <= i < |k| ==> k[i] != ' ' && k[i] != ',' ==> r[i] == k[i]
  {
    Text.ReplaceChars(SpaceSlug(k), {','}, '_')
  }

  /** A slug is its own slug. */
  lemma SlugsIdempotent(k: string)
    ensures SpaceSlug(SpaceSlug(k)) == SpaceSlug(k)
    ensures SpaceSlashSlug(SpaceSlashSlug(k)) == SpaceSlashSlug(k)
    ensures SpaceCommaSlug(SpaceCommaSlug(k)) == SpaceCommaSlug(k)
  {
  }

  /** Two keywords share a space slug exactly when they agree everywhere
      except where one has a space and the other a space or an underscore:
      "deep learning" and "deep_learning" are saved to the same place. */
  lemma SpaceSlugCollision(a: string, b: string)
    ensures SpaceSlug(a) == SpaceSlug(b) <==>
              |a| == |b| &&
              forall i :: 0 <= i < |a| ==>
                a[i] == b[i] || (a[i] in {' ', '_'} && b[i] in {' ', '_'})
  {
    if |a| == |b| && forall i :: 0 <= i < |a| ==> a[i] == b[i] || (a[i] in {' ', '_'} && b[i] in {' ', '_'}) {
      var x, y := SpaceSlug(a), SpaceSlug(b);
      assert forall i :: 0 <= i < |x| ==> x[i] == y[i];
    }
    if SpaceSlug(a) == SpaceSlug(b) {
      var x := SpaceSlug(a);
      forall i | 0 <= i < |a|
        ensures a[i] == b[i] || (a[i] in {' ', '_'} && b[i] in {' ', '_'})
      {
        assert x[i] == (if a[i] == ' ' then '_' else a[i]);
        assert x[i] == (if b[i] == ' ' then '_' else b[i]);
      }
    }
  }

  /** The two chained replacements equal a single replacement of both
      characters. */
  lemma ChainedSlugs(k: string)
    ensures SpaceSlashSlug(k) == Text.ReplaceChars(k, {' ', '/'}, '_')
    ensures SpaceCommaSlug(k) == Text.ReplaceChars(k, {' ', ','}, '_')
  {
    Text.ReplaceTwice(k, ' ', '/', '_');
    Text.ReplaceTwice(k, ' ', ',', '_');
  }

  /** The keywords in order of first appearance: a dictionary keeps a key
      where it was first inserted. */
  function FirstSeen(ks: seq<string>): (r: seq<string>)
    ensures forall k :: k in r <==> k in ks
    ensures forall i, j :: 0 <= i < j < |r| ==> r[i] != r[j]
  {
    if ks == [] then []
    else
      var init := FirstSeen(ks[..|ks| - 1]);
      var k := ks[|ks| - 1];
      assert forall x :: x in ks <==> x in ks[..|ks| - 1] || x == k;
      if k in init then init else init + [k]
  }

  /** Every keyword before `r[j]` in `r` already occurs in `ks` ahead of any
      occurrence of `r[j]`. */
  predicate Ahead(ks: seq<string>, r: seq<string>, j: nat)
    requires j < |r|
  {
    forall i, b :: 0 <= i < j && 0 <= b < |ks| && ks[b] == r[j] ==> r[i] in ks[..b]
  }

  /** `FirstSeen` lists the keywords in order of first appearance: with its
      contract (each keyword once, nothing else) this fixes the order. */
  lemma {:induction false} FirstSeenOrder(ks: seq<string>)
    ensures forall j :: 0 <= j < |FirstSeen(ks)| ==> Ahead(ks, FirstSeen(ks), j)
    decreases |ks|
  {
    if ks != [] {
      var front := ks[..|ks| - 1];
      var k := ks[|ks| - 1];
      var init := FirstSeen(front);
      var r := FirstSeen(ks);
      FirstSeenOrder(front);
      forall j | 0 <= j < |r|
        ensures Ahead(ks, r, j)
      {
        forall i, b | 0 <= i < j && 0 <= b < |ks| && ks[b] == r[j]
          ensures r[i] in ks[..b]
        {
          assert r[i] == init[i];
          if b < |ks| - 1 {
            assert ks[b] == front[b];
            if j < |init| {
              assert Ahead(front, init, j);
              assert r[i] in front[..b];
              assert front[..b] == ks[..b];
            } else {
              assert false;
            }
          } else {
            assert init[i] in front;
            assert ks[..b] == front;
          }
        }
      }
    }
  }
}

=== FILE: names.dfy ===
/** Output file names. Each count script names its spreadsheet
    `<prefix>_<start>_<end>_<timestamp>.<ext>`, and the harvesters name their
    chunk files `chunk_<n>.xlsx`. A name built from underscore-free fields can
    be read back by splitting on `_`; the lemmas here say so. */
module Names {
  import opened Wrappers
  import Text
  import Keywords

  /** `datetime.now().strftime("%Y%m%d_%H%M%S")`: the clock is a parameter. */
  datatype Stamp = Stamp(date: string, clock: string) {
    predicate Valid() {
      |date| == 8 && |clock| == 6
      && (forall i :: 0 <= i < |date| ==> Text.IsDigit(date[i]))
      && (forall i :: 0 <= i < |clock| ==> Text.IsDigit(clock[i]))
    }
  }

  /** `head + "_" + "_".join(fields) + ext`. */
  function Underscored(head: string, fields: seq<string>, ext: string): string {
    head + "_" + Text.Join(fields, "_") + ext
  }

  /** The name ends with `ext` and, read back by splitting the rest on `_`,
      its last pieces are `fields`. */
  predicate Carries(name: string, ext: string, fields: seq<string>) {
    Text.EndsWith(name, ext)
    && var pieces := Text.Split(name[..|name| - |ext|], '_');
       |fields| <= |pieces| && pieces[|pieces| - |fields|..] == fields
  }

  /** The head comes first. */
  lemma UnderscoredStarts(head: string, fields: seq<string>, ext: string)
    ensures Text.StartsWith(Underscored(head, fields, ext), head + "_")
  {
    assert Underscored(head, fields, ext)[..|head + "_"|] == head + "_";
  }

  /** Underscore-free fields written after a head come back. */
  lemma UnderscoredCarries(head: string, fields: seq<string>, ext: string)
    requires |fields| >= 1
    requires forall i :: 0 <= i < |fields| ==> '_' !in fields[i]
    ensures Carries(Underscored(head, fields, ext), ext, fields)
  {
    var name := Underscored(head, fields, ext);
    var stem := head + "_" + Text.Join(fields, "_");
    assert name[..|name| - |ext|] == stem;
    Text.SplitTail(head, '_', fields);
    var pieces := Text.Split(stem, '_');
    assert pieces == Text.Split(head, '_') + fields;
    assert pieces[|pieces| - |fields|..] == fields;
  }

  lemma YearUnderscoreFree(y: int)
    ensures '_' !in Text.IntToString(y)
  {
    var s := Text.IntToString(y);
    forall k | 0 <= k < |s|
      ensures s[k] != '_'
    {
    }
  }

  lemma StampUnderscoreFree(t: Stamp)
    requires t.Valid()
    ensures '_' !in t.date && '_' !in t.clock
  {
    assert forall i :: 0 <= i < |t.date| ==> t.date[i] != '_';
    assert forall i :: 0 <= i < |t.clock| ==> t.clock[i] != '_';
  }

  /** The four trailing fields of a stamped name. */
  function RangeFields(start: int, end: int, t: Stamp): seq<string> {
    [Text.IntToString(start), Text.IntToString(end), t.date, t.clock]
  }

  lemma RangeFieldsFree(start: int, end: int, t: Stamp)
    requires t.Valid()
    ensures forall i :: 0 <= i < 4 ==> '_' !in RangeFields(start, end, t)[i]
  {
    YearUnderscoreFree(start);
    YearUnderscoreFree(end);
    StampUnderscoreFree(t);
  }

  /** `f"{head}_{start}_{end}_{timestamp}{ext}"`. */
  function RangeStamped(head: string, start: int, end: int, t: Stamp, ext: string): (name: string)
    ensures Text.StartsWith(name, head + "_")
    ensures t.Valid() ==> Carries(name, ext, RangeFields(start, end, t))
  {
    UnderscoredStarts(head, RangeFields(start, end, t), ext);
    if t.Valid() then
      RangeFieldsFree(start, end, t);
      UnderscoredCarries(head, RangeFields(start, end, t), ext);
      Underscored(head, RangeFields(start, end, t), ext)
    else
      Underscored(head, RangeFields(start, end, t), ext)
  }

  // ---------------------------------------------------------------------
  // Count scripts

  /** `crossref_{slug}_{start}_{end}_{timestamp}.xlsx`, the slug replacing
      spaces and commas (keyword_occurrences_crossref.py). */
  function CrossrefCountFile(keyword: string, start: int, end: int, t: Stamp): (name: string)
    ensures Text.StartsWith(name, "crossref_" + Keywords.SpaceCommaSlug(keyword) + "_")
    ensures t.Valid() ==> Carries(name, ".xlsx", RangeFields(start, end, t))
  {
    RangeStamped("crossref_" + Keywords.SpaceCommaSlug(keyword), start, end, t, ".xlsx")
  }

  /** `crossref_multi_keywords_{start}_{end}_{timestamp}.xlsx`
      (keyword_occurence_crossref_multi.py). */
  function CrossrefMultiFile(start: int, end: int, t: Stamp): (name: string)
    ensures Text.StartsWith(name, "crossref_multi_keywords_")
    ensures t.Valid() ==> Carries(name, ".xlsx", RangeFields(start, end, t))
  {
    RangeStamped("crossref_multi_keywords", start, end, t, ".xlsx")
  }

  /** `crossref_multi_keywords_{start}_{end}.xlsx` (search_crossref_terms.py):
      no timestamp. */
  function TermsFile(start: int, end: int): (name: string)
    ensures Text.StartsWith(name, "crossref_multi_keywords_")
    ensures Carries(name, ".xlsx", [Text.IntToString(start), Text.IntToString(end)])
  {
    YearUnderscoreFree(start);
    YearUnderscoreFree(end);
    UnderscoredStarts("crossref_multi_keywords", [Text.IntToString(start), Text.IntToString(end)], ".xlsx");
    UnderscoredCarries("crossref_multi_keywords", [Text.IntToString(start), Text.IntToString(end)], ".xlsx");
    Underscored("crossref_multi_keywords", [Text.IntToString(start), Text.IntToString(end)], ".xlsx")
  }

  /** Two runs of search_crossref_terms.py write the same file exactly when
      they cover the same year range, whatever their keywords: a rerun
      overwrites the earlier table. */
  lemma TermsFileSameRange(s1: int, e1: int, s2: int, e2: int)
    ensures TermsFile(s1, e1) == TermsFile(s2, e2) <==> s1 == s2 && e1 == e2
  {
    if TermsFile(s1, e1) == TermsFile(s2, e2) {
      var name := TermsFile(s1, e1);
      var pieces := Text.Split(name[..|name| - 5], '_');
      assert pieces[|pieces| - 2] == Text.IntToString(s1) == Text.IntToString(s2);
      assert pieces[|pieces| - 1] == Text.IntToString(e1) == Text.IntToString(e2);
      Text.IntToStringInjective(s1, s2);
      Text.IntToStringInjective(e1, e2);
    }
  }

  /** `gscholar_{safe}_{start}_{end}_{time_str}.xls` (both Google Scholar
      scripts); `safe` is the sanitized term. */
  function ScholarFile(safe: string, start: int, end: int, t: Stamp): (name: string)
    ensures Text.StartsWith(name, "gscholar_" + safe + "_")
    ensures t.Valid() ==> Carries(name, ".xls", RangeFields(start, end, t))
  {
    RangeStamped("gscholar_" + safe, start, end, t, ".xls")
  }

  /** `semantic_{slug}_{start}_{end}_{timestamp}.xlsx`
      (keyword_occurences_SS_semantic_scholar.py; the percent-encoding of the
      slug is not modelled). */
  function SemanticFile(keyword: string, start: int, end: int, t: Stamp): (name: string)
    ensures Text.StartsWith(name, "semantic_" + Keywords.SpaceSlug(keyword) + "_")
    ensures t.Valid() ==> Carries(name, ".xlsx", RangeFields(start, end, t))
  {
    RangeStamped("semantic_" + Keywords.SpaceSlug(keyword), start, end, t, ".xlsx")
  }

  /** `semantic_keyword_{slug}_...` with spaces and slashes replaced
      (keyword_occurence_SS_multi2.py). */
  function Multi2KeywordFile(keyword: string, start: int, end: int, t: Stamp): (name: string)
    ensures Text.StartsWith(name, "semantic_keyword_" + Keywords.SpaceSlashSlug(keyword) + "_")
    ensures t.Valid() ==> Carries(name, ".xlsx", RangeFields(start, end, t))
  {
    RangeStamped("semantic_keyword_" + Keywords.SpaceSlashSlug(keyword), start, end, t, ".xlsx")
  }

  /** `semantic_tableau_global_{start}_{end}_{timestamp}.xlsx`
      (keyword_occurence_SS_multi2.py). */
  function Multi2GlobalFile(start: int, end: int, t: Stamp): (name: string)
    ensures Text.StartsWith(name, "semantic_tableau_global_")
    ensures t.Valid() ==> Carries(name, ".xlsx", RangeFields(start, end, t))
  {
    RangeStamped("semantic_tableau_global", start, end, t, ".xlsx")
  }

  /** `semantic_keyword_{slug}_...` with only spaces replaced
      (keyword_occurence_ss_multi_v3.py). */
  function V3KeywordFile(keyword: string, start: int, end: int, t: Stamp): (name: string)
    ensures Text.StartsWith(name, "semantic_keyword_" + Keywords.SpaceSlug(keyword) + "_")
    ensures t.Valid() ==> Carries(name, ".xlsx", RangeFields(start, end, t))
  {
    RangeStamped("semantic_keyword_" + Keywords.SpaceSlug(keyword), start, end, t, ".xlsx")
  }

  /** ASCII part of `str.lower()`. */
  function AsciiLower(s: string): (r: string)
    ensures |r| == |s|
    ensures forall i :: 0 <= i < |s| ==>
              r[i] == if 'A' <= s[i] <= 'Z' then (s[i] as int + 32) as char else s[i]
  {
    if |s| == 0 then ""
    else [if 'A' <= s[0] <= 'Z' then (s[0] as int + 32) as char else s[0]] + AsciiLower(s[1..])
  }

  /** `openalex_keyword_{slug}_...` with spaces replaced, then lower-cased
      (keyword_occurrences_openalex.py; percent-encoding not modelled). */
  function OpenAlexKeywordFile(keyword: string, start: int, end: int, t: Stamp): (name: string)
    ensures Text.StartsWith(name, "openalex_keyword_" + AsciiLower(Keywords.SpaceSlug(keyword)) + "_")
    ensures t.Valid() ==> Carries(name, ".xlsx", RangeFields(start, end, t))
  {
    RangeStamped("openalex_keyword_" + AsciiLower(Keywords.SpaceSlug(keyword)), start, end, t, ".xlsx")
  }

  /** `openalex_tableau_comparatif_{start}_{end}_{now}.xlsx`. */
  function OpenAlexSummaryFile(start: int, end: int, t: Stamp): (name: string)
    ensures Text.StartsWith(name, "openalex_tableau_comparatif_")
    ensures t.Valid() ==> Carries(name, ".xlsx", RangeFields(start, end, t))
  {
    RangeStamped("openalex_tableau_comparatif", start, end, t, ".xlsx")
  }

  /** `{issn1}_{issn2}_{current_time}.txt` (get_doi.py): the two ISSNs as
      formatted, then the stamp. */
  function DoiFile(issn1: string, issn2: string, t: Stamp): (name: string)
    ensures Text.StartsWith(name, issn1 + "_")
    ensures t.Valid() && '_' !in issn2 ==> Carries(name, ".txt", [issn2, t.date, t.clock])
  {
    UnderscoredStarts(issn1, [issn2, t.date, t.clock], ".txt");
    if t.Valid() && '_' !in issn2 then
      StampUnderscoreFree(t);
      UnderscoredCarries(issn1, [issn2, t.date, t.clock], ".txt");
      Underscored(issn1, [issn2, t.date, t.clock], ".txt")
    else
      Underscored(issn1, [issn2, t.date, t.clock], ".txt")
  }

  // ---------------------------------------------------------------------
  // Harvester chunk files (crossref_scraper_v102.py, crossref_scraper.py)

  /** `f"resultats_{keyword.replace(' ', '_')}"`. */
  function ResultsFolder(keyword: string): (folder: string)
    ensures Text.StartsWith(folder, "resultats_") && ' ' !in folder
  {
    var folder := "resultats_" + Keywords.SpaceSlug(keyword);
    assert folder[..10] == "resultats_";
    folder
  }

  /** The combined export sits next to the folder, with `.xlsx` appended. */
  function CombinedFile(keyword: string): (name: string)
    ensures Text.StartsWith(name, ResultsFolder(keyword)) && Text.EndsWith(name, ".xlsx")
  {
    var name := ResultsFolder(keyword) + ".xlsx";
    assert name[..|ResultsFolder(keyword)|] == ResultsFolder(keyword);
    name
  }

  /** `f"chunk_{n}.xlsx"`. */
  function ChunkName(n: nat): string {
    "chunk_" + Text.NatToString(n) + ".xlsx"
  }

  /** `int(name.split("_")[1].split(".")[0])` for the digits-only case;
      `None` where Python raises (no `_`, or a piece that is not a number). */
  function ChunkIndex(name: string): (n: Option<nat>)
    ensures n.Some? ==> '_' in name
  {
    var parts := Text.Split(name, '_');
    if |parts| < 2 then None
    else
      var digits := Text.Split(parts[1], '.')[0];
      if |digits| > 0 && forall i :: 0 <= i < |digits| ==> Text.IsDigit(digits[i]) then
        DigitsNat(digits)
      else None
  }

  function DigitsNat(digits: string): (n: Option<nat>)
    requires forall i :: 0 <= i < |digits| ==> Text.IsDigit(digits[i])
    ensures n.Some? && n.value == Text.DigitsValue(digits)
  {
    DigitsNonNegative(digits);
    Some(Text.DigitsValue(digits))
  }

  lemma {:induction false} DigitsNonNegative(digits: string)
    requires forall i :: 0 <= i < |digits| ==> Text.IsDigit(digits[i])
    ensures Text.DigitsValue(digits) >= 0
    decreases |digits|
  {
    if |digits| > 0 {
      DigitsNonNegative(digits[..|digits| - 1]);
    }
  }

  /** Round trip: the index the resume logic reads off a chunk file's name is
      the number it was written under. */
  lemma ChunkIndexOfName(n: nat)
    ensures ChunkIndex(ChunkName(n)) == Some(n)
  {
    var digits := Text.NatToString(n);
    var tail := digits + ".xlsx";
    assert forall k :: 0 <= k < |digits| ==> digits[k] != '_' && digits[k] != '.';
    assert '_' !in "chunk" && '_' !in tail;
    assert ChunkName(n) == "chunk" + ['_'] + tail;
    Text.SplitAfterPiece("chunk", '_', tail);
    Text.SplitOfPiece(tail, '_');
    assert Text.Split(ChunkName(n), '_') == ["chunk", tail];
    assert tail == digits + ['.'] + "xlsx";
    Text.SplitAfterPiece(digits, '.', "xlsx");
    ChunkIndexOfDigits(ChunkName(n), digits);
  }

  /** A name whose second `_`-piece starts with a run of digits up to its
      first `.` is read as the value of those digits. */
  lemma ChunkIndexOfDigits(name: string, digits: string)
    requires |Text.Split(name, '_')| >= 2 && Text.Split(Text.Split(name, '_')[1], '.')[0] == digits
    requires |digits| > 0 && forall i :: 0 <= i < |digits| ==> Text.IsDigit(digits[i])
    ensures ChunkIndex(name) == Some(Text.DigitsValue(digits))
  {
  }
}

=== FILE: openalex.dfy ===
/** keywords_search/keyword_occurrences_openalex.py: the OpenAlex per-year
    counter. Each (keyword, year) gets up to five attempts; a failed request,
    an HTTP error status or a body that does not decode waits
    `1.5 * 2 ** attempts` seconds and tries again, and five failures record
    `None`. A decoded body is read with `.get`, which raises on anything but
    an object; that exception is not caught and ends the run. Every keyword
    that finishes gets its sheet, and the comparison table is a strict
    pivot: a (keyword, year) pair seen twice, or no row at all, makes it
    raise. */
module OpenAlex {
  import opened Wrappers
  import Retry
  import Names
  import Keywords
  import KeywordPasses

  /** The `meta` member of the answer: missing, not an object, or an object
      whose `count` may be missing. */
  datatype Meta = NoMeta | MetaScalar | MetaObject(count: Option<int>)

  /** A decoded answer: an object with its `meta`, or any other JSON value. */
  datatype Body = Scalar | Object(meta: Meta)

  type Reply = Retry.Reply<Body>

  type Trace = Retry.Trace<Body, int>

  const MaxRetries: nat := 5

  function Pow2(k: nat): nat {
    if k == 0 then 1 else 2 * Pow2(k - 1)
  }

  /** `pause * (2 ** attempts)` with `pause = 1.5` and the count already
      bumped, in tenths of a second. */
  function WaitTenths(attempt: nat): nat {
    15 * Pow2(attempt + 1)
  }

  /** `raise_for_status` raises on a client or a server error. */
  predicate HttpError(status: int) {
    400 <= status < 600
  }

  /** A reply that raises a `RequestException` before the count is read:
      the request failed, the status is an error, or the body does not
      decode. */
  predicate Failed(reply: Reply) {
    reply.Raised? || HttpError(reply.status) || reply.body.None?
  }

  /** `data.get("meta", {}).get("count", 0)`: `None` when a `.get` meets a
      value that is not an object. */
  function Read(body: Body): Option<int> {
    match body
    case Scalar => None
    case Object(NoMeta) => Some(0)
    case Object(MetaScalar) => None
    case Object(MetaObject(c)) => Some(c.GetOr(0))
  }

  function Judge(reply: Reply, attempt: nat): Retry.Verdict<int> {
    if Failed(reply) then Retry.Backoff(WaitTenths(attempt))
    else if Read(reply.body.value).None? then Retry.Crash
    else Retry.Accept(Read(reply.body.value).value)
  }

  /** One year's `while not success and attempts < max_retries` loop. */
  function Ask(replies: seq<Reply>): Trace {
    Retry.Attempts(replies, 0, MaxRetries, Judge)
  }

  /** What the year records: the count read, `None` once the attempts are
      spent. */
  function Count(t: Trace): Option<int> {
    if t.outcome.Accepted? then Some(t.outcome.value) else None
  }

  /** The loop retries every failed request, waiting 3, 6, 12, 24 and 48
      seconds, and records `None` after five. The first reply that does not
      fail decides: its count is recorded, 0 when a key is missing, unless
      reading it raises. The loop never gives up with a value of its own. */
  lemma AskOutcome(replies: seq<Reply>)
    ensures var t := Ask(replies);
            && !t.outcome.GaveUp?
            && (forall k :: 0 <= k < |t.waits| ==> Failed(Retry.Nth(replies, k)) && t.waits[k] == 15 * Pow2(k + 1))
            && (t.outcome.Exhausted? <==> |t.waits| == MaxRetries)
            && (t.outcome.Exhausted? ==> Count(t) == None)
            && (!t.outcome.Exhausted? ==>
                  var reply := Retry.Nth(replies, |t.waits|);
                  && !Failed(reply)
                  && (t.outcome.Crashed? <==> Read(reply.body.value).None?)
                  && (t.outcome.Accepted? ==> Count(t) == Read(reply.body.value)))
  {
    var t := Ask(replies);
    Retry.AttemptsVerdicts(replies, 0, MaxRetries, Judge);
    forall k | 0 <= k < |t.waits|
      ensures Failed(Retry.Nth(replies, k)) && t.waits[k] == 15 * Pow2(k + 1)
    {
      assert Judge(Retry.Nth(replies, k), 0 + k) == Retry.Backoff(t.waits[k]);
    }
  }

  /** Each wait doubles the one before. */
  lemma WaitsDouble(k: nat)
    ensures WaitTenths(0) == 30
    ensures WaitTenths(k + 1) == 2 * WaitTenths(k)
  {
  }

  // ---------------------------------------------------------------------
  // The loops

  /** One keyword's `query_openalex` call. */
  type Pass = KeywordPasses.Pass<Body, int>

  /** The keywords in turn, each sweeping the years on the stub the keywords
      before it left; an exception ends the run after the pass it escaped
      from. */
  function Passes(keywords: seq<string>, n: nat, replies: seq<Reply>): seq<Pass> {
    KeywordPasses.Passes(keywords, n, replies, MaxRetries, Judge)
  }

  // ---------------------------------------------------------------------
  // Rows and sheets

  type Row = KeywordPasses.Row

  datatype KeywordSheet = KeywordSheet(keyword: string, stamp: Names.Stamp, rows: seq<Row>) {
    /** `openalex_keyword_{slug}_{start}_{end}_{now}.xlsx`. */
    function File(start: int, end: int): string {
      Names.OpenAlexKeywordFile(keyword, start, end, stamp)
    }
  }

  /** `sheet` is pass `p`'s, named at `stamp`, with its rows from `start`. */
  predicate SheetOf(sheet: KeywordSheet, p: Pass, stamp: Names.Stamp, start: int) {
    && sheet.keyword == p.keyword
    && sheet.stamp == stamp
    && sheet.rows == KeywordPasses.KeywordRows(p.keyword, start, p.rounds, Count)
  }

  /** The sheets of the passes before the first that ended on an exception,
      `clock(from + i)` naming the `i`-th. */
  function Sheets(ps: seq<Pass>, from: nat, start: int, clock: nat -> Names.Stamp): (sheets: seq<KeywordSheet>)
    ensures |sheets| <= |ps|
    ensures forall i :: 0 <= i < |sheets| ==> !Retry.Stopped(ps[i].rounds)
    ensures |sheets| < |ps| ==> Retry.Stopped(ps[|sheets|].rounds)
    ensures forall i :: 0 <= i < |sheets| ==> SheetOf(sheets[i], ps[i], clock(from + i), start)
  {
    if ps == [] || Retry.Stopped(ps[0].rounds) then []
    else
      [KeywordSheet(ps[0].keyword, clock(from), KeywordPasses.KeywordRows(ps[0].keyword, start, ps[0].rounds, Count))]
      + Sheets(ps[1..], from + 1, start, clock)
  }

  /** `all_data.extend(...)` over the sheets in order. */
  function Gathered(sheets: seq<KeywordSheet>): seq<Row> {
    if sheets == [] then [] else sheets[0].rows + Gathered(sheets[1..])
  }

  /** Every row of a sheet is among the gathered ones. */
  lemma {:induction false} GatheredHas(sheets: seq<KeywordSheet>, m: nat, j: nat)
    requires m < |sheets| && j < |sheets[m].rows|
    ensures sheets[m].rows[j] in Gathered(sheets)
    decreases m
  {
    assert Gathered(sheets) == sheets[0].rows + Gathered(sheets[1..]);
    if m > 0 {
      assert sheets[1..][m - 1] == sheets[m];
      GatheredHas(sheets[1..], m - 1, j);
    }
  }

  /** Every gathered row comes from some sheet, and has its keyword. */
  lemma {:induction false} GatheredKeywords(sheets: seq<KeywordSheet>, keywords: seq<string>)
    requires |sheets| == |keywords|
    requires forall k :: 0 <= k < |sheets| ==>
               forall j :: 0 <= j < |sheets[k].rows| ==> sheets[k].rows[j].keyword == keywords[k]
    ensures forall p :: 0 <= p < |Gathered(sheets)| ==> Gathered(sheets)[p].keyword in keywords
  {
    if sheets != [] {
      var a := sheets[0].rows;
      var b := Gathered(sheets[1..]);
      assert Gathered(sheets) == a + b;
      GatheredKeywords(sheets[1..], keywords[1..]);
      forall p | 0 <= p < |Gathered(sheets)|
        ensures Gathered(sheets)[p].keyword in keywords
      {
        if p >= |a| {
          assert Gathered(sheets)[p] == b[p - |a|];
          assert b[p - |a|].keyword in keywords[1..];
        }
      }
    }
  }

  // ---------------------------------------------------------------------
  // The comparison table

  function Key(r: Row): (string, int) {
    (r.keyword, r.year)
  }

  /** No (keyword, year) pair occurs twice. */
  predicate Unique(rows: seq<Row>) {
    forall i, j :: 0 <= i < j < |rows| ==> Key(rows[i]) != Key(rows[j])
  }

  /** No pair of `a` occurs in `b`. */
  predicate Apart(a: seq<Row>, b: seq<Row>) {
    forall i, j :: 0 <= i < |a| && 0 <= j < |b| ==> Key(a[i]) != Key(b[j])
  }

  predicate Distinct(ks: seq<string>) {
    forall i, j :: 0 <= i < j < |ks| ==> ks[i] != ks[j]
  }

  lemma UniqueAppend(a: seq<Row>, b: seq<Row>)
    ensures Unique(a + b) <==> Unique(a) && Unique(b) && Apart(a, b)
  {
    var ab := a + b;
    if Unique(ab) {
      forall i, j | 0 <= i < |a| && 0 <= j < |b|
        ensures Key(a[i]) != Key(b[j])
      {
        assert ab[i] == a[i] && ab[|a| + j] == b[j];
      }
      forall i, j | 0 <= i < j < |a|
        ensures Key(a[i]) != Key(a[j])
      {
        assert ab[i] == a[i] && ab[j] == a[j];
      }
      forall i, j | 0 <= i < j < |b|
        ensures Key(b[i]) != Key(b[j])
      {
        assert ab[|a| + i] == b[i] && ab[|a| + j] == b[j];
      }
    }
    if Unique(a) && Unique(b) && Apart(a, b) {
      forall i, j | 0 <= i < j < |ab|
        ensures Key(ab[i]) != Key(ab[j])
      {
        if j < |a| {
          assert ab[i] == a[i] && ab[j] == a[j];
        } else if i < |a| {
          assert ab[i] == a[i] && ab[j] == b[j - |a|];
        } else {
          assert ab[i] == b[i - |a|] && ab[j] == b[j - |a|];
        }
      }
    }
  }

  lemma DistinctCons(ks: seq<string>)
    requires ks != []
    ensures Distinct(ks) <==> ks[0] !in ks[1..] && Distinct(ks[1..])
  {
    if ks[0] !in ks[1..] && Distinct(ks[1..]) {
      forall i, j | 0 <= i < j < |ks|
        ensures ks[i] != ks[j]
      {
        if i > 0 {
          assert ks[i] == ks[1..][i - 1] && ks[j] == ks[1..][j - 1];
        } else {
          assert ks[j] == ks[1..][j - 1];
        }
      }
    }
    if Distinct(ks) {
      forall m | 0 <= m < |ks[1..]|
        ensures ks[1..][m] != ks[0]
      {
        assert ks[1..][m] == ks[m + 1];
      }
      forall i, j | 0 <= i < j < |ks[1..]|
        ensures ks[1..][i] != ks[1..][j]
      {
        assert ks[1..][i] == ks[i + 1] && ks[1..][j] == ks[j + 1];
      }
    }
  }

  /** A sheet of `n` consecutive years from `start`, all under its keyword. */
  predicate Shaped(s: KeywordSheet, start: int, n: nat) {
    |s.rows| == n && forall j :: 0 <= j < n ==> s.rows[j].keyword == s.keyword && s.rows[j].year == start + j
  }

  /** When every sheet covers the same years, a pair repeats exactly when a
      keyword does (and there is a year). */
  lemma {:induction false} GatheredUnique(sheets: seq<KeywordSheet>, keywords: seq<string>, start: int, n: nat)
    requires |sheets| == |keywords|
    requires forall k :: 0 <= k < |sheets| ==> Shaped(sheets[k], start, n) && sheets[k].keyword == keywords[k]
    ensures Unique(Gathered(sheets)) <==> n == 0 || Distinct(keywords)
  {
    if sheets != [] {
      var a := sheets[0].rows;
      var tail := sheets[1..];
      var b := Gathered(tail);
      assert Gathered(sheets) == a + b;
      GatheredUnique(tail, keywords[1..], start, n);
      UniqueAppend(a, b);
      if n > 0 {
        DistinctCons(keywords);
        if keywords[0] in keywords[1..] {
          var m :| 0 <= m < |keywords[1..]| && keywords[1..][m] == keywords[0];
          GatheredHas(tail, m, 0);
          var p :| 0 <= p < |b| && b[p] == tail[m].rows[0];
          assert Key(a[0]) == Key(b[p]);
        } else {
          GatheredKeywords(tail, keywords[1..]);
          forall i, j | 0 <= i < |a| && 0 <= j < |b|
            ensures Key(a[i]) != Key(b[j])
          {
            assert b[j].keyword in keywords[1..];
          }
        }
      }
    }
  }

  /** `df_all.pivot(...)` on rows whose pairs are unique: the cell of each
      (keyword, year). */
  function Cells(rows: seq<Row>): map<(string, int), Option<int>> {
    if rows == [] then map[]
    else Cells(rows[..|rows| - 1])[Key(rows[|rows| - 1]) := rows[|rows| - 1].occurrences]
  }

  /** Each pair of the rows has a cell holding its row's value, and every
      cell comes from a row. */
  lemma {:induction false} CellsExact(rows: seq<Row>)
    requires Unique(rows)
    ensures forall i :: 0 <= i < |rows| ==> Key(rows[i]) in Cells(rows) && Cells(rows)[Key(rows[i])] == rows[i].occurrences
    ensures forall k :: k in Cells(rows) ==> exists i :: 0 <= i < |rows| && Key(rows[i]) == k
    decreases |rows|
  {
    if rows != [] {
      var init := rows[..|rows| - 1];
      assert Unique(init) by {
        forall i, j | 0 <= i < j < |init|
          ensures Key(init[i]) != Key(init[j])
        {
          assert init[i] == rows[i] && init[j] == rows[j];
        }
      }
      CellsExact(init);
      assert Cells(rows) == Cells(init)[Key(rows[|rows| - 1]) := rows[|rows| - 1].occurrences];
      forall i | 0 <= i < |rows|
        ensures Key(rows[i]) in Cells(rows) && Cells(rows)[Key(rows[i])] == rows[i].occurrences
      {
        if i < |rows| - 1 {
          assert init[i] == rows[i];
        }
      }
      forall k | k in Cells(rows)
        ensures exists i :: 0 <= i < |rows| && Key(rows[i]) == k
      {
        if k != Key(rows[|rows| - 1]) {
          var i :| 0 <= i < |init| && Key(init[i]) == k;
          assert rows[i] == init[i];
        }
      }
    }
  }

  /** The comparison table: the time its name was taken at and its cells. */
  datatype Summary = Summary(stamp: Names.Stamp, cells: map<(string, int), Option<int>>) {
    /** `openalex_tableau_comparatif_{start}_{end}_{now}.xlsx`. */
    function File(start: int, end: int): string {
      Names.OpenAlexSummaryFile(start, end, stamp)
    }
  }

  /** The sheets written and, when the pivot succeeds, the table. */
  datatype Run = Run(sheets: seq<KeywordSheet>, summary: Option<Summary>)

  /** The script on the parsed keywords. An exception escaping a keyword's
      loop ends the run before its sheet; after the last keyword, the pivot
      raises on an empty list of rows and on a repeated pair. */
  function Collect(keywords: seq<string>, start: int, end: int, clock: nat -> Names.Stamp, replies: seq<Reply>): (out: Run)
    ensures |out.sheets| <= |keywords|
    ensures forall i :: 0 <= i < |out.sheets| ==>
              && out.sheets[i].keyword == keywords[i]
              && out.sheets[i].stamp == clock(i)
              && |out.sheets[i].rows| == KeywordPasses.Years(start, end)
    ensures out.summary.Some? ==> |out.sheets| == |keywords| && out.summary.value.stamp == clock(|keywords|)
  {
    var n := KeywordPasses.Years(start, end);
    var ps := Passes(keywords, n, replies);
    var sheets := Sheets(ps, 0, start, clock);
    assert forall i :: 0 <= i < |sheets| ==> |sheets[i].rows| == n by {
      forall i | 0 <= i < |sheets|
        ensures |sheets[i].rows| == n
      {
        KeywordPasses.PassComplete(keywords, n, replies, MaxRetries, Judge, i);
      }
    }
    if |sheets| < |keywords| then Run(sheets, None)
    else
      var rows := Gathered(sheets);
      Run(sheets, if |rows| > 0 && Unique(rows) then Some(Summary(clock(|keywords|), Cells(rows))) else None)
  }

  /** The run ends early exactly when an exception escapes: the keywords
      before it each got their sheet, built from their pass, and the pass of
      the first keyword without one ended on the exception. */
  lemma CollectSheets(keywords: seq<string>, start: int, end: int, clock: nat -> Names.Stamp, replies: seq<Reply>)
    ensures var ps := Passes(keywords, KeywordPasses.Years(start, end), replies);
            var out := Collect(keywords, start, end, clock, replies);
            && (forall i :: 0 <= i < |out.sheets| ==>
                  !Retry.Stopped(ps[i].rounds) && out.sheets[i].rows == KeywordPasses.KeywordRows(keywords[i], start, ps[i].rounds, Count))
            && (|out.sheets| < |keywords| <==> |out.sheets| < |ps| && Retry.Stopped(ps[|out.sheets|].rounds))
  {
    var ps := Passes(keywords, KeywordPasses.Years(start, end), replies);
    KeywordPasses.PassesStop(keywords, KeywordPasses.Years(start, end), replies, MaxRetries, Judge);
  }

  /** Every gathered row lies in the years the sheets cover. */
  lemma {:induction false} GatheredYears(sheets: seq<KeywordSheet>, start: int, n: nat)
    requires forall k :: 0 <= k < |sheets| ==>
               |sheets[k].rows| == n && forall j :: 0 <= j < n ==> sheets[k].rows[j].year == start + j
    ensures forall p :: 0 <= p < |Gathered(sheets)| ==> start <= Gathered(sheets)[p].year < start + n
  {
    if sheets != [] {
      var a := sheets[0].rows;
      var b := Gathered(sheets[1..]);
      assert Gathered(sheets) == a + b;
      GatheredYears(sheets[1..], start, n);
      forall p | 0 <= p < |Gathered(sheets)|
        ensures start <= Gathered(sheets)[p].year < start + n
      {
        if p >= |a| {
          assert Gathered(sheets)[p] == b[p - |a|];
        }
      }
    }
  }

  /** No row is gathered exactly when there is no sheet or no year. */
  lemma {:induction false} GatheredEmpty(sheets: seq<KeywordSheet>, n: nat)
    requires forall k :: 0 <= k < |sheets| ==> |sheets[k].rows| == n
    ensures |Gathered(sheets)| == 0 <==> |sheets| == 0 || n == 0
  {
    if sheets != [] {
      GatheredEmpty(sheets[1..], n);
    }
  }

  /** The table has a cell for `keyword` and `year`, holding `value`. */
  predicate Cell(cells: map<(string, int), Option<int>>, keyword: string, year: int, value: Option<int>) {
    (keyword, year) in cells && cells[(keyword, year)] == value
  }

  /** With no pair repeated, every gathered row has its own cell. */
  lemma CellOf(sheets: seq<KeywordSheet>, i: nat, j: nat)
    requires i < |sheets| && j < |sheets[i].rows|
    requires Unique(Gathered(sheets))
    ensures Key(sheets[i].rows[j]) in Cells(Gathered(sheets))
    ensures Cells(Gathered(sheets))[Key(sheets[i].rows[j])] == sheets[i].rows[j].occurrences
  {
    var rows := Gathered(sheets);
    CellsExact(rows);
    GatheredHas(sheets, i, j);
    var p :| 0 <= p < |rows| && rows[p] == sheets[i].rows[j];
  }

  /** On sheets that cover the same years with no pair repeated, the pivot
      has the cell of every sheet's keyword and year, holding that sheet's
      value. */
  lemma SheetsCells(sheets: seq<KeywordSheet>, start: int, n: nat)
    requires forall k :: 0 <= k < |sheets| ==> Shaped(sheets[k], start, n)
    requires Unique(Gathered(sheets))
    ensures forall i, j :: 0 <= i < |sheets| && 0 <= j < |sheets[i].rows| ==>
              Cell(Cells(Gathered(sheets)), sheets[i].keyword, start + j, sheets[i].rows[j].occurrences)
  {
    forall i, j | 0 <= i < |sheets| && 0 <= j < |sheets[i].rows|
      ensures Cell(Cells(Gathered(sheets)), sheets[i].keyword, start + j, sheets[i].rows[j].occurrences)
    {
      CellOf(sheets, i, j);
      assert Shaped(sheets[i], start, n);
      assert Key(sheets[i].rows[j]) == (sheets[i].keyword, start + j);
    }
  }

  /** The pivot has no cell but those of the sheets' keywords and years. */
  lemma SheetsCellsOnly(sheets: seq<KeywordSheet>, keywords: seq<string>, start: int, n: nat)
    requires |sheets| == |keywords|
    requires forall k :: 0 <= k < |sheets| ==> Shaped(sheets[k], start, n) && sheets[k].keyword == keywords[k]
    requires Unique(Gathered(sheets))
    ensures forall k :: k in Cells(Gathered(sheets)) ==> k.0 in keywords && start <= k.1 < start + n
  {
    var rows := Gathered(sheets);
    CellsExact(rows);
    GatheredYears(sheets, start, n);
    GatheredKeywords(sheets, keywords);
    forall k | k in Cells(rows)
      ensures k.0 in keywords && start <= k.1 < start + n
    {
      var p :| 0 <= p < |rows| && Key(rows[p]) == k;
    }
  }

  /** The sheets of a run cover every year under their own keyword. */
  lemma CollectShaped(keywords: seq<string>, start: int, end: int, clock: nat -> Names.Stamp, replies: seq<Reply>)
    ensures var sheets := Collect(keywords, start, end, clock, replies).sheets;
            forall k :: 0 <= k < |sheets| ==> Shaped(sheets[k], start, KeywordPasses.Years(start, end)) && sheets[k].keyword == keywords[k]
  {
    CollectSheets(keywords, start, end, clock, replies);
  }

  /** Each cell of the table holds the value of that keyword's sheet for
      that year, and the table has no other cell. With `CollectSheets` and
      `KeywordPasses.KeywordRowsCounts`, the value is what the loop of that keyword and
      year recorded. */
  lemma CollectCells(keywords: seq<string>, start: int, end: int, clock: nat -> Names.Stamp, replies: seq<Reply>)
    requires Collect(keywords, start, end, clock, replies).summary.Some?
    ensures var out := Collect(keywords, start, end, clock, replies);
            var cells := out.summary.value.cells;
            && (forall i, j :: 0 <= i < |out.sheets| && 0 <= j < |out.sheets[i].rows| ==>
                  Cell(cells, keywords[i], start + j, out.sheets[i].rows[j].occurrences))
            && (forall k :: k in cells ==> k.0 in keywords && start <= k.1 <= end)
  {
    var n := KeywordPasses.Years(start, end);
    var out := Collect(keywords, start, end, clock, replies);
    assert out.summary.value.cells == Cells(Gathered(out.sheets));
    assert Unique(Gathered(out.sheets));
    CollectShaped(keywords, start, end, clock, replies);
    SheetsCells(out.sheets, start, n);
    SheetsCellsOnly(out.sheets, keywords, start, n);
  }

  /** The table is written exactly when no exception escaped, there is a
      keyword and a year, and no keyword was entered twice. */
  lemma CollectSummary(keywords: seq<string>, start: int, end: int, clock: nat -> Names.Stamp, replies: seq<Reply>)
    ensures Collect(keywords, start, end, clock, replies).summary.Some?
            <==> |Collect(keywords, start, end, clock, replies).sheets| == |keywords|
                 && |keywords| > 0 && start <= end && Distinct(keywords)
  {
    var n := KeywordPasses.Years(start, end);
    var sheets := Collect(keywords, start, end, clock, replies).sheets;
    if |sheets| == |keywords| {
      CollectShaped(keywords, start, end, clock, replies);
      GatheredUnique(sheets, keywords, start, n);
      GatheredEmpty(sheets, n);
    }
  }

  /** The script from its prompts: the non-empty stripped keywords of the
      raw line, in order. */
  function Main(raw: string, start: int, end: int, clock: nat -> Names.Stamp, replies: seq<Reply>): (out: Run)
    ensures |out.sheets| <= |Keywords.ParseDrop(raw)|
    ensures forall i :: 0 <= i < |out.sheets| ==> out.sheets[i].keyword != ""
  {
    Collect(Keywords.ParseDrop(raw), start, end, clock, replies)
  }
}

=== FILE: ordering.dfy ===
/** Largest element and ascending listing of a finite set of integers: the
    `max(...)` over chunk indices and the `sorted(...)` over year columns. */
module Ordering {

  predicate StrictlyIncreasing(s: seq<int>) {
    forall i, j :: 0 <= i < j < |s| ==> s[i] < s[j]
  }

  /** A non-empty set has an element. */
  lemma NonEmpty(s: set<int>)
    requires s != {}
    ensures exists x :: x in s
  {
    if forall x :: x !in s {
      assert false;
    }
  }

  /** The least element of a non-empty set, as a witness. */
  lemma {:induction false} Least(s: set<int>) returns (m: int)
    requires s != {}
    ensures m in s && forall y :: y in s ==> m <= y
    decreases |s|
  {
    NonEmpty(s);
    var x :| x in s;
    if s == {x} {
      m := x;
    } else {
      var rest := s - {x};
      assert rest < s;
      var least := Least(rest);
      m := if x < least then x else least;
      forall y | y in s
        ensures m <= y
      {
        if y != x {
          assert y in rest;
        }
      }
    }
  }

  /** The greatest element of a non-empty set, as a witness. */
  lemma {:induction false} Greatest(s: set<int>) returns (m: int)
    requires s != {}
    ensures m in s && forall y :: y in s ==> y <= m
    decreases |s|
  {
    NonEmpty(s);
    var x :| x in s;
    if s == {x} {
      m := x;
    } else {
      var rest := s - {x};
      assert rest < s;
      var greatest := Greatest(rest);
      m := if x > greatest then x else greatest;
      forall y | y in s
        ensures y <= m
      {
        if y != x {
          assert y in rest;
        }
      }
    }
  }

  lemma HasMinimum(s: set<int>)
    requires s != {}
    ensures exists m :: m in s && forall y :: y in s ==> m <= y
  {
    var m := Least(s);
  }

  lemma HasMaximum(s: set<int>)
    requires s != {}
    ensures exists m :: m in s && forall y :: y in s ==> y <= m
  {
    var m := Greatest(s);
  }

  /** `max(s)`. */
  function Max(s: set<int>): (m: int)
    requires s != {}
    ensures m in s
    ensures forall y :: y in s ==> y <= m
  {
    HasMaximum(s);
    var m :| m in s && forall y :: y in s ==> y <= m;
    m
  }

  /** `sorted(s)`: every element once, in increasing order. */
  ghost function Ascending(s: set<int>): (r: seq<int>)
    ensures |r| == |s|
    ensures forall x :: x in r <==> x in s
    ensures StrictlyIncreasing(r)
    decreases |s|
  {
    if s == {} then []
    else
      HasMinimum(s);
      var m :| m in s && forall y :: y in s ==> m <= y;
      var rest := Ascending(s - {m});
      assert |s - {m}| == |s| - 1;
      AscendingCons(s, m, rest);
      [m] + rest
  }

  lemma AscendingCons(s: set<int>, m: int, rest: seq<int>)
    requires m in s && forall y :: y in s ==> m <= y
    requires forall x :: x in rest <==> x in s - {m}
    requires StrictlyIncreasing(rest)
    ensures forall x :: x in [m] + rest <==> x in s
    ensures StrictlyIncreasing([m] + rest)
  {
    var r := [m] + rest;
    forall i, j | 0 <= i < j < |r|
      ensures r[i] < r[j]
    {
      assert r[j] == rest[j - 1];
      if i > 0 {
        assert r[i] == rest[i - 1];
      } else {
        assert rest[j - 1] in s - {m};
      }
    }
  }
}

=== FILE: retry.dfy ===
/** The stubbed network and the bounded retry loop every script writes out by
    hand (`for attempt in range(n)`, `while retry_count < max_retries`, ...).

    Each request takes the next reply of a finite stub; a stub that has run
    out behaves like a network that is down. A script-specific `judge` says
    what one reply means on a given (0-based) attempt: keep the value, wait
    and try again, stop with a fallback value, or let an exception escape. */
module Retry {
  import opened Wrappers

  /** One request's result: an HTTP status with the decoded body (`None` when
      the body cannot be decoded), or an exception before any status. */
  datatype Reply<B> = Response(status: int, body: Option<B>) | Raised

  /** The reply to the `n`-th request from now. */
  function Nth<B>(replies: seq<Reply<B>>, n: nat): Reply<B> {
    if n < |replies| then replies[n] else Raised
  }

  /** The stub once `n` requests have been made. */
  function Drop<B>(replies: seq<Reply<B>>, n: nat): (rest: seq<Reply<B>>)
    ensures |rest| == if n <= |replies| then |replies| - n else 0
  {
    if n <= |replies| then replies[n..] else []
  }

  datatype Verdict<T> = Accept(value: T) | Backoff(wait: nat) | GiveUp(value: T) | Crash
  datatype Outcome<T> = Accepted(value: T) | GaveUp(value: T) | Exhausted | Crashed

  /** How a retry loop ended, the waits it slept, how many requests it made
      and what is left of the stub. */
  datatype Trace<B, T> = Trace(outcome: Outcome<T>, waits: seq<nat>, used: nat, rest: seq<Reply<B>>)

  /** The verdict that ends a loop leads to the matching outcome. */
  ghost predicate Settles<T>(v: Verdict<T>, o: Outcome<T>) {
    match v
    case Accept(x) => o == Accepted(x)
    case GiveUp(x) => o == GaveUp(x)
    case Crash => o == Crashed
    case Backoff(_) => false
  }

  /** Attempts `attempt`, `attempt + 1`, ... up to `budget` (exclusive): never
      more requests than the budget left, one wait per failed attempt, and
      the stub advanced past exactly the requests made. */
  function Attempts<B, T>(replies: seq<Reply<B>>, attempt: nat, budget: nat,
                          judge: (Reply<B>, nat) -> Verdict<T>): (t: Trace<B, T>)
    requires attempt <= budget
    ensures t.used <= budget - attempt
    ensures t.rest == Drop(replies, t.used)
    ensures t.outcome.Exhausted? ==> t.used == budget - attempt
    ensures !t.outcome.Exhausted? ==> t.used >= 1
    ensures |t.waits| == if t.outcome.Exhausted? then t.used else t.used - 1
    decreases budget - attempt
  {
    if attempt == budget then Trace(Exhausted, [], 0, replies)
    else
      match judge(Nth(replies, 0), attempt)
      case Accept(v) => Trace(Accepted(v), [], 1, Drop(replies, 1))
      case GiveUp(v) => Trace(GaveUp(v), [], 1, Drop(replies, 1))
      case Crash => Trace(Crashed, [], 1, Drop(replies, 1))
      case Backoff(w) =>
        var t := Attempts(Drop(replies, 1), attempt + 1, budget, judge);
        assert Drop(Drop(replies, 1), t.used) == Drop(replies, t.used + 1);
        Trace(t.outcome, [w] + t.waits, t.used + 1, t.rest)
  }

  /** Dropping `a` replies and then `b` more drops `a + b`. */
  lemma DropDrop<B>(replies: seq<Reply<B>>, a: nat, b: nat)
    ensures Drop(Drop(replies, a), b) == Drop(replies, a + b)
  {
    if a + b <= |replies| {
      assert replies[a..][b..] == replies[a + b..];
    }
  }

  /** Skipping one reply shifts every later reply down by one. */
  lemma NthOfDrop<B>(replies: seq<Reply<B>>, k: nat)
    ensures Nth(Drop(replies, 1), k) == Nth(replies, k + 1)
  {
  }

  /** Every attempt before the last one was told to back off, and the loop
      ends on the first verdict that is not a back-off: an exhausted loop saw
      nothing but back-offs, a settled one settled on its last reply. */
  lemma AttemptsVerdicts<B, T>(replies: seq<Reply<B>>, attempt: nat, budget: nat,
                               judge: (Reply<B>, nat) -> Verdict<T>)
    requires attempt <= budget
    ensures var t := Attempts(replies, attempt, budget, judge);
            && (forall k :: 0 <= k < |t.waits| ==>
                  judge(Nth(replies, k), attempt + k) == Backoff(t.waits[k]))
            && (t.outcome.Exhausted? <==> |t.waits| == budget - attempt)
            && (!t.outcome.Exhausted? ==>
                  Settles(judge(Nth(replies, |t.waits|), attempt + |t.waits|), t.outcome))
  {
    AttemptsBackedOff(replies, attempt, budget, judge);
    AttemptsSettled(replies, attempt, budget, judge);
  }

  lemma {:induction false} AttemptsBackedOff<B, T>(replies: seq<Reply<B>>, attempt: nat, budget: nat,
                                                   judge: (Reply<B>, nat) -> Verdict<T>)
    requires attempt <= budget
    ensures var t := Attempts(replies, attempt, budget, judge);
            forall k :: 0 <= k < |t.waits| ==> judge(Nth(replies, k), attempt + k) == Backoff(t.waits[k])
    decreases budget - attempt
  {
    if attempt < budget && judge(Nth(replies, 0), attempt).Backoff? {
      var tail := Drop(replies, 1);
      var u := Attempts(tail, attempt + 1, budget, judge);
      AttemptsOnBackoff(replies, attempt, budget, judge);
      AttemptsBackedOff(tail, attempt + 1, budget, judge);
      BackedOffCons(replies, attempt, judge, judge(Nth(replies, 0), attempt).wait, u.waits);
    }
  }

  /** Back-offs on the rest of the stub, after one on its first reply. */
  lemma BackedOffCons<B, T>(replies: seq<Reply<B>>, attempt: nat, judge: (Reply<B>, nat) -> Verdict<T>,
                            w: nat, waits: seq<nat>)
    requires judge(Nth(replies, 0), attempt) == Backoff(w)
    requires forall k :: 0 <= k < |waits| ==> judge(Nth(Drop(replies, 1), k), attempt + 1 + k) == Backoff(waits[k])
    ensures forall k :: 0 <= k < |[w] + waits| ==> judge(Nth(replies, k), attempt + k) == Backoff(([w] + waits)[k])
  {
    forall k | 0 <= k < |[w] + waits|
      ensures judge(Nth(replies, k), attempt + k) == Backoff(([w] + waits)[k])
    {
      if k > 0 {
        NthOfDrop(replies, k - 1);
        assert ([w] + waits)[k] == waits[k - 1];
        assert judge(Nth(Drop(replies, 1), k - 1), attempt + 1 + (k - 1)) == Backoff(waits[k - 1]);
      }
    }
  }

  /** A loop told to back off on its first reply goes on with the rest of
      the stub, one wait ahead. */
  lemma AttemptsOnBackoff<B, T>(replies: seq<Reply<B>>, attempt: nat, budget: nat,
                                judge: (Reply<B>, nat) -> Verdict<T>)
    requires attempt < budget && judge(Nth(replies, 0), attempt).Backoff?
    ensures var u := Attempts(Drop(replies, 1), attempt + 1, budget, judge);
            Attempts(replies, attempt, budget, judge)
              == Trace(u.outcome, [judge(Nth(replies, 0), attempt).wait] + u.waits, u.used + 1, u.rest)
  {
  }

  lemma {:induction false} AttemptsSettled<B, T>(replies: seq<Reply<B>>, attempt: nat, budget: nat,
                                                 judge: (Reply<B>, nat) -> Verdict<T>)
    requires attempt <= budget
    ensures var t := Attempts(replies, attempt, budget, judge);
            !t.outcome.Exhausted? ==> Settles(judge(Nth(replies, |t.waits|), attempt + |t.waits|), t.outcome)
    decreases budget - attempt
  {
    if attempt < budget && judge(Nth(replies, 0), attempt).Backoff? {
      var tail := Drop(replies, 1);
      var u := Attempts(tail, attempt + 1, budget, judge);
      AttemptsOnBackoff(replies, attempt, budget, judge);
      AttemptsSettled(tail, attempt + 1, budget, judge);
      if !u.outcome.Exhausted? {
        NthOfDrop(replies, |u.waits|);
      }
    }
  }

  /** A loop whose judge backs off on exceptions ends, when it does not
      exhaust its budget, on a reply the stub really held. */
  lemma SettledOnReply<B, T>(replies: seq<Reply<B>>, attempt: nat, budget: nat,
                             judge: (Reply<B>, nat) -> Verdict<T>)
    requires attempt <= budget
    requires forall a :: judge(Raised, a).Backoff?
    ensures !Attempts(replies, attempt, budget, judge).outcome.Exhausted? ==>
              1 <= Attempts(replies, attempt, budget, judge).used <= |replies|
  {
    AttemptsVerdicts(replies, attempt, budget, judge);
  }

  /** A judge that never lets an exception escape never crashes the loop. */
  lemma NeverCrashes<B, T>(replies: seq<Reply<B>>, attempt: nat, budget: nat,
                           judge: (Reply<B>, nat) -> Verdict<T>)
    requires attempt <= budget
    requires forall r, a :: !judge(r, a).Crash?
    ensures !Attempts(replies, attempt, budget, judge).outcome.Crashed?
  {
    AttemptsVerdicts(replies, attempt, budget, judge);
  }

  // ---------------------------------------------------------------------
  // One retry loop after another

  /** `rounds` retry loops run one after the other on the same stub, as a
      script's loop over its years does; an exception escaping a loop ends
      the script, so no round follows a crashed one. */
  function Sweep<B, T>(replies: seq<Reply<B>>, rounds: nat, budget: nat,
                       judge: (Reply<B>, nat) -> Verdict<T>): (ts: seq<Trace<B, T>>)
    ensures |ts| <= rounds
    ensures forall i :: 0 <= i < |ts| - 1 ==> !ts[i].outcome.Crashed?
    ensures |ts| < rounds ==> Stopped(ts)
    decreases rounds
  {
    if rounds == 0 then []
    else
      var t := Attempts(replies, 0, budget, judge);
      [t] + (if t.outcome.Crashed? then [] else Sweep(t.rest, rounds - 1, budget, judge))
  }

  /** The requests a run of loops made. */
  function Used<B, T>(ts: seq<Trace<B, T>>): nat {
    if ts == [] then 0 else Used(ts[..|ts| - 1]) + ts[|ts| - 1].used
  }

  /** The sweep ended on an exception (only its last loop can have one). */
  predicate Stopped<B, T>(ts: seq<Trace<B, T>>) {
    |ts| > 0 && ts[|ts| - 1].outcome.Crashed?
  }

  /** Loop `i` ran on the stub the loops before it left. */
  ghost predicate RoundAt<B, T>(ts: seq<Trace<B, T>>, i: nat, replies: seq<Reply<B>>, budget: nat,
                          judge: (Reply<B>, nat) -> Verdict<T>)
    requires i < |ts|
  {
    ts[i] == Attempts(Drop(replies, Used(ts[..i])), 0, budget, judge)
  }

  lemma {:induction false} UsedCons<B, T>(t: Trace<B, T>, ts: seq<Trace<B, T>>, i: nat)
    requires i <= |ts|
    ensures Used(([t] + ts)[..i + 1]) == t.used + Used(ts[..i])
    decreases i
  {
    var all := [t] + ts;
    if i == 0 {
      assert all[..1] == [t];
      assert all[..1][..0] == [];
    } else {
      assert all[..i + 1][..i] == all[..i];
      assert all[..i + 1][i] == ts[i - 1];
      assert ts[..i][..i - 1] == ts[..i - 1];
      UsedCons(t, ts, i - 1);
    }
  }

  lemma RoundShift<B, T>(t: Trace<B, T>, ts: seq<Trace<B, T>>, i: nat, replies: seq<Reply<B>>,
                         budget: nat, judge: (Reply<B>, nat) -> Verdict<T>)
    requires 1 <= i <= |ts|
    requires t.rest == Drop(replies, t.used)
    requires RoundAt(ts, i - 1, t.rest, budget, judge)
    ensures RoundAt([t] + ts, i, replies, budget, judge)
  {
    var all := [t] + ts;
    var before := Used(ts[..i - 1]);
    assert Used(all[..i]) == t.used + before by {
      UsedCons(t, ts, i - 1);
      assert all[..i] == ([t] + ts)[..i - 1 + 1];
    }
    assert Drop(replies, Used(all[..i])) == Drop(t.rest, before) by {
      DropDrop(replies, t.used, before);
    }
    assert all[i] == ts[i - 1];
  }

  lemma RoundFirst<B, T>(ts: seq<Trace<B, T>>, replies: seq<Reply<B>>, budget: nat,
                         judge: (Reply<B>, nat) -> Verdict<T>)
    requires |ts| > 0 && ts[0] == Attempts(replies, 0, budget, judge)
    ensures RoundAt(ts, 0, replies, budget, judge)
  {
    assert ts[..0] == [];
    assert Drop(replies, 0) == replies;
  }

  /** Every loop of a sweep reads the stub exactly where the loops before it
      stopped. */
  lemma {:induction false} SweepRounds<B, T>(replies: seq<Reply<B>>, rounds: nat, budget: nat,
                                             judge: (Reply<B>, nat) -> Verdict<T>)
    ensures forall i :: 0 <= i < |Sweep(replies, rounds, budget, judge)| ==>
              RoundAt(Sweep(replies, rounds, budget, judge), i, replies, budget, judge)
    decreases rounds
  {
    if rounds > 0 {
      var t := Attempts(replies, 0, budget, judge);
      if t.outcome.Crashed? {
        assert Sweep(replies, rounds, budget, judge) == [t] + [];
        RoundsCons(t, [], replies, budget, judge);
      } else {
        var tail := Sweep(t.rest, rounds - 1, budget, judge);
        assert Sweep(replies, rounds, budget, judge) == [t] + tail;
        SweepRounds(t.rest, rounds - 1, budget, judge);
        RoundsCons(t, tail, replies, budget, judge);
      }
    }
  }

  /** A first loop on the stub, followed by loops that each read where the
      one before stopped, starting where the first stopped. */
  lemma RoundsCons<B, T>(t: Trace<B, T>, tail: seq<Trace<B, T>>, replies: seq<Reply<B>>, budget: nat,
                         judge: (Reply<B>, nat) -> Verdict<T>)
    requires t == Attempts(replies, 0, budget, judge)
    requires forall i :: 0 <= i < |tail| ==> RoundAt(tail, i, t.rest, budget, judge)
    ensures forall i :: 0 <= i < |[t] + tail| ==> RoundAt([t] + tail, i, replies, budget, judge)
  {
    forall i | 0 <= i < |[t] + tail|
      ensures RoundAt([t] + tail, i, replies, budget, judge)
    {
      if i == 0 {
        RoundFirst([t] + tail, replies, budget, judge);
      } else {
        RoundShift(t, tail, i, replies, budget, judge);
      }
    }
  }

  /** With a judge that never lets an exception escape, every round runs. */
  lemma {:induction false} SweepFull<B, T>(replies: seq<Reply<B>>, rounds: nat, budget: nat,
                                           judge: (Reply<B>, nat) -> Verdict<T>)
    requires forall r, a :: !judge(r, a).Crash?
    ensures |Sweep(replies, rounds, budget, judge)| == rounds
    ensures !Stopped(Sweep(replies, rounds, budget, judge))
    decreases rounds
  {
    if rounds > 0 {
      var t := Attempts(replies, 0, budget, judge);
      NeverCrashes(replies, 0, budget, judge);
      SweepFull(t.rest, rounds - 1, budget, judge);
    }
  }
}

=== FILE: scholar.dfy ===
/** The two Google Scholar per-year counters
    (keyword_occurrences/keyword_occurrences_google_scholar2.py and
    keywords_search/keyword_occurrences_google_scholar.py): the search term
    is quoted, every year of the range is asked for its hit count with up to
    three attempts, and the sheet gets one line per year.

    Both scripts share this logic; they differ only in the User-Agent
    (rotated at random in the first, fixed in the second) and the pause
    between years (random in the first, one second in the second), neither
    of which is modelled. The HTML page is reduced to what the scripts read
    off it: whether the `gs_ab_md` div is there and, if so, the number the
    count pattern finds in it. */
module Scholar {
  import opened Wrappers
  import Text
  import Retry
  import Names

  // ---------------------------------------------------------------------
  // sanitize_filename, on the ASCII part

  predicate IsAlnum(c: char) {
    ('a' <= c <= 'z') || ('A' <= c <= 'Z') || ('0' <= c <= '9')
  }

  /** `\w` once the text is ASCII. */
  predicate IsWord(c: char) {
    IsAlnum(c) || c == '_'
  }

  predicate IsAscii(c: char) {
    (c as int) < 128
  }

  /** `.encode('ASCII', 'ignore').decode()`: every non-ASCII character is
      dropped (the NFKD decomposition that precedes it is not modelled). */
  function AsciiOnly(s: string): (r: string)
    ensures forall i :: 0 <= i < |r| ==> IsAscii(r[i])
    ensures (forall i :: 0 <= i < |s| ==> IsAscii(s[i])) ==> r == s
  {
    if s == [] then [] else (if IsAscii(s[0]) then [s[0]] else []) + AsciiOnly(s[1..])
  }

  /** The length of the run of non-word characters `s` starts with. */
  function NonWordRun(s: string): (n: nat)
    ensures n <= |s|
    ensures forall k :: 0 <= k < n ==> !IsWord(s[k])
    ensures n < |s| ==> IsWord(s[n])
  {
    if s == [] || IsWord(s[0]) then 0 else 1 + NonWordRun(s[1..])
  }

  /** `re.sub(r'\W+', '_', text)`: every maximal run of non-word characters
      becomes one `_`. */
  function SubRuns(s: string): (r: string)
    ensures forall i :: 0 <= i < |r| ==> IsWord(r[i])
    decreases |s|
  {
    if s == [] then ""
    else if IsWord(s[0]) then [s[0]] + SubRuns(s[1..])
    else "_" + SubRuns(s[NonWordRun(s)..])
  }

  function LeadingUnderscores(s: string): (n: nat)
    ensures n <= |s|
    ensures forall k :: 0 <= k < n ==> s[k] == '_'
    ensures n < |s| ==> s[n] != '_'
  {
    if s == [] || s[0] != '_' then 0 else 1 + LeadingUnderscores(s[1..])
  }

  function TrailingUnderscores(s: string): (n: nat)
    ensures n <= |s|
    ensures forall k :: |s| - n <= k < |s| ==> s[k] == '_'
    ensures n < |s| ==> s[|s| - 1 - n] != '_'
  {
    if s == [] || s[|s| - 1] != '_' then 0 else 1 + TrailingUnderscores(s[..|s| - 1])
  }

  /** `.strip('_')`. */
  function StripUnderscores(s: string): (r: string)
    ensures |r| == 0 || (r[0] != '_' && r[|r| - 1] != '_')
    ensures exists i, j :: 0 <= i <= j <= |s| && r == s[i..j]
                           && (forall k :: 0 <= k < i ==> s[k] == '_')
                           && (forall k :: j <= k < |s| ==> s[k] == '_')
  {
    var i := LeadingUnderscores(s);
    if i == |s| then
      assert s[|s|..|s|] == "";
      ""
    else
      var j := |s| - TrailingUnderscores(s);
      assert i < j;
      s[i..j]
  }

  /** `sanitize_filename`: word characters only, never starting or ending
      with `_`. */
  function Sanitize(text: string): (safe: string)
    ensures forall i :: 0 <= i < |safe| ==> IsWord(safe[i])
    ensures safe == "" || (safe[0] != '_' && safe[|safe| - 1] != '_')
  {
    var subbed := SubRuns(AsciiOnly(text));
    StripKeepsWords(subbed);
    StripUnderscores(subbed)
  }

  /** Stripping underscores from word characters leaves word characters. */
  lemma StripKeepsWords(s: string)
    requires forall k :: 0 <= k < |s| ==> IsWord(s[k])
    ensures forall k :: 0 <= k < |StripUnderscores(s)| ==> IsWord(StripUnderscores(s)[k])
  {
    var i, j := StripCuts(s);
    assert forall k :: 0 <= k < j - i ==> s[i..j][k] == s[i + k];
  }

  /** The letters and digits of `s`, in order. */
  function Alnums(s: string): string {
    if s == [] then "" else (if IsAlnum(s[0]) then [s[0]] else "") + Alnums(s[1..])
  }

  lemma {:induction false} AlnumsAppend(a: string, b: string)
    ensures Alnums(a + b) == Alnums(a) + Alnums(b)
    decreases |a|
  {
    if a == [] {
      assert a + b == b;
    } else {
      var head := if IsAlnum(a[0]) then [a[0]] else "";
      AlnumsAppend(a[1..], b);
      AlnumsCons(a[0], a[1..] + b);
      AlnumsCons(a[0], a[1..]);
      assert a + b == [a[0]] + (a[1..] + b);
      assert a == [a[0]] + a[1..];
      assert head + (Alnums(a[1..]) + Alnums(b)) == (head + Alnums(a[1..])) + Alnums(b);
    }
  }

  /** `Alnums` of a string with its first character split off. */
  lemma AlnumsCons(c: char, s: string)
    ensures Alnums([c] + s) == (if IsAlnum(c) then [c] else "") + Alnums(s)
  {
    assert ([c] + s)[0] == c && ([c] + s)[1..] == s;
  }

  lemma {:induction false} AlnumsNone(s: string)
    requires forall k :: 0 <= k < |s| ==> !IsAlnum(s[k])
    ensures Alnums(s) == ""
    decreases |s|
  {
    if s != [] {
      AlnumsNone(s[1..]);
    }
  }

  lemma {:induction false} AlnumsOfSubRuns(s: string)
    ensures Alnums(SubRuns(s)) == Alnums(s)
    decreases |s|
  {
    if s != [] {
      if IsWord(s[0]) {
        AlnumsOfSubRuns(s[1..]);
        AlnumsAppend([s[0]], SubRuns(s[1..]));
        assert Alnums([s[0]]) == (if IsAlnum(s[0]) then [s[0]] else "") + Alnums([]);
      } else {
        var n := NonWordRun(s);
        AlnumsOfSubRuns(s[n..]);
        AlnumsAppend("_", SubRuns(s[n..]));
        assert Alnums("_") == "" + Alnums("");
        assert s == s[..n] + s[n..];
        AlnumsAppend(s[..n], s[n..]);
        AlnumsNone(s[..n]);
      }
    }
  }

  /** Where `.strip('_')` cuts. */
  lemma StripCuts(s: string) returns (i: nat, j: nat)
    ensures i <= j <= |s| && StripUnderscores(s) == s[i..j]
    ensures forall k :: 0 <= k < i ==> s[k] == '_'
    ensures forall k :: j <= k < |s| ==> s[k] == '_'
  {
    i := LeadingUnderscores(s);
    if i == |s| {
      j := i;
    } else {
      j := |s| - TrailingUnderscores(s);
    }
  }

  lemma AlnumsOfStrip(s: string)
    ensures Alnums(StripUnderscores(s)) == Alnums(s)
  {
    var i, j := StripCuts(s);
    AlnumsOfCut(s, i, j);
  }

  /** Cutting off underscores at both ends keeps the letters and digits. */
  lemma AlnumsOfCut(s: string, i: nat, j: nat)
    requires i <= j <= |s|
    requires forall k :: 0 <= k < i ==> s[k] == '_'
    requires forall k :: j <= k < |s| ==> s[k] == '_'
    ensures Alnums(s[i..j]) == Alnums(s)
  {
    CutParts(s, i, j);
    AlnumsOfParts(s[..i], s[i..j], s[j..]);
  }

  /** A string is its three pieces around two cut points. */
  lemma CutParts(s: string, i: nat, j: nat)
    requires i <= j <= |s|
    ensures s[..i] + s[i..j] + s[j..] == s
  {
    assert s[..i] + s[i..j] == s[..j];
    assert s[..j] + s[j..] == s;
  }

  /** Letters and digits only in the middle piece are those of the whole. */
  lemma AlnumsOfParts(a: string, b: string, c: string)
    requires forall k :: 0 <= k < |a| ==> a[k] == '_'
    requires forall k :: 0 <= k < |c| ==> c[k] == '_'
    ensures Alnums(a + b + c) == Alnums(b)
  {
    AlnumsAppend(a + b, c);
    AlnumsAppend(a, b);
    AlnumsNone(a);
    AlnumsNone(c);
  }

  /** Sanitizing keeps every ASCII letter and digit, in order, and drops
      everything else but single `_` separators. */
  lemma SanitizeKeepsAlnums(text: string)
    ensures Alnums(Sanitize(text)) == Alnums(AsciiOnly(text))
  {
    AlnumsOfStrip(SubRuns(AsciiOnly(text)));
    AlnumsOfSubRuns(AsciiOnly(text));
  }

  /** A term without any ASCII letter or digit sanitizes to the empty
      string, and only such a term does. */
  lemma SanitizeEmpty(text: string)
    ensures Sanitize(text) == "" <==> Alnums(AsciiOnly(text)) == ""
  {
    SanitizeKeepsAlnums(text);
    var safe := Sanitize(text);
    if safe != "" {
      assert IsAlnum(safe[0]);
      assert safe == [safe[0]] + safe[1..];
      AlnumsAppend([safe[0]], safe[1..]);
      assert Alnums([safe[0]]) == [safe[0]] + Alnums([]);
    }
  }

  lemma {:induction false} SubRunsOfWords(s: string)
    requires forall i :: 0 <= i < |s| ==> IsWord(s[i])
    ensures SubRuns(s) == s
    decreases |s|
  {
    if s != [] {
      SubRunsOfWords(s[1..]);
    }
  }

  /** A name that is already safe is left alone, so sanitizing twice is
      sanitizing once. */
  lemma SanitizeFixes(text: string)
    requires forall i :: 0 <= i < |text| ==> IsWord(text[i])
    requires text == "" || (text[0] != '_' && text[|text| - 1] != '_')
    ensures Sanitize(text) == text
  {
    SubRunsOfWords(text);
    assert AsciiOnly(text) == text;
  }

  lemma SanitizeIdempotent(text: string)
    ensures Sanitize(Sanitize(text)) == Sanitize(text)
  {
    SanitizeFixes(Sanitize(text));
  }

  // ---------------------------------------------------------------------
  // get_num_results

  /** What the page shows: no `gs_ab_md` div, or the div with the number
      the count pattern finds in it (`None` when it finds none). */
  datatype Html = NoDiv | Div(number: Option<nat>)

  type Reply = Retry.Reply<Html>

  const MaxRetries: nat := 3
  const WaitSeconds: nat := 5

  /** The pair `get_num_results` returns. */
  datatype Count = Count(value: Option<nat>, success: bool)

  const Failed := Count(None, false)

  /** `urlopen` returns normally on a 2xx status and raises `HTTPError`
      otherwise. */
  predicate IsOk(status: int) {
    200 <= status < 300
  }

  predicate TooMany(reply: Reply) {
    reply.Response? && reply.status == 429
  }

  /** A page that was read: a 2xx status whose body could be read. */
  predicate IsPage(reply: Reply) {
    reply.Response? && IsOk(reply.status) && reply.body.Some?
  }

  /** One attempt: a 429 waits and retries, any other HTTP error or any
      other exception breaks out of the loop, a page settles the count. */
  function Judge(reply: Reply, attempt: nat): Retry.Verdict<Count> {
    match reply
    case Raised => Retry.GiveUp(Failed)
    case Response(status, body) =>
      if !IsOk(status) then (if status == 429 then Retry.Backoff(WaitSeconds) else Retry.GiveUp(Failed))
      else
        match body
        case None => Retry.GiveUp(Failed)
        case Some(NoDiv) => Retry.Accept(Count(Some(0), false))
        case Some(Div(None)) => Retry.Accept(Count(Some(0), true))
        case Some(Div(Some(n))) => Retry.Accept(Count(Some(n), true))
  }

  datatype Lookup = Lookup(count: Count, waits: seq<nat>, rest: seq<Reply>)

  /** The requests one year makes, read off its waits: one per 429 and one
      more for the reply that ended the loop, unless all three were 429s. */
  function Requests(waits: seq<nat>): nat {
    if |waits| >= MaxRetries then MaxRetries else |waits| + 1
  }

  /** `get_num_results` for one year, with `replies` as the network. */
  function GetNumResults(replies: seq<Reply>): (r: Lookup)
    ensures |r.waits| <= MaxRetries
    ensures r.count.value.None? ==> !r.count.success
    ensures r.rest == Retry.Drop(replies, Requests(r.waits))
  {
    var t := Retry.Attempts(replies, 0, MaxRetries, Judge);
    var count := match t.outcome
                 case Accepted(c) => c
                 case GaveUp(c) => c
                 case _ => Failed;
    Lookup(count, t.waits, t.rest)
  }

  /** At most three attempts, a five-second wait after each 429 and only
      after a 429; the loop ends on the first reply that is not a 429, and
      what it returns is read off that reply: `(None, False)` for any other
      HTTP error or exception and after three 429s, `(0, False)` for a page
      without the results div, `(0, True)` for a div without a number, and
      the number with `True` otherwise. */
  lemma NumResultsOutcome(replies: seq<Reply>)
    ensures var r := GetNumResults(replies);
            && (forall k :: 0 <= k < |r.waits| ==> r.waits[k] == WaitSeconds && TooMany(Retry.Nth(replies, k)))
            && (|r.waits| == MaxRetries ==> r.count == Failed)
            && (|r.waits| < MaxRetries ==>
                  var reply := Retry.Nth(replies, |r.waits|);
                  && !TooMany(reply)
                  && (r.count.value.None? <==> !IsPage(reply))
                  && (r.count.success <==> IsPage(reply) && reply.body.value.Div?)
                  && (r.count == Count(Some(0), false) <==> IsPage(reply) && reply.body.value.NoDiv?)
                  && (IsPage(reply) && reply.body.value.Div? ==>
                        r.count.value == Some(if reply.body.value.number.Some? then reply.body.value.number.value else 0)))
  {
    NumResultsWaits(replies);
    NumResultsSettled(replies);
  }

  /** Every wait of a lookup followed a 429. */
  lemma NumResultsWaits(replies: seq<Reply>)
    ensures var r := GetNumResults(replies);
            forall k :: 0 <= k < |r.waits| ==> r.waits[k] == WaitSeconds && TooMany(Retry.Nth(replies, k))
  {
    var t := Retry.Attempts(replies, 0, MaxRetries, Judge);
    Retry.AttemptsBackedOff(replies, 0, MaxRetries, Judge);
    forall k | 0 <= k < |t.waits|
      ensures t.waits[k] == WaitSeconds && TooMany(Retry.Nth(replies, k))
    {
      assert Judge(Retry.Nth(replies, k), 0 + k) == Retry.Backoff(t.waits[k]);
    }
  }

  /** What a lookup returns, read off the reply that ended its loop. */
  lemma NumResultsSettled(replies: seq<Reply>)
    ensures var r := GetNumResults(replies);
            && (|r.waits| == MaxRetries ==> r.count == Failed)
            && (|r.waits| < MaxRetries ==>
                  var reply := Retry.Nth(replies, |r.waits|);
                  && !TooMany(reply)
                  && (r.count.value.None? <==> !IsPage(reply))
                  && (r.count.success <==> IsPage(reply) && reply.body.value.Div?)
                  && (r.count == Count(Some(0), false) <==> IsPage(reply) && reply.body.value.NoDiv?)
                  && (IsPage(reply) && reply.body.value.Div? ==>
                        r.count.value == Some(if reply.body.value.number.Some? then reply.body.value.number.value else 0)))
  {
    Retry.AttemptsVerdicts(replies, 0, MaxRetries, Judge);
  }


  // ---------------------------------------------------------------------
  // get_range and the script

  /** A cell of the count column: the number, or `""` when there is none. */
  datatype Cell = Number(n: nat) | Blank

  /** `num_results if num_results is not None else ""`. */
  function CellOf(c: Count): (cell: Cell)
    ensures cell.Blank? <==> c.value.None?
    ensures c.value.Some? ==> cell == Number(c.value.value)
  {
    if c.value.None? then Blank else Number(c.value.value)
  }

  /** One year's request and its line in the sheet. */
  datatype Line = Line(year: int, count: Count, cell: Cell, waits: seq<nat>)

  /** The years `year .. end`, each asked with what is left of the network. */
  function YearsFrom(year: int, end: int, replies: seq<Reply>): (lines: seq<Line>)
    ensures |lines| == if year <= end then end - year + 1 else 0
    ensures forall i :: 0 <= i < |lines| ==> lines[i].year == year + i
    ensures forall i :: 0 <= i < |lines| ==> lines[i].cell == CellOf(lines[i].count)
    ensures forall i :: 0 <= i < |lines| ==> |lines[i].waits| <= MaxRetries
    decreases end - year + 1
  {
    if year > end then []
    else
      var l := GetNumResults(replies);
      [Line(year, l.count, CellOf(l.count), l.waits)] + YearsFrom(year + 1, end, l.rest)
  }

  /** The requests a run of lines made. */
  function Asked(lines: seq<Line>): nat {
    if lines == [] then 0 else Asked(lines[..|lines| - 1]) + Requests(lines[|lines| - 1].waits)
  }

  lemma {:induction false} AskedCons(l: Line, lines: seq<Line>, i: nat)
    requires i <= |lines|
    ensures Asked(([l] + lines)[..i + 1]) == Requests(l.waits) + Asked(lines[..i])
    decreases i
  {
    var all := [l] + lines;
    if i == 0 {
      assert all[..1] == [l];
      assert all[..1][..0] == [];
    } else {
      assert all[..i + 1][..i] == all[..i];
      assert all[..i + 1][i] == lines[i - 1];
      assert lines[..i][..i - 1] == lines[..i - 1];
      AskedCons(l, lines, i - 1);
    }
  }

  /** Line `i` holds what `get_num_results` reads once the lines before it
      have made their requests. */
  predicate ReadAt(lines: seq<Line>, i: nat, replies: seq<Reply>)
    requires i < |lines|
  {
    var l := GetNumResults(Retry.Drop(replies, Asked(lines[..i])));
    lines[i].count == l.count && lines[i].waits == l.waits
  }

  lemma ReadShift(first: Line, tail: seq<Line>, i: nat, replies: seq<Reply>, rest: seq<Reply>)
    requires 1 <= i <= |tail|
    requires rest == Retry.Drop(replies, Requests(first.waits))
    requires ReadAt(tail, i - 1, rest)
    ensures ReadAt([first] + tail, i, replies)
  {
    var lines := [first] + tail;
    var before := Asked(tail[..i - 1]);
    assert Asked(lines[..i]) == Requests(first.waits) + before by {
      AskedCons(first, tail, i - 1);
      assert lines[..i] == ([first] + tail)[..i - 1 + 1];
    }
    assert Retry.Drop(replies, Asked(lines[..i])) == Retry.Drop(rest, before) by {
      Retry.DropDrop(replies, Requests(first.waits), before);
    }
    assert lines[i] == tail[i - 1];
  }

  lemma ReadFirst(first: Line, tail: seq<Line>, replies: seq<Reply>)
    requires first.count == GetNumResults(replies).count
    requires first.waits == GetNumResults(replies).waits
    ensures ReadAt([first] + tail, 0, replies)
  {
    assert ([first] + tail)[..0] == [];
    assert Retry.Drop(replies, 0) == replies;
  }

  /** One year of `YearsFrom`, with the replies it leaves. */
  lemma YearsStep(year: int, end: int, replies: seq<Reply>) returns (first: Line, rest: seq<Reply>)
    requires year <= end
    ensures first.count == GetNumResults(replies).count
    ensures first.waits == GetNumResults(replies).waits
    ensures rest == Retry.Drop(replies, Requests(first.waits))
    ensures YearsFrom(year, end, replies) == [first] + YearsFrom(year + 1, end, rest)
  {
    var l := GetNumResults(replies);
    first := Line(year, l.count, CellOf(l.count), l.waits);
    rest := l.rest;
  }

  /** Every year is asked with the network as the years before it left it:
      line `i` holds what `get_num_results` reads after the requests of lines
      `0 .. i-1`. */
  lemma {:induction false} YearsRead(year: int, end: int, replies: seq<Reply>)
    ensures var lines := YearsFrom(year, end, replies);
            forall i :: 0 <= i < |lines| ==> ReadAt(lines, i, replies)
    decreases end - year + 1
  {
    if year <= end {
      var first, rest := YearsStep(year, end, replies);
      var tail := YearsFrom(year + 1, end, rest);
      YearsRead(year + 1, end, rest);
      forall i | 0 <= i < 1 + |tail|
        ensures ReadAt([first] + tail, i, replies)
      {
        if i == 0 {
          ReadFirst(first, tail, replies);
        } else {
          ReadShift(first, tail, i, replies, rest);
        }
      }
    }
  }

  /** The sheet: its name, the quoted query sent for every year, the header
      row and then one line per year. */
  datatype Sheet = Sheet(file: string, query: string, header: (string, string), lines: seq<Line>)

  const Header := ("Année", "Nombre de publications")

  /** The script from its prompts: the raw term (stripped), the two years
      (already read as integers) and the clock. A start after the end is
      rejected before any request. */
  function Run(raw: string, start: int, end: int, t: Names.Stamp, replies: seq<Reply>): (out: Option<Sheet>)
    ensures out.None? <==> start > end
    ensures out.Some? ==>
              && |out.value.lines| == end - start + 1
              && (forall i :: 0 <= i < |out.value.lines| ==> out.value.lines[i].year == start + i)
              && out.value.query == "\"" + Text.Strip(raw) + "\""
              && out.value.file == Names.ScholarFile(Sanitize(Text.Strip(raw)), start, end, t)
              && out.value.header == Header
              && out.value.lines == YearsFrom(start, end, replies)
  {
    if start > end then None
    else
      var term := Text.Strip(raw);
      Some(Sheet(Names.ScholarFile(Sanitize(term), start, end, t), "\"" + term + "\"", Header,
                 YearsFrom(start, end, replies)))
  }
}

=== FILE: semantic.dfy ===
/** The two Semantic Scholar per-year counters that share one retry loop:
    keywords_search/keyword_occurences_SS_semantic_scholar.py (one keyword,
    one sheet) and keywords_search/keyword_occurence_SS_multi2.py (a
    comma-separated list, one sheet per keyword and a global table).

    Every year gets at most five attempts. A 200 records `total` (0 when
    the answer has none) and a 429 waits five seconds more than the last one
    did; any other status records `None`. Neither script catches an
    exception, so a failed request or an undecodable 200 ends the run. Five
    429s in a row leave the year with no row at all. */
module Semantic {
  import opened Wrappers
  import Text
  import Keywords
  import Retry
  import Names
  import KeywordPasses

  /** The decoded answer: the value under `"total"`, `None` when the key is
      missing. A body that does not decode is `None` at the reply level. */
  type Reply = Retry.Reply<Option<int>>

  type Trace = Retry.Trace<Option<int>, Option<int>>

  const MaxRetries: nat := 5

  /** `wait_time = 5 * retry_count`, after the count was bumped. */
  function Wait(attempt: nat): nat {
    5 * (attempt + 1)
  }

  function Judge(reply: Reply, attempt: nat): Retry.Verdict<Option<int>> {
    match reply
    case Raised => Retry.Crash
    case Response(status, body) =>
      if status == 200 then
        (if body.Some? then Retry.Accept(Some(body.value.GetOr(0))) else Retry.Crash)
      else if status == 429 then Retry.Backoff(Wait(attempt))
      else Retry.GiveUp(None)
  }

  /** One year's `while retry_count < max_retries` loop. */
  function Ask(replies: seq<Reply>): Trace {
    Retry.Attempts(replies, 0, MaxRetries, Judge)
  }

  predicate TooMany(reply: Reply) {
    reply.Response? && reply.status == 429
  }

  /** The loop reads replies until one is not a 429, waiting 5, 10, 15, ...
      seconds after each 429, and gives up silently after five. The reply
      that ends it decides: a decoded 200 gives its total (0 when missing),
      another status gives `None`, and an exception or an undecodable 200
      escapes. */
  lemma AskOutcome(replies: seq<Reply>)
    ensures var t := Ask(replies);
            && (forall k :: 0 <= k < |t.waits| ==> t.waits[k] == 5 * (k + 1) && TooMany(Retry.Nth(replies, k)))
            && (t.outcome.Exhausted? <==> |t.waits| == MaxRetries)
            && (!t.outcome.Exhausted? ==>
                  var reply := Retry.Nth(replies, |t.waits|);
                  && !TooMany(reply)
                  && (t.outcome.Crashed? <==> reply.Raised? || (reply.status == 200 && reply.body.None?))
                  && (t.outcome.Accepted? <==> reply.Response? && reply.status == 200 && reply.body.Some?)
                  && (t.outcome.Accepted? ==> t.outcome.value == Some(reply.body.value.GetOr(0)))
                  && (t.outcome.GaveUp? <==> reply.Response? && reply.status != 200)
                  && (t.outcome.GaveUp? ==> t.outcome.value == None))
  {
    var t := Ask(replies);
    Retry.AttemptsVerdicts(replies, 0, MaxRetries, Judge);
    forall k | 0 <= k < |t.waits|
      ensures t.waits[k] == 5 * (k + 1) && TooMany(Retry.Nth(replies, k))
    {
      assert Judge(Retry.Nth(replies, k), 0 + k) == Retry.Backoff(t.waits[k]);
    }
  }

  // ---------------------------------------------------------------------
  // Rows

  datatype Row = Row(year: int, occurrences: Option<int>)

  /** A loop that leaves a row: it got a 200 or another non-429 status. */
  predicate Settled(t: Trace) {
    t.outcome.Accepted? || t.outcome.GaveUp?
  }

  /** The rows of consecutive years from `year`, one per loop that settled. */
  function RowsFrom(year: int, ts: seq<Trace>): (rows: seq<Row>)
    ensures |rows| <= |ts|
    ensures forall i :: 0 <= i < |rows| ==> year <= rows[i].year < year + |ts|
    ensures forall i, j :: 0 <= i < j < |rows| ==> rows[i].year < rows[j].year
    decreases |ts|
  {
    if ts == [] then []
    else (if Settled(ts[0]) then [Row(year, ts[0].outcome.value)] else []) + RowsFrom(year + 1, ts[1..])
  }

  /** The first loop and the rows of the later ones. */
  lemma RowsCons(year: int, ts: seq<Trace>)
    requires ts != []
    ensures RowsFrom(year, ts) == (if Settled(ts[0]) then [Row(year, ts[0].outcome.value)] else []) + RowsFrom(year + 1, ts[1..])
  {
  }

  /** Every loop that settled leaves its row, holding what it read. */
  lemma {:induction false} RowsComplete(year: int, ts: seq<Trace>)
    ensures forall i :: 0 <= i < |ts| && Settled(ts[i]) ==> Row(year + i, ts[i].outcome.value) in RowsFrom(year, ts)
    decreases |ts|
  {
    if ts != [] {
      RowsCons(year, ts);
      RowsComplete(year + 1, ts[1..]);
      forall i | 0 <= i < |ts| && Settled(ts[i])
        ensures Row(year + i, ts[i].outcome.value) in RowsFrom(year, ts)
      {
        if i > 0 {
          assert ts[1..][i - 1] == ts[i];
          assert Row(year + 1 + (i - 1), ts[1..][i - 1].outcome.value) in RowsFrom(year + 1, ts[1..]);
        }
      }
    }
  }

  /** Row `r` is what the loop of its year, counted from `year`, settled
      on. */
  predicate RowOf(ts: seq<Trace>, year: int, r: Row) {
    && year <= r.year < year + |ts|
    && Settled(ts[r.year - year])
    && r.occurrences == ts[r.year - year].outcome.value
  }

  lemma RowOfShift(ts: seq<Trace>, year: int, r: Row)
    requires ts != [] && RowOf(ts[1..], year + 1, r)
    ensures RowOf(ts, year, r)
  {
    assert ts[1..][r.year - (year + 1)] == ts[r.year - year];
  }

  /** Every row comes from a loop that settled on it. */
  lemma {:induction false} RowsSound(year: int, ts: seq<Trace>)
    ensures forall r :: r in RowsFrom(year, ts) ==> RowOf(ts, year, r)
    decreases |ts|
  {
    if ts != [] {
      RowsCons(year, ts);
      RowsSound(year + 1, ts[1..]);
      forall r | r in RowsFrom(year, ts)
        ensures RowOf(ts, year, r)
      {
        if r in RowsFrom(year + 1, ts[1..]) {
          RowOfShift(ts, year, r);
        }
      }
    }
  }

  /** The loops of all the years, in year order, on the one stub. */
  function YearLoops(start: int, end: int, replies: seq<Reply>): seq<Trace> {
    Retry.Sweep(replies, KeywordPasses.Years(start, end), MaxRetries, Judge)
  }

  // ---------------------------------------------------------------------
  // keyword_occurences_SS_semantic_scholar.py

  datatype Sheet = Sheet(file: string, rows: seq<Row>)

  /** The script from its prompts: the raw keyword (stripped), the two years
      and the clock. The sheet is written only when no exception escaped. */
  function Single(raw: string, start: int, end: int, t: Names.Stamp, replies: seq<Reply>): (out: Option<Sheet>)
    ensures out.None? <==> Retry.Stopped(YearLoops(start, end, replies))
    ensures out.Some? ==>
              && Text.StartsWith(out.value.file, "semantic_" + Keywords.SpaceSlug(Text.Strip(raw)) + "_")
              && |out.value.rows| <= KeywordPasses.Years(start, end)
              && (forall i :: 0 <= i < |out.value.rows| ==> start <= out.value.rows[i].year <= end)
              && (forall i, j :: 0 <= i < j < |out.value.rows| ==> out.value.rows[i].year < out.value.rows[j].year)
  {
    var ts := YearLoops(start, end, replies);
    if Retry.Stopped(ts) then None
    else Some(Sheet(Names.SemanticFile(Text.Strip(raw), start, end, t), RowsFrom(start, ts)))
  }

  /** Without an exception every year is asked, each on the stub the years
      before it left; a year has a row exactly when its loop settled, with
      the value that loop read. */
  lemma SingleRows(raw: string, start: int, end: int, t: Names.Stamp, replies: seq<Reply>)
    requires Single(raw, start, end, t, replies).Some?
    ensures |YearLoops(start, end, replies)| == KeywordPasses.Years(start, end)
    ensures forall i :: 0 <= i < |YearLoops(start, end, replies)| ==>
              Retry.RoundAt(YearLoops(start, end, replies), i, replies, MaxRetries, Judge)
    ensures Single(raw, start, end, t, replies).value.rows == RowsFrom(start, YearLoops(start, end, replies))
  {
    Retry.SweepRounds(replies, KeywordPasses.Years(start, end), MaxRetries, Judge);
  }

  /** A year has a row exactly when its loop settled, with the value that
      loop read. */
  lemma RowsExact(start: int, ts: seq<Trace>)
    ensures forall i :: 0 <= i < |ts| && Settled(ts[i]) ==> Row(start + i, ts[i].outcome.value) in RowsFrom(start, ts)
    ensures forall r :: r in RowsFrom(start, ts) ==>
              && start <= r.year < start + |ts|
              && Settled(ts[r.year - start])
              && r.occurrences == ts[r.year - start].outcome.value
  {
    RowsComplete(start, ts);
    RowsSound(start, ts);
  }

  // ---------------------------------------------------------------------
  // keyword_occurence_SS_multi2.py

  type Pass = KeywordPasses.Pass<Option<int>, Option<int>>

  /** The keywords in turn, each pass on the stub the previous ones left; an
      exception ends the run after the pass it escaped from. */
  function Passes(keywords: seq<string>, n: nat, replies: seq<Reply>): seq<Pass> {
    KeywordPasses.Passes(keywords, n, replies, MaxRetries, Judge)
  }

  /** `yearly_data`: the rows tagged with the keyword. */
  datatype KeywordRow = KeywordRow(keyword: string, year: int, occurrences: Option<int>)

  function Tag(keyword: string, rows: seq<Row>): (tagged: seq<KeywordRow>)
    ensures |tagged| == |rows|
    ensures forall i :: 0 <= i < |rows| ==>
              tagged[i] == KeywordRow(keyword, rows[i].year, rows[i].occurrences)
  {
    if rows == [] then [] else [KeywordRow(keyword, rows[0].year, rows[0].occurrences)] + Tag(keyword, rows[1..])
  }

  /** `global_data[keyword]`: the year → value dictionary the loops from
      `year` on fill, one entry per loop that settled. */
  function YearMap(year: int, ts: seq<Trace>): (m: map<int, Option<int>>)
    ensures forall y :: y in m ==> year <= y < year + |ts|
    decreases |ts|
  {
    if ts == [] then map[]
    else
      var later := YearMap(year + 1, ts[1..]);
      if Settled(ts[0]) then later[year := ts[0].outcome.value] else later
  }

  /** A year has an entry exactly when its loop settled, and the entry is
      what the loop read. */
  lemma {:induction false} YearMapExact(year: int, ts: seq<Trace>)
    ensures forall j :: 0 <= j < |ts| ==> (year + j in YearMap(year, ts) <==> Settled(ts[j]))
    ensures forall j :: 0 <= j < |ts| && Settled(ts[j]) ==> YearMap(year, ts)[year + j] == ts[j].outcome.value
    decreases |ts|
  {
    if ts != [] {
      YearMapExact(year + 1, ts[1..]);
      forall j | 0 <= j < |ts|
        ensures year + j in YearMap(year, ts) <==> Settled(ts[j])
        ensures Settled(ts[j]) ==> YearMap(year, ts)[year + j] == ts[j].outcome.value
      {
        if j > 0 {
          assert ts[1..][j - 1] == ts[j];
          assert year + 1 + (j - 1) == year + j;
        }
      }
    }
  }

  /** `global_data` after the passes: each keyword's entry is reset and
      refilled every time the keyword comes up. */
  function Global(start: int, ps: seq<Pass>): (g: map<string, map<int, Option<int>>>)
    ensures forall k :: k in g <==> exists i :: 0 <= i < |ps| && ps[i].keyword == k
  {
    if ps == [] then map[]
    else
      var last := ps[|ps| - 1];
      Global(start, ps[..|ps| - 1])[last.keyword := YearMap(start, last.rounds)]
  }

  /** A repeated keyword keeps only its last pass: the earlier values are
      dropped, not merged. */
  lemma {:induction false} GlobalLast(start: int, ps: seq<Pass>, i: nat)
    requires i < |ps|
    requires forall j :: i < j < |ps| ==> ps[j].keyword != ps[i].keyword
    ensures Global(start, ps)[ps[i].keyword] == YearMap(start, ps[i].rounds)
    decreases |ps|
  {
    if i < |ps| - 1 {
      var init := ps[..|ps| - 1];
      assert init[i] == ps[i];
      GlobalLast(start, init, i);
    }
  }

  /** The years, from `year` to `end`, that some keyword has a value for: the
      columns of the global table, ascending. */
  function Columns(year: int, end: int, g: map<string, map<int, Option<int>>>): (ys: seq<int>)
    ensures forall i :: 0 <= i < |ys| ==> year <= ys[i] <= end
    ensures forall i, j :: 0 <= i < j < |ys| ==> ys[i] < ys[j]
    ensures forall y :: y in ys <==> year <= y <= end && exists k :: k in g && y in g[k]
    decreases end - year + 1
  {
    if year > end then []
    else
      var rest := Columns(year + 1, end, g);
      if exists k :: k in g && year in g[k] then [year] + rest else rest
  }

  /** `final_df`: one line per keyword, one column per year, the cells of
      `global_data` (a missing cell is empty), and the time its name was
      taken at. */
  datatype Table = Table(stamp: Names.Stamp, keywords: seq<string>, years: seq<int>,
                         cells: map<string, map<int, Option<int>>>) {
    /** `semantic_tableau_global_{start}_{end}_{timestamp}.xlsx`. */
    function File(start: int, end: int): string {
      Names.Multi2GlobalFile(start, end, stamp)
    }
  }

  /** The table after the passes: every keyword once, in order of first
      appearance, and the years some keyword has a value for, ascending. */
  function GlobalTable(keywords: seq<string>, start: int, end: int, ps: seq<Pass>, stamp: Names.Stamp): (t: Table)
    ensures forall k :: k in t.keywords <==> k in keywords
    ensures forall i, j :: 0 <= i < j < |t.keywords| ==> t.keywords[i] != t.keywords[j]
    ensures forall i, j :: 0 <= i < j < |t.years| ==> t.years[i] < t.years[j]
    ensures forall y :: y in t.years <==> start <= y <= end && exists k :: k in t.cells && y in t.cells[k]
    ensures forall j :: 0 <= j < |t.keywords| ==> Keywords.Ahead(keywords, t.keywords, j)
  {
    Keywords.FirstSeenOrder(keywords);
    var g := Global(start, ps);
    Table(stamp, Keywords.FirstSeen(keywords), Columns(start, end, g), g)
  }

  /** One keyword's sheet: the keyword, the time its name was taken at and
      its rows. */
  datatype KeywordSheet = KeywordSheet(keyword: string, stamp: Names.Stamp, rows: seq<KeywordRow>) {
    /** `semantic_keyword_{slug}_{start}_{end}_{timestamp}.xlsx`. */
    function File(start: int, end: int): string {
      Names.Multi2KeywordFile(keyword, start, end, stamp)
    }
  }

  /** What the run leaves behind: one sheet per finished keyword and, when no
      exception escaped, the global table. */
  datatype Multi2Out = Multi2Out(sheets: seq<KeywordSheet>, table: Option<Table>)

  /** The sheets of the passes before the first that ended on an exception;
      `clock(from + i)` is the time the `i`-th sheet is named after. */
  function Sheets(ps: seq<Pass>, from: nat, start: int, clock: nat -> Names.Stamp): (sheets: seq<KeywordSheet>)
    ensures |sheets| <= |ps|
    ensures forall i :: 0 <= i < |sheets| ==> !Retry.Stopped(ps[i].rounds)
    ensures |sheets| < |ps| ==> Retry.Stopped(ps[|sheets|].rounds)
    decreases |ps|
  {
    if ps == [] || Retry.Stopped(ps[0].rounds) then []
    else
      [KeywordSheet(ps[0].keyword, clock(from), Tag(ps[0].keyword, RowsFrom(start, ps[0].rounds)))]
      + Sheets(ps[1..], from + 1, start, clock)
  }

  /** Each sheet holds its keyword's rows and is named at its own time. */
  lemma {:induction false} SheetsRows(ps: seq<Pass>, from: nat, start: int, clock: nat -> Names.Stamp)
    ensures forall i :: 0 <= i < |Sheets(ps, from, start, clock)| ==>
              Sheets(ps, from, start, clock)[i]
              == KeywordSheet(ps[i].keyword, clock(from + i), Tag(ps[i].keyword, RowsFrom(start, ps[i].rounds)))
    decreases |ps|
  {
    if ps != [] && !Retry.Stopped(ps[0].rounds) {
      SheetsRows(ps[1..], from + 1, start, clock);
      var sheets := Sheets(ps, from, start, clock);
      var tail := Sheets(ps[1..], from + 1, start, clock);
      assert sheets == [KeywordSheet(ps[0].keyword, clock(from), Tag(ps[0].keyword, RowsFrom(start, ps[0].rounds)))] + tail;
      forall i | 0 <= i < |sheets|
        ensures sheets[i] == KeywordSheet(ps[i].keyword, clock(from + i), Tag(ps[i].keyword, RowsFrom(start, ps[i].rounds)))
      {
        if i > 0 {
          assert sheets[i] == tail[i - 1];
          assert ps[1..][i - 1] == ps[i];
        }
      }
    }
  }

  /** The script from its prompts: the keywords as `Keywords.ParseKeep`
      reads them from the comma-separated list, the two years and the clock
      (`clock(i)` for the `i`-th keyword's sheet, `clock(n)` for the table
      after `n` keywords). Each keyword's sheet is written when its pass
      ends, and the table only when no exception escaped. */
  function Multi2(keywords: seq<string>, start: int, end: int, clock: nat -> Names.Stamp, replies: seq<Reply>): (out: Multi2Out)
    ensures |out.sheets| <= |keywords|
    ensures out.table.Some? ==> out.table.value.stamp == clock(|keywords|)
  {
    var ps := Passes(keywords, KeywordPasses.Years(start, end), replies);
    var sheets := Sheets(ps, 0, start, clock);
    if |ps| > 0 && Retry.Stopped(ps[|ps| - 1].rounds) then Multi2Out(sheets, None)
    else Multi2Out(sheets, Some(GlobalTable(keywords, start, end, ps, clock(|keywords|))))
  }

  /** The table is written exactly when every keyword got its sheet, that
      is when no exception escaped. */
  lemma Multi2Complete(keywords: seq<string>, start: int, end: int, clock: nat -> Names.Stamp, replies: seq<Reply>)
    ensures Multi2(keywords, start, end, clock, replies).table.Some?
            <==> |Multi2(keywords, start, end, clock, replies).sheets| == |keywords|
  {
    var ps := Passes(keywords, KeywordPasses.Years(start, end), replies);
    var sheets := Sheets(ps, 0, start, clock);
    assert Multi2(keywords, start, end, clock, replies).sheets == sheets;
    assert Multi2(keywords, start, end, clock, replies).table.Some? <==> !(|ps| > 0 && Retry.Stopped(ps[|ps| - 1].rounds));
    SheetsAll(keywords, KeywordPasses.Years(start, end), replies, start, clock);
  }

  /** The `i`-th sheet is the `i`-th keyword's, named at `clock(i)`, with
      the rows of that keyword's pass. */
  lemma Multi2Sheets(keywords: seq<string>, start: int, end: int, clock: nat -> Names.Stamp, replies: seq<Reply>, i: nat)
    requires i < |Multi2(keywords, start, end, clock, replies).sheets|
    ensures var ps := Passes(keywords, KeywordPasses.Years(start, end), replies);
            i < |ps|
            && Multi2(keywords, start, end, clock, replies).sheets[i]
               == KeywordSheet(keywords[i], clock(i), Tag(keywords[i], RowsFrom(start, ps[i].rounds)))
  {
    Multi2Sheeted(keywords, start, end, clock, replies);
    PassSheet(keywords, KeywordPasses.Years(start, end), start, clock, replies, i);
  }

  lemma PassSheet(keywords: seq<string>, n: nat, start: int, clock: nat -> Names.Stamp, replies: seq<Reply>, i: nat)
    requires i < |Sheets(Passes(keywords, n, replies), 0, start, clock)|
    ensures var ps := Passes(keywords, n, replies);
            i < |ps|
            && Sheets(ps, 0, start, clock)[i] == KeywordSheet(keywords[i], clock(i), Tag(keywords[i], RowsFrom(start, ps[i].rounds)))
  {
    var ps := Passes(keywords, n, replies);
    SheetsRows(ps, 0, start, clock);
    assert ps[i].keyword == keywords[i];
  }

  lemma Multi2Sheeted(keywords: seq<string>, start: int, end: int, clock: nat -> Names.Stamp, replies: seq<Reply>)
    ensures Multi2(keywords, start, end, clock, replies).sheets == Sheets(Passes(keywords, KeywordPasses.Years(start, end), replies), 0, start, clock)
  {
  }

  /** When only the last pass can end on an exception, every pass gets its
      sheet exactly when the last one does not. */
  lemma SheetsCount(ps: seq<Pass>, from: nat, start: int, clock: nat -> Names.Stamp)
    requires forall i :: 0 <= i < |ps| - 1 ==> !Retry.Stopped(ps[i].rounds)
    ensures |Sheets(ps, from, start, clock)| == |ps| <==> !(|ps| > 0 && Retry.Stopped(ps[|ps| - 1].rounds))
  {
  }

  lemma SheetsAll(keywords: seq<string>, n: nat, replies: seq<Reply>, start: int, clock: nat -> Names.Stamp)
    ensures |Sheets(Passes(keywords, n, replies), 0, start, clock)| == |keywords|
            <==> !(|Passes(keywords, n, replies)| > 0
                   && Retry.Stopped(Passes(keywords, n, replies)[|Passes(keywords, n, replies)| - 1].rounds))
  {
    var ps := Passes(keywords, n, replies);
    KeywordPasses.PassesStop(keywords, n, replies, MaxRetries, Judge);
    SheetsCount(ps, 0, start, clock);
  }

  /** In the table, a keyword's line is the pass of its last occurrence: a
      year has a cell exactly when that pass's loop for it settled, and the
      cell holds what the loop read; a year whose five attempts all met a
      429 has none. */
  lemma GlobalCells(keywords: seq<string>, start: int, end: int, replies: seq<Reply>, i: nat)
    requires i < |Passes(keywords, KeywordPasses.Years(start, end), replies)|
    requires !Retry.Stopped(Passes(keywords, KeywordPasses.Years(start, end), replies)[i].rounds)
    requires forall j :: i < j < |Passes(keywords, KeywordPasses.Years(start, end), replies)| ==> keywords[j] != keywords[i]
    ensures var ts := Passes(keywords, KeywordPasses.Years(start, end), replies)[i].rounds;
            var cells := Global(start, Passes(keywords, KeywordPasses.Years(start, end), replies));
            && keywords[i] in cells
            && |ts| == KeywordPasses.Years(start, end)
            && (forall y :: y in cells[keywords[i]] ==> start <= y <= end)
            && (forall j :: 0 <= j < |ts| ==> (start + j in cells[keywords[i]] <==> Settled(ts[j])))
            && (forall j :: 0 <= j < |ts| && Settled(ts[j]) ==> cells[keywords[i]][start + j] == ts[j].outcome.value)
  {
    var n := KeywordPasses.Years(start, end);
    var ps := Passes(keywords, n, replies);
    KeywordPasses.PassComplete(keywords, n, replies, MaxRetries, Judge, i);
    GlobalLast(start, ps, i);
    YearMapExact(start, ps[i].rounds);
  }
}

=== FILE: semantic_v3.dfy ===
/** keywords_search/keyword_occurence_ss_multi_v3.py: the Semantic Scholar
    counter that catches everything. Each (keyword, year) gets up to five
    attempts; an exception, including a 200 whose body does not decode,
    waits five seconds and tries again, a 429 waits `5 + 2 * attempt`, any
    other status records `None`, and five failures record `None` too. No
    exception escapes, so every keyword gets its sheet and every year its
    row, keyword by keyword. */
module SemanticV3 {
  import opened Wrappers
  import Retry
  import Names
  import Keywords
  import KeywordPasses

  /** The decoded answer: the value under `"total"`, `None` when the key is
      missing. A body that does not decode, or is not an object, is `None`
      at the reply level. */
  type Reply = Retry.Reply<Option<int>>

  type Trace = Retry.Trace<Option<int>, Option<int>>

  const MaxRetries: nat := 5

  /** The pause after a caught exception. */
  const ErrorWait: nat := 5

  /** The name of the comparison table, the same on every run. */
  const SummaryFile: string := "semantic_summary.xlsx"

  /** `wait = 5 + attempt * 2` after a 429. */
  function TooManyWait(attempt: nat): nat {
    5 + attempt * 2
  }

  function Judge(reply: Reply, attempt: nat): Retry.Verdict<Option<int>> {
    match reply
    case Raised => Retry.Backoff(ErrorWait)
    case Response(status, body) =>
      if status == 200 then
        (if body.Some? then Retry.Accept(Some(body.value.GetOr(0))) else Retry.Backoff(ErrorWait))
      else if status == 429 then Retry.Backoff(TooManyWait(attempt))
      else Retry.GiveUp(None)
  }

  /** One `get_publication_count` call. */
  function Ask(replies: seq<Reply>): Trace {
    Retry.Attempts(replies, 0, MaxRetries, Judge)
  }

  /** What the call returns: the value it settled on, `None` once the five
      attempts are spent. */
  function Count(t: Trace): Option<int> {
    if t.outcome.Accepted? || t.outcome.GaveUp? then t.outcome.value else None
  }

  predicate TooMany(reply: Reply) {
    reply.Response? && reply.status == 429
  }

  /** A reply the loop answers with another attempt. */
  predicate Retried(reply: Reply) {
    reply.Raised? || TooMany(reply) || (reply.status == 200 && reply.body.None?)
  }

  /** No reply lets an exception escape. */
  lemma JudgeCatches()
    ensures forall r, a :: !Judge(r, a).Crash?
  {
  }

  /** The loop retries on exceptions and 429s, waiting five seconds after an
      exception and `5 + 2 * attempt` after a 429, and returns on the first
      other reply: a decoded 200 gives its total (0 when missing), another
      status `None`. Five retried replies give `None`. */
  lemma AskOutcome(replies: seq<Reply>)
    ensures var t := Ask(replies);
            && !t.outcome.Crashed?
            && (forall k :: 0 <= k < |t.waits| ==>
                  && Retried(Retry.Nth(replies, k))
                  && t.waits[k] == (if TooMany(Retry.Nth(replies, k)) then 5 + 2 * k else 5))
            && (t.outcome.Exhausted? <==> |t.waits| == MaxRetries)
            && (t.outcome.Exhausted? ==> Count(t) == None)
            && (!t.outcome.Exhausted? ==>
                  var reply := Retry.Nth(replies, |t.waits|);
                  && !Retried(reply)
                  && Count(t) == (if reply.status == 200 then Some(reply.body.value.GetOr(0)) else None))
  {
    var t := Ask(replies);
    Retry.AttemptsVerdicts(replies, 0, MaxRetries, Judge);
    JudgeCatches();
    Retry.NeverCrashes(replies, 0, MaxRetries, Judge);
    forall k | 0 <= k < |t.waits|
      ensures Retried(Retry.Nth(replies, k))
              && t.waits[k] == (if TooMany(Retry.Nth(replies, k)) then 5 + 2 * k else 5)
    {
      assert Judge(Retry.Nth(replies, k), 0 + k) == Retry.Backoff(t.waits[k]);
    }
  }

  // ---------------------------------------------------------------------
  // The loops

  type Pass = KeywordPasses.Pass<Option<int>, Option<int>>

  /** The keywords in turn, each sweeping `n` years on the stub the keywords
      before it left; no exception escapes, so every keyword gets its pass. */
  function Passes(keywords: seq<string>, n: nat, replies: seq<Reply>): (ps: seq<Pass>)
    ensures |ps| == |keywords|
    ensures forall i :: 0 <= i < |ps| ==> ps[i].keyword == keywords[i] && |ps[i].rounds| == n
  {
    JudgeCatches();
    KeywordPasses.PassesNeverStop(keywords, n, replies, MaxRetries, Judge);
    KeywordPasses.Passes(keywords, n, replies, MaxRetries, Judge)
  }

  // ---------------------------------------------------------------------
  // Rows and sheets

  type Row = KeywordPasses.Row

  datatype KeywordSheet = KeywordSheet(keyword: string, stamp: Names.Stamp, rows: seq<Row>) {
    /** `semantic_keyword_{slug}_{start}_{end}_{timestamp}.xlsx`. */
    function File(start: int, end: int): string {
      Names.V3KeywordFile(keyword, start, end, stamp)
    }
  }

  /** The sheets written, the rows gathered for the comparison table, and
      that table's file when it is written. */
  datatype V3Out = V3Out(sheets: seq<KeywordSheet>, rows: seq<Row>, summary: Option<string>)

  /** `global_results.extend(...)` over the sheets in order. */
  function Gathered(sheets: seq<KeywordSheet>): (rows: seq<Row>)
  {
    if sheets == [] then [] else sheets[0].rows + Gathered(sheets[1..])
  }

  lemma {:induction false} BeforeMonotone(i: nat, m: nat, n: nat)
    requires i < m
    ensures KeywordPasses.Before(i, n) + n <= KeywordPasses.Before(m, n)
    decreases m
  {
    if i + 1 < m {
      BeforeMonotone(i, m - 1, n);
    }
  }

  lemma {:induction false} GatheredLength(sheets: seq<KeywordSheet>, n: nat)
    requires forall i :: 0 <= i < |sheets| ==> |sheets[i].rows| == n
    ensures |Gathered(sheets)| == KeywordPasses.Before(|sheets|, n)
    decreases |sheets|
  {
    if sheets != [] {
      GatheredLength(sheets[1..], n);
    }
  }

  lemma {:induction false} GatheredSlice(sheets: seq<KeywordSheet>, n: nat, i: nat)
    requires forall k :: 0 <= k < |sheets| ==> |sheets[k].rows| == n
    requires i < |sheets|
    ensures KeywordPasses.Before(i, n) + n <= |Gathered(sheets)|
    ensures Gathered(sheets)[KeywordPasses.Before(i, n) .. KeywordPasses.Before(i, n) + n] == sheets[i].rows
    decreases i
  {
    var tail := sheets[1..];
    assert Gathered(sheets) == sheets[0].rows + Gathered(tail);
    if i > 0 {
      GatheredSlice(tail, n, i - 1);
      assert tail[i - 1] == sheets[i];
      var b := KeywordPasses.Before(i - 1, n);
      assert Gathered(sheets)[n + b .. n + b + n] == Gathered(tail)[b .. b + n];
    }
  }

  /** The `i`-th block of `n` entries of `rows` is `block`. */
  predicate Block(rows: seq<Row>, i: nat, n: nat, block: seq<Row>) {
    KeywordPasses.Before(i, n) + n <= |rows| && rows[KeywordPasses.Before(i, n) .. KeywordPasses.Before(i, n) + n] == block
  }

  /** When every sheet has `n` rows, sheet `i`'s rows are the `i`-th block of
      `n` of the gathered list: keyword-major order. */
  lemma GatheredAt(sheets: seq<KeywordSheet>, n: nat)
    requires forall i :: 0 <= i < |sheets| ==> |sheets[i].rows| == n
    ensures |Gathered(sheets)| == KeywordPasses.Before(|sheets|, n)
    ensures forall i :: 0 <= i < |sheets| ==> Block(Gathered(sheets), i, n, sheets[i].rows)
  {
    GatheredLength(sheets, n);
    forall i | 0 <= i < |sheets|
      ensures Block(Gathered(sheets), i, n, sheets[i].rows)
    {
      GatheredSlice(sheets, n, i);
    }
  }

  /** The rows one pass gathers, its years counted from `start`. */
  function RowsOf(p: Pass, start: int): seq<Row> {
    KeywordPasses.KeywordRows(p.keyword, start, p.rounds, Count)
  }

  /** The sheets of the passes, `clock(from + i)` naming the `i`-th. */
  function SheetsOf(ps: seq<Pass>, start: int, from: nat, clock: nat -> Names.Stamp): (sheets: seq<KeywordSheet>)
    ensures |sheets| == |ps|
    ensures forall i :: 0 <= i < |sheets| ==> sheets[i] == KeywordSheet(ps[i].keyword, clock(from + i), RowsOf(ps[i], start))
  {
    if ps == [] then []
    else
      [KeywordSheet(ps[0].keyword, clock(from), RowsOf(ps[0], start))]
      + SheetsOf(ps[1..], start, from + 1, clock)
  }

  /** `analyze_keywords` and `create_pivot_table` on the parsed keywords.
      The table needs at least one row: on an empty frame the pivot raises
      and nothing more is written. */
  function Analyze(keywords: seq<string>, start: int, end: int, clock: nat -> Names.Stamp, replies: seq<Reply>): (out: V3Out)
    ensures |out.sheets| == |keywords|
    ensures forall i :: 0 <= i < |keywords| ==> out.sheets[i].keyword == keywords[i] && out.sheets[i].stamp == clock(i)
    ensures out.rows == Gathered(out.sheets)
    ensures out.summary.Some? <==> |out.rows| > 0
    ensures out.summary.Some? ==> out.summary.value == SummaryFile
  {
    var sheets := SheetsOf(Passes(keywords, KeywordPasses.Years(start, end), replies), start, 0, clock);
    var rows := Gathered(sheets);
    V3Out(sheets, rows, if |rows| > 0 then Some(SummaryFile) else None)
  }

  /** Every keyword gets a row for every year, in keyword-major order: the
      `i`-th block of `Years` rows is the `i`-th keyword's, each holding what
      that (keyword, year) call returned (`KeywordPasses.KeywordRowsCounts`);
      `KeywordPasses.PassRounds` says which part of the stub each keyword's calls read. */
  lemma AnalyzeRows(keywords: seq<string>, start: int, end: int, clock: nat -> Names.Stamp, replies: seq<Reply>)
    ensures |Analyze(keywords, start, end, clock, replies).rows| == |keywords| * KeywordPasses.Years(start, end)
    ensures forall i :: 0 <= i < |keywords| ==>
              Block(Analyze(keywords, start, end, clock, replies).rows, i, KeywordPasses.Years(start, end),
                    KeywordPasses.KeywordRows(keywords[i], start,
                                              Passes(keywords, KeywordPasses.Years(start, end), replies)[i].rounds, Count))
  {
    var n := KeywordPasses.Years(start, end);
    var ps := Passes(keywords, n, replies);
    var sheets := SheetsOf(ps, start, 0, clock);
    var rows := Analyze(keywords, start, end, clock, replies).rows;
    assert rows == Gathered(sheets);
    assert forall k :: 0 <= k < |sheets| ==> |sheets[k].rows| == n;
    assert |rows| == |keywords| * n by {
      GatheredLength(sheets, n);
      KeywordPasses.BeforeIsProduct(|keywords|, n);
    }
    forall i | 0 <= i < |keywords|
      ensures Block(rows, i, n, KeywordPasses.KeywordRows(keywords[i], start, ps[i].rounds, Count))
    {
      assert sheets[i].rows == RowsOf(ps[i], start);
      GatheredSlice(sheets, n, i);
    }
  }

  /** The comparison table is written exactly when there is a keyword and a
      year. */
  lemma AnalyzeSummary(keywords: seq<string>, start: int, end: int, clock: nat -> Names.Stamp, replies: seq<Reply>)
    ensures Analyze(keywords, start, end, clock, replies).summary.Some? <==> |keywords| > 0 && start <= end
  {
    AnalyzeRows(keywords, start, end, clock, replies);
    if |keywords| > 0 {
      BeforeMonotone(0, |keywords|, KeywordPasses.Years(start, end));
      KeywordPasses.BeforeIsProduct(|keywords|, KeywordPasses.Years(start, end));
    }
  }

  /** The script from its prompts: the non-empty stripped keywords of the
      raw line, in order. */
  function Main(raw: string, start: int, end: int, clock: nat -> Names.Stamp, replies: seq<Reply>): (out: V3Out)
    ensures |out.sheets| == |Keywords.ParseDrop(raw)|
    ensures forall i :: 0 <= i < |out.sheets| ==> out.sheets[i].keyword != ""
  {
    Analyze(Keywords.ParseDrop(raw), start, end, clock, replies)
  }
}

=== FILE: text.dfy ===
/** The string operations the scripts borrow from Python's `str`: `strip`,
    `split`, `join`, `replace`, `str(int)` and string comparison. */
module Text {

  /** `str.isspace()` for one character: the code points Python treats as
      whitespace. */
  predicate IsSpace(c: char) {
    var n := c as int;
    n == 0x20 || 0x09 <= n <= 0x0D || 0x1C <= n <= 0x1F || n == 0x85 || n == 0xA0
    || n == 0x1680 || 0x2000 <= n <= 0x200A || n == 0x2028 || n == 0x2029
    || n == 0x202F || n == 0x205F || n == 0x3000
  }

  /** Number of whitespace characters at the front of `s`. */
  function LeadingSpaces(s: string): (n: nat)
    ensures n <= |s|
    ensures forall k :: 0 <= k < n ==> IsSpace(s[k])
    ensures n < |s| ==> !IsSpace(s[n])
  {
    if |s| == 0 || !IsSpace(s[0]) then 0 else 1 + LeadingSpaces(s[1..])
  }

  /** Number of whitespace characters at the back of `s`. */
  function TrailingSpaces(s: string): (n: nat)
    ensures n <= |s|
    ensures forall k :: |s| - n <= k < |s| ==> IsSpace(s[k])
    ensures n < |s| ==> !IsSpace(s[|s| - 1 - n])
  {
    if |s| == 0 || !IsSpace(s[|s| - 1]) then 0 else 1 + TrailingSpaces(s[..|s| - 1])
  }

  /** `s.strip()`: the longest infix of `s` that neither starts nor ends with
      whitespace, once all surrounding whitespace is dropped. */
  function Strip(s: string): (r: string)
    ensures |r| <= |s|
    ensures |r| == 0 || (!IsSpace(r[0]) && !IsSpace(r[|r| - 1]))
    ensures LeadingSpaces(s) + |r| <= |s|
    ensures r == s[LeadingSpaces(s) .. LeadingSpaces(s) + |r|]
    ensures forall k :: LeadingSpaces(s) + |r| <= k < |s| ==> IsSpace(s[k])
  {
    var i := LeadingSpaces(s);
    if i == |s| then "" else s[i .. |s| - TrailingSpaces(s)]
  }

  /** A string that already has no surrounding whitespace is its own strip. */
  lemma StripOfStripped(s: string)
    requires |s| == 0 || (!IsSpace(s[0]) && !IsSpace(s[|s| - 1]))
    ensures Strip(s) == s
  {
  }

  /** Stripping twice is stripping once. */
  lemma StripIdempotent(s: string)
    ensures Strip(Strip(s)) == Strip(s)
  {
    StripOfStripped(Strip(s));
  }

  /** `sep.join(parts)`. */
  function Join(parts: seq<string>, sep: string): (r: string)
    ensures |parts| == 1 ==> r == parts[0]
    ensures |parts| == 0 ==> r == ""
  {
    if |parts| == 0 then "" else if |parts| == 1 then parts[0] else parts[0] + sep + Join(parts[1..], sep)
  }

  /** Number of occurrences of `c` in `s`. */
  function Count(s: string, c: char): nat {
    if |s| == 0 then 0 else (if s[0] == c then 1 else 0) + Count(s[1..], c)
  }

  /** `s.split(sep)` for a one-character separator: never empty, one more
      piece than there are separators, no piece contains the separator, and
      joining the pieces back gives `s`. */
  function Split(s: string, sep: char): (parts: seq<string>)
    ensures |parts| == Count(s, sep) + 1
    ensures forall i :: 0 <= i < |parts| ==> sep !in parts[i]
    ensures Join(parts, [sep]) == s
    decreases |s|
  {
    if |s| == 0 then [""]
    else
      var rest := Split(s[1..], sep);
      if s[0] == sep then
        assert ([""] + rest)[1..] == rest;
        [""] + rest
      else
        var parts := [[s[0]] + rest[0]] + rest[1..];
        assert |rest| > 1 ==> parts[1..] == rest[1..] && Join(rest, [sep]) == rest[0] + [sep] + Join(rest[1..], [sep]);
        assert s == [s[0]] + s[1..];
        parts
  }

  /** A leading non-separator joins the first piece of the rest's split. */
  lemma SplitCons(s: string, sep: char)
    requires |s| > 0 && s[0] != sep
    ensures Split(s, sep) == [[s[0]] + Split(s[1..], sep)[0]] + Split(s[1..], sep)[1..]
  {
  }

  /** Splitting `a + sep + b` where `a` has no separator peels off `a`. */
  lemma {:induction false} SplitAfterPiece(a: string, sep: char, b: string)
    requires sep !in a
    ensures Split(a + [sep] + b, sep) == [a] + Split(b, sep)
    decreases |a|
  {
    if |a| == 0 {
      assert a + [sep] + b == [sep] + b;
      assert ([sep] + b)[1..] == b;
    } else {
      var s := a + [sep] + b;
      SplitAfterPiece(a[1..], sep, b);
      assert s[0] == a[0] && s[1..] == a[1..] + [sep] + b;
      SplitCons(s, sep);
      assert [a[0]] + a[1..] == a;
    }
  }

  /** A separator-free string splits to itself. */
  lemma {:induction false} SplitOfPiece(a: string, sep: char)
    requires sep !in a
    ensures Split(a, sep) == [a]
    decreases |a|
  {
    if |a| > 0 {
      SplitOfPiece(a[1..], sep);
      assert [a[0]] + a[1..] == a;
    }
  }

  /** Round trip: splitting a join of separator-free pieces gives the pieces
      back. */
  lemma {:induction false} SplitJoin(parts: seq<string>, sep: char)
    requires |parts| >= 1
    requires forall i :: 0 <= i < |parts| ==> sep !in parts[i]
    ensures Split(Join(parts, [sep]), sep) == parts
    decreases |parts|
  {
    if |parts| == 1 {
      SplitOfPiece(parts[0], sep);
    } else {
      SplitJoin(parts[1..], sep);
      SplitAfterPiece(parts[0], sep, Join(parts[1..], [sep]));
      assert parts[0] + [sep] + Join(parts[1..], [sep]) == Join(parts, [sep]);
      assert [parts[0]] + parts[1..] == parts;
    }
  }

  /** Splitting `a + sep + b` where `b` has no separator puts `b` last. */
  lemma {:induction false} SplitBeforePiece(a: string, sep: char, b: string)
    requires sep !in b
    ensures Split(a + [sep] + b, sep) == Split(a, sep) + [b]
    decreases |a|
  {
    if |a| == 0 {
      SplitAfterPiece(a, sep, b);
      SplitOfPiece(b, sep);
    } else {
      SplitBeforePiece(a[1..], sep, b);
      assert (a + [sep] + b)[1..] == a[1..] + [sep] + b;
      var tail := Split(a[1..], sep);
      assert Split(a[1..] + [sep] + b, sep) == tail + [b];
      assert (tail + [b])[0] == tail[0];
      assert (tail + [b])[1..] == tail[1..] + [b];
    }
  }

  lemma JoinAfterHead(head: string, sep: char, fields: seq<string>)
    requires |fields| >= 2
    ensures head + [sep] + Join(fields, [sep]) == (head + [sep] + fields[0]) + [sep] + Join(fields[1..], [sep])
  {
    var rest := Join(fields[1..], [sep]);
    assert Join(fields, [sep]) == fields[0] + [sep] + rest;
    assert head + [sep] + (fields[0] + [sep] + rest) == head + [sep] + fields[0] + [sep] + rest;
  }

  /** The separator-free fields joined after a head come back, in order, as
      the last pieces of the split. */
  lemma {:induction false} SplitTail(head: string, sep: char, fields: seq<string>)
    requires |fields| >= 1
    requires forall i :: 0 <= i < |fields| ==> sep !in fields[i]
    ensures Split(head + [sep] + Join(fields, [sep]), sep) == Split(head, sep) + fields
    decreases |fields|
  {
    if |fields| == 1 {
      SplitBeforePiece(head, sep, fields[0]);
    } else {
      var head' := head + [sep] + fields[0];
      var rest := Join(fields[1..], [sep]);
      calc {
        Split(head + [sep] + Join(fields, [sep]), sep);
        { JoinAfterHead(head, sep, fields); }
        Split(head' + [sep] + rest, sep);
        { SplitTail(head', sep, fields[1..]); }
        Split(head', sep) + fields[1..];
        { SplitBeforePiece(head, sep, fields[0]); }
        Split(head, sep) + [fields[0]] + fields[1..];
        { assert [fields[0]] + fields[1..] == fields; }
        Split(head, sep) + fields;
      }
    }
  }

  /** `s.replace(a, fill)` chained over every `a` in `targets`, for one-character
      patterns: each character in `targets` becomes `fill`, the rest stay. */
  function ReplaceChars(s: string, targets: set<char>, fill: char): (r: string)
    ensures |r| == |s|
    ensures forall i :: 0 <= i < |s| ==> r[i] == (if s[i] in targets then fill else s[i])
  {
    if |s| == 0 then "" else [if s[0] in targets then fill else s[0]] + ReplaceChars(s[1..], targets, fill)
  }

  /** Two `.replace` calls in a row are one replacement of both characters. */
  lemma ReplaceTwice(s: string, a: char, b: char, fill: char)
    ensures ReplaceChars(ReplaceChars(s, {a}, fill), {b}, fill) == ReplaceChars(s, {a, b}, fill)
  {
  }

  /** `s.replace(c, "")`: every `c` removed, everything else kept. */
  function RemoveChar(s: string, c: char): (r: string)
    ensures c !in r
    ensures |r| == |s| - Count(s, c)
  {
    if |s| == 0 then "" else (if s[0] == c then "" else [s[0]]) + RemoveChar(s[1..], c)
  }

  /** Removal keeps every other character, as many times as it occurred. */
  lemma {:induction false} RemoveCharKeepsOthers(s: string, c: char)
    ensures multiset(RemoveChar(s, c)) == multiset(s)[c := 0]
    decreases |s|
  {
    if |s| > 0 {
      RemoveCharKeepsOthers(s[1..], c);
      assert s == [s[0]] + s[1..];
      assert multiset(s) == multiset([s[0]]) + multiset(s[1..]);
    }
  }

  /** Removal works piecewise, so the kept characters stay in their order. */
  lemma {:induction false} RemoveCharAppend(a: string, b: string, c: char)
    ensures RemoveChar(a + b, c) == RemoveChar(a, c) + RemoveChar(b, c)
    decreases |a|
  {
    if |a| == 0 {
      assert a + b == b;
    } else {
      RemoveCharAppend(a[1..], b, c);
      assert (a + b)[0] == a[0];
      assert (a + b)[1..] == a[1..] + b;
      var head := if a[0] == c then "" else [a[0]];
      calc {
        RemoveChar(a + b, c);
        head + RemoveChar(a[1..] + b, c);
        head + (RemoveChar(a[1..], c) + RemoveChar(b, c));
        (head + RemoveChar(a[1..], c)) + RemoveChar(b, c);
        RemoveChar(a, c) + RemoveChar(b, c);
      }
    }
  }

  /** A string without `c` is left unchanged. */
  lemma {:induction false} RemoveCharAbsent(s: string, c: char)
    requires c !in s
    ensures RemoveChar(s, c) == s
    decreases |s|
  {
    if |s| > 0 {
      RemoveCharAbsent(s[1..], c);
      assert s == [s[0]] + s[1..];
    }
  }

  predicate IsDigit(c: char) {
    '0' <= c <= '9'
  }

  function DigitChar(d: nat): (c: char)
    requires d < 10
    ensures IsDigit(c) && c as int - '0' as int == d
  {
    (d + '0' as int) as char
  }

  /** The number a string of decimal digits denotes. */
  function DigitsValue(s: string): int
    requires forall i :: 0 <= i < |s| ==> IsDigit(s[i])
  {
    if |s| == 0 then 0 else DigitsValue(s[..|s| - 1]) * 10 + (s[|s| - 1] as int - '0' as int)
  }

  /** `d` is how `str` prints `n`: decimal digits whose value is `n`, with
      no leading zero unless `n` is zero. */
  predicate Spells(d: string, n: nat) {
    && |d| >= 1
    && (forall k :: 0 <= k < |d| ==> IsDigit(d[k]))
    && DigitsValue(d) == n
    && (d[0] == '0' ==> n == 0)
  }

  /** `str(n)` for a natural number: decimal digits whose value is `n`. */
  function NatToString(n: nat): (r: string)
    ensures |r| >= 1
    ensures forall i :: 0 <= i < |r| ==> IsDigit(r[i])
    ensures DigitsValue(r) == n
    ensures r[0] == '0' ==> n == 0
    decreases n
  {
    if n < 10 then [DigitChar(n)]
    else
      var r := NatToString(n / 10) + [DigitChar(n % 10)];
      assert r[..|r| - 1] == NatToString(n / 10);
      r
  }

  /** `str(i)` for any integer: a minus sign exactly for negatives. */
  function IntToString(i: int): (r: string)
    ensures |r| >= 1
    ensures r[0] == '-' <==> i < 0
    ensures forall k :: 0 < k < |r| ==> IsDigit(r[k])
    ensures i < 0 ==> Spells(r[1..], -i)
    ensures i >= 0 ==> Spells(r, i)
  {
    if i < 0 then "-" + NatToString(-i) else NatToString(i)
  }

  /** Different integers print differently. */
  lemma IntToStringInjective(i: int, j: int)
    requires IntToString(i) == IntToString(j)
    ensures i == j
  {
    if i < 0 {
      assert IntToString(i)[1..] == NatToString(-i);
      assert IntToString(j)[1..] == NatToString(-j);
    }
  }

  /** Python's `a <= b` on strings: code-point lexicographic order. */
  predicate LexLe(a: string, b: string) {
    |a| == 0 || (|b| > 0 && (a[0] < b[0] || (a[0] == b[0] && LexLe(a[1..], b[1..]))))
  }

  /** A shared prefix does not change the comparison. */
  lemma {:induction false} LexLeCommonPrefix(p: string, a: string, b: string)
    ensures LexLe(p + a, p + b) == LexLe(a, b)
    decreases |p|
  {
    if |p| > 0 {
      assert (p + a)[1..] == p[1..] + a;
      assert (p + b)[1..] == p[1..] + b;
      LexLeCommonPrefix(p[1..], a, b);
    } else {
      assert p + a == a && p + b == b;
    }
  }

  lemma {:induction false} LexLeTotal(a: string, b: string)
    ensures LexLe(a, b) || LexLe(b, a)
    decreases |a|
  {
    if |a| > 0 && |b| > 0 && a[0] == b[0] {
      LexLeTotal(a[1..], b[1..]);
    }
  }

  lemma {:induction false} LexLeTransitive(a: string, b: string, c: string)
    requires LexLe(a, b) && LexLe(b, c)
    ensures LexLe(a, c)
    decreases |a|
  {
    if |a| > 0 && a[0] == b[0] && b[0] == c[0] {
      LexLeTransitive(a[1..], b[1..], c[1..]);
    }
  }

  lemma {:induction false} LexLeAntisymmetric(a: string, b: string)
    requires LexLe(a, b) && LexLe(b, a)
    ensures a == b
    decreases |a|
  {
    if |a| > 0 {
      LexLeAntisymmetric(a[1..], b[1..]);
      assert a == [a[0]] + a[1..];
      assert b == [b[0]] + b[1..];
    }
  }

  /** `s.startswith(p)`. */
  predicate StartsWith(s: string, p: string) {
    |p| <= |s| && s[..|p|] == p
  }

  /** `s.endswith(p)`. */
  predicate EndsWith(s: string, p: string) {
    |p| <= |s| && s[|s| - |p|..] == p
  }
}

=== FILE: works.dfy ===
/** Crossref `/works` items and the three ways the harvesters flatten one item
    into a spreadsheet row.

    Every field of an item is optional. A normalisation fails (`None`) exactly
    where the Python indexing raises: a `title` list that is present but
    empty, or a `date-parts` list whose needed entry is missing. */
module Works {
  import opened Wrappers
  import Text

  datatype Author = Author(given: Option<string>, family: Option<string>)

  /** The `issued` object; its `date-parts` is a list of `[year, month, day]`
      lists whose entries may be `null`. */
  datatype Issued = Issued(dateParts: Option<seq<seq<Option<int>>>>)

  datatype Work = Work(
    title: Option<seq<string>>,
    author: Option<seq<Author>>,
    issued: Option<Issued>,
    doi: Option<string>,
    url: Option<string>,
    summary: Option<string>,
    subject: Option<seq<string>>)

  /** The `message` of a Crossref `/works` reply. */
  datatype Message = Message(items: seq<Work>, nextCursor: Option<string>, totalResults: Option<int>)

  /** A work with no field at all. */
  const Bare := Work(None, None, None, None, None, None, None)

  /** `f"{a.get('given', '')} {a.get('family', '')}"`. */
  function DisplayName(a: Author): string {
    a.given.GetOr("") + " " + a.family.GetOr("")
  }

  function DisplayNames(authors: seq<Author>): (names: seq<string>)
    ensures |names| == |authors|
    ensures forall i :: 0 <= i < |authors| ==> names[i] == DisplayName(authors[i])
  {
    if |authors| == 0 then [] else [DisplayName(authors[0])] + DisplayNames(authors[1..])
  }

  function StrippedNames(authors: seq<Author>): (names: seq<string>)
    ensures |names| == |authors|
    ensures forall i :: 0 <= i < |authors| ==> names[i] == Text.Strip(DisplayName(authors[i]))
  {
    if |authors| == 0 then [] else [Text.Strip(DisplayName(authors[0]))] + StrippedNames(authors[1..])
  }

  /** `item.get("title", [""])[0]`; `None` when the list is empty. */
  function TitleOf(w: Work): (t: Option<string>)
    ensures t.None? <==> w.title == Some([])
    ensures w.title.None? ==> t == Some("")
  {
    match w.title
    case None => Some("")
    case Some(ts) => if |ts| == 0 then None else Some(ts[0])
  }

  /** `item.get("issued", {}).get("date-parts", [[None]])`. */
  function DatePartsOf(w: Work): (dp: seq<seq<Option<int>>>)
    ensures w.issued.None? || w.issued.value.dateParts.None? ==> dp == [[None]]
  {
    match w.issued
    case None => [[None]]
    case Some(i) => i.dateParts.GetOr([[None]])
  }

  /** `str(part)` for one date part: `"None"` for a missing one. */
  function PartString(p: Option<int>): string {
    match p
    case None => "None"
    case Some(n) => Text.IntToString(n)
  }

  function PartStrings(ps: seq<Option<int>>): (r: seq<string>)
    ensures |r| == |ps|
    ensures forall i :: 0 <= i < |ps| ==> r[i] == PartString(ps[i])
  {
    if |ps| == 0 then [] else [PartString(ps[0])] + PartStrings(ps[1..])
  }

  // ---------------------------------------------------------------------
  // crossref_scraper_v102.py

  datatype RowV102 = RowV102(title: string, authors: string, year: Option<int>,
                             doi: string, url: string, summary: string)

  /** One item as crossref_scraper_v102.py flattens it. */
  function NormaliseV102(w: Work): (r: Option<RowV102>)
    ensures r.None? <==>
              w.title == Some([]) || |DatePartsOf(w)| == 0 || |DatePartsOf(w)[0]| == 0
    ensures r.Some? ==>
              && Some(r.value.title) == TitleOf(w)
              && (w.author.None? ==> r.value.authors == "")
              && (w.author.Some? ==> r.value.authors == Text.Join(StrippedNames(w.author.value), ", "))
              && r.value.year == DatePartsOf(w)[0][0]
              && r.value.doi == w.doi.GetOr("")
              && r.value.url == w.url.GetOr("")
              && r.value.summary == w.summary.GetOr("")
  {
    var dp := DatePartsOf(w);
    match TitleOf(w)
    case None => None
    case Some(title) =>
      if |dp| == 0 || |dp[0]| == 0 then None
      else
        var authors := if w.author.Some? then Text.Join(StrippedNames(w.author.value), ", ") else "";
        Some(RowV102(title, authors, dp[0][0], w.doi.GetOr(""), w.url.GetOr(""), w.summary.GetOr("")))
  }

  // ---------------------------------------------------------------------
  // crossref_scraper.py

  datatype RowMain = RowMain(title: string, authors: string, date: string, doi: string,
                             url: string, summary: string, keywords: string)

  /** One item as crossref_scraper.py flattens it. */
  function NormaliseMain(w: Work): (r: Option<RowMain>)
    ensures r.None? <==> w.title == Some([]) || |DatePartsOf(w)| == 0
    ensures r.Some? ==>
              && Some(r.value.title) == TitleOf(w)
              && (w.author.None? || w.author == Some([]) ==> r.value.authors == "")
              && (w.author.Some? ==> r.value.authors == Text.Join(DisplayNames(w.author.value), "; "))
              && r.value.date == Text.Join(PartStrings(DatePartsOf(w)[0]), "-")
              && (w.subject.None? ==> r.value.keywords == "")
              && (w.subject.Some? ==> r.value.keywords == Text.Join(w.subject.value, "; "))
              && r.value.doi == w.doi.GetOr("")
              && r.value.url == w.url.GetOr("")
              && r.value.summary == w.summary.GetOr("")
  {
    var dp := DatePartsOf(w);
    match TitleOf(w)
    case None => None
    case Some(title) =>
      if |dp| == 0 then None
      else
        var authors := if w.author.Some? && |w.author.value| > 0 then Text.Join(DisplayNames(w.author.value), "; ") else "";
        var keywords := if w.subject.Some? && |w.subject.value| > 0 then Text.Join(w.subject.value, "; ") else "";
        Some(RowMain(title, authors, Text.Join(PartStrings(dp[0]), "-"),
                     w.doi.GetOr(""), w.url.GetOr(""), w.summary.GetOr(""), keywords))
  }

  // ---------------------------------------------------------------------
  // crossref_scraper_v100.py

  datatype RowV100 = RowV100(title: string, authors: string, year: Option<int>, doi: string,
                             url: string, summary: string, keywords: string)

  /** One item as crossref_scraper_v100.py flattens it. */
  function NormaliseV100(w: Work): (r: Option<RowV100>)
    ensures r.None? <==>
              w.title == Some([]) || (|DatePartsOf(w)| > 0 && |DatePartsOf(w)[0]| == 0)
    ensures r.Some? ==>
              && Some(r.value.title) == TitleOf(w)
              && r.value.authors == Text.Join(DisplayNames(w.author.GetOr([])), ", ")
              && (|DatePartsOf(w)| == 0 ==> r.value.year.None?)
              && (|DatePartsOf(w)| > 0 ==> r.value.year == DatePartsOf(w)[0][0])
              && r.value.keywords == Text.Join(w.subject.GetOr([]), ", ")
              && r.value.doi == w.doi.GetOr("")
              && r.value.url == w.url.GetOr("")
              && r.value.summary == w.summary.GetOr("")
  {
    var dp := DatePartsOf(w);
    match TitleOf(w)
    case None => None
    case Some(title) =>
      if |dp| > 0 && |dp[0]| == 0 then None
      else
        var year := if |dp| == 0 then None else dp[0][0];
        Some(RowV100(title, Text.Join(DisplayNames(w.author.GetOr([])), ", "), year,
                     w.doi.GetOr(""), w.url.GetOr(""), w.summary.GetOr(""),
                     Text.Join(w.subject.GetOr([]), ", ")))
  }

  // ---------------------------------------------------------------------
  // Whole pages

  /** A page normalises when every item does; the rows keep the item order,
      one row per item. */
  function NormaliseAllV102(items: seq<Work>): (rows: Option<seq<RowV102>>)
    ensures rows.Some? <==> forall i :: 0 <= i < |items| ==> NormaliseV102(items[i]).Some?
    ensures rows.Some? ==> |rows.value| == |items|
    ensures rows.Some? ==> forall i :: 0 <= i < |items| ==> rows.value[i] == NormaliseV102(items[i]).value
  {
    if |items| == 0 then Some([])
    else
      match (NormaliseV102(items[0]), NormaliseAllV102(items[1..]))
      case (Some(r), Some(rs)) => Some([r] + rs)
      case _ => None
  }

  function NormaliseAllMain(items: seq<Work>): (rows: Option<seq<RowMain>>)
    ensures rows.Some? <==> forall i :: 0 <= i < |items| ==> NormaliseMain(items[i]).Some?
    ensures rows.Some? ==> |rows.value| == |items|
    ensures rows.Some? ==> forall i :: 0 <= i < |items| ==> rows.value[i] == NormaliseMain(items[i]).value
  {
    if |items| == 0 then Some([])
    else
      match (NormaliseMain(items[0]), NormaliseAllMain(items[1..]))
      case (Some(r), Some(rs)) => Some([r] + rs)
      case _ => None
  }

  function NormaliseAllV100(items: seq<Work>): (rows: Option<seq<RowV100>>)
    ensures rows.Some? <==> forall i :: 0 <= i < |items| ==> NormaliseV100(items[i]).Some?
    ensures rows.Some? ==> |rows.value| == |items|
    ensures rows.Some? ==> forall i :: 0 <= i < |items| ==> rows.value[i] == NormaliseV100(items[i]).value
  {
    if |items| == 0 then Some([])
    else
      match (NormaliseV100(items[0]), NormaliseAllV100(items[1..]))
      case (Some(r), Some(rs)) => Some([r] + rs)
      case _ => None
  }

  // ---------------------------------------------------------------------
  // Properties

  /** A work lacking every field is never dropped: each script turns it into
      a row of empty strings with no year (`"None"` as the date string). */
  lemma BareWorkDefaults()
    ensures NormaliseV102(Bare) == Some(RowV102("", "", None, "", "", ""))
    ensures NormaliseMain(Bare) == Some(RowMain("", "", "None", "", "", "", ""))
    ensures NormaliseV100(Bare) == Some(RowV100("", "", None, "", "", "", ""))
  {
    assert PartStrings([None]) == ["None"];
  }

  /** A work with any set of fields missing (but well-formed lists) still
      gives a row in every script. */
  lemma MissingFieldsNeverFail(w: Work)
    requires w.title != Some([])
    requires w.issued.Some? && w.issued.value.dateParts.Some? ==>
               |w.issued.value.dateParts.value| > 0 && |w.issued.value.dateParts.value[0]| > 0
    ensures NormaliseV102(w).Some? && NormaliseMain(w).Some? && NormaliseV100(w).Some?
  {
  }

  /** crossref_scraper_v100.py and crossref_scraper_v102.py agree on every
      shared column whenever both produce a row. */
  lemma V100AgreesWithV102(w: Work)
    requires NormaliseV102(w).Some? && NormaliseV100(w).Some?
    ensures NormaliseV102(w).value.title == NormaliseV100(w).value.title
    ensures NormaliseV102(w).value.year == NormaliseV100(w).value.year
    ensures NormaliseV102(w).value.doi == NormaliseV100(w).value.doi
    ensures NormaliseV102(w).value.url == NormaliseV100(w).value.url
    ensures NormaliseV102(w).value.summary == NormaliseV100(w).value.summary
  {
  }

  /** Stripping the names changes nothing when no rendered name has
      surrounding whitespace. */
  lemma {:induction false} StrippedNamesOfClean(authors: seq<Author>)
    requires forall i :: 0 <= i < |authors| ==> Text.Strip(DisplayName(authors[i])) == DisplayName(authors[i])
    ensures StrippedNames(authors) == DisplayNames(authors)
  {
    var a, b := StrippedNames(authors), DisplayNames(authors);
    assert |a| == |b|;
    forall i | 0 <= i < |a|
      ensures a[i] == b[i]
    {
    }
  }

  /** The two scripts' author columns agree too once every rendered name has
      no surrounding whitespace (a name with both parts present and
      non-blank at its ends). */
  lemma AuthorsAgree(w: Work)
    requires NormaliseV102(w).Some? && NormaliseV100(w).Some?
    requires w.author.Some?
    requires forall i :: 0 <= i < |w.author.value| ==>
               Text.Strip(DisplayName(w.author.value[i])) == DisplayName(w.author.value[i])
    ensures NormaliseV102(w).value.authors == NormaliseV100(w).value.authors
  {
    StrippedNamesOfClean(w.author.value);
  }
}

=== FILE: wrappers.dfy ===
/** Python's `None`-or-value, used for every optional JSON field and every
    nullable result of the scripts. */
module Wrappers {

  datatype Option<+T> = None | Some(value: T) {

    /** `d.get(key, default)`: the value if present, the default otherwise. */
    function GetOr(default: T): T {
      match this
      case Some(v) => v
      case None => default
    }
  }
}
